=== FILE: README.md ===
# Feature-Algorithm core, modelled in Dafny

This project models the core of the Feature-Algorithm UAV authentication
system. The system has six parts:

- **The feature-key engine** (`feature-encryption/src`):
  - configuration validation;
  - ternary quantisation of channel features and strict-majority voting;
  - padding of the voted bits to `TARGET_BITS`;
  - the code-offset fuzzy extractor (`helper = codeword ⊕ (block ‖ zeros)`, packed LSB-first);
  - the byte layouts fed to key derivation;
  - the register/authenticate orchestration with its per-device helper and threshold stores.
- **Authentication** (`feature-authentication/src`):
  - the configuration checks;
  - the little-endian wire formats AuthContext, AuthReq, TokenFast and MAT;
  - the utility layer (truncation, constant-time compare, hex, MAC dispatch);
  - the fast-token and MAT stores;
  - mode 1 (RF-fingerprint fast authentication);
  - mode 2 (strong authentication with pseudonyms and tags).
- **Synchronisation** (`feature_synchronization`, `feature_sync`):
  - the big-endian TLV codec;
  - the hand-written HKDF of section 2 of RFC 5869;
  - aggregate HMAC signatures;
  - key material, pilot plans, feature configurations and beacons, with their pack/unpack;
  - the MAT token;
  - the epoch tolerance window;
  - the validator, device and cluster-head state machines;
  - the MAT manager;
  - revocation gossip.
- **The secure channel** (`uav_secure_channel.py`):
  - the SecureMessage format;
  - sequence counters and the replay window;
  - the checks `decrypt` makes before it decrypts.
- **The swarm manager** (`src/uav_swarm_manager.py`): membership, and group-key versioning and derivation.
- **Mobility support** (`uav_mobility_support.py`): the token cache and fast, full and smart hand-over.

Cryptographic primitives are function-valued parameters. These are BCH encode/decode, SHA-256 and BLAKE3, HMAC, HKDF from `cryptography`, and AES-GCM. Only the properties the code relies on are assumed about them, stated as predicates in `requires`: output lengths and the BCH decoder's contract.

Clock readings, random bytes and random choices are parameters too. Python exceptions become `Result.Err` carrying the fixed text of the source's message; values the source formats into a message, such as a length or the offending value, are left out of it. An `Err` alone carries no state. `FeatureEngine.Register` and `UavSecureChannel.EncryptP2p` change their object before they can raise, so they return the changed state beside the result. The validator's beacon handling returns a bare `Err`, and `SyncValidatorNode.Stamped` names the node the source leaves behind (see "## Left out"). The failure tuples of the source become `Option` or dedicated outcome datatypes. Bytes are `seq<Byte>` with `Byte = 0..255`, and bit strings are `seq<bool>`.

The modules follow the source files, one Dafny file per source file. Shared helpers live in `wrappers.dfy` and `bytes.dfy`: the little- and big-endian integer encodings, slicing and concatenation lemmas.

## Model

| member | source | states |
|---|---|---|
| FeConfig.ComputedBchBlocks | feature-encryption/src/config.py:215-222 | the computed block count is the ceiling of `TARGET_BITS / BCH_K`: one block fewer would not cover the target bits, this many do |
| FeConfig.Validate | feature-encryption/src/config.py:51-146 | `validate` passes exactly for the configurations `Valid` describes; a frame count outside [4, 10] is the first rejection, and a vote threshold below the strict majority the next |
| FeConfig.ValidateCounts | feature-encryption/src/config.py:62-97 | the frame, vote, subcarrier and target-bit checks pass exactly when `M_FRAMES ∈ [4,10]`, `M//2+1 ≤ VOTE_THRESHOLD ≤ M`, `16 ≤ N_SELECTED ≤ N_TOTAL`, and `TARGET_BITS` is positive, a multiple of 8 and at least 128 |
| FeConfig.ValidateBch | feature-encryption/src/config.py:100-113 | the BCH checks pass exactly when `BCH_K < BCH_N`, `BCH_T ≥ 1` and `BCH_BLOCKS` is at least `ceil(TARGET_BITS/BCH_K)` |
| FeConfig.ValidateChoices | feature-encryption/src/config.py:115-142 | the last checks pass exactly when the key length is in {16,24,32,48,64}, `0 < θL% < 0.5 < θH% < 1`, and the method and hash come from their fixed lists |
| FeConfig.ValidBlocks | feature-encryption/src/config.py:107-113 | in a valid configuration the blocks cover all target bits, and the floor block size `TARGET_BITS // BCH_BLOCKS` fits in `BCH_K` |
| FeConfig.ProfilesValid | feature-encryption/src/config.py:239-278 | the default, high-noise, low-latency and high-security profiles all pass `validate` |
| FeConfig.WeakVoteRejected | feature-encryption/src/config.py:68-73 | a threshold of 2 with 6 frames is rejected with the strict-majority message |
| FeConfig.FeatureDim | feature-encryption/src/config.py:197-213 | the mode selects by its `str.upper()` form: exactly the modes whose upper case is "CSI" give `2·(N_SELECTED−1)`, exactly those whose upper case is "RFF" give `FEATURE_DIM_RFF`, and every other mode raises "Unknown mode" |
| FeConfig.FeatureDimCaseInsensitive | feature-encryption/src/config.py:207-213 | the modes that select a dimension are exactly the three-letter spellings of CSI and RFF in any case, plus `ſ` for s, `ı` for i and the `ﬀ` ligature for ff; every other mode is an error |
| FeConfig.UpperIsCsi | feature-encryption/src/config.py:207 | `mode.upper() == 'CSI'` holds exactly for the spellings `SpellsCsi` lists |
| FeConfig.UpperIsRff | feature-encryption/src/config.py:210 | `mode.upper() == 'RFF'` holds exactly for the spellings `SpellsRff` lists |
| Quantizer.QuantizeValue | feature-encryption/src/quantizer.py:90-101 | the trit is 1 exactly above θH, 0 exactly below θL, and an erasure exactly in `[θL, θH]` |
| Quantizer.QuantizeFrame | feature-encryption/src/quantizer.py:73-101 | the quantised frame has the frame's length, and each dimension is quantised with its own thresholds |
| Quantizer.QuantizeFrames | feature-encryption/src/quantizer.py:103-126 | the M×D shape is kept, and every row is quantised with the same thresholds |
| Quantizer.CountsPartition | feature-encryption/src/quantizer.py:151-157 | the zero, one and erasure counts of a dimension add up to the number of frames, so an erasure is never a vote |
| Quantizer.MajorityVote | feature-encryption/src/quantizer.py:128-167 | the selected dimensions are strictly increasing and in range; a dimension is selected exactly when a count reaches the threshold; one bit is emitted per selected dimension, where a dimension reaching the threshold for ones gives 1 before zeros are considered |
| Quantizer.StrictMajorityUnambiguous | feature-encryption/src/quantizer.py:159-164 | with a threshold of at least `M//2+1`, ones and zeros cannot both reach it |
| Quantizer.TiedDimensionDropped | feature-encryption/src/quantizer.py:159-166 | six frames split three to three give no bit at threshold 4 |
| Quantizer.UnusedDims | feature-encryption/src/quantizer.py:205 | the unused dimensions are exactly those in range and not selected, in increasing order |
| Quantizer.RankedDims | feature-encryption/src/quantizer.py:207-220 | every dimension in the stability ranking is a real dimension that voting did not select |
| Quantizer.FillBits | feature-encryption/src/quantizer.py:219-231 | each fill bit is 1 iff its ranked dimension has at least as many ones as zeros |
| Quantizer.RandomBits | feature-encryption/src/quantizer.py:241-261 | the random fill yields exactly the number of bits requested |
| Quantizer.PadBitsToTarget | feature-encryption/src/quantizer.py:169-240 | the result always has `target_bits` bits. Enough voted bits are cut to a prefix. Otherwise the voted bits come first, then one majority bit per ranked unused dimension, then random bits for the rest |
| Quantizer.ProcessMultiFrames | feature-encryption/src/quantizer.py:263-290 | quantising, voting and padding, with the thresholds supplied, always yields `target_bits` bits |
| Bits.Falses | feature-encryption/src/fuzzy_extractor.py:227 | `[0] * n` has n zero bits |
| Bits.PadTo | feature-encryption/src/fuzzy_extractor.py:100 | zero-padding keeps the bits as a prefix, never shortens, and adds only zeros |
| Bits.ZipXor | feature-encryption/src/fuzzy_extractor.py:101 | the XOR of two bit lists stops at the shorter one, and bit i is the XOR of the two bits i |
| Bits.ZipXorInvolution | feature-encryption/src/fuzzy_extractor.py:101 | XOR-ing twice with the same longer-or-equal list gives back the original bits |
| Bits.BitsToBytes | feature-encryption/src/fuzzy_extractor.py:216-236 | packing yields `ceil(len/8)` bytes |
| Bits.BytesToBits | feature-encryption/src/fuzzy_extractor.py:239-258 | unpacking yields `min(length, 8·len(data))` bits |
| Bits.ByteBitsOfPack | feature-encryption/src/fuzzy_extractor.py:231-233 | the low k bits of a packed group are the group, followed by zeros |
| Bits.PackOfByteBits | feature-encryption/src/fuzzy_extractor.py:254-255 | packing the low k bits of a value below `2^k` gives back the value |
| Bits.UnpackPadded | feature-encryption/src/fuzzy_extractor.py:226-236 | unpacking a packed bit list gives the list followed by `(-len) % 8` zero bits |
| Bits.PackedOfAllBits | feature-encryption/src/fuzzy_extractor.py:239-258 | packing every bit of a byte string gives back the byte string |
| Bits.BitsRoundTrip | feature-encryption/src/fuzzy_extractor.py:216-258 | `_bytes_to_bits(_bits_to_bytes(b), len(b)) == b` for every bit list |
| Bits.BytesRoundTrip | feature-encryption/src/fuzzy_extractor.py:216-258 | `_bits_to_bytes(_bytes_to_bits(d, 8·len(d))) == d` for every byte string |
| Bits.PackByteSnoc | feature-encryption/src/fuzzy_extractor.py:231-233 | OR-ing in one more bit adds it at weight `2^j` |
| Bits.BitsToBytesAppend | feature-encryption/src/fuzzy_extractor.py:229-234 | a whole number of bytes' worth of bits packs independently of what follows |
| Bits.PadCount | feature-encryption/src/fuzzy_extractor.py:227 | `(-n) % 8` zero bits bring n up to the next multiple of eight |
| Bits.PadToByteBoundary | feature-encryption/src/key_derivation.py:259-269 | padding with `(-len) % 8` zero bits does not change the packed bytes |
| Bits.PackGroup | feature-encryption/src/fuzzy_extractor.py:231-233 | the inner OR loop computes the group's byte, which is below 256 |
| Bits.PackStep | feature-encryption/src/key_derivation.py:262-267 | each further group of eight appends exactly its own byte |
| Bits.PackBits | feature-encryption/src/key_derivation.py:249-269 | the padding-and-packing loop returns exactly `BitsToBytes(bits)` |
| FuzzyExtractor.BlockOf | feature-encryption/src/fuzzy_extractor.py:76-79 | block j is the slice of r from `j·bs`, at most `bs` bits long |
| FuzzyExtractor.FitTo | feature-encryption/src/fuzzy_extractor.py:81-85 | a block is zero-padded, or cut, to exactly k bits |
| FuzzyExtractor.MessageOf | feature-encryption/src/fuzzy_extractor.py:81-88 | a block's BCH message is `(k+7)//8` bytes long |
| FuzzyExtractor.CodewordOf | feature-encryption/src/fuzzy_extractor.py:90-94 | when the codec's ECC has its declared width, the codeword is the message bytes plus `ecc_bytes` |
| FuzzyExtractor.HelperBlock | feature-encryption/src/fuzzy_extractor.py:88-104 | with the codec's declared ECC width, a helper block is `(min(n, 8·d)+7)//8` bytes for a codeword of d bytes: the codeword bits past n are not stored |
| FuzzyExtractor.HelperBlocks | feature-encryption/src/fuzzy_extractor.py:73-109 | there is one helper block per BCH block; block j is made from `r`'s block j; with the declared ECC width each is `(min(n, 8·d)+7)//8` bytes |
| FuzzyExtractor.GenerateWith | feature-encryption/src/fuzzy_extractor.py:61-111 | generation fails exactly when `len(r) ≠ TARGET_BITS` |
| FuzzyExtractor.DecodeBlock | feature-encryption/src/fuzzy_extractor.py:181-197 | a block succeeds exactly when decode reports a non-negative flip count and correction does not raise; it then yields the corrected message, and otherwise the uncorrected one |
| FuzzyExtractor.SplitCodeword | feature-encryption/src/fuzzy_extractor.py:169-179 | the noisy codeword splits into `(k+7)//8` message bytes and `ecc_bytes` ECC bytes, taken from its start when it is long enough |
| FuzzyExtractor.ExtractBlock | feature-encryption/src/fuzzy_extractor.py:147-203 | one block's result is at most `bs` bits, exactly `bs` when correction keeps lengths and `bs ≤ k` |
| FuzzyExtractor.ExtractedBlocks | feature-encryption/src/fuzzy_extractor.py:141-200 | there is one result per BCH block; block j reads the helper bytes `[j·hbs, (j+1)·hbs)` together with the fresh block j |
| FuzzyExtractor.ExtractedLayout | feature-encryption/src/fuzzy_extractor.py:203-211 | the joined block results cut to `len(r')` have at most `blocks·bs` bits, and when every block is `bs` bits, block j sits at `[j·bs, (j+1)·bs)` |
| FuzzyExtractor.ExtractWith | feature-encryption/src/fuzzy_extractor.py:129-213 | extraction fails exactly when `len(r') ≠ TARGET_BITS`; the key is at most `min(blocks·bs, len(r'))` bits; when correction keeps lengths and `bs ≤ k` it is exactly that long and bits `[j·bs, (j+1)·bs)` are block j's corrected bits; success holds iff every block decoded |
| FuzzyExtractor.GenerateHelper | feature-encryption/src/fuzzy_extractor.py:51-111 | `generate_helper_data` as written, with the floor block size, raises exactly on a wrong length |
| FuzzyExtractor.ExtractStableKey | feature-encryption/src/fuzzy_extractor.py:113-215 | `extract_stable_key` as written, with the floor block size, raises exactly on a wrong length |
| FuzzyExtractor.GenerateHelperCovering | feature-encryption/src/fuzzy_extractor.py:51-111 | generation with the block size rounded up raises exactly on a wrong length |
| FuzzyExtractor.ExtractCovering | feature-encryption/src/fuzzy_extractor.py:113-215 | extraction with the block size rounded up raises exactly on a wrong length |
| FuzzyExtractorProofs.HelperBits | feature-encryption/src/fuzzy_extractor.py:97-104 | the first n bits of a helper block are the first n codeword bits XOR the block zero-padded to n |
| FuzzyExtractorProofs.DecoderWordBits | feature-encryption/src/fuzzy_extractor.py:97-179 | the word handed to the decoder is the codeword's first `min(n, 8·d)` bits with the differences of the two blocks flipped in, followed by zeros |
| FuzzyExtractorProofs.DecoderWordDistance | feature-encryption/src/fuzzy_extractor.py:97-179 | that word is as far from the codeword as the fresh block from the registered one, plus the set codeword bits the helper could not hold |
| FuzzyExtractorProofs.NoisyBlock | feature-encryption/src/fuzzy_extractor.py:145-203 | a block within budget, read against its registered helper, decodes to the registered block zero-padded to `bs`, with success |
| FuzzyExtractorProofs.ExtractedBlock | feature-encryption/src/fuzzy_extractor.py:145-203 | block j of a fresh reading within budget, read against the joined helper data, decodes to block j of the registered reading |
| FuzzyExtractorProofs.StrideFits | feature-encryption/src/fuzzy_extractor.py:143-157 | when the codeword has at least n bits, or there is one block, every helper block fits the read stride `(n+7)//8`, exactly when there is more than one block |
| FuzzyExtractorProofs.HelperSliceOf | feature-encryption/src/fuzzy_extractor.py:104-157 | under that alignment, extraction's slice `P[j·hbs:(j+1)·hbs]` of the joined helper is exactly the helper block generation wrote for block j |
| FuzzyExtractorProofs.StridedSlice | feature-encryption/src/fuzzy_extractor.py:155-157 | parts of equal width read back at that stride come back unchanged |
| FuzzyExtractorProofs.PadConcat | feature-encryption/src/fuzzy_extractor.py:203-208 | appending the next padded block extends the covered prefix by one block |
| FuzzyExtractorProofs.PadSplit | feature-encryption/src/fuzzy_extractor.py:76-85 | padding a prefix and the next bs bits separately is the same as padding the longer prefix |
| FuzzyExtractorProofs.TakeCovered | feature-encryption/src/fuzzy_extractor.py:203-211 | the covered blocks, cut to `len(r)`, are the first `m·bs` bits of r |
| FuzzyExtractorProofs.JoinCovered | feature-encryption/src/fuzzy_extractor.py:206-208 | joining the padded blocks in order gives the covered prefix |
| FuzzyExtractorProofs.CoveredResults | feature-encryption/src/fuzzy_extractor.py:181-205 | blocks that each decoded to their padded block report success and join to the covered prefix |
| FuzzyExtractorProofs.ExtractedRoundTrip | feature-encryption/src/fuzzy_extractor.py:145-208 | when every block of the fresh reading is within budget of the registered one, every block decodes and the blocks join to the covered prefix of the registered reading |
| FuzzyExtractorProofs.RoundTripWith | feature-encryption/src/fuzzy_extractor.py:51-213 | for any block size within k and a fresh reading within budget, extraction returns the registered reading's first `blocks·bs` bits and succeeds |
| FuzzyExtractorProofs.FloorFits | feature-encryption/src/fuzzy_extractor.py:71 | floor-sized blocks fit in k bits and leave `t mod b` bits uncovered |
| FuzzyExtractorProofs.CeilFits | feature-encryption/src/fuzzy_extractor.py:71 | blocks of `ceil(t/b)` bits still fit in k bits and cover all t bits |
| FuzzyExtractorProofs.FullRoundTrip | feature-encryption/src/fuzzy_extractor.py:51-213 | when the blocks cover every bit, a fresh reading within budget gives back the whole registered reading with success |
| FuzzyExtractorProofs.NoisyRoundTrip | feature-encryption/src/fuzzy_extractor.py:51-213 | as written, with `TARGET_BITS ≤ BCH_BLOCKS·BCH_K`, an aligned layout and a fresh reading within budget, extraction succeeds and returns the first `BCH_BLOCKS·(TARGET_BITS // BCH_BLOCKS)` registered bits |
| FuzzyExtractorProofs.DivisibleCovers | feature-encryption/src/fuzzy_extractor.py:71 | when `BCH_BLOCKS` divides `TARGET_BITS`, the floor-sized blocks cover every bit |
| FuzzyExtractorProofs.NoNoiseRoundTrip | feature-encryption/src/fuzzy_extractor.py:51-213 | as written, re-presenting the registered reading succeeds and returns its first `BCH_BLOCKS·(TARGET_BITS // BCH_BLOCKS)` bits whenever no block loses more than t set codeword bits |
| FuzzyExtractorProofs.FloorBlockSizeDropsTail | feature-encryption/src/fuzzy_extractor.py:129-211 | whatever the code, the reading and the helper, when `BCH_BLOCKS` does not divide `TARGET_BITS` extraction as written returns fewer bits than it was given |
| FuzzyExtractorProofs.CoveringRoundTrip | feature-encryption/src/fuzzy_extractor.py:51-213 | with the block size rounded up, a fresh reading within budget gives back exactly the registered reading, with success |
| FuzzyExtractorProofs.CoveringAgreesWhenDivisible | feature-encryption/src/fuzzy_extractor.py:71 | when the blocks divide the target, the rounded-up block size is the source's |
| FuzzyExtractorProofs.NothingLostWhenCodewordFits | feature-encryption/src/fuzzy_extractor.py:97 | a codeword of at most n bits loses no set bit to the helper block |
| FuzzyExtractorProofs.RegisteredReadingLosesTail | feature-encryption/src/fuzzy_extractor.py:97-176 | with a codeword longer than n bits, even the registered reading hands the decoder the codeword with its bits from n on zeroed, at a distance equal to the lost set bits |
| FuzzyExtractorProofs.Widen | feature-encryption/src/fuzzy_extractor.py:97 | the widened layout keeps the message and codeword sizes, keeps all `8·d` codeword bits and is aligned |
| FuzzyExtractorProofs.WidenedRoundTrip | feature-encryption/src/fuzzy_extractor.py:51-213 | under the widened layout every block tolerates a full t flipped bits, and extraction returns what the source's would |
| KeyDerivation.Hash | feature-encryption/src/key_derivation.py:9-247 | `_hash` succeeds exactly when BLAKE3 is not installed or `HASH_ALGORITHM` is `'blake3'`; otherwise it raises `NameError`, because `hashlib` is bound only when `import blake3` fails. Its result is 32 bytes: BLAKE3 when configured and installed, SHA-256 when BLAKE3 is missing |
| KeyDerivation.HashIntended | feature-encryption/src/key_derivation.py:233-247 | the hash as the fallback comment intends, with `hashlib` always imported, gives 32 bytes for every configuration |
| KeyDerivation.IntendedHashAgrees | feature-encryption/src/key_derivation.py:9-247 | the intended hash is SHA-256 for `'sha256'` with or without BLAKE3, agrees with the written `_hash` wherever that succeeds, and the written one fails exactly for a non-BLAKE3 algorithm with BLAKE3 installed |
| KeyDerivation.LInput | feature-encryption/src/key_derivation.py:60-63 | the bytes `compute_L` hashes are the epoch as 4 little-endian bytes, then the nonce, and both can be read back |
| KeyDerivation.ComputeL | feature-encryption/src/key_derivation.py:34-71 | L succeeds exactly for an epoch in `[0, 2^32)`, a `NONCE_LENGTH` nonce and a hash that can run; a negative epoch raises first, and with valid inputs an unavailable hash raises the `NameError`; L is the 32-byte hash of `epoch ‖ nonce` |
| KeyDerivation.FeatureInfo | feature-encryption/src/key_derivation.py:130-133 | the feature-key info is the version byte, src, dst, then the epoch in 4 little-endian bytes, each field in its place |
| KeyDerivation.FeatureInfoInjective | feature-encryption/src/key_derivation.py:130-133 | with 6-byte addresses the info is 17 bytes, and equal infos mean equal version, src, dst and epoch |
| KeyDerivation.DeriveFeatureKey | feature-encryption/src/key_derivation.py:73-145 | K succeeds exactly when S and L are 32 bytes, both MACs have `MAC_LENGTH` and version and epoch fit their `struct` formats; the S check comes first, then L; K is `KEY_LENGTH` bytes |
| KeyDerivation.SessionInfo | feature-encryption/src/key_derivation.py:176-179 | the session info is the name, then epoch and counter as 4 little-endian bytes each |
| KeyDerivation.SessionInfoInjective | feature-encryption/src/key_derivation.py:176-179 | the default session info is 18 bytes, and under one name it determines epoch and counter |
| KeyDerivation.DeriveSessionKey | feature-encryption/src/key_derivation.py:147-191 | Ks succeeds exactly when K has `KEY_LENGTH` bytes and epoch and counter fit 32 bits; Ks is the salt-less HKDF of K with the session info, `KEY_LENGTH` bytes long |
| KeyDerivation.DigestInput | feature-encryption/src/key_derivation.py:219-224 | the digest input is the mask, θL bytes, θH bytes, then the algorithm-id and version bytes, each in place |
| KeyDerivation.DigestInputInjective | feature-encryption/src/key_derivation.py:219-224 | with the field widths fixed, the digest input determines every field |
| KeyDerivation.GenerateDigest | feature-encryption/src/key_derivation.py:193-231 | the digest succeeds exactly when both trailing bytes fit a byte (the version defaults to `VERSION`) and the hash can run, and raises the `NameError` when only the hash fails; it is the `DIGEST_LENGTH` prefix of the hash of the digest input |
| KeyDerivation.DefaultDigest | feature-encryption/src/config.py:40 | under the default configuration the hash can run, the digest is 8 bytes, and omitting the version is the same as passing `VERSION` |
| KeyDerivation.Sha256ConfigRaises | feature-encryption/src/key_derivation.py:9-247 | with BLAKE3 installed, the default configuration with `HASH_ALGORITHM = 'sha256'` passes `validate`, yet `compute_L` and `generate_digest` raise the `NameError` on every input that packs |
| FeatureEngine.Create | feature-encryption/src/feature_encryption.py:43-68 | the engine is built exactly for a configuration that passes `validate`, and otherwise fails with `validate`'s message |
| FeatureEngine.NormalizeS | feature-encryption/src/feature_encryption.py:272-277 | S is zero-padded and cut to exactly 32 bytes, keeping its leading bytes |
| FeatureEngine.DeriveKeys | feature-encryption/src/feature_encryption.py:256-300 | key derivation succeeds exactly for an acceptable context when the hash can run, and raises the `NameError` for an acceptable context when it cannot; L, K and Ks are the key-derivation results for the normalised S, with lengths 32, `KEY_LENGTH` and `KEY_LENGTH` |
| FeatureEngine.StoreFor | feature-encryption/src/feature_encryption.py:302-317 | storing writes both the helper and the thresholds for the device and leaves every other device's entries as they were |
| FeatureEngine.RegisterKeys | feature-encryption/src/feature_encryption.py:100-131 | registration's keys succeed exactly for an acceptable context, a byte-sized `VERSION` and a hash that can run; S is r itself, with no decoding; the digest uses the fresh thresholds; the metadata records the bit count and device id |
| FeatureEngine.Register | feature-encryption/src/feature_encryption.py:70-131 | a wrong-length reading fails and leaves the store alone; otherwise the store holds the fuzzy extractor's helper data for the reading and its thresholds, even if key derivation then fails |
| FeatureEngine.DigestThresholds | feature-encryption/src/feature_encryption.py:176-187 | the authentication digest uses the stored thresholds when there are any, else the fresh ones |
| FeatureEngine.RecoverKeys | feature-encryption/src/feature_encryption.py:168-195 | after a successful extraction, recovery succeeds exactly for an acceptable context, a byte-sized `VERSION` and a hash that can run; the keys are derived from the extracted S, and the digest from `DigestThresholds` |
| FeatureEngine.Authenticate | feature-encryption/src/feature_encryption.py:133-195 | an unregistered device gives `(None, False)`; the fuzzy extractor's failure or unsuccessful decoding gives `(None, False)`; a successful extraction gives the keys recovered from the extracted bits |
| FeatureEngine.AuthenticateRecoversPrefix | feature-encryption/src/feature_encryption.py:70-195 | registering and then authenticating with a reading within budget recovers the keys of the first `BCH_BLOCKS·(TARGET_BITS // BCH_BLOCKS)` registered bits |
| FeatureEngine.RegisterThenAuthenticate | feature-encryption/src/feature_encryption.py:70-195 | when the blocks split the target evenly and a fresh reading is within budget of the registered one, authenticating, whatever the fresh thresholds, reproduces S, L, K, Ks and the digest of registration |
| FeatureEngine.ProfilesSplitEvenly | feature-encryption/src/config.py:239-278 | with an ECC of at least 15 bytes, the four profiles split `TARGET_BITS` evenly, line up their helper blocks, and have codewords longer than `BCH_N` bits |
| FeatureEngine.UnregisteredFails | feature-encryption/src/feature_encryption.py:157-160 | a device with no stored helper data never authenticates |
| FeatureEngine.Sha256EngineRaises | feature-encryption/src/feature_encryption.py:70-195 | with BLAKE3 installed and `HASH_ALGORITHM = 'sha256'`, `register` stores the helper data and thresholds and then raises the `NameError`, and key recovery raises it too |
| FeatureEngine.ReRegisterOverwrites | feature-encryption/src/feature_encryption.py:96-98 | registering again replaces the device's thresholds and leaves every other device's helper data as it was |
| AuthConfig.CheckMode1 | feature-authentication/src/config.py:72-80 | the mode-1 checks pass exactly for a threshold in [0, 1], a positive token lifetime and a 16- or 32-byte management key; a bad threshold is reported first |
| AuthConfig.CheckMode2 | feature-authentication/src/config.py:83-94 | the mode-2 checks pass exactly for a tag length in {8,12,16,20,24,32}, a pseudonym length in {8,12,16}, a positive MAT lifetime and a nonce length in {12,16,24,32}; a bad tag length is reported first |
| AuthConfig.CheckNames | feature-authentication/src/config.py:96-106 | the name checks pass exactly for a hash in {blake3, sha256}, a MAC in {blake3, hmac-sha256} and one of the five log levels |
| AuthConfig.Validate | feature-authentication/src/config.py:58-108 | `validate` passes exactly for `Valid` configurations. Having no mode enabled is the first rejection. Each mode's bounds are checked only when that mode is on |
| AuthConfig.Create | feature-authentication/src/config.py:54-56 | because `__post_init__` validates, a configuration is constructed exactly when it is valid; otherwise construction fails with `validate`'s message |
| AuthConfig.Mode1BoundsIgnoredWhenOff | feature-authentication/src/config.py:72 | with mode 1 off, its threshold, token lifetime and key length do not affect the verdict |
| AuthConfig.Mode2BoundsIgnoredWhenOff | feature-authentication/src/config.py:83 | with mode 2 off, its tag, pseudonym, lifetime and nonce lengths do not affect the verdict |
| AuthConfig.ProfilesValid | feature-authentication/src/config.py:111-169 | the default, high-security, low-latency and IoT profiles all construct |
| AuthConfig.NoModeRejected | feature-authentication/src/config.py:68-69 | a configuration with both modes off cannot be constructed |
| AuthUtils.HashData | feature-authentication/src/utils.py:62-91 | BLAKE3 honours the requested length, SHA-256 always gives 32 bytes, and any other algorithm name raises |
| AuthUtils.Blake3Mac | feature-authentication/src/utils.py:93-118 | the keyed BLAKE3 MAC refuses exactly the keys shorter than 32 bytes, and otherwise has the requested length |
| AuthUtils.ComputeMac | feature-authentication/src/utils.py:134-164 | the dispatch uses BLAKE3-MAC with the requested length, or HMAC-SHA256, whose 32 bytes ignore the length; any other name raises |
| AuthUtils.Truncate | feature-authentication/src/utils.py:166-182 | truncation raises exactly when the data is shorter than the length; otherwise it is the data's prefix of that length (Python slicing for a negative length) |
| AuthUtils.ConstantTimeEqualIsEquality | feature-authentication/src/utils.py:187-206 | the constant-time comparison is true exactly for equal byte strings |
| AuthUtils.HexPair | feature-authentication/src/utils.py:248 | each byte is written as two hex digits, high nibble first, that read back as the byte |
| AuthUtils.ToHex | feature-authentication/src/utils.py:250 | hex text has two characters per byte |
| AuthUtils.ToHexStripped | feature-authentication/src/utils.py:250-266 | hex text without separators is left unchanged by separator removal |
| AuthUtils.RemoveSeparators | feature-authentication/src/utils.py:266 | after the three `replace` calls no ':', '-' or ' ' remains, and the text is no longer than before |
| AuthUtils.FromHex | feature-authentication/src/utils.py:267 | `bytes.fromhex` skips ASCII whitespace between pairs: a parse reads at most one byte per two characters, exactly one per two when the text has no whitespace |
| AuthUtils.FromHexWhitespace | feature-authentication/src/utils.py:267 | "ab\ncd" and "\tab cd\r" parse to `ab cd`, and whitespace inside a pair is an error |
| AuthUtils.JoinHexStripped | feature-authentication/src/utils.py:247-250 | removing the separators from the joined pairs leaves the bare digits `data.hex()` gives |
| AuthUtils.FromHexOfToHex | feature-authentication/src/utils.py:250-267 | parsing the bare hex of a byte string gives it back |
| AuthUtils.HexRoundTrip | feature-authentication/src/utils.py:237-267 | `hex_to_bytes(bytes_to_hex(d, sep)) == d` for every separator made of ':', '-' and ' ', including the empty one |
| AuthUtils.HexRoundTripCommonSeparators | feature-authentication/src/utils.py:237-267 | the round trip holds with no separator and with ':', '-' and ' ' |
| AuthCommon.CheckIdentity | feature-authentication/src/common.py:27-39 | a device identity is accepted exactly when `ValidIdentity` holds; a device id that is not 6 bytes is the first rejection |
| AuthCommon.CheckResult | feature-authentication/src/common.py:126-143 | a result is accepted exactly when the mode is mode1 or mode2, a success carries a token and no reason, and a failure carries a reason |
| AuthCommon.Failure | feature-authentication/src/common.py:126-143 | a failed attempt built with a reason passes the result checks and carries that reason |
| AuthCommon.CheckContext | feature-authentication/src/common.py:64-85 | a context is accepted exactly when `ValidContext` holds; a source MAC that is not 6 bytes is reported first |
| AuthCommon.ContextBytes | feature-authentication/src/common.py:87-109 | `to_bytes` succeeds exactly when the algorithm name is under 256 bytes. The encoding is `42 + len(alg)` bytes. Each field can be read back from its offset, integers little-endian |
| AuthCommon.ContextLayout | feature-authentication/src/common.py:87-106 | the encoding is `42 + len(alg)` bytes with every field at its fixed offset, integers little-endian |
| Bytes.PackLE | feature-authentication/src/common.py:87-106 | an unsigned little-endian field packs exactly when the value fits the width, and reads back as the value |
| Bytes.LERoundTrip | feature-authentication/src/common.py:87-106 | reading a little-endian image back gives the integer written |
| Bytes.LEInjective | feature-authentication/src/common.py:87-106 | every byte string of a width is the little-endian image of the integer it reads as |
| AuthCommon.ContextBytesInjective | feature-authentication/src/common.py:87-109 | equal context encodings mean equal contexts, so a MAC over the encoding binds every field |
| AuthCommon.CheckToken | feature-authentication/src/common.py:188-203 | a TokenFast is accepted exactly when `ValidToken` holds; an expiry not after the start, then a MAC that is not 16 bytes, are reported with their messages |
| AuthCommon.NewToken | feature-authentication/src/common.py:172-203 | the constructor succeeds exactly for a valid token and keeps every field |
| AuthCommon.TokenBody | feature-authentication/src/common.py:205-223 | the MAC-covered body is the device id, two 4-byte times and the policy |
| AuthCommon.SerializeToken | feature-authentication/src/common.py:205-223 | serialisation succeeds exactly for a policy under 256 bytes, giving `31 + len(policy)` bytes |
| AuthCommon.DeserializeToken | feature-authentication/src/common.py:224-269 | fewer than 31 bytes are rejected with the source's message, a policy that is not valid UTF-8 is rejected, and whatever is accepted passes the constructor's checks with a UTF-8 policy |
| AuthCommon.TokenRoundTrip | feature-authentication/src/common.py:205-269 | deserialising a serialised valid token whose policy is UTF-8 gives the token back |
| AuthCommon.TokenBytesRoundTrip | feature-authentication/src/common.py:224-269 | whatever `deserialize` accepts re-serialises to the bytes it read, up to the end of the MAC |
| AuthCommon.CheckReq | feature-authentication/src/common.py:294-318 | a request is accepted exactly when `ValidReq` holds; a pseudonym that is not 12 bytes is reported first |
| AuthCommon.NewReq | feature-authentication/src/common.py:270-318 | the constructor succeeds exactly for a valid request and keeps every field |
| AuthCommon.SerializeReq | feature-authentication/src/common.py:320-342 | serialisation succeeds exactly for an algorithm name under 256 bytes; the length is `42 + len(alg) + len(digest) + len(tag)` |
| AuthCommon.ParseReq | feature-authentication/src/common.py:343-402 | with a digest of width w, inputs under `54 + w` bytes are rejected, and an accepted request is valid with a w-byte digest |
| AuthCommon.DeserializeReq | feature-authentication/src/common.py:343-402 | as written, inputs under 86 bytes are rejected, and every accepted request has a 32-byte digest |
| AuthCommon.DeserializeReqSized | feature-authentication/src/common.py:343-402 | the corrected parser reads the configured digest width w, rejects inputs under `54 + w` bytes, and returns w-byte digests |
| AuthCommon.ReqLayout | feature-authentication/src/common.py:320-342 | each request field sits at its offset in the serialisation, and digest and tag close it |
| AuthCommon.ReqRoundTripSized | feature-authentication/src/common.py:320-402 | the corrected parser inverts `serialize` for every valid request |
| AuthCommon.ReqRoundTrip32 | feature-authentication/src/common.py:320-402 | with a 32-byte digest the as-written parser inverts `serialize` |
| AuthCommon.ReqRoundTripOnlyAt32 | feature-authentication/src/common.py:384-385 | as written, a request round-trips exactly when its digest is 32 bytes |
| AuthCommon.EightByteDigestRejected | feature-authentication/src/common.py:355-356 | a request carrying the engine's 8-byte digest never parses as written |
| AuthCommon.CheckMat | feature-authentication/src/common.py:421-439 | a MAT is accepted exactly when `ValidMat` holds; a non-positive TTL after valid issuer, pseudonym and epoch is reported with its message |
| AuthCommon.NewMat | feature-authentication/src/common.py:403-439 | the constructor succeeds exactly for a valid MAT and keeps every field |
| AuthCommon.MatBody | feature-authentication/src/common.py:441-456 | the signed body is issuer, pseudonym, two 4-byte integers and the MAT id |
| AuthCommon.SerializeMat | feature-authentication/src/common.py:441-456 | serialisation succeeds exactly for a TTL within 32 bits, and is always 74 bytes |
| AuthCommon.DeserializeMat | feature-authentication/src/common.py:457-511 | inputs that are not exactly 74 bytes are rejected, and an accepted MAT is valid |
| AuthCommon.MatRoundTrip | feature-authentication/src/common.py:441-511 | deserialising a serialised valid MAT gives it back |
| AuthCommon.MatBytesRoundTrip | feature-authentication/src/common.py:441-511 | every accepted 74-byte string is the serialisation of what was read from it |
| TokenManager.NewFastManager | feature-authentication/src/token_manager.py:27-47 | the fast-token manager is built exactly for a 16- or 32-byte management key, and starts with an empty store |
| TokenManager.FastMac | feature-authentication/src/token_manager.py:88-93 | the token MAC succeeds exactly when `compute_mac` does; the truncated variant is 16 bytes, and the as-written variant is `compute_mac`'s answer |
| TokenManager.IssueWith | feature-authentication/src/token_manager.py:49-110 | issuing either stores the new token under the device id or changes nothing |
| TokenManager.IssueTokenAsWritten | feature-authentication/src/token_manager.py:49-110 | as written, issuing succeeds exactly for a 6-byte id, 32-bit times, a positive TTL and BLAKE3 with a key of at least 32 bytes, so HMAC-SHA256 never issues |
| TokenManager.IssueToken | feature-authentication/src/token_manager.py:49-110 | with the MAC cut to 16 bytes, issuing succeeds exactly for a 6-byte id, 32-bit times, a positive TTL and a usable MAC. The token covers `[now, now + TTL]` with the given policy and replaces any earlier token of the device. A bad id is rejected first |
| TokenManager.VerifyWith | feature-authentication/src/token_manager.py:112-169 | outside `[t_start, t_expire]` the answer is false; true requires the recomputed MAC to equal the token's |
| TokenManager.VerifyToken | feature-authentication/src/token_manager.py:112-169 | outside the window the answer is false; inside it, the answer is true exactly when the recomputed MAC matches; the store is never consulted |
| TokenManager.RevokeToken | feature-authentication/src/token_manager.py:171-186 | revocation reports true exactly when a token was stored for the device, and deletes it |
| TokenManager.IssuedTokenVerifies | feature-authentication/src/token_manager.py:49-169 | a freshly issued token verifies at every instant of its window, under the issuing manager and its successor |
| TokenManager.RevokedTokenStillVerifies | feature-authentication/src/token_manager.py:112-186 | revoking a token does not change whether it verifies |
| TokenManager.HmacIssueAlwaysFails | feature-authentication/src/token_manager.py:88-104 | as written, an HMAC-SHA256 manager can never issue a token, because the 32-byte MAC fails the token's 16-byte check |
| TokenManager.HmacIssueSucceedsTruncated | feature-authentication/src/token_manager.py:88-104 | with the MAC truncated, an HMAC-SHA256 manager issues tokens that verify |
| TokenManager.TruncationAgreesOnBlake3 | feature-authentication/src/token_manager.py:88-93 | for BLAKE3 the corrected issue is the as-written issue |
| TokenManager.ShortKeyBlake3NeverIssues | feature-authentication/src/token_manager.py:39-40 | a 16-byte management key passes the constructor, yet a BLAKE3 manager holding it never issues a token |
| TokenManager.NewMatManager | feature-authentication/src/token_manager.py:195-220 | the MAT manager is built exactly for a 6-byte issuer id and a 32-byte key, with an empty store |
| TokenManager.MatSignature | feature-authentication/src/token_manager.py:253-270 | the MAT signature is 32 bytes, for HMAC-SHA256 always and for BLAKE3 whenever the key is long enough |
| TokenManager.IssueMat | feature-authentication/src/token_manager.py:222-291 | a pseudonym that is not 12 bytes is rejected first. A failure changes nothing. A success is a valid MAT from this issuer with the configured TTL and the signature over its fields, stored with its issue time |
| TokenManager.VerifyMat | feature-authentication/src/token_manager.py:293-371 | false for a foreign issuer, then for an unknown or revoked id, then past issue time plus TTL; true exactly when all of these pass and the signature matches |
| TokenManager.RevokeMat | feature-authentication/src/token_manager.py:373-388 | revocation reports true exactly when the id was stored, and deletes it |
| TokenManager.IssuedMatVerifies | feature-authentication/src/token_manager.py:222-371 | a just-issued MAT verifies exactly until its issue time plus TTL |
| TokenManager.RevokedMatFails | feature-authentication/src/token_manager.py:373-388 | after revocation the MAT never verifies |
| TokenManager.CollectStep | feature-authentication/src/token_manager.py:404-408 | each step of the collecting pass adds the visited id exactly when it has expired |
| TokenManager.CleanupExpiredMats | feature-authentication/src/token_manager.py:390-415 | the clean-up removes exactly the expired entries and returns how many it removed |
| Mode1.RegisterTemplate | feature-authentication/src/mode1_rff_auth.py:58-85 | registering a template succeeds exactly for a 6-byte id, replaces any earlier template of the device, and keeps every template filed under its own id |
| Mode1.RemoveTemplate | feature-authentication/src/mode1_rff_auth.py:192-207 | removal reports true exactly when a template was held, and drops it |
| Mode1.CountMatches | feature-authentication/src/mode1_rff_auth.py:168-172 | the matching-byte count never exceeds the positions compared, and reaches it exactly when the prefixes are equal |
| Mode1.BaseScore | feature-authentication/src/mode1_rff_auth.py:163-173 | the byte similarity lies in [0, 1] and is 1 exactly for identical data |
| Mode1.SnrFactor | feature-authentication/src/mode1_rff_auth.py:175-184 | the SNR weight lies in [0.5, 1]; it is 0.5 exactly below 10 dB and 1 exactly from 30 dB on |
| Mode1.SimulateMatching | feature-authentication/src/mode1_rff_auth.py:145-190 | the score lies in [0, 1], reaches 1 only for identical data at 30 dB or more, is the SNR weight for identical data, and never exceeds it |
| Mode1.Match | feature-authentication/src/mode1_rff_auth.py:87-143 | an unknown 6-byte device gets a failing judgment with score 0; a known one is scored against its template; the judgment passes exactly for a known device scoring at least 0.8; the judgment check raises only for an unknown id of the wrong length |
| Mode1.LowSnrNeverPasses | feature-authentication/src/mode1_rff_auth.py:179-186 | below 10 dB no observation passes the matcher |
| Mode1.ExactObservationPasses | feature-authentication/src/mode1_rff_auth.py:163-186 | an observation equal to the template passes from 10 dB on |
| Mode1.NewMode1 | feature-authentication/src/mode1_rff_auth.py:216-260 | construction succeeds exactly when mode 1 is enabled and any given key has the configured length. It starts empty. It uses the given key, or the generated one when none is given |
| Mode1.RegisterDevice | feature-authentication/src/mode1_rff_auth.py:262-286 | registration succeeds exactly for a 6-byte id, records both the identity and the template, and keeps the invariant |
| Mode1.Decide | feature-authentication/src/mode1_rff_auth.py:323-358 | the link-layer decision lets a request through exactly when the device is registered, the judgment passed and the score meets the threshold; refusal reasons come in that order |
| Mode1.IssueStep | feature-authentication/src/mode1_rff_auth.py:362-377 | the token step succeeds exactly when issuing and serialising succeed, and returns the serialised token with no session key; only the token store changes |
| Mode1.Authenticate | feature-authentication/src/mode1_rff_auth.py:288-377 | registry and templates are never changed; an unregistered 6-byte device fails with `device_not_registered`; success requires a registered device whose score meets both 0.8 and the threshold |
| Mode1.VerifyToken | feature-authentication/src/mode1_rff_auth.py:379-393 | token verification is the token manager's, so it is false outside the window |
| Mode1.RevokeDevice | feature-authentication/src/mode1_rff_auth.py:395-428 | revocation removes the device from registry, templates and token store, and reports whether any of them held it |
| Mode1.RevokedDeviceRejected | feature-authentication/src/mode1_rff_auth.py:326-334 | a revoked device is turned away as unregistered |
| Mode1.RegisteredDeviceAuthenticates | feature-authentication/src/mode1_rff_auth.py:262-377 | a registered device presenting its own template at 30 dB or more is authenticated, given a serialisable policy and an in-range clock |
| Mode2.PseudoInput | feature-authentication/src/mode2_strong_auth.py:78 | the pseudonym hash input is "Pseudo", then K, then the epoch in 4 little-endian bytes, each readable in place |
| Mode2.GeneratePseudo | feature-authentication/src/mode2_strong_auth.py:62-86 | a pseudonym exists exactly for a 32-bit epoch, a known hash and a length of at most 32; it is the 32-byte hash of the input cut to `PSEUDO_LENGTH` |
| Mode2.TagMessage | feature-authentication/src/mode2_strong_auth.py:104-113 | the tag input is the context's fixed head (src, dst, epoch, nonce, seq), then the algorithm name and the CSI id, with no length byte and no version |
| Mode2.TagMessageIgnoresVersion | feature-authentication/src/mode2_strong_auth.py:105-113 | two contexts that differ only in the version get the same tag input |
| Mode2.TagMessageInjective | feature-authentication/src/mode2_strong_auth.py:105-113 | apart from the version, equal tag inputs mean equal contexts |
| Mode2.ComputeTag | feature-authentication/src/mode2_strong_auth.py:88-136 | the tag exists exactly when the MAC accepts K and `TAG_LENGTH ≤ 32`; it is the 32-byte MAC of the tag input cut to `TAG_LENGTH` |
| Mode2.CreateAuthRequest | feature-authentication/src/mode2_strong_auth.py:138-233 | a bad device id or a failed key generation raises. A built request is valid, carries the context's fields and the keys' digest, the pseudonym for K and the epoch, and the tag over the context. It returns the keys' Ks and K |
| Mode2.PseudoLengthMustBeTwelve | feature-authentication/src/mode2_strong_auth.py:82 | a pseudonym length other than 12, which the configuration accepts, makes every request fail |
| Mode2.TagLengthEightRejected | feature-authentication/src/mode2_strong_auth.py:132 | a tag length of 8, which the configuration accepts, makes every request fail |
| Mode2.NewVerifier | feature-authentication/src/mode2_strong_auth.py:242-289 | the verifier is built exactly for a 6-byte issuer id and a 32-byte key, with an empty registry and MAT store |
| Mode2.RegisterDevice | feature-authentication/src/mode2_strong_auth.py:332-343 | registering records or replaces the device's key and epoch without checks; a new id goes last in the search order |
| Mode2.LocateFrom | feature-authentication/src/mode2_strong_auth.py:318-328 | the search finds the first device, from position i on, whose key yields the pseudonym; "none" means no device from i on claims it; it raises exactly when a pseudonym cannot be computed |
| Mode2.LocateDevice | feature-authentication/src/mode2_strong_auth.py:305-330 | a located device is registered and claims the pseudonym; "not found" means no registered device claims it; the registered epoch is ignored |
| Mode2.LocateCoversRegistry | feature-authentication/src/mode2_strong_auth.py:318-330 | a search of the insertion order that finds nothing has covered every registered device |
| Mode2.TagMatches | feature-authentication/src/mode2_strong_auth.py:482-505 | the tag check passes exactly when the rebuilt context is valid and its tag equals the request's; as written it raises only when the tag cannot be computed |
| Mode2.IssueStep | feature-authentication/src/mode2_strong_auth.py:510-526 | the issue step succeeds exactly when the MAT manager issues. It answers with the serialised MAT and the session key, and changes only the MAT store |
| Mode2.VerifyWith | feature-authentication/src/mode2_strong_auth.py:375-526 | only the MAT store changes, and a refusal changes nothing. An unlocated pseudonym is refused as unregistered. A success needs reconstructed keys whose digest matches and a matching tag, and it returns their Ks |
| Mode2.AfterLocate | feature-authentication/src/mode2_strong_auth.py:405-526 | the steps after locating: the result depends only on the location outcome, the reconstruction and the request, in the source's order of refusals |
| Mode2.CheckRecovered | feature-authentication/src/mode2_strong_auth.py:463-526 | a digest mismatch is refused first. A matching digest and tag lead to the issue step. A tag mismatch is refused as `tag_mismatch` |
| Mode2.VerifyAuthRequestAsWritten | feature-authentication/src/mode2_strong_auth.py:375-526 | as written (tag context from `dev_pseudo[:6]`), verification keeps the registry and answers with a valid mode-2 result |
| Mode2.VerifyAuthRequest | feature-authentication/src/mode2_strong_auth.py:375-526 | corrected (tag context from the located device's id), verification keeps the registry and answers with a valid mode-2 result |
| Mode2.CreatedRequestSent | feature-authentication/src/mode2_strong_auth.py:138-233 | every request `create_auth_request` returns carries its context's fields, the keys' digest and the tag over that context, and comes with the keys' Ks |
| Mode2.HonestRequestAccepted | feature-authentication/src/mode2_strong_auth.py:138-526 | corrected: an honest request from the device to this verifier is accepted once the verifier locates the device and reconstructs its keys, and the device's Ks is handed back |
| Mode2.SentTagPasses | feature-authentication/src/mode2_strong_auth.py:483-499 | with the corrected context the verifier recomputes the device's own tag |
| Mode2.IssueStepSucceeds | feature-authentication/src/mode2_strong_auth.py:510-526 | issuing succeeds for a valid request under valid mode-2 bounds, and hands back the given Ks |
| Mode2.AsWrittenAcceptsOnlyOnTagCollision | feature-authentication/src/mode2_strong_auth.py:483-499 | as written, an honest request is accepted only when the MAC gives equal tags over two different inputs: the device's and the verifier's |
| Hkdf.EffectiveSalt | feature_synchronization/crypto/hkdf.py:35-36 | a missing or empty salt is replaced by `hash_len` zero bytes; any other salt is kept |
| Hkdf.Extract | feature_synchronization/crypto/hkdf.py:24-38 | the PRK is one hash length long (section 2.2 of RFC 5869) |
| Hkdf.Block | feature_synchronization/crypto/hkdf.py:57-61 | T(0) is empty and every later T(i) is one hash length long (section 2.3 of RFC 5869) |
| Hkdf.Stream | feature_synchronization/crypto/hkdf.py:56-61 | T(1) ‖ … ‖ T(n) is n hash lengths long |
| Hkdf.BlockCount | feature_synchronization/crypto/hkdf.py:55 | the block count is `ceil(length / hash_len)`, below 256, and zero for a non-positive length |
| Hkdf.Okm | feature_synchronization/crypto/hkdf.py:63 | the output is `max(length, 0)` bytes of the stream |
| Hkdf.Expand | feature_synchronization/crypto/hkdf.py:40-63 | the loop raises exactly when more than 255 blocks are asked for; otherwise it returns exactly the first `max(length, 0)` bytes of T(1) ‖ T(2) ‖ … |
| Hkdf.StreamPrefix | feature_synchronization/crypto/hkdf.py:56-61 | a shorter block stream is a prefix of a longer one |
| Hkdf.ExpandPrefixConsistent | feature_synchronization/crypto/hkdf.py:40-63 | with the same PRK and info, a shorter output is a prefix of a longer one |
| Hkdf.Derive | feature_synchronization/crypto/hkdf.py:65-84 | `derive` raises exactly when `expand` does, and is the expansion of the extracted PRK with the info, empty when absent |
| Hkdf.FeatureInfo | feature_synchronization/crypto/hkdf.py:124 | the feature-key info is src, dst, then the version as 4 big-endian bytes, which raises outside 32 bits |
| Hkdf.FeatureInfoInjective | feature_synchronization/crypto/hkdf.py:124 | with the address lengths fixed, the info determines the addresses and the version |
| Hkdf.DeriveFeatureKey | feature_synchronization/crypto/hkdf.py:96-126 | K exists exactly for a 32-bit version, is 32 bytes, and is HKDF of `S ‖ L` with the domain as salt and the feature info |
| Hkdf.SessionInfo | feature_synchronization/crypto/hkdf.py:147 | the session info is the epoch and the counter, 4 big-endian bytes each, and raises outside 32 bits |
| Hkdf.SessionInfoInjective | feature_synchronization/crypto/hkdf.py:147 | distinct epoch and counter pairs give distinct info |
| Hkdf.DeriveSessionKey | feature_synchronization/crypto/hkdf.py:129-149 | Ks exists exactly for 32-bit epoch and counter, is 32 bytes, and is the salt-less HKDF of K with the session info |
| Hkdf.Blake3Hash | feature_synchronization/crypto/hkdf.py:87-93 | the hash named BLAKE3, which is SHA3-256, gives 32 bytes |
| Hkdf.Truncate | feature_synchronization/crypto/hkdf.py:152-154 | truncation is Python's prefix slice, of length `min(length, len)` or, for a negative length, `len + length` |
| Signatures.Sign | feature_synchronization/crypto/signatures.py:23-33 | an HMAC-SHA256 signature is 32 bytes |
| Signatures.Verify | feature_synchronization/crypto/signatures.py:35-47 | verification accepts exactly the tag `sign` produces for the key and data |
| Signatures.SignThenVerify | feature_synchronization/crypto/signatures.py:23-47 | a signature always verifies under its own key and data |
| Signatures.XorAll | feature_synchronization/crypto/signatures.py:72-80 | the reference aggregate, the XOR of all signatures starting from zeros, has the common width |
| Signatures.XorBytesSwap | feature_synchronization/crypto/signatures.py:77-78 | XOR-ing in two signatures in either order gives the same bytes |
| Signatures.XorAllRemove | feature_synchronization/crypto/signatures.py:72-80 | any one signature can be taken out of the fold and XOR-ed in last |
| Signatures.XorAllOrderIndependent | feature_synchronization/crypto/signatures.py:72-80 | the XOR of a multiset of equal-width signatures does not depend on their order |
| Signatures.AggregateFrom | feature_synchronization/crypto/signatures.py:74-80 | from any point of the loop, it raises exactly when some later signature has another length, and otherwise ends with the XOR of all signatures |
| Signatures.Aggregate | feature_synchronization/crypto/signatures.py:59-80 | no signatures aggregate to empty bytes; otherwise the result is the XOR of all of them, and it raises exactly when some length differs from the first's |
| Signatures.AggregateOrderIndependent | feature_synchronization/crypto/signatures.py:59-80 | reordering the signatures changes neither the aggregate nor whether it raises |
| Signatures.SignAll | feature_synchronization/crypto/signatures.py:99-102 | one 32-byte tag per key, each the key's signature of the data |
| Signatures.VerifyAggregate | feature_synchronization/crypto/signatures.py:83-105 | the aggregate verifies exactly when it equals the XOR of every key's tag, or is empty for no keys |
| Signatures.AggregateThenVerify | feature_synchronization/crypto/signatures.py:59-105 | aggregating every key's tag never raises, and the aggregate verifies |
| Signatures.ComputeHmacTag | feature_synchronization/crypto/signatures.py:108-122 | the tag is 32 bytes, and for a single part it is that part's signature |
| Bytes.PackBE | feature_synchronization/utils/serialization.py:12-31 | an unsigned big-endian field packs exactly when the value fits the width, and the packed bytes read back as the value |
| Bytes.BERoundTrip | feature_synchronization/utils/serialization.py:12-31 | reading a big-endian image back gives the integer written |
| Bytes.BEInjective | feature_synchronization/utils/serialization.py:77-99 | every byte string of a width is the image of the integer it reads as |
| Tlv.EncodeBytes | feature_synchronization/utils/serialization.py:32-37 | the encoding is the 2-byte length followed by the value, and fails exactly when the value is 65536 bytes or longer |
| Tlv.EncodeFixed | feature_synchronization/utils/serialization.py:38-44 | the value passes unchanged exactly when it has the required size |
| Tlv.EncodeTlv | feature_synchronization/utils/serialization.py:55-67 | one type byte, a 2-byte length, then the value; fails exactly when the type is not a byte or the value is too long |
| Tlv.DecodeUint | feature_synchronization/utils/serialization.py:77-99 | succeeds exactly when the width's bytes remain; the result is the integer those bytes encode and the cursor moves by the width |
| Tlv.DecodeBytes | feature_synchronization/utils/serialization.py:101-106 | succeeds exactly when the 2-byte length remains; returns what is left of the declared slice and advances by the declared length |
| Tlv.DecodeFixed | feature_synchronization/utils/serialization.py:108-114 | succeeds exactly when the size fits (or is zero) and returns that many bytes |
| Tlv.DecodeTlv | feature_synchronization/utils/serialization.py:128-139 | succeeds exactly when the 3-byte header remains and returns its type, the value slice and the advanced cursor |
| Tlv.ReadUint | feature_synchronization/utils/serialization.py:12-31 | an integer packed at the cursor is read back and the cursor moves past it |
| Tlv.ReadUintBE | feature_synchronization/utils/serialization.py:77-99 | an integer whose big-endian image sits at the cursor is read back |
| Tlv.ReadBytes | feature_synchronization/utils/serialization.py:32-37 | bytes encoded at the cursor decode to the same bytes, the cursor moving past the encoding |
| Tlv.ReadFixed | feature_synchronization/utils/serialization.py:108-114 | fixed-size bytes at the cursor are read back |
| Tlv.ReadTlv | feature_synchronization/utils/serialization.py:128-139 | decoding a TLV that was encoded at the cursor returns its type and value |
| Tlv.ShortBytesAccepted | feature_synchronization/utils/serialization.py:101-106 | a length that promises more than remains is still accepted, yields fewer bytes and makes the remaining count negative |
| SyncKeyMaterial.PseudonymInput | feature_synchronization/core/key_material.py:72-75 | the input is "psn" then the epoch and the counter as 4-byte big-endian fields, and exists exactly when both fit 32 bits |
| SyncKeyMaterial.PseudonymInputInjective | feature_synchronization/core/key_material.py:72-75 | distinct (epoch, counter) pairs never give the same input, so a pseudonym is bound to its epoch and counter |
| SyncKeyMaterial.DerivePseudonym | feature_synchronization/core/key_material.py:58-81 | the pseudonym is the first 12 bytes of the HMAC of that input under the feature key; it fails exactly when the epoch or counter exceeds 32 bits |
| SyncKeyMaterial.Pack | feature_synchronization/core/key_material.py:83-96 | packing succeeds exactly when every field has its width, and always gives 100 bytes |
| SyncKeyMaterial.Read | feature_synchronization/core/key_material.py:98-108 | reading succeeds exactly when 100 bytes remain, yields a well-formed record and advances by 100 |
| SyncKeyMaterial.Unpack | feature_synchronization/core/key_material.py:98-118 | unpacking succeeds exactly on inputs of at least 100 bytes and yields a well-formed record |
| SyncKeyMaterial.PackRoundTrip | feature_synchronization/core/key_material.py:83-118 | unpacking a packed record gives it back and consumes every byte |
| SyncKeyMaterial.UnpackRoundTrip | feature_synchronization/core/key_material.py:83-118 | packing an unpacked record gives back the 100 bytes that were read |
| SyncKeyMaterial.UnpackFields | feature_synchronization/core/key_material.py:98-118 | each field comes from its fixed byte range |
| SyncKeyMaterial.PackLayout | feature_synchronization/core/key_material.py:83-96 | the packed bytes are the seven fields in order, big-endian |
| Pilot.FrameTimes | feature_synchronization/core/feature_config.py:36-40 | one frame lists only times before the epoch end, at or after the frame start for non-negative slots, and every slot that fits is listed |
| Pilot.TimesFrom | feature_synchronization/core/feature_config.py:33-43 | every listed time is before the epoch end and, for non-negative slots, at or after the first frame |
| Pilot.GetPilotTimes | feature_synchronization/core/feature_config.py:21-43 | every pilot time lies in [start, start + duration) for non-negative slots; the loop is only defined when the frame duration is positive or the epoch empty |
| Pilot.TimesFromComplete | feature_synchronization/core/feature_config.py:33-43 | every slot of every frame that begins and ends its pilot inside the epoch is listed |
| Pilot.PilotTimesComplete | feature_synchronization/core/feature_config.py:21-43 | the pilot times include each slot of each frame whose time falls inside the epoch |
| Pilot.EncodeSlots | feature_synchronization/core/feature_config.py:50-51 | the slots encode exactly when each fits 32 bits, as four bytes apiece |
| Pilot.ReadSlots | feature_synchronization/core/feature_config.py:61 | reading n slots succeeds exactly when 4n bytes remain (or n is 0) and yields n 32-bit values |
| Pilot.ReadSlotsBack | feature_synchronization/core/feature_config.py:50-61 | encoded slots are read back as they were written |
| Pilot.BodyBytes | feature_synchronization/core/feature_config.py:50-52 | the body is four bytes per slot, then the 2-byte length and the pattern |
| Pilot.Layout | feature_synchronization/core/feature_config.py:45-55 | the packed plan has the length its fields dictate |
| Pilot.Pack | feature_synchronization/core/feature_config.py:45-55 | packing succeeds exactly when every field fits its width, and writes the layout |
| Pilot.ReadBody | feature_synchronization/core/feature_config.py:61-62 | the body read has the frame duration given and the declared number of slots |
| Pilot.Read | feature_synchronization/core/feature_config.py:56-62 | a read plan has a 32-bit frame duration and fewer than 65536 slots |
| Pilot.Unpack | feature_synchronization/core/feature_config.py:56-71 | an unpacked plan has a 32-bit frame duration and fewer than 65536 slots |
| Pilot.ReadBodyParts | feature_synchronization/core/feature_config.py:50-62 | encoded slots followed by an encoded pattern read back as the plan body |
| Pilot.ReadParts | feature_synchronization/core/feature_config.py:45-62 | the header and body written field by field read back as the plan |
| Pilot.ReadBack | feature_synchronization/core/feature_config.py:45-62 | a plan's layout at the cursor reads back as the plan, advancing past it |
| Pilot.ReadPacked | feature_synchronization/core/feature_config.py:45-62 | a packed plan at the cursor reads back as the plan |
| Pilot.PackRoundTrip | feature_synchronization/core/feature_config.py:45-71 | unpacking a packed plan gives the plan back |
| SyncFeatureConfig.DigestInput | feature_synchronization/core/feature_config.py:103-113 | the hashed input exists exactly when the integer fields fit 32 bits and the plan packs |
| SyncFeatureConfig.ComputeDigest | feature_synchronization/core/feature_config.py:96-115 | the digest is the 32-byte SHA-256 of that input, and fails exactly when the input does |
| SyncFeatureConfig.DigestIgnoresDigest | feature_synchronization/core/feature_config.py:103-113 | the stored digest is not part of what is hashed |
| SyncFeatureConfig.DigestInputInjective | feature_synchronization/core/feature_config.py:103-113 | with fixed-length id and seed, equal inputs come only from configurations agreeing on every hashed field |
| SyncFeatureConfig.PlanCancel | feature_synchronization/core/feature_config.py:108 | a packed plan is self-delimiting inside the hashed input |
| SyncFeatureConfig.TailInjective | feature_synchronization/core/feature_config.py:109-113 | the part of the input after the plan determines the window, sample count, seed, subcarrier count and alpha text |
| SyncFeatureConfig.HeadBytes | feature_synchronization/core/feature_config.py:140-142 | the head is the 4-byte version, 16-byte id and the length-prefixed plan |
| SyncFeatureConfig.TailBytes | feature_synchronization/core/feature_config.py:143-148 | the tail has a fixed width |
| SyncFeatureConfig.Layout | feature_synchronization/core/feature_config.py:136-152 | the packed configuration has the length its fields dictate |
| SyncFeatureConfig.Pack | feature_synchronization/core/feature_config.py:136-152 | packing succeeds exactly when every field fits its width, and writes the layout |
| SyncFeatureConfig.ReadHead | feature_synchronization/core/feature_config.py:157-160 | the head read gives a 32-bit version and a 16-byte id |
| SyncFeatureConfig.ReadTail | feature_synchronization/core/feature_config.py:161-166 | the tail read succeeds exactly when its fixed width remains, and every field has its width |
| SyncFeatureConfig.Read | feature_synchronization/core/feature_config.py:153-180 | the alpha text of a read configuration is the rendering of its wire image |
| SyncFeatureConfig.Unpack | feature_synchronization/core/feature_config.py:153-180 | the alpha text of an unpacked configuration is the rendering of its wire image |
| SyncFeatureConfig.ReadTailBack | feature_synchronization/core/feature_config.py:143-166 | a written tail reads back as the configuration's tail fields |
| SyncFeatureConfig.ReadHeadBack | feature_synchronization/core/feature_config.py:140-160 | a written head reads back as the version, id and plan |
| SyncFeatureConfig.ReadHeadParts | feature_synchronization/core/feature_config.py:140-160 | a version, id and encoded plan written in order read back as themselves |
| SyncFeatureConfig.ReadBack | feature_synchronization/core/feature_config.py:136-180 | a packed configuration at the cursor reads back as the configuration after a trip over the wire |
| SyncFeatureConfig.PackRoundTrip | feature_synchronization/core/feature_config.py:136-180 | unpacking a packed configuration restores every integer and byte field and alpha's image |
| SyncFeatureConfig.TransitRepacks | feature_synchronization/core/feature_config.py:136-152 | the wire image does not depend on alpha's text, so the configuration repacks to the same bytes |
| SyncFeatureConfig.TransitDigest | feature_synchronization/core/feature_config.py:96-115 | after a trip the stored digest still matches exactly when rendering alpha reproduces its text |
| SyncFeatureConfig.CreateDefault | feature_synchronization/core/feature_config.py:181-204 | the default configuration has version 1, the given id and seed, packs, and carries its own digest |
| SyncBeacon.HeaderBytes | feature_synchronization/core/beacon.py:40-44 | the header is 26 bytes: epoch, timestamp, period, 6-byte head id and sequence number |
| SyncBeacon.SignedBytes | feature_synchronization/core/beacon.py:91-107 | the signed bytes are the header followed by the length-prefixed packed configuration |
| SyncBeacon.ComputeSignatureData | feature_synchronization/core/beacon.py:91-107 | the signature data exists exactly when every signed field fits its width, and is the signed bytes |
| SyncBeacon.Pack | feature_synchronization/core/beacon.py:31-55 | packing succeeds exactly when the beacon is well formed, and is the signature data followed by the 32-byte signature |
| SyncBeacon.ReadHeader | feature_synchronization/core/beacon.py:58-66 | the header read succeeds exactly when 26 bytes remain |
| SyncBeacon.ReadBody | feature_synchronization/core/beacon.py:67-75 | the signature read after the configuration is 32 bytes |
| SyncBeacon.ReadHeaderBack | feature_synchronization/core/beacon.py:31-66 | a written header reads back as the beacon's header fields |
| SyncBeacon.ReadBodyBack | feature_synchronization/core/beacon.py:47-75 | a written configuration and signature read back, the configuration as it looks after a trip |
| SyncBeacon.UnpackLayout | feature_synchronization/core/beacon.py:31-89 | bytes laid out as packing writes them unpack to the beacon |
| SyncBeacon.PackRoundTrip | feature_synchronization/core/beacon.py:31-89 | unpacking a packed beacon restores epoch, timestamp, period, head id, sequence number and signature |
| SyncBeacon.TransitKeepsSignatureData | feature_synchronization/core/beacon.py:91-107 | the signature data survives the trip of the configuration over the wire |
| SyncBeacon.PackIsSignatureDataThenSignature | feature_synchronization/core/beacon.py:31-107 | the packed beacon is its signature data followed by its signature |
| SyncBeacon.Sign | feature_synchronization/core/beacon.py:109-118 | signing changes only the signature, to 32 bytes, and fails exactly when the signature data cannot be built |
| SyncBeacon.Verify | feature_synchronization/core/beacon.py:120-132 | verification holds exactly when the signature is the HMAC of the signature data |
| SyncBeacon.SignThenVerify | feature_synchronization/core/beacon.py:109-132 | a signed beacon verifies under the same key |
| SyncBeacon.SignedBeaconVerifiesAfterTrip | feature_synchronization/core/beacon.py:31-132 | a signed beacon still verifies after packing and unpacking |
| SyncMatToken.IsValid | feature_synchronization/auth/mat_token.py:24-44 | a token is valid exactly when it is not past its issue time plus lifetime and its epoch is within the tolerance of the current one |
| SyncMatToken.IssuerBytes | feature_synchronization/auth/mat_token.py:52-53 | the issuer ids take six bytes each |
| SyncMatToken.IssuerSetBytes | feature_synchronization/auth/mat_token.py:51-53 | the issuer set is a 2-byte count followed by the ids |
| SyncMatToken.BindingBytes | feature_synchronization/auth/mat_token.py:56-58 | pseudonym, epoch and lifetime take 20 bytes |
| SyncMatToken.TailBytes | feature_synchronization/auth/mat_token.py:59-62 | region behind its length, id, issue time and signature take 58 bytes plus the region |
| SyncMatToken.Pack | feature_synchronization/auth/mat_token.py:46-66 | packing succeeds exactly when every field fits its width, and has the length the fields dictate |
| SyncMatToken.ReadIssuers | feature_synchronization/auth/mat_token.py:73 | reading n issuers succeeds exactly when 6n bytes remain (or n is 0) and yields n six-byte ids |
| SyncMatToken.ReadIssuerSet | feature_synchronization/auth/mat_token.py:72-73 | the issuer set read fits the packing widths and the cursor moves past it |
| SyncMatToken.ReadBinding | feature_synchronization/auth/mat_token.py:76-78 | the binding read succeeds exactly when 20 bytes remain |
| SyncMatToken.ReadTail | feature_synchronization/auth/mat_token.py:79-82 | the tail read yields a region that decodes as UTF-8, a 16-byte id and a 32-byte signature |
| SyncMatToken.Unpack | feature_synchronization/auth/mat_token.py:67-93 | an unpacked token is well formed and its region decodes |
| SyncMatToken.ReadIssuersBack | feature_synchronization/auth/mat_token.py:51-73 | written issuer ids read back as themselves |
| SyncMatToken.ReadIssuerSetBack | feature_synchronization/auth/mat_token.py:51-73 | a written issuer set reads back as itself |
| SyncMatToken.ReadBindingBack | feature_synchronization/auth/mat_token.py:56-78 | a written binding reads back as the pseudonym, epoch and lifetime |
| SyncMatToken.ReadTailBack | feature_synchronization/auth/mat_token.py:59-82 | a written tail reads back as the region, id, issue time and signature |
| SyncMatToken.ReadTailParts | feature_synchronization/auth/mat_token.py:59-82 | the tail fields written in order read back as themselves |
| SyncMatToken.PackRoundTrip | feature_synchronization/auth/mat_token.py:46-93 | unpacking a packed token gives it back whenever its region decodes |
| SyncMatToken.ComputeSignatureData | feature_synchronization/auth/mat_token.py:95-112 | the signed data is the issuers, the pseudonym, the 4-byte big-endian epoch and the id, and exists exactly when the epoch fits 32 bits |
| SyncMatToken.UnsignedFields | feature_synchronization/auth/mat_token.py:95-112 | lifetime, region, issue time and signature do not affect the signed data |
| SyncMatToken.SignWithKeys | feature_synchronization/auth/mat_token.py:114-130 | signing changes only the signature, to the XOR of every key's tag over the signed data, empty for no keys |
| SyncMatToken.VerifyWithKeys | feature_synchronization/auth/mat_token.py:132-145 | verification holds exactly when the signature is the aggregate of the keys' tags |
| SyncMatToken.SignThenVerify | feature_synchronization/auth/mat_token.py:114-145 | a token signed with a set of keys verifies against the same keys |
| SyncMatToken.SignedWithoutKeysDoesNotPack | feature_synchronization/auth/mat_token.py:46-66 | a token signed with no keys has an empty signature, which packing refuses |
| SyncMatToken.SignedTokenVerifiesAfterTrip | feature_synchronization/auth/mat_token.py:46-145 | a token signed with at least one key packs, unpacks and still verifies |
| SyncEpochState.Init | feature_sync/core/epoch_state.py:12-32 | a fresh state has the given epoch and timing, no configuration, no keys, and tolerates no epoch |
| SyncEpochState.UpdateTolerated | feature_sync/core/epoch_state.py:70-83 | afterwards an epoch is valid exactly when it is within one of the current one, and nothing else changes |
| SyncEpochState.CleanupOldKeys | feature_sync/core/epoch_state.py:116-131 | exactly the key buckets older than the previous epoch are dropped; the rest are kept untouched |
| SyncEpochState.UpdateEpoch | feature_sync/core/epoch_state.py:46-68 | the epoch and timing are set, the configuration replaced only when one is given, the window re-centred and old keys dropped |
| SyncEpochState.GetActiveKey | feature_sync/core/epoch_state.py:85-99 | a key is returned exactly when its epoch bucket and device entry exist |
| SyncEpochState.AddKeyMaterial | feature_sync/core/epoch_state.py:101-114 | the material is found afterwards under its own epoch and device, and every other lookup is unchanged |
| SyncEpochState.UpdateEpochKeepsRecentKeys | feature_sync/core/epoch_state.py:46-131 | after an epoch update a key is found exactly when it was before and its epoch is not older than the previous one |
| SyncEpochState.UpdateEpochIdempotent | feature_sync/core/epoch_state.py:46-68 | moving to the same epoch twice is moving once |
| SyncEpochState.EpochProgress | feature_sync/core/epoch_state.py:133-147 | the progress lies in [0, 1], is 0 before the start or for an empty epoch, 1 after the end, and the elapsed fraction in between |
| SyncEpochState.TimeUntilNextEpoch | feature_sync/core/epoch_state.py:149-160 | the time left is zero exactly when the epoch should advance, and otherwise reaches the epoch's end |
| SyncMatManager.Create | feature_sync/sync/mat_manager.py:19-43 | construction succeeds exactly when there is one signing key per validator, with nothing issued or revoked |
| SyncMatManager.IssueMat | feature_sync/sync/mat_manager.py:45-83 | issuing succeeds exactly for a 12-byte pseudonym and a 32-bit epoch; the token names every validator, is bound to the pseudonym and epoch, is signed with every key and is recorded under its id |
| SyncMatManager.VerifyMat | feature_sync/sync/mat_manager.py:85-116 | a token verifies exactly when it is not revoked, is within its lifetime and one epoch, and carries the aggregate of the manager's keys; a revoked or expired token is refused |
| SyncMatManager.IssuedTokenVerifies | feature_sync/sync/mat_manager.py:45-116 | a freshly issued, unrevoked token verifies for its lifetime within one epoch of its own |
| SyncMatManager.RevokeMat | feature_sync/sync/mat_manager.py:118-126 | the revoked set gains the id and loses nothing |
| SyncMatManager.RevokeByPseudonym | feature_sync/sync/mat_manager.py:128-141 | exactly the issued tokens carrying the pseudonym are added to the revoked set |
| SyncMatManager.RevokedPseudonymRefused | feature_sync/sync/mat_manager.py:85-141 | after revoking a pseudonym none of its tokens verifies |
| SyncMatManager.RotateMatsOnEpochChange | feature_sync/sync/mat_manager.py:143-164 | exactly the tokens bound to an epoch before the previous one are forgotten; revocations stay |
| SyncMatManager.SyncRevocationList | feature_sync/sync/mat_manager.py:183-194 | the revoked set becomes its union with the peer's list |
| SyncMatManager.SyncRevocationConverges | feature_sync/sync/mat_manager.py:183-194 | merging lists does not depend on their order, and merging one twice changes nothing |
| SyncValidatorNode.Create | feature_sync/sync/validator_node.py:20-54 | construction succeeds exactly for a 6-byte id, starting at epoch 0, unsynchronized, with a zero counter and nothing tolerated |
| SyncValidatorNode.SyncFeatureConfig | feature_sync/sync/validator_node.py:120-134 | a configuration is installed exactly when its stored digest matches the recomputed one, and otherwise nothing changes |
| SyncValidatorNode.Stamped | feature_sync/sync/validator_node.py:72-87 | steps 2 to 4 stamp the arrival time, follow a newer epoch with its configuration, and re-centre the window on the beacon's epoch, leaving the synchronized flag and counter alone |
| SyncValidatorNode.AcceptRaisesAfterUpdates | feature_sync/sync/validator_node.py:72-134 | handling raises exactly when a not-too-old beacon's configuration differs from the stamped node's and `compute_digest` raises, never for a newer epoch, after the writes `Stamped` describes |
| SyncValidatorNode.Accept | feature_sync/sync/validator_node.py:72-98 | an accepted beacon stamps the arrival time, moves the epoch to the newer of the two, and leaves the node synchronized on a window centred on the beacon's epoch with a zero counter; a refused one changes only the arrival time |
| SyncValidatorNode.OnBeaconReceived | feature_sync/sync/validator_node.py:56-98 | with a key set, a beacon whose signature fails is refused before any change; otherwise the beacon is handled as accepted |
| SyncValidatorNode.NewerEpochConfigUnchecked | feature_sync/sync/validator_node.py:78-79 | a beacon from a newer epoch installs its configuration even when the digest does not match |
| SyncValidatorNode.SameEpochConfigChecked | feature_sync/sync/validator_node.py:86-96 | a beacon of the current or previous epoch installs a changed configuration only when its digest matches |
| SyncValidatorNode.EpochMonotone | feature_sync/sync/validator_node.py:56-98 | the followed epoch never moves backwards on a beacon |
| SyncValidatorNode.EnterLocalProgressionAsWritten | feature_sync/sync/validator_node.py:154-179 | when the epoch is over and the counter is below the cap, it advances past every elapsed epoch, and fails only on a zero duration |
| SyncValidatorNode.Advance | feature_sync/sync/validator_node.py:170-176 | advancing n epochs moves the epoch, the counter and the start by n steps and re-centres the window |
| SyncValidatorNode.AsWrittenOvershootsCap | feature_sync/sync/validator_node.py:163-176 | a counter at four of five with three epochs missed ends at seven, past the cap |
| SyncValidatorNode.EnterLocalProgression | feature_sync/sync/validator_node.py:154-179 | the corrected progression never takes the counter past the cap, and advances the epoch by exactly what it adds to the counter |
| SyncValidatorNode.CorrectedAgreesBelowCap | feature_sync/sync/validator_node.py:154-179 | when the elapsed epochs fit under the cap the corrected progression is the written one |
| SyncValidatorNode.CheckSynchronization | feature_sync/sync/validator_node.py:136-152 | the corrected check: within the timeout nothing changes; past it the node reports unsynchronized, and a counter within the cap stays within it |
| SyncValidatorNode.CheckSynchronizationAsWritten | feature_sync/sync/validator_node.py:136-152 | as written: the timeout behaviour is the same, and past the timeout the counter never decreases |
| SyncValidatorNode.AsWrittenCheckOvershootsCap | feature_sync/sync/validator_node.py:136-176 | a node at four of five whose last beacon was at time 0, with timeout 15 and epoch length 10, checked at time 30, ends at seven |
| SyncValidatorNode.CheckAgreesBelowCap | feature_sync/sync/validator_node.py:136-176 | when the elapsed epochs fit under the cap the corrected check is the written one |
| SyncValidatorNode.ForceResynchronization | feature_sync/sync/validator_node.py:181-190 | the node is unsynchronized, the counter is zero and no key is found, with epoch and configuration kept |
| SyncValidatorNode.CounterStaysCapped | feature_sync/sync/validator_node.py:56-190 | with the corrected progression, beacons, the synchronization check and forced resynchronization all keep the local counter within the cap |
| SyncDeviceNode.Create | feature_synchronization/sync/device_node.py:19-48 | construction succeeds exactly for a 6-byte id, at epoch 0, unsynchronized, tolerating exactly -1, 0 and 1 |
| SyncDeviceNode.OnBeaconReceived | feature_synchronization/sync/device_node.py:50-79 | every beacon is accepted and synchronizes the device; a newer epoch is followed with its timing and configuration, an older one changes neither |
| SyncDeviceNode.StaleBeaconInvalidatesCurrentEpoch | feature_synchronization/sync/device_node.py:75-76 | a beacon more than one epoch old is still accepted and leaves the device's own epoch outside its window |
| SyncDeviceNode.OnBeaconIdempotent | feature_synchronization/sync/device_node.py:50-79 | receiving the same beacon twice is receiving it once |
| SyncDeviceNode.CheckSynchronization | feature_synchronization/sync/device_node.py:81-95 | past the timeout the device loses synchronization and reports it; otherwise nothing changes |
| SyncDeviceNode.SynchronizedRightAfterBeacon | feature_synchronization/sync/device_node.py:50-95 | a check right after a beacon finds the device synchronized when the timeout is not negative |
| SyncClusterHead.Create | feature_sync/sync/cluster_head.py:21-59 | construction succeeds exactly for a 6-byte id, at epoch 0 and sequence 0, not running, with a fresh key standing in for a missing or empty one |
| SyncClusterHead.Start | feature_sync/sync/cluster_head.py:61-78 | starting stamps the epoch start once; starting again changes nothing |
| SyncClusterHead.Stop | feature_sync/sync/cluster_head.py:80-90 | stopping only clears the running flag |
| SyncClusterHead.RotateFeatureConfig | feature_sync/sync/cluster_head.py:185-208 | rotation bumps the version by one with a fresh id and seed, keeps the plan, window, sample count, subcarrier count and alpha, and recomputes the digest |
| SyncClusterHead.AdvanceEpoch | feature_sync/sync/cluster_head.py:158-173 | advancing moves exactly one epoch, restarts the epoch now, and rotates the configuration exactly on positive multiples of ten |
| SyncClusterHead.GenerateBeacon | feature_sync/sync/cluster_head.py:111-143 | the epoch advances exactly when its period is over; an issued beacon carries the current epoch and sequence number, and the sequence number grows by one per issued beacon |
| SyncClusterHead.BeaconVerifies | feature_sync/sync/cluster_head.py:111-143 | every issued beacon verifies under the head's signing key |
| SyncClusterHead.GenerateKeepsDigestConsistent | feature_sync/sync/cluster_head.py:111-208 | issuing beacons keeps the stored configuration digest equal to the recomputed one |
| SyncClusterHead.ConsecutiveBeacons | feature_sync/sync/cluster_head.py:111-167 | two beacons in a row carry consecutive sequence numbers and epochs that differ by at most one |
| SyncClusterHead.ValidatorPassesHeadBeacons | feature_sync/sync/cluster_head.py:111-143 | a validator holding the head's key takes every issued beacon past the signature check |
| SyncGossip.Create | feature_sync/network/gossip.py:62-96 | construction succeeds exactly for a 6-byte local id, at version 0 with nothing revoked |
| SyncGossip.BuildMessage | feature_sync/network/gossip.py:161-168 | the message carries the node's id, version and revocations, with epoch 0 |
| SyncGossip.GossipRound | feature_sync/network/gossip.py:143-159 | without peers nothing is sent; otherwise one of the peers receives the node's message |
| SyncGossip.OnGossipReceived | feature_sync/network/gossip.py:170-192 | the revocations become their union with the message's, the version grows by one exactly when new ids arrived, and the callback gets exactly those ids |
| SyncGossip.AddRevocation | feature_sync/network/gossip.py:194-204 | the id becomes revoked, nothing else changes, and the version grows only on the first insertion |
| SyncGossip.UpdatesKeepVersionInvariant | feature_sync/network/gossip.py:170-204 | both updates keep the version at most the number of revoked ids, and zero while none is revoked |
| SyncGossip.ReceiveIdempotent | feature_sync/network/gossip.py:170-192 | hearing the same message twice changes nothing the second time |
| SyncGossip.ExchangeConverges | feature_sync/network/gossip.py:161-192 | two nodes that exchange one message each hold the same revocation set, the union of both |
| UavSecureChannel.Serialize | uav_secure_channel.py:38-52 | serialization succeeds exactly when the integer fields and the ciphertext length fit their formats, and is 16 bytes plus addresses, nonce and ciphertext |
| UavSecureChannel.Deserialize | uav_secure_channel.py:53-97 | parsing succeeds exactly when there are 40 bytes and as many ciphertext bytes as announced; the result has 6-byte addresses, a 12-byte nonce and the default tag |
| UavSecureChannel.WireFields | uav_secure_channel.py:38-52 | each field sits at its fixed offset in the 40-byte header, the ciphertext after it |
| UavSecureChannel.SerializeRoundTrip | uav_secure_channel.py:38-97 | parsing a serialized message gives it back with the default tag |
| UavSecureChannel.DeserializeRoundTrip | uav_secure_channel.py:38-97 | what parsing accepts serializes back to the bytes it read |
| UavSecureChannel.BuildAad | uav_secure_channel.py:384-401 | the associated data exists exactly when type, sequence and timestamp fit their formats |
| UavSecureChannel.AadIsHeaderPrefix | uav_secure_channel.py:38-52 | for a version-1 message the associated data is the serialized header up to the timestamp |
| UavSecureChannel.Create | uav_secure_channel.py:114-132 | construction succeeds exactly for a 6-byte address, with no counters and nothing received |
| UavSecureChannel.NextSequence | uav_secure_channel.py:403-416 | the number is one past the last sent under the id, becomes the last sent, and no other counter moves |
| UavSecureChannel.SequencesCount | uav_secure_channel.py:403-416 | a fresh id counts 1, then 2 |
| UavSecureChannel.KeepNewest | uav_secure_channel.py:446-449 | the kept numbers are the largest of those seen, as many as the window allows |
| UavSecureChannel.RecordSequence | uav_secure_channel.py:433-449 | the number joins those seen under the id; past the window only the largest are kept; other ids are untouched |
| UavSecureChannel.NewestIsRemembered | uav_secure_channel.py:418-449 | a number larger than every one seen is reported as a replay afterwards |
| UavSecureChannel.OpenWindowRemembers | uav_secure_channel.py:418-449 | while the window is not full every recorded number is reported as a replay |
| UavSecureChannel.BelowFullWindowForgotten | uav_secure_channel.py:433-449 | once the window is full a number below all it holds is forgotten as soon as it is recorded |
| UavSecureChannel.ResetSequence | uav_secure_channel.py:481-499 | the id's counter and window are forgotten and every other id is untouched |
| UavSecureChannel.EncryptP2p | uav_secure_channel.py:134-190 | a wrong key or destination size is refused without change; otherwise a sequence number is consumed, and a sent message carries it with the channel's address and the encryption of the plaintext under the header's associated data |
| UavSecureChannel.DecryptP2p | uav_secure_channel.py:192-257 | the plaintext and sender come back exactly when the message parses, has the right type and destination, is fresh, is not a replay and decrypts; only then is its number recorded |
| UavSecureChannel.P2pDelivery | uav_secure_channel.py:134-257 | a message encrypted for a node is delivered to it with the sender's address when the key is shared, the time is fresh and the number unseen |
| UavSecureChannel.ReplayRefused | uav_secure_channel.py:192-257 | a delivered message is refused when it comes again, while its number is newest or the window was not full |
| UavSecureChannel.HashGroupId | uav_secure_channel.py:451-462 | the group hash is the first six bytes of the SHA-256 of the name |
| UavSecureChannel.ReplayKey | uav_secure_channel.py:357 | the group replay key is the sender, a colon and the group hash |
| UavSecureChannel.ReplayKeyInjective | uav_secure_channel.py:357 | distinct sender and group pairs have distinct replay keys, and none collides with a peer address |
| UavSecureChannel.EncryptGroup | uav_secure_channel.py:259-313 | a wrong key size is refused without change; otherwise the group's counter advances and the message is sent to the group hash |
| UavSecureChannel.DecryptGroup | uav_secure_channel.py:315-382 | the plaintext and sender come back exactly when the message parses, is addressed to the group, is fresh, is not a replay for that sender and group, and decrypts |
| UavSecureChannel.GroupDelivery | uav_secure_channel.py:259-382 | a group message reaches every member with the key and the name, in time and not seen before |
| UavSwarmManager.LexTotal | src/uav_swarm_manager.py:287 | any two byte strings are ordered one way or the other, as Python compares them |
| UavSwarmManager.LexAntisymmetric | src/uav_swarm_manager.py:287 | byte strings ordered both ways are equal |
| UavSwarmManager.LexTransitive | src/uav_swarm_manager.py:287 | the byte ordering is transitive |
| UavSwarmManager.Insert | src/uav_swarm_manager.py:287 | inserting into a sorted list keeps it sorted and adds exactly the element |
| UavSwarmManager.Sort | src/uav_swarm_manager.py:287 | the result is sorted and a permutation of the input |
| UavSwarmManager.SortedUnique | src/uav_swarm_manager.py:287 | a list of byte strings has exactly one sorted arrangement |
| UavSwarmManager.Filter | src/uav_swarm_manager.py:202-207 | the kept members are exactly those accepted, and distinct ids stay distinct |
| UavSwarmManager.Replace | src/uav_swarm_manager.py:164-165 | exactly the keyed member is changed, no id changes, and distinct ids stay distinct |
| UavSwarmManager.Find | src/uav_swarm_manager.py:322-331 | a member is found exactly when one has the id, and it is that member |
| UavSwarmManager.ActiveSessionKeys | src/uav_swarm_manager.py:256-259 | the collected keys are exactly the session keys of active members that have one |
| UavSwarmManager.DeriveGroupKey | src/uav_swarm_manager.py:273-298 | the group key is a 32-byte hash and exists exactly when the version fits 32 bits |
| UavSwarmManager.DeriveOrderIndependent | src/uav_swarm_manager.py:287 | the group key does not depend on the order the session keys were collected in |
| UavSwarmManager.EmptyGroupUsesCoordinatorKey | src/uav_swarm_manager.py:282-298 | with no contributing member the key is the hash of the group name, the coordinator's key and the version |
| UavSwarmManager.RotateGroupKey | src/uav_swarm_manager.py:250-271 | a rotation derives the key from the active members under the current version, then bumps the version and stamps the time; it fails exactly when the version exceeds 32 bits |
| UavSwarmManager.Create | src/uav_swarm_manager.py:41-77 | a new swarm has no members and has rotated once: version 1 and a key from the coordinator's |
| UavSwarmManager.UpdateGroupKey | src/uav_swarm_manager.py:300-307 | an update bumps the version by one and keeps the members |
| UavSwarmManager.AutoRotate | src/uav_swarm_manager.py:309-320 | a rotation happens exactly when the interval has passed, bumping the version; otherwise nothing changes |
| UavSwarmManager.AddMember | src/uav_swarm_manager.py:84-125 | a member is added exactly when it is new and the verifier took it, appended active and seen now; otherwise nothing changes |
| UavSwarmManager.RemoveMember | src/uav_swarm_manager.py:127-149 | the member leaves, the others stay, and the answer says whether it was there |
| UavSwarmManager.RevokeMember | src/uav_swarm_manager.py:151-176 | a non-member is refused without change; a revoked member leaves and the version moves by one |
| UavSwarmManager.DeactivatedKeyExcluded | src/uav_swarm_manager.py:164-171 | marking a member inactive removes exactly its session key from those the key is derived from |
| UavSwarmManager.WithoutDeactivated | src/uav_swarm_manager.py:164-174 | removing a member after marking it inactive leaves the others as they were |
| UavSwarmManager.RevokeExcludesMember | src/uav_swarm_manager.py:151-176 | a revocation derives the new key from the other members' session keys alone and leaves them untouched |
| UavSwarmManager.UpdateMemberActivity | src/uav_swarm_manager.py:178-191 | a member is marked seen now exactly when it is there; otherwise nothing changes |
| UavSwarmManager.Kept | src/uav_swarm_manager.py:202-207 | the kept members are exactly those within the timeout |
| UavSwarmManager.IdleIds | src/uav_swarm_manager.py:202-205 | the listed ids are exactly those of idle members |
| UavSwarmManager.CleanupInactive | src/uav_swarm_manager.py:193-214 | exactly the idle members leave, their ids are returned, and the key rotates exactly when any left |
| UavSwarmManager.VerifyMember | src/uav_swarm_manager.py:216-248 | a successful answer naming a member updates that member alone; a stranger is reported without change; any other answer fails without an id |
| UavSwarmManager.GetMemberInfo | src/uav_swarm_manager.py:322-331 | the member is returned exactly when present |
| UavSwarmManager.GetActiveMembers | src/uav_swarm_manager.py:333-339 | the listed ids are exactly those of active members |
| UavSwarmManager.OperationsKeepMacsUnique | src/uav_swarm_manager.py:84-248 | every operation keeps the member ids distinct, as the dictionary does |
| UavMobility.Create | uav_mobility_support.py:39-67 | a new node has nothing cached, no peer and no hand-over history |
| UavMobility.CacheMatToken | uav_mobility_support.py:69-81 | the peer's entry becomes the token and key stamped now, and every other entry is unchanged |
| UavMobility.GetCached | uav_mobility_support.py:83-104 | nothing is returned for an unknown peer; an expired entry is evicted and nothing returned; otherwise the cached token and key come back unchanged |
| UavMobility.CacheThenGet | uav_mobility_support.py:69-104 | a cached entry is returned exactly while it has not outlived the cache time |
| UavMobility.FastHandover | uav_mobility_support.py:106-166 | refused when disabled, or when credentials are missing and nothing valid is cached; otherwise the node moves to the new peer with the credentials, caches them for it and records a completed hand-over |
| UavMobility.FastHandoverChains | uav_mobility_support.py:106-166 | after a fast hand-over the node can hand over fast again from the new peer within the cache time, carrying the same token and key |
| UavMobility.FullHandover | uav_mobility_support.py:168-223 | a failed authentication changes nothing; otherwise the node moves to the new peer with the answer's key and token, caching them only when the token is non-empty |
| UavMobility.SmartHandover | uav_mobility_support.py:225-259 | a fast hand-over is used exactly when it succeeds; otherwise a full one when the peer's answer is available, else insufficient parameters |
| UavMobility.ClearCache | uav_mobility_support.py:261-265 | every cached token is removed and nothing else in the support state changes |
| UavMobility.CleanupExpired | uav_mobility_support.py:267-286 | exactly the expired entries are removed, the rest kept unchanged, and the count removed is reported |
| UavMobility.CleanupLeavesValidEntries | uav_mobility_support.py:83-286 | after a clean-up every remaining entry is served by the cache lookup at the same time |

## Left out

- Floating-point computation is not modelled: threshold percentiles, bit stability, fingerprint scores, SNR weighting, epoch progress and hand-over latencies. Scores and progress are `real`s; the quantiser's thresholds and the float-to-text rendering of alpha are inputs.
- `compute_thresholds` and `compute_bit_stability` of the quantiser are not modelled, because they are numpy percentile arithmetic. Their results enter as the `thresholds` and `arrange` parameters.
- `FeatureEncryption.feature_key_gen` is not modelled. It adds noise with `np.random` to a tiled frame and then calls `register` or `authenticate`, and those two are modelled.
- `FeatureEncryption.verify_digest` is not modelled, because it is byte equality.
- `FeatureEncryptionConfig.from_dict`, `from_json`, `to_dict`, `to_json` and `__repr__` are not modelled: they are file and dictionary I/O.
- `FeatureConfig.select_subcarriers` is not modelled, because it draws from numpy's Mersenne-Twister generator.
- `encode_float`, `encode_double`, `decode_float` and `decode_double` of the TLV codec are not modelled, because they are IEEE-754 conversions. FeatureConfig carries alpha as its 4-byte wire image plus its text.
- `truncate_tag` of the signature module is not modelled; it is the same slice as `truncate`.
- `generate_nonce`, `generate_random_key`, `token_bytes`, `random.choice` and every other random draw are parameters.
- `format_bytes_preview`, `log_key_material`, `get_statistics`, `get_handover_statistics`, `print_status` and `print_statistics` are not modelled: they are logging and reporting.
- Threads, timers and callbacks are not modelled: `start`/`stop` loops of the cluster head and gossip, `_beacon_broadcast_loop`, `_gossip_loop`, `_broadcast_beacon`, `_send_gossip` and the `set_*_callback` setters. Gossip's state-update callback is the returned set of new ids.
- `GossipMessage.to_dict`/`from_dict` are not modelled, because they are a dictionary encoding.
- Simple getters (`get_current_epoch`, `get_feature_config`, `is_synchronized`, `get_member_count`, `get_group_key`, `get_active_mat_count`, `get_revoked_count`, `get_revocation_list`) are not modelled; they read one field.
- Cryptographic primitives are uninterpreted parameters: BCH encoding and decoding, BLAKE3, SHA-256, HMAC-SHA256, the `cryptography` HKDF and AES-GCM. Whether BLAKE3 is installed is the flag `hasBlake3` of the key-derivation primitives, so both outcomes of `import blake3` in `key_derivation.py` are modelled, the `NameError` of the SHA-256 branch included.
- UavSecureChannel.DecryptP2p and UavSecureChannel.DecryptGroup fold every exception, including an AES-GCM key of the wrong length, into the parameter `aead.decrypt` returning `None`, as the source's `except` does.
- Each operation reads the clock once (`now`). Where the source calls `time.time()` twice in one operation, the two readings are taken to be equal.
- Mode 2's verifier engine never has helper data stored, because `VerifierSide` builds its own `FeatureEncryption`. The model makes the engine's key reconstruction an input (`Recovery`), so this gap is not shown.
- `FeatureEncryption.__init__` passes `deterministic_for_testing` to `FeatureQuantizer`, whose constructor takes only `config`, so construction raises `TypeError`. The model builds the quantiser as `quantizer.py` defines it, with the padding source as a parameter.
- `feature_synchronization/sync/device_node.py` imports an `EpochState` whose module is not part of this model. The device node uses `feature_sync/core/epoch_state.py`.
- `feature_sync/sync/mat_manager.py` imports a token module and signatures that are not part of this model. The MAT manager uses `feature_synchronization/auth/mat_token.py` and `feature_synchronization/crypto/signatures.py`.
- `feature_sync/core/feature_config.py` and `feature_sync/core/beacon.py`, which the validator and the cluster head import, are not part of this model. Both nodes use `feature_synchronization/core/feature_config.py` and `feature_synchronization/core/beacon.py`.
- FuzzyExtractor.CorrectsUpTo: the BCH decoder's promise to correct up to `t` flipped bits is an assumption about `bchlib`, stated as a `requires` of the round trips. The encoder is taken to succeed on every message (`encode` is a total function), so `GenerateHelper` never fails on an encode. Neither the encoder's nor the decoder's own limits on data length are modelled.
- FeConfig.UpperChar: upper-cases the ASCII letters and the ten non-ASCII characters whose upper case is all ASCII (`ß`, `ı`, `ſ` and the seven Latin ligatures). Every other character is kept as it is. Its Unicode upper case is never ASCII, so the comparisons with "CSI" and "RFF" come out the same.
- SyncValidatorNode.CheckSynchronization: uses the corrected progression, which stops at the cap. The source's check is CheckSynchronizationAsWritten, and CheckAgreesBelowCap shows the two agree whenever the elapsed epochs fit under the cap.
- SyncValidatorNode.CounterStaysCapped: holds of the corrected node only. AsWrittenCheckOvershootsCap shows the source's validator ending at seven of five.
- UavMobility.ClearCache: the count of removed tokens is only printed by the source, so the model returns just the emptied state.
- FeConfig.Validate: reports both `M_FRAMES` bounds with one message, "M_FRAMES out of range", where the source has one message per bound. Which inputs are rejected is unchanged.
- AuthCommon.ParseReq: keeps the algorithm name as bytes, so the UTF-8 `decode` error of `deserialize` is not modelled.
- Error messages: every `Err` keeps the fixed text of the source's message and drops the values it formats in, for example "Invalid TokenFast data length" for `f"Invalid TokenFast data length: {len(data)}"` and "Expected r length TARGET_BITS" for the message naming both lengths. The UTF-8 decode error is "invalid utf-8". Which inputs are rejected, and in which order, is unchanged.
- SyncValidatorNode.Accept: when `compute_digest` raises, the result is a bare `Err`, while the source has already stamped the arrival time, followed the epoch and re-centred the window. `Stamped` is that node and `AcceptRaisesAfterUpdates` says when this happens.
- KeyDerivation.DeriveSessionKey: its error message is "K length mismatch", a shortened form of the source's message. The rejected inputs are the same.
- Pilot.GetPilotTimes: requires a positive frame duration or an empty epoch, because with any other input the source's loop never ends.
- SyncFeatureConfig.Unpack: the text of alpha after a trip is `render` of its wire image, because the float round trip is outside the model. The property is stated about every other field.
- UavSecureChannel.BelowFullWindowForgotten: states a weakness of the source rather than fixing it. Once 1000 numbers have been seen, a lower number is recorded and dropped at once, so that message can be replayed.
- TokenManager.RevokedTokenStillVerifies: states the source's behaviour. Fast-token verification never consults the revocation store, so a revoked token verifies until it expires.

## Findings

| source | as written | input that shows it | evidently intended | confidence | as-written member | corrected member |
|---|---|---|---|---|---|---|
| feature-encryption/src/fuzzy_extractor.py:71 | `block_size = TARGET_BITS // BCH_BLOCKS`, so the blocks cover only `BCH_BLOCKS·block_size` bits | `TARGET_BITS = 256`, `BCH_BLOCKS = 3`, `k = 131` (accepted by validation): blocks of 85 bits cover 255, and the last registered bit never reaches the extracted string | blocks of `ceil(TARGET_BITS / BCH_BLOCKS)` bits, so extracting the registered reading gives all of it back | high, not executed | FuzzyExtractorProofs.FloorBlockSizeDropsTail | FuzzyExtractorProofs.CoveringRoundTrip |
| feature-authentication/src/common.py:355-356 | `AuthReq.deserialize` always reads a 32-byte digest and demands at least 86 bytes | a request carrying the engine's 8-byte digest (config.py:40) serialises to fewer bytes than that, or is misread, and never parses | the digest read at its configured width, so every serialised request parses back | high, not executed | AuthCommon.EightByteDigestRejected | AuthCommon.ReqRoundTripSized |
| feature-authentication/src/mode2_strong_auth.py:483-492 | the verifier rebuilds the tag context with `src = dev_pseudo[:6]` and `dst = issuer_id` | an honest device with id `d` sends to verifier `v`: its tag covers `d ‖ v`, the verifier's covers `pseudo[:6] ‖ v`, which differ whenever `pseudo[:6] ≠ d` | the context rebuilt from the located device's id, so an honest request is accepted | high, not executed | Mode2.AsWrittenAcceptsOnlyOnTagCollision | Mode2.HonestRequestAccepted |
| feature-authentication/src/token_manager.py:88-104 | with `MAC = 'hmac-sha256'` the token MAC is the full 32-byte HMAC, and `TokenFast` demands 16 bytes | any `issue_token_fast` call on an HMAC-SHA256 manager raises | the MAC truncated to 16 bytes, as the BLAKE3 branch does | high, not executed | TokenManager.HmacIssueAlwaysFails | TokenManager.HmacIssueSucceedsTruncated |
| feature_sync/sync/validator_node.py:163-176 | the cap on local progression is checked once, before advancing by every elapsed epoch | counter 4 of a cap of 5, epoch length 10, epoch start 0, time 30: the counter ends at 7 | advancing no further than the cap allows | high, not executed | SyncValidatorNode.AsWrittenOvershootsCap | SyncValidatorNode.CounterStaysCapped |
| feature-encryption/src/key_derivation.py:9-247 | `hashlib` is imported only when `import blake3` fails (lines 9-14), yet `_hash` calls `hashlib.sha256` whenever `HASH_ALGORITHM` is not `'blake3'` (line 247) | BLAKE3 installed, the default profile with `HASH_ALGORITHM = 'sha256'` (which `validate` accepts), epoch 0 and a 16-byte nonce: `compute_L` raises `NameError`, so `register` raises after storing the helper data | `hashlib` imported unconditionally, so the `'sha256'` setting hashes with SHA-256 | high, not executed | KeyDerivation.Sha256ConfigRaises | KeyDerivation.IntendedHashAgrees |
| feature-encryption/src/fuzzy_extractor.py:97-176 | `_bytes_to_bits(codeword_bytes, self.n)` keeps only the first `BCH_N` codeword bits in the helper data, and extraction zero-fills the rest before decoding | the default profile: `BCH_N = 255`, a 17-byte message and 18 ECC bytes give a 280-bit codeword; the 25 cut ECC bits come back as zeros, so re-presenting the very registered reading already costs the decoder one error per set bit among them | the whole codeword kept in each helper block, so the full correction budget `BCH_T` goes to reading noise | medium, not executed | FuzzyExtractorProofs.RegisteredReadingLosesTail | FuzzyExtractorProofs.WidenedRoundTrip |

=== FILE: auth_common.dfy ===
/**
 The authentication layer's shared records (`common.py`): their validity
 checks, which `__post_init__` runs so that no invalid instance exists, and
 the little-endian wire formats of `AuthContext`, `TokenFast`, `AuthReq` and
 `MAT`. Text fields (`alg_id`, `policy`) are kept as their UTF-8 bytes.
 */
module AuthCommon {
  import opened Wrappers
  import opened Bytes

  function OutcomeOf<T>(o: Outcome, x: T): (r: Result<T>)
    ensures r.Ok? <==> o.Pass?
    ensures r.Ok? ==> r.value == x
    ensures r.Err? ==> o == Fail(r.error)
  {
    match o
    case Pass => Ok(x)
    case Fail(e) => Err(e)
  }

  // ---------------------------------------------------------------------------
  // DeviceIdentity, RFFJudgment, AuthResult
  // ---------------------------------------------------------------------------

  datatype DeviceIdentity = DeviceIdentity(devId: Bytes, devPseudo: Option<Bytes>, epoch: int)

  predicate ValidIdentity(d: DeviceIdentity)
  {
    |d.devId| == 6 && (d.devPseudo.Some? ==> |d.devPseudo.value| == 12) && IsU32(d.epoch)
  }

  function CheckIdentity(d: DeviceIdentity): (r: Outcome)
    ensures r.Pass? <==> ValidIdentity(d)
    ensures |d.devId| != 6 ==> r == Fail("dev_id must be 6 bytes (MAC address)")
  {
    if |d.devId| != 6 then Fail("dev_id must be 6 bytes (MAC address)")
    else if d.devPseudo.Some? && |d.devPseudo.value| != 12 then Fail("dev_pseudo must be 12 bytes")
    else if !IsU32(d.epoch) then Fail("epoch must be in [0, 2^32-1]")
    else Pass
  }

  /** A physical-layer verdict; the score is a probability. */
  datatype RffJudgment = RffJudgment(devId: Bytes, rffPass: bool, rffScore: real, snr: real, ver: string, timestamp: int)

  predicate ValidJudgment(j: RffJudgment)
  {
    |j.devId| == 6 && 0.0 <= j.rffScore <= 1.0
  }

  datatype AuthResult = AuthResult(
    success: bool, mode: string, token: Option<Bytes>, sessionKey: Option<Bytes>, reason: Option<string>)

  /** A success carries a token and no reason; a failure carries a reason. */
  predicate ValidResult(a: AuthResult)
  {
    && a.mode in {"mode1", "mode2"}
    && (a.success ==> a.token.Some? && a.reason.None?)
    && (!a.success ==> a.reason.Some?)
  }

  function CheckResult(a: AuthResult): (r: Outcome)
    ensures r.Pass? <==> ValidResult(a)
    ensures a.mode !in {"mode1", "mode2"} ==> r == Fail("mode must be 'mode1' or 'mode2'")
  {
    if a.mode !in {"mode1", "mode2"} then Fail("mode must be 'mode1' or 'mode2'")
    else if a.success && a.token.None? then Fail("token must not be None when success=True")
    else if a.success && a.reason.Some? then Fail("reason should be None when success=True")
    else if !a.success && a.reason.None? then Fail("reason must not be None when success=False")
    else Pass
  }

  /** A failed attempt: no token, no key, only the reason. */
  function Failure(mode: string, reason: string): (a: AuthResult)
    requires mode in {"mode1", "mode2"}
    ensures ValidResult(a) && !a.success && a.reason == Some(reason)
  {
    AuthResult(false, mode, None, None, Some(reason))
  }

  // ---------------------------------------------------------------------------
  // AuthContext
  // ---------------------------------------------------------------------------

  datatype AuthContext = AuthContext(
    srcMac: Bytes, dstMac: Bytes, epoch: int, nonce: Bytes, seqNo: int, algId: Bytes, ver: int, csiId: int)

  predicate ValidContext(c: AuthContext)
  {
    && |c.srcMac| == 6 && |c.dstMac| == 6 && IsU32(c.epoch) && |c.nonce| == 16
    && IsU32(c.seqNo) && IsU8(c.ver) && IsU32(c.csiId)
  }

  function CheckContext(c: AuthContext): (r: Outcome)
    ensures r.Pass? <==> ValidContext(c)
    ensures |c.srcMac| != 6 ==> r == Fail("src_mac must be 6 bytes")
  {
    if |c.srcMac| != 6 then Fail("src_mac must be 6 bytes")
    else if |c.dstMac| != 6 then Fail("dst_mac must be 6 bytes")
    else if !IsU32(c.epoch) then Fail("epoch must be in [0, 2^32-1]")
    else if |c.nonce| != 16 then Fail("nonce must be 16 bytes")
    else if !IsU32(c.seqNo) then Fail("seq must be in [0, 2^32-1]")
    else if !IsU8(c.ver) then Fail("ver must be in [0, 255]")
    else if !IsU32(c.csiId) then Fail("csi_id must be in [0, 2^32-1]")
    else Pass
  }

  /**
   `to_bytes`: `src ‖ dst ‖ epoch ‖ nonce ‖ seq ‖ len(alg) ‖ alg ‖ ver ‖ csi_id`,
   integers little-endian; an `alg_id` of 256 bytes or more overflows its
   one-byte length and raises.
   */
  function ContextBytes(c: AuthContext): (r: Result<Bytes>)
    requires ValidContext(c)
    ensures r.Ok? <==> |c.algId| < 256
    ensures r.Ok? ==> var b, n := r.value, |c.algId|;
      && |b| == 42 + n
      && b[..6] == c.srcMac && b[6..12] == c.dstMac && FromLE(b[12..16]) == c.epoch
      && b[16..32] == c.nonce && FromLE(b[32..36]) == c.seqNo
      && b[36] == n && b[37..37 + n] == c.algId && b[37 + n] == c.ver
      && FromLE(b[38 + n..42 + n]) == c.csiId
  {
    if |c.algId| < 256 then
      ContextLayout(c);
      Ok(ContextEncoding(c))
    else
      Err("struct.error: ubyte format requires 0 <= number <= 255")
  }

  /** The fixed-width part of the context encoding: addresses, epoch, nonce and sequence number. */
  function ContextHead(c: AuthContext): (h: Bytes)
    requires ValidContext(c)
    ensures |h| == 36
    ensures h[..6] == c.srcMac && h[6..12] == c.dstMac && FromLE(h[12..16]) == c.epoch
    ensures h[16..32] == c.nonce && FromLE(h[32..36]) == c.seqNo
  {
    Pow256Widths();
    var h := c.srcMac + c.dstMac + ToLE(c.epoch, 4) + c.nonce + ToLE(c.seqNo, 4);
    assert h[12..16] == ToLE(c.epoch, 4) by { LERoundTrip(c.epoch, 4); }
    assert h[32..36] == ToLE(c.seqNo, 4) by { LERoundTrip(c.seqNo, 4); }
    LERoundTrip(c.epoch, 4);
    LERoundTrip(c.seqNo, 4);
    h
  }

  /** The variable-width part: the length-prefixed algorithm name, the version and the CSI id. */
  function ContextTail(c: AuthContext): (t: Bytes)
    requires ValidContext(c) && |c.algId| < 256
    ensures var n := |c.algId|;
      && |t| == 6 + n && t[0] == n && t[1..1 + n] == c.algId && t[1 + n] == c.ver
      && FromLE(t[2 + n..]) == c.csiId
  {
    Pow256Widths();
    var t: Bytes := [|c.algId|] + c.algId + [c.ver] + ToLE(c.csiId, 4);
    assert t[2 + |c.algId|..] == ToLE(c.csiId, 4);
    LERoundTrip(c.csiId, 4);
    t
  }

  function ContextEncoding(c: AuthContext): (b: Bytes)
    requires ValidContext(c) && |c.algId| < 256
  {
    ContextHead(c) + ContextTail(c)
  }

  lemma ContextLayout(c: AuthContext)
    requires ValidContext(c) && |c.algId| < 256
    ensures var b, n := ContextEncoding(c), |c.algId|;
      && |b| == 42 + n
      && b[..6] == c.srcMac && b[6..12] == c.dstMac && FromLE(b[12..16]) == c.epoch
      && b[16..32] == c.nonce && FromLE(b[32..36]) == c.seqNo
      && b[36] == n && b[37..37 + n] == c.algId && b[37 + n] == c.ver
      && FromLE(b[38 + n..42 + n]) == c.csiId
  {
    var head, tail, n := ContextHead(c), ContextTail(c), |c.algId|;
    var b := ContextEncoding(c);
    assert b[..36] == head && b[36..] == tail;
    assert b[12..16] == head[12..16] && b[32..36] == head[32..36];
    assert b[..6] == head[..6] && b[6..12] == head[6..12] && b[16..32] == head[16..32];
    assert b[38 + n..42 + n] == tail[2 + n..];
    assert b[37..37 + n] == tail[1..1 + n];
  }

  /** The context encoding is unambiguous: equal bytes mean equal contexts, so a MAC over them binds every field. */
  lemma ContextBytesInjective(a: AuthContext, b: AuthContext)
    requires ValidContext(a) && ValidContext(b)
    requires ContextBytes(a).Ok? && ContextBytes(b).Ok?
    ensures ContextBytes(a) == ContextBytes(b) <==> a == b
  {
    if ContextBytes(a) == ContextBytes(b) {
      var x := ContextBytes(a).value;
      assert |a.algId| == x[36] == |b.algId|;
    }
  }

  // ---------------------------------------------------------------------------
  // TokenFast
  // ---------------------------------------------------------------------------

  datatype TokenFast = TokenFast(devId: Bytes, tStart: int, tExpire: int, policy: Bytes, mac: Bytes)

  predicate ValidToken(t: TokenFast)
  {
    |t.devId| == 6 && IsU32(t.tStart) && IsU32(t.tExpire) && t.tExpire > t.tStart && |t.mac| == 16
  }

  function CheckToken(t: TokenFast): (r: Outcome)
    ensures r.Pass? <==> ValidToken(t)
    ensures |t.devId| == 6 && IsU32(t.tStart) && IsU32(t.tExpire) && t.tExpire <= t.tStart ==>
      r == Fail("t_expire must be > t_start")
    ensures |t.devId| == 6 && IsU32(t.tStart) && IsU32(t.tExpire) && t.tExpire > t.tStart && |t.mac| != 16 ==>
      r == Fail("mac must be 16 bytes")
  {
    if |t.devId| != 6 then Fail("dev_id must be 6 bytes")
    else if !IsU32(t.tStart) then Fail("t_start must be in [0, 2^32-1]")
    else if !IsU32(t.tExpire) then Fail("t_expire must be in [0, 2^32-1]")
    else if t.tExpire <= t.tStart then Fail("t_expire must be > t_start")
    else if |t.mac| != 16 then Fail("mac must be 16 bytes")
    else Pass
  }

  /** The constructor. */
  function NewToken(devId: Bytes, tStart: int, tExpire: int, policy: Bytes, mac: Bytes): (r: Result<TokenFast>)
    ensures r.Ok? <==> ValidToken(TokenFast(devId, tStart, tExpire, policy, mac))
    ensures r.Ok? ==> r.value == TokenFast(devId, tStart, tExpire, policy, mac)
  {
    var t := TokenFast(devId, tStart, tExpire, policy, mac);
    OutcomeOf(CheckToken(t), t)
  }

  /** The part of a token its MAC covers: `dev_id ‖ t_start ‖ t_expire ‖ policy`. */
  function TokenBody(devId: Bytes, tStart: nat, tExpire: nat, policy: Bytes): (b: Bytes)
    requires tStart < U32_LIMIT && tExpire < U32_LIMIT
    ensures |b| == |devId| + 8 + |policy|
  {
    Pow256Widths();
    devId + ToLE(tStart, 4) + ToLE(tExpire, 4) + policy
  }

  /** `serialize`: `dev_id ‖ t_start ‖ t_expire ‖ len(policy) ‖ policy ‖ mac`; a policy over 255 bytes raises. */
  function SerializeToken(t: TokenFast): (r: Result<Bytes>)
    requires ValidToken(t)
    ensures r.Ok? <==> |t.policy| < 256
    ensures r.Ok? ==> |r.value| == 31 + |t.policy|
  {
    if |t.policy| < 256 then
      Pow256Widths();
      var b: Bytes := t.devId + ToLE(t.tStart, 4) + ToLE(t.tExpire, 4) + [|t.policy|] + t.policy + t.mac;
      Ok(b)
    else
      Err("struct.error: ubyte format requires 0 <= number <= 255")
  }

  /**
   `deserialize`: at least 31 bytes; the policy and the MAC are read with
   Python's clamping slices, bytes after the MAC are ignored, the policy must
   decode as UTF-8, which `utf8` decides, and the result goes through the
   constructor's checks.
   */
  function DeserializeToken(data: Bytes, utf8: Bytes -> bool): (r: Result<TokenFast>)
    ensures |data| < 31 ==> r == Err("Invalid TokenFast data length")
    ensures |data| >= 31 && !utf8(Slice(data, 15, 15 + data[14] as int)) ==> r == Err("invalid utf-8")
    ensures r.Ok? ==> ValidToken(r.value) && utf8(r.value.policy)
  {
    if |data| < 31 then Err("Invalid TokenFast data length")
    else
      var n: nat := data[14];
      var policy := Slice(data, 15, 15 + n);
      if !utf8(policy) then Err("invalid utf-8")
      else
        var t := TokenFast(data[..6], FromLE(data[6..10]), FromLE(data[10..14]),
                           policy, Slice(data, 15 + n, 31 + n));
        OutcomeOf(CheckToken(t), t)
  }

  lemma TokenRoundTrip(t: TokenFast, utf8: Bytes -> bool)
    requires ValidToken(t) && |t.policy| < 256 && utf8(t.policy)
    ensures DeserializeToken(SerializeToken(t).value, utf8) == Ok(t)
  {
    Pow256Widths();
    var d := SerializeToken(t).value;
    var n := |t.policy|;
    assert d[..6] == t.devId;
    assert d[6..10] == ToLE(t.tStart, 4);
    assert d[10..14] == ToLE(t.tExpire, 4);
    LERoundTrip(t.tStart, 4);
    LERoundTrip(t.tExpire, 4);
    assert d[14] == n;
    assert Slice(d, 15, 15 + n) == t.policy;
    assert Slice(d, 15 + n, 31 + n) == t.mac;
  }

  /** Conversely, whatever `deserialize` accepts re-serialises to the bytes it read. */
  lemma TokenBytesRoundTrip(data: Bytes, utf8: Bytes -> bool)
    requires DeserializeToken(data, utf8).Ok?
    ensures var t := DeserializeToken(data, utf8).value;
      SerializeToken(t) == Ok(data[..31 + |t.policy|])
  {
    Pow256Widths();
    var t := DeserializeToken(data, utf8).value;
    var n: nat := data[14];
    assert 31 + n <= |data| by {
      assert |Slice(data, 15 + n, 31 + n)| == 16;
    }
    assert t.policy == data[15..15 + n];
    assert t.mac == data[15 + n..31 + n];
    assert ToLE(t.tStart, 4) == data[6..10] by { LEInjective(data[6..10]); }
    assert ToLE(t.tExpire, 4) == data[10..14] by { LEInjective(data[10..14]); }
    var parts := data[..6] + data[6..10] + data[10..14] + [n] + data[15..15 + n] + data[15 + n..31 + n];
    assert data[..31 + n] == parts;
  }

  // ---------------------------------------------------------------------------
  // AuthReq
  // ---------------------------------------------------------------------------

  datatype AuthReq = AuthReq(
    devPseudo: Bytes, csiId: int, epoch: int, nonce: Bytes, seqNo: int, algId: Bytes, ver: int,
    digest: Bytes, tag: Bytes)

  predicate ValidReq(r: AuthReq)
  {
    && |r.devPseudo| == 12 && IsU32(r.csiId) && IsU32(r.epoch) && |r.nonce| == 16
    && IsU32(r.seqNo) && IsU8(r.ver)
    && |r.digest| in {8, 16, 32}
    && |r.tag| in {12, 16, 20, 24, 32}
  }

  function CheckReq(r: AuthReq): (o: Outcome)
    ensures o.Pass? <==> ValidReq(r)
    ensures |r.devPseudo| != 12 ==> o == Fail("dev_pseudo must be 12 bytes")
  {
    if |r.devPseudo| != 12 then Fail("dev_pseudo must be 12 bytes")
    else if !IsU32(r.csiId) then Fail("csi_id must be in [0, 2^32-1]")
    else if !IsU32(r.epoch) then Fail("epoch must be in [0, 2^32-1]")
    else if |r.nonce| != 16 then Fail("nonce must be 16 bytes")
    else if !IsU32(r.seqNo) then Fail("seq must be in [0, 2^32-1]")
    else if !IsU8(r.ver) then Fail("ver must be in [0, 255]")
    else if |r.digest| !in {8, 16, 32} then Fail("digest must be 8/16/32 bytes")
    else if |r.tag| !in {12, 16, 20, 24, 32} then Fail("tag must be 12-32 bytes")
    else Pass
  }

  /** The constructor. */
  function NewReq(r: AuthReq): (o: Result<AuthReq>)
    ensures o.Ok? <==> ValidReq(r)
    ensures o.Ok? ==> o.value == r
  {
    OutcomeOf(CheckReq(r), r)
  }

  /** `serialize`: `pseudo ‖ csi_id ‖ epoch ‖ nonce ‖ seq ‖ len(alg) ‖ alg ‖ ver ‖ digest ‖ tag`. */
  function SerializeReq(r: AuthReq): (o: Result<Bytes>)
    requires ValidReq(r)
    ensures o.Ok? <==> |r.algId| < 256
    ensures o.Ok? ==> |o.value| == 42 + |r.algId| + |r.digest| + |r.tag|
  {
    if |r.algId| < 256 then
      Pow256Widths();
      var b: Bytes := r.devPseudo + ToLE(r.csiId, 4) + ToLE(r.epoch, 4) + r.nonce + ToLE(r.seqNo, 4)
        + [|r.algId|] + r.algId + [r.ver] + r.digest + r.tag;
      Ok(b)
    else
      Err("struct.error: ubyte format requires 0 <= number <= 255")
  }

  /**
   The request parser for a digest of `width` bytes: a minimum length of
   `54 + width`, the algorithm name read by its length byte, the version byte
   after it (an `IndexError` when the name runs past the end), then `width`
   digest bytes and the rest as the tag, all through the constructor's checks.
   */
  function ParseReq(data: Bytes, width: nat): (o: Result<AuthReq>)
    ensures |data| < 54 + width ==> o == Err("Invalid AuthReq data length")
    ensures o.Ok? ==> ValidReq(o.value) && |o.value.digest| == width
  {
    if |data| < 54 + width then Err("Invalid AuthReq data length")
    else
      var n: nat := data[40];
      if 41 + n >= |data| then Err("IndexError: index out of range")
      else
        var r := AuthReq(data[..12], FromLE(data[12..16]), FromLE(data[16..20]), data[20..36],
                         FromLE(data[36..40]), data[41..41 + n], data[41 + n],
                         Slice(data, 42 + n, 42 + n + width), Slice(data, 42 + n + width, |data|));
        OutcomeOf(CheckReq(r), r)
  }

  /** `AuthReq.deserialize` as written: the digest is always read as 32 bytes and 86 bytes are demanded. */
  function DeserializeReq(data: Bytes): (o: Result<AuthReq>)
    ensures |data| < 86 ==> o.Err?
    ensures o.Ok? ==> ValidReq(o.value) && |o.value.digest| == 32
  {
    ParseReq(data, 32)
  }

  /**
   The corrected parser: the digest width is the one the request was built
   with (the engine's configured digest length), so the message is split at
   the right place.
   */
  function DeserializeReqSized(data: Bytes, digestLength: nat): (o: Result<AuthReq>)
    requires digestLength in {8, 16, 32}
    ensures |data| < 54 + digestLength ==> o.Err?
    ensures o.Ok? ==> ValidReq(o.value) && |o.value.digest| == digestLength
  {
    ParseReq(data, digestLength)
  }

  /** The field slices of a serialised request. */
  lemma ReqLayout(r: AuthReq)
    requires ValidReq(r) && |r.algId| < 256
    ensures var d, n := SerializeReq(r).value, |r.algId|;
      && d[..12] == r.devPseudo && FromLE(d[12..16]) == r.csiId && FromLE(d[16..20]) == r.epoch
      && d[20..36] == r.nonce && FromLE(d[36..40]) == r.seqNo && d[40] == n
      && d[41..41 + n] == r.algId && d[41 + n] == r.ver
      && d[42 + n..] == r.digest + r.tag
  {
    Pow256Widths();
    var d, n := SerializeReq(r).value, |r.algId|;
    assert d[12..16] == ToLE(r.csiId, 4);
    assert d[16..20] == ToLE(r.epoch, 4);
    assert d[36..40] == ToLE(r.seqNo, 4);
    LERoundTrip(r.csiId, 4);
    LERoundTrip(r.epoch, 4);
    LERoundTrip(r.seqNo, 4);
    assert d[41..41 + n] == r.algId;
    assert d[42 + n..] == r.digest + r.tag;
  }

  /** The corrected parser inverts `serialize` for every valid request. */
  lemma ReqRoundTripSized(r: AuthReq)
    requires ValidReq(r) && |r.algId| < 256
    ensures DeserializeReqSized(SerializeReq(r).value, |r.digest|) == Ok(r)
  {
    var d, n, w := SerializeReq(r).value, |r.algId|, |r.digest|;
    ReqLayout(r);
    assert 54 + w <= |d|;
    var rest := d[42 + n..];
    assert Slice(d, 42 + n, 42 + n + w) == rest[..w] == r.digest;
    assert Slice(d, 42 + n + w, |d|) == rest[w..] == r.tag;
  }

  /** With a 32-byte digest the as-written parser agrees with the corrected one, so it round-trips. */
  lemma ReqRoundTrip32(r: AuthReq)
    requires ValidReq(r) && |r.algId| < 256 && |r.digest| == 32
    ensures DeserializeReq(SerializeReq(r).value) == Ok(r)
  {
    ReqRoundTripSized(r);
  }

  /**
   As written, a request round-trips exactly when its digest is 32 bytes: the
   fixed-width read swallows tag bytes into a shorter digest, or runs short of
   32 and yields a width the constructor rejects.
   */
  lemma ReqRoundTripOnlyAt32(r: AuthReq)
    requires ValidReq(r) && |r.algId| < 256
    ensures DeserializeReq(SerializeReq(r).value) == Ok(r) <==> |r.digest| == 32
  {
    if |r.digest| == 32 {
      ReqRoundTrip32(r);
    }
  }

  /** The engine's 8-byte digest: every such request fails to parse, whatever its tag width. */
  lemma EightByteDigestRejected(r: AuthReq)
    requires ValidReq(r) && |r.algId| < 256 && |r.digest| == 8
    ensures DeserializeReq(SerializeReq(r).value).Err?
  {
    var d, n := SerializeReq(r).value, |r.algId|;
    if |d| >= 86 {
      ReqLayout(r);
      var rest := d[42 + n..];
      assert |rest| == 8 + |r.tag|;
      var digest := Slice(d, 42 + n, 42 + n + 32);
      var tag := Slice(d, 42 + n + 32, |d|);
      assert |digest| == Min(32, 8 + |r.tag|);
      assert |tag| == Max(0, |r.tag| - 24);
      assert |digest| !in {8, 16, 32} || |tag| !in {12, 16, 20, 24, 32};
    }
  }

  // ---------------------------------------------------------------------------
  // MAT
  // ---------------------------------------------------------------------------

  /** The MAC admission token. */
  datatype Mat = Mat(issuer: Bytes, devPseudo: Bytes, epoch: int, ttl: int, matId: Bytes, signature: Bytes)

  predicate ValidMat(m: Mat)
  {
    && |m.issuer| == 6 && |m.devPseudo| == 12 && IsU32(m.epoch) && m.ttl > 0
    && |m.matId| == 16 && |m.signature| == 32
  }

  function CheckMat(m: Mat): (r: Outcome)
    ensures r.Pass? <==> ValidMat(m)
    ensures |m.issuer| == 6 && |m.devPseudo| == 12 && IsU32(m.epoch) && m.ttl <= 0 ==> r == Fail("ttl must be positive")
  {
    if |m.issuer| != 6 then Fail("issuer must be 6 bytes")
    else if |m.devPseudo| != 12 then Fail("dev_pseudo must be 12 bytes")
    else if !IsU32(m.epoch) then Fail("epoch must be in [0, 2^32-1]")
    else if m.ttl <= 0 then Fail("ttl must be positive")
    else if |m.matId| != 16 then Fail("mat_id must be 16 bytes")
    else if |m.signature| != 32 then Fail("signature must be 32 bytes")
    else Pass
  }

  /** The constructor. */
  function NewMat(m: Mat): (r: Result<Mat>)
    ensures r.Ok? <==> ValidMat(m)
    ensures r.Ok? ==> r.value == m
  {
    OutcomeOf(CheckMat(m), m)
  }

  const MAT_SIZE: nat := 74

  /** The part of a MAT its signature covers: `issuer ‖ pseudo ‖ epoch ‖ ttl ‖ mat_id`. */
  function MatBody(issuer: Bytes, pseudo: Bytes, epoch: nat, ttl: nat, matId: Bytes): (b: Bytes)
    requires epoch < U32_LIMIT && ttl < U32_LIMIT
    ensures |b| == |issuer| + |pseudo| + 8 + |matId|
  {
    Pow256Widths();
    issuer + pseudo + ToLE(epoch, 4) + ToLE(ttl, 4) + matId
  }

  /** `serialize`: the signed body followed by the signature, always 74 bytes; a TTL beyond 32 bits raises. */
  function SerializeMat(m: Mat): (r: Result<Bytes>)
    requires ValidMat(m)
    ensures r.Ok? <==> m.ttl < U32_LIMIT
    ensures r.Ok? ==> |r.value| == MAT_SIZE
  {
    if m.ttl < U32_LIMIT then Ok(MatBody(m.issuer, m.devPseudo, m.epoch, m.ttl, m.matId) + m.signature)
    else Err("struct.error: argument out of range")
  }

  /** `deserialize`: exactly 74 bytes, split at fixed offsets, then the constructor's checks. */
  function DeserializeMat(data: Bytes): (r: Result<Mat>)
    ensures |data| != MAT_SIZE ==> r == Err("Invalid MAT data length")
    ensures r.Ok? ==> ValidMat(r.value)
  {
    if |data| != MAT_SIZE then Err("Invalid MAT data length")
    else
      var m := Mat(data[..6], data[6..18], FromLE(data[18..22]), FromLE(data[22..26]), data[26..42], data[42..74]);
      OutcomeOf(CheckMat(m), m)
  }

  lemma MatRoundTrip(m: Mat)
    requires ValidMat(m) && m.ttl < U32_LIMIT
    ensures DeserializeMat(SerializeMat(m).value) == Ok(m)
  {
    Pow256Widths();
    var d := SerializeMat(m).value;
    assert d[18..22] == ToLE(m.epoch, 4);
    assert d[22..26] == ToLE(m.ttl, 4);
    LERoundTrip(m.epoch, 4);
    LERoundTrip(m.ttl, 4);
    assert d[..6] == m.issuer && d[6..18] == m.devPseudo;
    assert d[26..42] == m.matId && d[42..74] == m.signature;
  }

  /** Every accepted 74-byte string is the serialisation of what was read from it. */
  lemma MatBytesRoundTrip(data: Bytes)
    requires DeserializeMat(data).Ok?
    ensures SerializeMat(DeserializeMat(data).value) == Ok(data)
  {
    Pow256Widths();
    LEInjective(data[18..22]);
    LEInjective(data[22..26]);
    assert data == data[..6] + data[6..18] + data[18..22] + data[22..26] + data[26..42] + data[42..74];
  }
}

=== FILE: auth_config.dfy ===
/**
 The authentication layer's configuration (`AuthConfig`): the defaults, the
 ordered checks `validate` performs (run by `__post_init__`, so a value that
 fails them is never constructed) and the predefined profiles. The RFF
 threshold is a float in the source and a `real` here.
 */
module AuthConfig {
  import opened Wrappers

  datatype Config = Config(
    mode1Enabled: bool,
    mode2Enabled: bool,
    rffThreshold: real,
    tokenFastTtl: int,
    kMgmtLength: int,
    tagLength: int,
    pseudoLength: int,
    matTtl: int,
    matIdLength: int,
    signatureLength: int,
    nonceLength: int,
    epochMax: int,
    hashAlgorithm: string,
    macAlgorithm: string,
    maxDevices: int,
    logLevel: string
  )

  /** The dataclass defaults: mode 2 only, BLAKE3 for hashing and MACs. */
  function Default(): Config
  {
    Config(
      mode1Enabled := false, mode2Enabled := true,
      rffThreshold := 0.8, tokenFastTtl := 60, kMgmtLength := 32,
      tagLength := 16, pseudoLength := 12, matTtl := 300, matIdLength := 16, signatureLength := 32,
      nonceLength := 16, epochMax := 0xFFFF_FFFF,
      hashAlgorithm := "blake3", macAlgorithm := "blake3",
      maxDevices := 10000, logLevel := "INFO")
  }

  function HighSecurity(): Config
  {
    Default().(mode1Enabled := false, mode2Enabled := true, tagLength := 32, pseudoLength := 16,
               matTtl := 180, signatureLength := 32)
  }

  function LowLatency(): Config
  {
    Default().(mode1Enabled := true, mode2Enabled := true, rffThreshold := 0.75, tokenFastTtl := 30,
               tagLength := 12, matTtl := 600)
  }

  function IotOptimized(): Config
  {
    Default().(mode1Enabled := true, mode2Enabled := true, rffThreshold := 0.7, tokenFastTtl := 120,
               tagLength := 12, pseudoLength := 8, matTtl := 600, logLevel := "WARNING")
  }

  /** The mode-1 bounds: a threshold in [0, 1], a positive token lifetime, a 16- or 32-byte management key. */
  predicate Mode1Valid(c: Config)
  {
    0.0 <= c.rffThreshold <= 1.0 && c.tokenFastTtl > 0 && c.kMgmtLength in {16, 32}
  }

  /** The mode-2 bounds on tag, pseudonym, MAT lifetime and nonce. */
  predicate Mode2Valid(c: Config)
  {
    && c.tagLength in {8, 12, 16, 20, 24, 32}
    && c.pseudoLength in {8, 12, 16}
    && c.matTtl > 0
    && c.nonceLength in {12, 16, 24, 32}
  }

  /** Everything `validate` accepts: each mode's bounds apply only when that mode is enabled. */
  predicate Valid(c: Config)
  {
    && (c.mode1Enabled || c.mode2Enabled)
    && (c.mode1Enabled ==> Mode1Valid(c))
    && (c.mode2Enabled ==> Mode2Valid(c))
    && c.hashAlgorithm in {"blake3", "sha256"}
    && c.macAlgorithm in {"blake3", "hmac-sha256"}
    && c.logLevel in {"DEBUG", "INFO", "WARNING", "ERROR", "CRITICAL"}
  }

  /** The mode-1 checks of `validate`, in order. */
  function CheckMode1(c: Config): (r: Outcome)
    ensures r.Pass? <==> Mode1Valid(c)
    ensures !(0.0 <= c.rffThreshold <= 1.0) ==> r == Fail("RFF_THRESHOLD must be in [0.0, 1.0]")
  {
    if !(0.0 <= c.rffThreshold <= 1.0) then Fail("RFF_THRESHOLD must be in [0.0, 1.0]")
    else if c.tokenFastTtl <= 0 then Fail("TOKEN_FAST_TTL must be positive")
    else if c.kMgmtLength !in {16, 32} then Fail("K_MGMT_LENGTH must be 16 or 32")
    else Pass
  }

  /** The mode-2 checks of `validate`, in order. */
  function CheckMode2(c: Config): (r: Outcome)
    ensures r.Pass? <==> Mode2Valid(c)
    ensures c.tagLength !in {8, 12, 16, 20, 24, 32} ==> r == Fail("TAG_LENGTH must be 8-32 bytes")
  {
    if c.tagLength !in {8, 12, 16, 20, 24, 32} then Fail("TAG_LENGTH must be 8-32 bytes")
    else if c.pseudoLength !in {8, 12, 16} then Fail("PSEUDO_LENGTH must be 8-16 bytes")
    else if c.matTtl <= 0 then Fail("MAT_TTL must be positive")
    else if c.nonceLength !in {12, 16, 24, 32} then Fail("NONCE_LENGTH must be 12-32 bytes")
    else Pass
  }

  /** The algorithm and log-level name checks of `validate`, in order. */
  function CheckNames(c: Config): (r: Outcome)
    ensures r.Pass? <==>
      && c.hashAlgorithm in {"blake3", "sha256"}
      && c.macAlgorithm in {"blake3", "hmac-sha256"}
      && c.logLevel in {"DEBUG", "INFO", "WARNING", "ERROR", "CRITICAL"}
  {
    if c.hashAlgorithm !in {"blake3", "sha256"} then Fail("HASH_ALGORITHM must be 'blake3' or 'sha256'")
    else if c.macAlgorithm !in {"blake3", "hmac-sha256"} then Fail("MAC_ALGORITHM must be 'blake3' or 'hmac-sha256'")
    else if c.logLevel !in {"DEBUG", "INFO", "WARNING", "ERROR", "CRITICAL"} then Fail("LOG_LEVEL not allowed")
    else Pass
  }

  /** `validate`: the checks in the source's order, raising on the first violation. */
  function Validate(c: Config): (r: Outcome)
    ensures r.Pass? <==> Valid(c)
    ensures !c.mode1Enabled && !c.mode2Enabled ==> r == Fail("At least one authentication mode must be enabled")
    ensures c.mode1Enabled && !(0.0 <= c.rffThreshold <= 1.0) ==> r == Fail("RFF_THRESHOLD must be in [0.0, 1.0]")
    ensures !c.mode1Enabled && c.mode2Enabled && c.tagLength !in {8, 12, 16, 20, 24, 32} ==>
      r == Fail("TAG_LENGTH must be 8-32 bytes")
  {
    if !c.mode1Enabled && !c.mode2Enabled then Fail("At least one authentication mode must be enabled")
    else if c.mode1Enabled && CheckMode1(c).Fail? then CheckMode1(c)
    else if c.mode2Enabled && CheckMode2(c).Fail? then CheckMode2(c)
    else CheckNames(c)
  }

  /** The dataclass constructor: `__post_init__` validates, so every constructed config is valid. */
  function Create(c: Config): (r: Result<Config>)
    ensures r.Ok? <==> Valid(c)
    ensures r.Ok? ==> r.value == c && Valid(r.value)
    ensures r.Err? ==> Validate(c) == Fail(r.error)
  {
    match Validate(c)
    case Pass => Ok(c)
    case Fail(e) => Err(e)
  }

  /** With mode 1 disabled its parameters are never looked at: any values give the same verdict. */
  lemma Mode1BoundsIgnoredWhenOff(c: Config, threshold: real, ttl: int, kLen: int)
    requires !c.mode1Enabled
    ensures Validate(c.(rffThreshold := threshold, tokenFastTtl := ttl, kMgmtLength := kLen)) == Validate(c)
  {
  }

  /** With mode 2 disabled its parameters are never looked at. */
  lemma Mode2BoundsIgnoredWhenOff(c: Config, tag: int, pseudo: int, matTtl: int, nonce: int)
    requires !c.mode2Enabled
    ensures Validate(c.(tagLength := tag, pseudoLength := pseudo, matTtl := matTtl, nonceLength := nonce)) == Validate(c)
  {
  }

  lemma ProfilesValid()
    ensures Create(Default()).Ok? && Create(HighSecurity()).Ok?
    ensures Create(LowLatency()).Ok? && Create(IotOptimized()).Ok?
  {
  }

  /** A configuration with both modes switched off cannot be constructed. */
  lemma NoModeRejected()
    ensures Create(Default().(mode2Enabled := false)) == Err("At least one authentication mode must be enabled")
  {
  }
}

=== FILE: auth_utils.dfy ===
/**
 The authentication layer's cryptographic glue (`utils.py`): hash and MAC
 dispatch by algorithm name, the BLAKE3 key-length guard, truncation,
 comparison and the hexadecimal encoding. BLAKE3, SHA-256 and HMAC-SHA256
 themselves are parameters; only their output lengths are assumed. BLAKE3 is
 taken to be installed, so the fallbacks for a missing module are not modelled.
 */
module AuthUtils {
  import opened Wrappers
  import opened Bytes

  datatype Primitives = Primitives(
    blake3: (Bytes, nat) -> Bytes,
    sha256: Bytes -> Bytes,
    blake3Keyed: (Bytes, Bytes, nat) -> Bytes,
    hmacSha256: (Bytes, Bytes) -> Bytes)

  /** BLAKE3 yields as many bytes as asked for; SHA-256 and HMAC-SHA256 yield 32. */
  ghost predicate Sound(p: Primitives)
  {
    && (forall d, n :: |p.blake3(d, n)| == n)
    && (forall d :: |p.sha256(d)| == 32)
    && (forall k, d, n :: |p.blake3Keyed(k, d, n)| == n)
    && (forall k, d :: |p.hmacSha256(k, d)| == 32)
  }

  function OrDefault(length: Option<nat>): nat
  {
    if length.Some? then length.value else 32
  }

  /** `hash_data`: BLAKE3 honours the requested length, SHA-256 ignores it, any other name raises. */
  function HashData(p: Primitives, data: Bytes, algorithm: string, length: Option<nat>): (r: Result<Bytes>)
    requires Sound(p)
    ensures r.Err? <==> algorithm !in {"blake3", "sha256"}
    ensures algorithm == "blake3" ==> r == Ok(p.blake3(data, OrDefault(length))) && |r.value| == OrDefault(length)
    ensures algorithm == "sha256" ==> r == Ok(p.sha256(data)) && |r.value| == 32
  {
    if algorithm == "blake3" then Ok(p.blake3(data, OrDefault(length)))
    else if algorithm == "sha256" then Ok(p.sha256(data))
    else Err("Unsupported hash algorithm")
  }

  /** `blake3_mac`: keyed BLAKE3, refusing keys shorter than 32 bytes. */
  function Blake3Mac(p: Primitives, key: Bytes, data: Bytes, length: Option<nat>): (r: Result<Bytes>)
    requires Sound(p)
    ensures r.Ok? <==> |key| >= 32
    ensures r.Ok? ==> r.value == p.blake3Keyed(key, data, OrDefault(length)) && |r.value| == OrDefault(length)
  {
    if |key| < 32 then Err("Key length must be at least 32 bytes")
    else Ok(p.blake3Keyed(key, data, OrDefault(length)))
  }

  /**
   `compute_mac`: BLAKE3-MAC with the requested length, or HMAC-SHA256 whose
   32 bytes ignore the requested length; any other name raises.
   */
  function ComputeMac(p: Primitives, key: Bytes, data: Bytes, algorithm: string, length: Option<nat>): (r: Result<Bytes>)
    requires Sound(p)
    ensures algorithm !in {"blake3", "hmac-sha256"} ==> r.Err?
    ensures algorithm == "blake3" ==> r == Blake3Mac(p, key, data, length)
    ensures algorithm == "hmac-sha256" ==> r == Ok(p.hmacSha256(key, data)) && |r.value| == 32
  {
    if algorithm == "blake3" then Blake3Mac(p, key, data, length)
    else if algorithm == "hmac-sha256" then Ok(p.hmacSha256(key, data))
    else Err("Unsupported MAC algorithm")
  }

  /** `truncate`: the first `length` bytes; raises when there are fewer. */
  function Truncate(data: Bytes, length: int): (r: Result<Bytes>)
    ensures r.Ok? <==> |data| >= length
    ensures r.Ok? && length >= 0 ==> |r.value| == length && r.value == data[..length]
    ensures r.Ok? && length < 0 ==> r.value == data[..Max(|data| + length, 0)]
  {
    if |data| < length then Err("Data length < required length")
    else Ok(Prefix(data, length))
  }

  /** `constant_time_compare`: byte equality, false for different lengths. */
  predicate ConstantTimeEqual(a: Bytes, b: Bytes)
  {
    |a| == |b| && forall i | 0 <= i < |a| :: a[i] == b[i]
  }

  lemma ConstantTimeEqualIsEquality(a: Bytes, b: Bytes)
    ensures ConstantTimeEqual(a, b) <==> a == b
  {
  }

  // ---------------------------------------------------------------------------
  // Hexadecimal
  // ---------------------------------------------------------------------------

  const HEX_DIGITS: string := "0123456789abcdef"

  /** The value of one hexadecimal digit, either case. */
  function DigitValue(ch: char): (v: Option<nat>)
    ensures v.Some? ==> v.value < 16
  {
    if '0' <= ch <= '9' then Some(ch as int - '0' as int)
    else if 'a' <= ch <= 'f' then Some(ch as int - 'a' as int + 10)
    else if 'A' <= ch <= 'F' then Some(ch as int - 'A' as int + 10)
    else None
  }

  /** `f'{b:02x}'`: two lower-case digits, high nibble first. */
  function HexPair(b: Byte): (r: string)
    ensures |r| == 2 && DigitValue(r[0]) == Some(b / 16) && DigitValue(r[1]) == Some(b % 16)
  {
    [HEX_DIGITS[b / 16], HEX_DIGITS[b % 16]]
  }

  /** `data.hex()`. */
  function ToHex(data: Bytes): (r: string)
    ensures |r| == 2 * |data|
  {
    if |data| == 0 then "" else HexPair(data[0]) + ToHex(data[1..])
  }

  /** `sep.join(f'{b:02x}' for b in data)`. */
  function JoinHex(data: Bytes, sep: string): (r: string)
  {
    if |data| == 0 then ""
    else if |data| == 1 then HexPair(data[0])
    else HexPair(data[0]) + sep + JoinHex(data[1..], sep)
  }

  /** `bytes_to_hex`: bare digits for an empty separator, joined pairs otherwise. */
  function BytesToHex(data: Bytes, sep: string): (r: string)
  {
    if sep == "" then ToHex(data) else JoinHex(data, sep)
  }

  predicate IsSeparator(ch: char) { ch == ':' || ch == '-' || ch == ' ' }

  /** The three `replace` calls of `hex_to_bytes`: every ':', '-' and ' ' removed. */
  function RemoveSeparators(s: string): (r: string)
    ensures |r| <= |s|
    ensures forall i | 0 <= i < |r| :: !IsSeparator(r[i])
  {
    if |s| == 0 then ""
    else (if IsSeparator(s[0]) then "" else [s[0]]) + RemoveSeparators(s[1..])
  }

  /** The ASCII whitespace `bytes.fromhex` skips: space, tab, line feed, vertical tab, form feed, carriage return. */
  predicate IsHexSpace(ch: char) { ch == ' ' || 9 <= ch as int <= 13 }

  /**
   `bytes.fromhex`: whitespace is skipped before each pair of digits, never
   inside one; an odd digit count or any other character raises.
   */
  function FromHex(s: string): (r: Result<Bytes>)
    ensures r.Ok? ==> 2 * |r.value| <= |s|
    ensures r.Ok? && (forall i | 0 <= i < |s| :: !IsHexSpace(s[i])) ==> 2 * |r.value| == |s|
  {
    if |s| == 0 then Ok([])
    else if IsHexSpace(s[0]) then FromHex(s[1..])
    else if |s| >= 2 && DigitValue(s[0]).Some? && DigitValue(s[1]).Some? then
      var b: Byte := 16 * DigitValue(s[0]).value + DigitValue(s[1]).value;
      var rest :- FromHex(s[2..]);
      Ok([b] + rest)
    else Err("non-hexadecimal number found in fromhex() arg")
  }

  /** Whitespace between pairs is skipped; whitespace splitting a pair raises. */
  lemma FromHexWhitespace()
    ensures FromHex("ab\ncd") == Ok([0xab, 0xcd])
    ensures FromHex("\tab cd\r") == Ok([0xab, 0xcd])
    ensures FromHex("a\nb").Err?
  {
    assert "ab\ncd"[2..] == "\ncd" && "\ncd"[1..] == "cd" && "cd"[2..] == "";
    assert DigitValue('c') == Some(12) && DigitValue('d') == Some(13);
    assert FromHex("") == Ok([]);
    assert [0xcd] + [] == [0xcd];
    assert FromHex("cd") == Ok([0xcd]);
    assert FromHex("\ncd") == Ok([0xcd]);
    assert DigitValue('a') == Some(10) && DigitValue('b') == Some(11);
    assert [0xab] + [0xcd] == [0xab, 0xcd];
    assert "\tab cd\r"[1..] == "ab cd\r" && "ab cd\r"[2..] == " cd\r";
    assert " cd\r"[1..] == "cd\r" && "cd\r"[2..] == "\r" && "\r"[1..] == "";
  }

  /** `hex_to_bytes`. */
  function HexToBytes(s: string): (r: Result<Bytes>)
  {
    FromHex(RemoveSeparators(s))
  }

  lemma {:induction false} RemoveSeparatorsAppend(a: string, b: string)
    ensures RemoveSeparators(a + b) == RemoveSeparators(a) + RemoveSeparators(b)
  {
    if |a| > 0 {
      assert (a + b)[1..] == a[1..] + b;
      RemoveSeparatorsAppend(a[1..], b);
    } else {
      assert a + b == b;
    }
  }

  lemma RemoveSeparatorsOfHexPair(b: Byte)
    ensures RemoveSeparators(HexPair(b)) == HexPair(b)
  {
    var h := HexPair(b);
    assert !IsSeparator(h[0]) && !IsSeparator(h[1]);
    assert h[1..][1..] == "";
  }

  lemma {:induction false} RemoveSeparatorsOfSep(sep: string)
    requires forall i | 0 <= i < |sep| :: IsSeparator(sep[i])
    ensures RemoveSeparators(sep) == ""
  {
    if |sep| > 0 {
      RemoveSeparatorsOfSep(sep[1..]);
    }
  }

  /** Removing separators from a joined string leaves the bare digits. */
  lemma {:induction false} JoinHexStripped(data: Bytes, sep: string)
    requires forall i | 0 <= i < |sep| :: IsSeparator(sep[i])
    ensures RemoveSeparators(JoinHex(data, sep)) == ToHex(data)
  {
    if |data| == 1 {
      RemoveSeparatorsOfHexPair(data[0]);
      assert ToHex(data) == HexPair(data[0]) + ToHex(data[1..]);
    } else if |data| > 1 {
      var h, rest := HexPair(data[0]), JoinHex(data[1..], sep);
      RemoveSeparatorsAppend(h + sep, rest);
      RemoveSeparatorsAppend(h, sep);
      RemoveSeparatorsOfHexPair(data[0]);
      RemoveSeparatorsOfSep(sep);
      JoinHexStripped(data[1..], sep);
    }
  }

  lemma {:induction false} ToHexStripped(data: Bytes)
    ensures RemoveSeparators(ToHex(data)) == ToHex(data)
  {
    if |data| > 0 {
      RemoveSeparatorsAppend(HexPair(data[0]), ToHex(data[1..]));
      RemoveSeparatorsOfHexPair(data[0]);
      ToHexStripped(data[1..]);
    }
  }

  lemma {:induction false} FromHexOfToHex(data: Bytes)
    ensures FromHex(ToHex(data)) == Ok(data)
  {
    if |data| > 0 {
      var s := ToHex(data);
      assert |s| >= 2 && DigitValue(s[0]) == Some(data[0] / 16) && DigitValue(s[1]) == Some(data[0] % 16)
          && s[2..] == ToHex(data[1..]) by {
        assert s == HexPair(data[0]) + ToHex(data[1..]);
      }
      FromHexOfToHex(data[1..]);
      FromHexStep(s, data[0], data[1..]);
      assert data == [data[0]] + data[1..];
    }
  }

  /** A leading pair of digits is read as one byte before the rest. */
  lemma FromHexStep(s: string, b: Byte, rest: Bytes)
    requires |s| >= 2 && DigitValue(s[0]) == Some(b / 16) && DigitValue(s[1]) == Some(b % 16)
    requires FromHex(s[2..]) == Ok(rest)
    ensures FromHex(s) == Ok([b] + rest)
  {
    assert 16 * (b / 16) + b % 16 == b;
  }

  /** `hex_to_bytes(bytes_to_hex(d, sep)) == d` for every separator made of ':', '-' and ' ' (including none). */
  lemma HexRoundTrip(data: Bytes, sep: string)
    requires forall i | 0 <= i < |sep| :: IsSeparator(sep[i])
    ensures HexToBytes(BytesToHex(data, sep)) == Ok(data)
  {
    if sep == "" {
      ToHexStripped(data);
    } else {
      JoinHexStripped(data, sep);
    }
    FromHexOfToHex(data);
  }

  lemma HexRoundTripCommonSeparators(data: Bytes)
    ensures HexToBytes(BytesToHex(data, "")) == Ok(data)
    ensures HexToBytes(BytesToHex(data, ":")) == Ok(data)
    ensures HexToBytes(BytesToHex(data, "-")) == Ok(data)
    ensures HexToBytes(BytesToHex(data, " ")) == Ok(data)
  {
    HexRoundTrip(data, "");
    HexRoundTrip(data, ":");
    HexRoundTrip(data, "-");
    HexRoundTrip(data, " ");
  }
}

=== FILE: beacon.dfy ===
/**
 The cluster head's synchronization beacon (`core/beacon.py`): the signed
 fields, the wire layout and HMAC signing over everything but the signature.
 */
module SyncBeacon {
  import opened Wrappers
  import opened Bytes
  import Hkdf
  import opened Tlv
  import Cfg = SyncFeatureConfig
  import Signatures

  datatype Beacon = Beacon(
    epoch: int,
    timestamp: int,
    deltaT: int,
    clusterHeadId: Bytes,
    beaconSeq: int,
    featureConfig: Cfg.FeatureConfig,
    signature: Bytes)

  /** Every field fits the width `pack` writes it in, the nested configuration packs, and its length fits 16 bits. */
  predicate SignedFieldsFit(b: Beacon)
  {
    && IsU32(b.epoch)
    && IsU64(b.timestamp)
    && IsU32(b.deltaT)
    && |b.clusterHeadId| == 6
    && IsU32(b.beaconSeq)
    && Cfg.WellFormed(b.featureConfig)
    && Cfg.PackedSize(b.featureConfig) < U16_LIMIT
  }

  /** What `pack` needs: the signed fields fit and the signature is 32 bytes. */
  predicate WellFormed(b: Beacon)
  {
    SignedFieldsFit(b) && |b.signature| == 32
  }

  /** The fixed-width header: epoch, timestamp, period, head id and sequence number, 26 bytes. */
  function HeaderBytes(b: Beacon): (r: Bytes)
    requires SignedFieldsFit(b)
    ensures |r| == 26
  {
    Pow256Widths();
    ToBE(b.epoch, 4) + ToBE(b.timestamp, 8) + ToBE(b.deltaT, 4) + b.clusterHeadId + ToBE(b.beaconSeq, 4)
  }

  /** The header, then the packed configuration behind its 2-byte length. */
  function SignedBytes(b: Beacon): (r: Bytes)
    requires SignedFieldsFit(b)
    ensures |r| == 28 + Cfg.PackedSize(b.featureConfig)
  {
    HeaderBytes(b) + EncodeBytes(Cfg.Layout(b.featureConfig)).value
  }

  /**
   `compute_signature_data`: the header and the length-prefixed packed
   configuration; it raises when a field is out of range or the
   configuration cannot be packed.
   */
  function ComputeSignatureData(b: Beacon): (r: Result<Bytes>)
    ensures r.Ok? <==> SignedFieldsFit(b)
    ensures r.Ok? ==> r.value == SignedBytes(b)
  {
    if SignedFieldsFit(b) then Ok(SignedBytes(b)) else Err("argument out of range")
  }

  /** `pack`: the signature data followed by the 32-byte signature. */
  function Pack(b: Beacon): (r: Result<Bytes>)
    ensures r.Ok? <==> WellFormed(b)
    ensures r.Ok? ==> r.value == ComputeSignatureData(b).value + b.signature
    ensures r.Ok? ==> |r.value| == 60 + Cfg.PackedSize(b.featureConfig)
  {
    var data :- ComputeSignatureData(b);
    var sig :- EncodeFixed(b.signature, 32);
    Ok(data + sig)
  }

  /** The header fields as `unpack` reads them. */
  datatype Header = Header(epoch: int, timestamp: int, deltaT: int, clusterHeadId: Bytes, beaconSeq: int)

  function ReadHeader(d: Decoder): (r: Result<(Header, Decoder)>)
    ensures r.Ok? <==> d.offset + 26 <= |d.data|
    ensures r.Ok? ==> r.value.1 == d.(offset := d.offset + 26)
  {
    Pow256Widths();
    var (epoch, d1) :- DecodeUint(d, 4);
    var (timestamp, d2) :- DecodeUint(d1, 8);
    var (deltaT, d3) :- DecodeUint(d2, 4);
    var (id, d4) :- DecodeFixed(d3, 6);
    var (beaconSeq, d5) :- DecodeUint(d4, 4);
    Ok((Header(epoch, timestamp, deltaT, id, beaconSeq), d5))
  }

  /**
   `unpack`: the header, the length-prefixed configuration (unpacked in
   turn, with `render` standing for the float-to-text step) and the 32-byte
   signature. Trailing bytes are ignored.
   */
  function Unpack(data: Bytes, render: Bytes -> Bytes): (r: Result<Beacon>)
  {
    var (h, d1) :- ReadHeader(Decoder(data, 0));
    var (config, signature) :- ReadBody(d1, render);
    Ok(Beacon(h.epoch, h.timestamp, h.deltaT, h.clusterHeadId, h.beaconSeq, config, signature))
  }

  /** The reads of `unpack` after the header: the nested configuration, then the signature. */
  function ReadBody(d: Decoder, render: Bytes -> Bytes): (r: Result<(Cfg.FeatureConfig, Bytes)>)
    ensures r.Ok? ==> |r.value.1| == 32
  {
    var (configData, d1) :- DecodeBytes(d);
    var config :- Cfg.Unpack(configData, render);
    var (signature, _) :- DecodeFixed(d1, 32);
    Ok((config, signature))
  }

  lemma ReadHeaderBack(d: Decoder, b: Beacon)
    requires SignedFieldsFit(b) && At(d, HeaderBytes(b))
    ensures ReadHeader(d) == Ok((Header(b.epoch, b.timestamp, b.deltaT, b.clusterHeadId, b.beaconSeq), d.(offset := d.offset + 26)))
  {
    Pow256Widths();
    var e, t, p := ToBE(b.epoch, 4), ToBE(b.timestamp, 8), ToBE(b.deltaT, 4);
    var o := d.offset;
    AtSplit(d, e + t + p + b.clusterHeadId, ToBE(b.beaconSeq, 4));
    AtSplit(d, e + t + p, b.clusterHeadId);
    AtSplit(d, e + t, p);
    AtSplit(d, e, t);
    ReadUintBE(d, b.epoch, 4);
    ReadUintBE(d.(offset := o + 4), b.timestamp, 8);
    ReadUintBE(d.(offset := o + 12), b.deltaT, 4);
    ReadFixed(d.(offset := o + 16), b.clusterHeadId);
    ReadUintBE(d.(offset := o + 22), b.beaconSeq, 4);
  }

  /**
   `unpack(pack(b))` restores epoch, timestamp, period, head id, sequence
   number and signature; the configuration comes back as it looks after a
   trip over the wire.
   */
  lemma PackRoundTrip(b: Beacon, render: Bytes -> Bytes)
    requires WellFormed(b)
    ensures Unpack(Pack(b).value, render) == Ok(b.(featureConfig := Cfg.Transit(b.featureConfig, render)))
  {
    var h, e := HeaderBytes(b), EncodeBytes(Cfg.Layout(b.featureConfig)).value;
    assert Pack(b).value == (h + e) + b.signature;
    ConcatAssoc(h, e, b.signature);
    UnpackLayout(b, render, Pack(b).value);
  }

  /** Bytes laid out as `pack` writes them are read back by `unpack`. */
  lemma UnpackLayout(b: Beacon, render: Bytes -> Bytes, data: Bytes)
    requires WellFormed(b)
    requires data == HeaderBytes(b) + (EncodeBytes(Cfg.Layout(b.featureConfig)).value + b.signature)
    ensures Unpack(data, render) == Ok(b.(featureConfig := Cfg.Transit(b.featureConfig, render)))
  {
    var h, rest := HeaderBytes(b), EncodeBytes(Cfg.Layout(b.featureConfig)).value + b.signature;
    var d, d1 := Decoder(data, 0), Decoder(data, 26);
    assert At(d, h) && At(d1, rest) by {
      assert At(d, data);
      AtSplit(d, h, rest);
    }
    var header := Header(b.epoch, b.timestamp, b.deltaT, b.clusterHeadId, b.beaconSeq);
    assert ReadHeader(d) == Ok((header, d1)) by {
      ReadHeaderBack(d, b);
    }
    ReadBodyBack(d1, b.featureConfig, b.signature, render);
    assert Unpack(data, render) == Ok(Beacon(b.epoch, b.timestamp, b.deltaT, b.clusterHeadId, b.beaconSeq, Cfg.Transit(b.featureConfig, render), b.signature));
  }

  lemma ReadBodyBack(d: Decoder, c: Cfg.FeatureConfig, signature: Bytes, render: Bytes -> Bytes)
    requires Cfg.WellFormed(c) && Cfg.PackedSize(c) < U16_LIMIT && |signature| == 32
    requires At(d, EncodeBytes(Cfg.Layout(c)).value + signature)
    ensures ReadBody(d, render) == Ok((Cfg.Transit(c, render), signature))
  {
    var layout := Cfg.Layout(c);
    var cfg := EncodeBytes(layout).value;
    var d1 := d.(offset := d.offset + |cfg|);
    assert |cfg| == 2 + |layout|;
    assert DecodeBytes(d) == Ok((layout, d1)) by {
      AtSplit(d, cfg, signature);
      ReadBytes(d, layout);
    }
    assert Cfg.Unpack(layout, render) == Ok(Cfg.Transit(c, render)) by {
      Cfg.PackRoundTrip(c, render);
    }
    assert DecodeFixed(d1, 32) == Ok((signature, d1.(offset := d1.offset + 32))) by {
      AtSplit(d, cfg, signature);
      ReadFixed(d1, signature);
    }
    assert ReadBody(d, render) == Ok((Cfg.Transit(c, render), signature));
  }

  /** A configuration after a trip packs to the same bytes, so the signature data survives the wire. */
  lemma TransitKeepsSignatureData(b: Beacon, render: Bytes -> Bytes)
    ensures ComputeSignatureData(b.(featureConfig := Cfg.Transit(b.featureConfig, render))) == ComputeSignatureData(b)
  {
    Cfg.TransitRepacks(b.featureConfig, render);
    var b' := b.(featureConfig := Cfg.Transit(b.featureConfig, render));
    assert Cfg.WellFormed(b'.featureConfig) <==> Cfg.WellFormed(b.featureConfig);
    if SignedFieldsFit(b) {
      assert Cfg.Layout(b'.featureConfig) == Cfg.Layout(b.featureConfig);
    }
  }

  /** `pack(b)` is the signature data followed by the signature. */
  lemma PackIsSignatureDataThenSignature(b: Beacon)
    requires WellFormed(b)
    ensures Pack(b).value == ComputeSignatureData(b).value + b.signature
    ensures Pack(b).value[..|Pack(b).value| - 32] == ComputeSignatureData(b).value
  {
  }

  /** `sign`: replaces the signature with the 32-byte HMAC of the signature data; raises when that data cannot be built. */
  function Sign(p: Hkdf.Primitives, key: Bytes, b: Beacon): (r: Result<Beacon>)
    requires Hkdf.Sound(p)
    ensures r.Ok? <==> SignedFieldsFit(b)
    ensures r.Ok? ==> r.value == b.(signature := r.value.signature) && |r.value.signature| == 32
    ensures r.Ok? ==> WellFormed(r.value)
  {
    var data :- ComputeSignatureData(b);
    Ok(b.(signature := Signatures.Sign(p, key, data)))
  }

  /** `verify`: whether the signature is the HMAC of the signature data under `key`. */
  function Verify(p: Hkdf.Primitives, key: Bytes, b: Beacon): (r: Result<bool>)
    requires Hkdf.Sound(p)
    ensures r.Ok? <==> SignedFieldsFit(b)
    ensures r.Ok? ==> (r.value <==> b.signature == Signatures.Sign(p, key, ComputeSignatureData(b).value))
  {
    var data :- ComputeSignatureData(b);
    Ok(Signatures.Verify(p, key, data, b.signature))
  }

  /** A signed beacon verifies under the key it was signed with. */
  lemma SignThenVerify(p: Hkdf.Primitives, key: Bytes, b: Beacon)
    requires Hkdf.Sound(p) && SignedFieldsFit(b)
    ensures Verify(p, key, Sign(p, key, b).value) == Ok(true)
  {
    var s := Sign(p, key, b).value;
    assert ComputeSignatureData(s) == ComputeSignatureData(b);
  }

  /** A signed beacon still verifies after `pack` and `unpack`. */
  lemma SignedBeaconVerifiesAfterTrip(p: Hkdf.Primitives, key: Bytes, b: Beacon, render: Bytes -> Bytes)
    requires Hkdf.Sound(p) && SignedFieldsFit(b)
    ensures Pack(Sign(p, key, b).value).Ok?
    ensures Unpack(Pack(Sign(p, key, b).value).value, render).Ok?
    ensures Verify(p, key, Unpack(Pack(Sign(p, key, b).value).value, render).value) == Ok(true)
  {
    var s := Sign(p, key, b).value;
    PackRoundTrip(s, render);
    var t := s.(featureConfig := Cfg.Transit(s.featureConfig, render));
    TransitKeepsSignatureData(s, render);
    SignThenVerify(p, key, b);
    assert ComputeSignatureData(s) == ComputeSignatureData(b);
  }
}

=== FILE: bits.dfy ===
/**
 Bit strings and their least-significant-bit-first packing into bytes, the
 convention of the fuzzy extractor's `_bits_to_bytes` / `_bytes_to_bits` and of
 key derivation's `bits_to_bytes` (one definition serves both).
 */
module Bits {
  import opened Bytes

  function BitValue(b: bool): nat { if b then 1 else 0 }

  /** `n` zero bits, Python's `[0] * n`. */
  function Falses(n: nat): (r: seq<bool>)
    ensures |r| == n && forall i | 0 <= i < n :: !r[i]
  {
    seq(n, _ => false)
  }

  /** `b + [0] * (n - len(b))`: pads with zero bits up to `n`; never shortens. */
  function PadTo(b: seq<bool>, n: int): (r: seq<bool>)
    ensures |r| == Max(|b|, n)
    ensures r[..|b|] == b
    ensures forall i | 0 <= i < |r| :: r[i] == (i < |b| && b[i])
  {
    if n <= |b| then b else b + Falses(n - |b|)
  }

  /** `[x ^ y for x, y in zip(a, b)]`: stops at the shorter operand. */
  function ZipXor(a: seq<bool>, b: seq<bool>): (r: seq<bool>)
    ensures |r| == Min(|a|, |b|)
    ensures forall i | 0 <= i < |r| :: r[i] == (a[i] != b[i])
  {
    seq(Min(|a|, |b|), i requires 0 <= i < Min(|a|, |b|) => a[i] != b[i])
  }

  lemma ZipXorInvolution(a: seq<bool>, b: seq<bool>)
    requires |a| <= |b|
    ensures ZipXor(ZipXor(a, b), b) == a
  {
  }

  /** The number of set bits, a bit string's Hamming weight. */
  function Ones(bits: seq<bool>): (r: nat)
    ensures r <= |bits|
  {
    if |bits| == 0 then 0 else BitValue(bits[0]) + Ones(bits[1..])
  }

  /** The Hamming distance: the positions, up to the shorter length, where two strings differ. */
  function Distance(a: seq<bool>, b: seq<bool>): nat
  {
    Ones(ZipXor(a, b))
  }

  lemma {:induction false} OnesAppend(a: seq<bool>, b: seq<bool>)
    ensures Ones(a + b) == Ones(a) + Ones(b)
  {
    if |a| == 0 {
      assert a + b == b;
    } else {
      assert (a + b)[1..] == a[1..] + b;
      OnesAppend(a[1..], b);
    }
  }

  lemma {:induction false} OnesFalses(n: nat)
    ensures Ones(Falses(n)) == 0
  {
    if n > 0 {
      assert Falses(n)[1..] == Falses(n - 1);
      OnesFalses(n - 1);
    }
  }

  lemma DistanceSelf(b: seq<bool>)
    ensures Distance(b, b) == 0
  {
    assert ZipXor(b, b) == Falses(|b|);
    OnesFalses(|b|);
  }

  lemma Pow2Mono(a: nat, b: nat)
    requires a <= b
    ensures Pow2(a) <= Pow2(b)
  {
  }

  /** Up to eight bits as one byte value, bit `j` weighing `2^j`; absent bits are zero. */
  function PackByte(c: seq<bool>): (r: nat)
    ensures r < Pow2(|c|)
  {
    if |c| == 0 then 0 else BitValue(c[0]) + 2 * PackByte(c[1..])
  }

  /** The low `k` bits of `x`, least significant first. */
  function ByteBits(x: nat, k: nat): (r: seq<bool>)
    ensures |r| == k
  {
    if k == 0 then [] else [x % 2 == 1] + ByteBits(x / 2, k - 1)
  }

  /** `_bits_to_bytes`: zero-pad to a multiple of eight, then pack each group of eight. */
  function BitsToBytes(bits: seq<bool>): (r: Bytes)
    ensures |r| == (|bits| + 7) / 8
  {
    if |bits| == 0 then []
    else
      var w := Min(8, |bits|);
      Pow2Mono(w, 8);
      [PackByte(bits[..w]) as Byte] + BitsToBytes(bits[w..])
  }

  /** Every bit of `data`, byte by byte, least significant first. */
  function AllBits(data: Bytes): (r: seq<bool>)
    ensures |r| == 8 * |data|
  {
    if |data| == 0 then [] else ByteBits(data[0], 8) + AllBits(data[1..])
  }

  /** `_bytes_to_bits(data, length)`: the bits of `data` cut to at most `length`. */
  function BytesToBits(data: Bytes, length: nat): (r: seq<bool>)
    ensures |r| == Min(length, 8 * |data|)
  {
    Take(AllBits(data), length)
  }

  lemma {:induction false} ByteBitsOfPack(c: seq<bool>, k: nat)
    requires |c| <= k
    ensures ByteBits(PackByte(c), k) == c + Falses(k - |c|)
  {
    if k > 0 {
      if |c| == 0 {
        ByteBitsOfPack(c, k - 1);
        assert ByteBits(0, k) == [false] + ByteBits(0, k - 1);
      } else {
        var x := PackByte(c);
        assert x % 2 == BitValue(c[0]) && x / 2 == PackByte(c[1..]);
        ByteBitsOfPack(c[1..], k - 1);
        assert c == [c[0]] + c[1..];
      }
    }
  }

  lemma {:induction false} PackOfByteBits(x: nat, k: nat)
    requires x < Pow2(k)
    ensures PackByte(ByteBits(x, k)) == x
  {
    if k > 0 {
      var b := ByteBits(x, k);
      assert b[1..] == ByteBits(x / 2, k - 1);
      PackOfByteBits(x / 2, k - 1);
    }
  }

  lemma ModMinusEight(x: int)
    ensures (x - 8) % 8 == x % 8
  {
  }

  /** Packing pads with zero bits: unpacking again yields the input followed by `(-len) % 8` zeros. */
  lemma {:induction false} UnpackPadded(bits: seq<bool>)
    ensures AllBits(BitsToBytes(bits)) == bits + Falses((-|bits|) % 8)
  {
    if 0 < |bits| < 8 {
      UnpackShort(bits);
    } else if |bits| >= 8 {
      UnpackPadded(bits[8..]);
      UnpackStep(bits);
    } else {
      assert (-|bits|) % 8 == 0;
    }
  }

  /** Fewer than eight bits pack into one byte whose bits are theirs, then zeros. */
  lemma {:induction false} UnpackShort(bits: seq<bool>)
    requires 0 < |bits| < 8
    ensures AllBits(BitsToBytes(bits)) == bits + Falses((-|bits|) % 8)
  {
    BitsToBytesShort(bits);
    AllBitsOne(PackByte(bits) as Byte);
    ByteBitsOfPack(bits, 8);
    ShortPad(|bits|);
  }

  lemma ShortPad(n: int)
    requires 0 < n < 8
    ensures (-n) % 8 == 8 - n
  {
    assert -n == 8 * (-1) + (8 - n);
  }

  /** Up to eight bits pack into a single byte. */
  lemma {:induction false} BitsToBytesShort(bits: seq<bool>)
    requires 0 < |bits| <= 8
    ensures PackByte(bits) < 256 && BitsToBytes(bits) == [PackByte(bits) as Byte]
  {
    Pow2Mono(|bits|, 8);
    assert bits[..|bits|] == bits && bits[|bits|..] == [];
  }

  lemma AllBitsOne(b: Byte)
    ensures AllBits([b]) == ByteBits(b, 8)
  {
    assert [b][1..] == [];
  }

  /** Unpacking a packed byte followed by more bytes. */
  lemma AllBitsCons(b: Byte, rest: Bytes)
    ensures AllBits([b] + rest) == ByteBits(b, 8) + AllBits(rest)
  {
    assert ([b] + rest)[1..] == rest;
  }

  /** The first eight bits pack into the first byte; the padding is the rest's. */
  lemma {:induction false} ByteBitsZero(k: nat)
    ensures ByteBits(0, k) == Falses(k)
  {
    if k > 0 {
      ByteBitsZero(k - 1);
      assert [false] + Falses(k - 1) == Falses(k);
    }
  }

  /** Unpacking distributes over concatenation. */
  lemma {:induction false} AllBitsAppend(a: Bytes, b: Bytes)
    ensures AllBits(a + b) == AllBits(a) + AllBits(b)
  {
    if |a| == 0 {
      assert a + b == b;
    } else {
      assert (a + b)[1..] == a[1..] + b;
      AllBitsAppend(a[1..], b);
    }
  }

  /** Zero bytes unpack to zero bits. */
  lemma {:induction false} AllBitsZeros(n: nat)
    ensures AllBits(Zeros(n)) == Falses(8 * n)
  {
    if n > 0 {
      assert Zeros(n)[1..] == Zeros(n - 1);
      AllBitsZeros(n - 1);
      ByteBitsZero(8);
      assert Falses(8) + Falses(8 * (n - 1)) == Falses(8 * n);
    }
  }

  lemma {:induction false} UnpackStep(bits: seq<bool>)
    requires |bits| >= 8
    requires AllBits(BitsToBytes(bits[8..])) == bits[8..] + Falses((-|bits[8..]|) % 8)
    ensures AllBits(BitsToBytes(bits)) == bits + Falses((-|bits|) % 8)
  {
    var head, rest := bits[..8], bits[8..];
    var z := Falses((-|rest|) % 8);
    BitsToBytesFirst(bits);
    AllBitsCons(PackByte(head) as Byte, BitsToBytes(rest));
    assert ByteBits(PackByte(head), 8) == head by {
      ByteBitsOfPack(head, 8);
      assert Falses(0) == [];
    }
    ConcatAssoc(head, rest, z);
    assert bits == head + rest;
    PadOfRest(bits);
  }

  lemma PadOfRest<T>(s: seq<T>)
    requires |s| >= 8
    ensures (-|s|) % 8 == (-|s[8..]|) % 8
  {
    ModMinusEight(-|s[8..]|);
    assert -|s| == -|s[8..]| - 8;
  }

  /** Unpacking then packing whole bytes is the identity. */
  lemma {:induction false} PackedOfAllBits(data: Bytes)
    ensures BitsToBytes(AllBits(data)) == data
  {
    if |data| > 0 {
      var a := AllBits(data);
      assert a[..8] == ByteBits(data[0], 8);
      assert a[8..] == AllBits(data[1..]);
      assert Pow2(8) == 256;
      PackOfByteBits(data[0], 8);
      PackedOfAllBits(data[1..]);
    }
  }

  /** `_bytes_to_bits(_bits_to_bytes(b), len(b)) == b`. */
  lemma BitsRoundTrip(bits: seq<bool>)
    ensures BytesToBits(BitsToBytes(bits), |bits|) == bits
  {
    UnpackPadded(bits);
  }

  /** `_bits_to_bytes(_bytes_to_bits(d, 8 * len(d))) == d`. */
  lemma BytesRoundTrip(data: Bytes)
    ensures BitsToBytes(BytesToBits(data, 8 * |data|)) == data
  {
    assert BytesToBits(data, 8 * |data|) == AllBits(data);
    PackedOfAllBits(data);
  }
  /** Appending one bit adds it at weight `2^(|c|-1)`. */
  lemma {:induction false} PackByteSnoc(c: seq<bool>)
    requires |c| >= 1
    ensures PackByte(c) == PackByte(c[..|c| - 1]) + BitValue(c[|c| - 1]) * Pow2(|c| - 1)
  {
    if |c| > 1 {
      var t, p := c[1..], c[..|c| - 1];
      PackByteSnoc(t);
      assert t[..|t| - 1] == p[1..];
      assert t[|t| - 1] == c[|c| - 1];
      var b0, a, v, w := BitValue(c[0]), PackByte(p[1..]), BitValue(c[|c| - 1]), Pow2(|t| - 1);
      assert PackByte(t) == a + v * w;
      assert PackByte(p) == b0 + 2 * a;
      assert Pow2(|c| - 1) == 2 * w;
      SnocArithmetic(b0, a, v, w);
    }
  }

  lemma SnocArithmetic(b0: int, a: int, v: int, w: int)
    ensures b0 + 2 * (a + v * w) == (b0 + 2 * a) + v * (2 * w)
  {
  }

  lemma EightStep(n: nat)
    requires n > 0 && n % 8 == 0
    ensures n >= 8 && (n - 8) % 8 == 0
  {
  }

  lemma BitsToBytesFirst(bits: seq<bool>)
    requires |bits| >= 8
    ensures PackByte(bits[..8]) < 256
    ensures BitsToBytes(bits) == [PackByte(bits[..8]) as Byte] + BitsToBytes(bits[8..])
  {
    Pow2Mono(8, 8);
  }

  /** Packing is byte-aligned: a whole number of bytes packs independently of what follows. */
  lemma {:induction false} BitsToBytesAppend(a: seq<bool>, b: seq<bool>)
    requires |a| % 8 == 0
    ensures BitsToBytes(a + b) == BitsToBytes(a) + BitsToBytes(b)
  {
    if |a| > 0 {
      EightStep(|a|);
      var x := [PackByte(a[..8]) as Byte];
      calc {
        BitsToBytes(a + b);
      == { var ab := a + b;
           assert ab[..8] == a[..8] && ab[8..] == a[8..] + b;
           BitsToBytesFirst(ab); }
        x + BitsToBytes(a[8..] + b);
      == { BitsToBytesAppend(a[8..], b); }
        x + (BitsToBytes(a[8..]) + BitsToBytes(b));
      == { ConcatAssoc(x, BitsToBytes(a[8..]), BitsToBytes(b)); }
        (x + BitsToBytes(a[8..])) + BitsToBytes(b);
      == { BitsToBytesFirst(a); }
        BitsToBytes(a) + BitsToBytes(b);
      }
    } else {
      assert a + b == b;
    }
  }

  /** Python's `(-n) % 8` is the distance from `n` up to the next multiple of eight. */
  lemma PadCount(n: int)
    requires n >= 0
    ensures 8 * ((n + 7) / 8) - n == (-n) % 8
  {
    var q, r := n / 8, n % 8;
    assert n == 8 * q + r;
    if r == 0 {
      assert (n + 7) / 8 == q;
      assert -n == 8 * (-q) + 0;
    } else {
      assert (n + 7) / 8 == q + 1;
      assert -n == 8 * (-q - 1) + (8 - r);
    }
  }

  /** Zero bits up to the next byte boundary do not change the packing. */
  lemma PadToByteBoundary(bits: seq<bool>)
    ensures BitsToBytes(bits + Falses((-|bits|) % 8)) == BitsToBytes(bits)
  {
    UnpackPadded(bits);
    PackedOfAllBits(BitsToBytes(bits));
  }

  /** The inner loop of both packers: OR bit `j` in at `1 << j`, which adds `2^j` for a set bit. */
  method PackGroup(c: seq<bool>) returns (byte: nat)
    requires |c| == 8
    ensures byte == PackByte(c) && byte < 256
  {
    byte := 0;
    var j := 0;
    while j < 8
      invariant 0 <= j <= 8
      invariant byte == PackByte(c[..j])
    {
      PackByteSnoc(c[..j + 1]);
      assert c[..j + 1][..j] == c[..j];
      byte := byte + BitValue(c[j]) * Pow2(j);
      j := j + 1;
    }
    assert c[..8] == c;
    Pow2Mono(8, 8);
  }

  /** Packing one more group of eight appends that group's byte. */
  lemma PackStep(padded: seq<bool>, k: nat)
    requires 8 * k + 8 <= |padded|
    ensures PackByte(padded[8 * k..8 * k + 8]) < 256
    ensures BitsToBytes(padded[..8 * k + 8]) == BitsToBytes(padded[..8 * k]) + [PackByte(padded[8 * k..8 * k + 8]) as Byte]
  {
    var group := padded[8 * k..8 * k + 8];
    BitsToBytesAppend(padded[..8 * k], group);
    assert padded[..8 * k + 8] == padded[..8 * k] + group;
    BitsToBytesFirst(group);
    assert group[..8] == group && group[8..] == [];
  }

  /** Packing `bits` and zero-filling to `d` bytes unpacks to the bits followed by zeros. */
  lemma UnpackZeroFilled(bits: seq<bool>, d: nat)
    requires |bits| <= 8 * d
    ensures |BitsToBytes(bits)| <= d
    ensures AllBits(BitsToBytes(bits) + Zeros(d - |BitsToBytes(bits)|)) == bits + Falses(8 * d - |bits|)
  {
    var packed := BitsToBytes(bits);
    PadCount(|bits|);
    UnpackPadded(bits);
    AllBitsAppend(packed, Zeros(d - |packed|));
    AllBitsZeros(d - |packed|);
    assert Falses((-|bits|) % 8) + Falses(8 * (d - |packed|)) == Falses(8 * d - |bits|);
  }

  /**
   The loop both packers write: pad with `(-len) % 8` zero bits, then pack
   each group of eight.
   */
  method PackBits(bits: seq<bool>) returns (out: Bytes)
    ensures out == BitsToBytes(bits)
  {
    var padded := bits + Falses((-|bits|) % 8);
    var count := (|bits| + 7) / 8;
    PadCount(|bits|);
    assert |padded| == 8 * count;
    out := [];
    var k := 0;
    while k < count
      invariant 0 <= k <= count
      invariant out == BitsToBytes(padded[..8 * k])
    {
      var byte := PackGroup(padded[8 * k..8 * k + 8]);
      PackStep(padded, k);
      out := out + [byte as Byte];
      k := k + 1;
    }
    assert padded[..8 * k] == padded;
    PadToByteBoundary(bits);
  }
}

=== FILE: bytes.dfy ===
/**
 Byte strings and the fixed-width integer encodings the repository builds its
 wire formats from: Python's `struct` little-endian (`<B`, `<I`) and
 big-endian (`!H`, `>I`, `>Q`) packings, slicing with clamped bounds and
 byte-wise XOR.
 */
module Bytes {
  import opened Wrappers

  type Byte = b: int | 0 <= b < 256
  type Bytes = seq<Byte>

  const U8_LIMIT: nat := 0x100
  const U16_LIMIT: nat := 0x1_0000
  const U32_LIMIT: nat := 0x1_0000_0000
  const U64_LIMIT: nat := 0x1_0000_0000_0000_0000

  predicate IsU8(x: int) { 0 <= x < U8_LIMIT }
  predicate IsU16(x: int) { 0 <= x < U16_LIMIT }
  predicate IsU32(x: int) { 0 <= x < U32_LIMIT }
  predicate IsU64(x: int) { 0 <= x < U64_LIMIT }

  /** The three parts of a three-way concatenation, read back. */
  lemma ConcatThree<T>(a: seq<T>, b: seq<T>, c: seq<T>)
    ensures (a + b + c)[..|a|] == a && (a + b + c)[|a| + |b|..] == c
    ensures forall i | 0 <= i < |b| :: (a + b + c)[|a| + i] == b[i]
  {
    var r := a + b + c;
    assert r[..|a|] == a;
    assert r[|a| + |b|..] == c;
  }

  /** Concatenation regroups freely; stated once so that proofs can cite it cheaply. */
  lemma ConcatAssoc<T>(a: seq<T>, b: seq<T>, c: seq<T>)
    ensures (a + b) + c == a + (b + c)
  {
  }

  /** Two concatenations that agree, with first parts of one length, agree part by part. */
  lemma ConcatCancel<T>(a: seq<T>, b: seq<T>, a': seq<T>, b': seq<T>)
    requires a + b == a' + b' && |a| == |a'|
    ensures a == a' && b == b'
  {
    assert a == (a + b)[..|a|] && a' == (a' + b')[..|a|];
    assert b == (a + b)[|a|..] && b' == (a' + b')[|a|..];
  }

  /** A prefix extends by the slice that follows it. */
  lemma TakeConcat<T>(s: seq<T>, j: nat, k: nat)
    requires j <= k <= |s|
    ensures s[..j] + s[j..k] == s[..k]
  {
  }

  function Min(a: int, b: int): int { if a <= b then a else b }
  function Max(a: int, b: int): int { if a >= b then a else b }
  function Abs(x: int): nat { if x < 0 then -x else x }

  /** Python's `a // b`, which rounds toward negative infinity. */
  function FloorDiv(a: int, b: int): (q: int)
    requires b != 0
    ensures b > 0 ==> b * q <= a < b * q + b
    ensures b < 0 ==> b * q >= a > b * q + b
  {
    if b > 0 then a / b else (-a) / (-b)
  }

  /** ASCII text as the bytes `str.encode()` produces for it. */
  predicate IsAscii(s: string) { forall i | 0 <= i < |s| :: s[i] as int < 128 }

  function Ascii(s: string): (r: Bytes)
    requires IsAscii(s)
    ensures |r| == |s| && forall i | 0 <= i < |s| :: r[i] == s[i] as int
  {
    seq(|s|, i requires 0 <= i < |s| => s[i] as int)
  }

  function Pow256(n: nat): (r: nat)
    ensures r >= 1
  {
    if n == 0 then 1 else 256 * Pow256(n - 1)
  }

  lemma Pow256Widths()
    ensures Pow256(1) == U8_LIMIT && Pow256(2) == U16_LIMIT
    ensures Pow256(4) == U32_LIMIT && Pow256(8) == U64_LIMIT
  {
  }

  /** `n` zero bytes, Python's `b'\x00' * n`. */
  function Zeros(n: nat): (r: Bytes)
    ensures |r| == n
    ensures forall i | 0 <= i < n :: r[i] == 0
  {
    seq(n, _ => 0)
  }

  /** Python's `s[lo:hi]` for non-negative bounds: both ends clamp to the length. */
  function Slice<T>(s: seq<T>, lo: nat, hi: nat): (r: seq<T>)
    ensures |r| == (if lo <= hi && lo <= |s| then Min(hi, |s|) - lo else 0)
    ensures forall i | 0 <= i < |r| :: r[i] == s[lo + i]
  {
    if lo >= |s| || hi <= lo then [] else s[lo..Min(hi, |s|)]
  }

  /** Python's `s[:n]`. */
  function Take<T>(s: seq<T>, n: nat): (r: seq<T>)
    ensures |r| == Min(n, |s|)
    ensures r == s[..Min(n, |s|)]
  {
    s[..Min(n, |s|)]
  }

  lemma TakeAll<T>(s: seq<T>, n: nat)
    requires n >= |s|
    ensures Take(s, n) == s
  {
  }

  /** Python's `s[:n]` for any integer `n`: a negative bound counts from the end. */
  function Prefix<T>(s: seq<T>, n: int): (r: seq<T>)
    ensures n >= 0 ==> r == Take(s, n)
    ensures n < 0 ==> r == Take(s, Max(|s| + n, 0))
  {
    if n >= 0 then Take(s, n) else Take(s, Max(|s| + n, 0))
  }

  /** `b''.join(parts)`, and list concatenation in general. */
  function Join<T>(parts: seq<seq<T>>): (r: seq<T>)
  {
    if |parts| == 0 then [] else Join(parts[..|parts| - 1]) + parts[|parts| - 1]
  }

  /** `j·w`, where the `j`-th of a run of `w`-long pieces starts. */
  function Offset(j: nat, w: nat): nat
  {
    j * w
  }

  lemma OffsetSucc(j: nat, w: nat)
    ensures Offset(j + 1, w) == Offset(j, w) + w
  {
  }

  /** Joining fewer parts gives a prefix of joining more. */
  lemma {:induction false} JoinPrefix<T>(parts: seq<seq<T>>, j: nat)
    requires j <= |parts|
    ensures |Join(parts[..j])| <= |Join(parts)|
    ensures Join(parts)[..|Join(parts[..j])|] == Join(parts[..j])
    decreases |parts|
  {
    if j < |parts| {
      var init := parts[..|parts| - 1];
      assert init[..j] == parts[..j];
      JoinPrefix(init, j);
      var n := |Join(parts[..j])|;
      assert (Join(init) + parts[|parts| - 1])[..n] == Join(init)[..n];
    } else {
      assert parts[..j] == parts;
    }
  }

  /** Parts of one width `w` join to `|parts|·w` elements. */
  lemma {:induction false} JoinUniformLength<T>(parts: seq<seq<T>>, w: nat)
    requires forall i | 0 <= i < |parts| :: |parts[i]| == w
    ensures |Join(parts)| == Offset(|parts|, w)
  {
    if |parts| > 0 {
      JoinUniformLength(parts[..|parts| - 1], w);
      OffsetSucc(|parts| - 1, w);
    }
  }

  /** Parts of at most `w` elements join to at most `|parts|·w` elements. */
  lemma {:induction false} JoinBoundedLength<T>(parts: seq<seq<T>>, w: nat)
    requires forall i | 0 <= i < |parts| :: |parts[i]| <= w
    ensures |Join(parts)| <= Offset(|parts|, w)
  {
    if |parts| > 0 {
      JoinBoundedLength(parts[..|parts| - 1], w);
      OffsetSucc(|parts| - 1, w);
    }
  }

  /** With parts of one width `w`, part `j` sits at `[j·w, j·w + w)` of the join. */
  lemma JoinUniformSlice<T>(parts: seq<seq<T>>, w: nat, j: nat)
    requires forall i | 0 <= i < |parts| :: |parts[i]| == w
    requires j < |parts|
    ensures Offset(j, w) + w <= |Join(parts)|
    ensures Join(parts)[Offset(j, w)..Offset(j, w) + w] == parts[j]
  {
    var q := parts[..j + 1];
    assert q[..j] == parts[..j];
    assert Join(q) == Join(parts[..j]) + parts[j];
    JoinUniformLength(parts[..j], w);
    JoinPrefix(parts, j + 1);
    OffsetSucc(j, w);
  }

  /** The same, read from a prefix of the join long enough to hold part `j`. */
  lemma TakeJoinUniformSlice<T>(parts: seq<seq<T>>, w: nat, n: nat, j: nat)
    requires forall i | 0 <= i < |parts| :: |parts[i]| == w
    requires j < |parts| && Offset(j, w) + w <= |Take(Join(parts), n)|
    ensures Take(Join(parts), n)[Offset(j, w)..Offset(j, w) + w] == parts[j]
  {
    var o := Offset(j, w);
    JoinUniformSlice(parts, w, j);
    assert Take(Join(parts), n)[o..o + w] == Join(parts)[o..o + w];
  }

  // ---------------------------------------------------------------------------
  // Little-endian integers
  // ---------------------------------------------------------------------------

  function ToLE(x: nat, width: nat): (r: Bytes)
    requires x < Pow256(width)
    ensures |r| == width
  {
    if width == 0 then [] else [x % 256] + ToLE(x / 256, width - 1)
  }

  function FromLE(s: Bytes): (x: nat)
    ensures x < Pow256(|s|)
  {
    if |s| == 0 then 0 else s[0] + 256 * FromLE(s[1..])
  }

  lemma {:induction false} LERoundTrip(x: nat, width: nat)
    requires x < Pow256(width)
    ensures FromLE(ToLE(x, width)) == x
  {
    if width > 0 {
      var r := ToLE(x, width);
      assert r[1..] == ToLE(x / 256, width - 1);
      LERoundTrip(x / 256, width - 1);
    }
  }

  lemma {:induction false} LEInjective(s: Bytes)
    ensures ToLE(FromLE(s), |s|) == s
  {
    if |s| > 0 {
      LEInjective(s[1..]);
      assert FromLE(s) % 256 == s[0];
      assert FromLE(s) / 256 == FromLE(s[1..]);
    }
  }

  // ---------------------------------------------------------------------------
  // Big-endian integers
  // ---------------------------------------------------------------------------

  function ToBE(x: nat, width: nat): (r: Bytes)
    requires x < Pow256(width)
    ensures |r| == width
  {
    if width == 0 then [] else ToBE(x / 256, width - 1) + [x % 256]
  }

  function FromBE(s: Bytes): (x: nat)
    ensures x < Pow256(|s|)
  {
    if |s| == 0 then 0 else 256 * FromBE(s[..|s| - 1]) + s[|s| - 1]
  }

  lemma {:induction false} BERoundTrip(x: nat, width: nat)
    requires x < Pow256(width)
    ensures FromBE(ToBE(x, width)) == x
  {
    if width > 0 {
      var r := ToBE(x, width);
      assert r[..width - 1] == ToBE(x / 256, width - 1);
      BERoundTrip(x / 256, width - 1);
    }
  }

  lemma {:induction false} BEInjective(s: Bytes)
    ensures ToBE(FromBE(s), |s|) == s
  {
    if |s| > 0 {
      BEInjective(s[..|s| - 1]);
      assert FromBE(s) % 256 == s[|s| - 1];
      assert FromBE(s) / 256 == FromBE(s[..|s| - 1]);
      assert s == s[..|s| - 1] + [s[|s| - 1]];
    }
  }

  /** `struct.pack` of an unsigned little-endian field; out-of-range values raise. */
  function PackLE(x: int, width: nat): (r: Result<Bytes>)
    ensures r.Ok? <==> 0 <= x < Pow256(width)
    ensures r.Ok? ==> |r.value| == width && FromLE(r.value) == x
  {
    if 0 <= x < Pow256(width) then
      LERoundTrip(x, width);
      Ok(ToLE(x, width))
    else
      Err("struct.error: argument out of range")
  }

  /** `struct.pack` of an unsigned big-endian field; out-of-range values raise. */
  function PackBE(x: int, width: nat): (r: Result<Bytes>)
    ensures r.Ok? <==> 0 <= x < Pow256(width)
    ensures r.Ok? ==> |r.value| == width && FromBE(r.value) == x
  {
    if 0 <= x < Pow256(width) then
      BERoundTrip(x, width);
      Ok(ToBE(x, width))
    else
      Err("struct.error: argument out of range")
  }

  lemma PackBEIsToBE(x: int, width: nat)
    requires 0 <= x < Pow256(width)
    ensures PackBE(x, width) == Ok(ToBE(x, width))
  {
  }

  // ---------------------------------------------------------------------------
  // XOR
  // ---------------------------------------------------------------------------

  function Pow2(n: nat): (r: nat)
    ensures r >= 1
  {
    if n == 0 then 1 else 2 * Pow2(n - 1)
  }

  /** Bitwise XOR of the low `k` bits of `a` and `b`. */
  function XorBits(a: nat, b: nat, k: nat): (r: nat)
    ensures r < Pow2(k)
  {
    if k == 0 then 0 else (if a % 2 == b % 2 then 0 else 1) + 2 * XorBits(a / 2, b / 2, k - 1)
  }

  lemma {:induction false} XorBitsComm(a: nat, b: nat, k: nat)
    ensures XorBits(a, b, k) == XorBits(b, a, k)
  {
    if k > 0 { XorBitsComm(a / 2, b / 2, k - 1); }
  }

  lemma {:induction false} XorBitsAssoc(a: nat, b: nat, c: nat, k: nat)
    ensures XorBits(XorBits(a, b, k), c, k) == XorBits(a, XorBits(b, c, k), k)
  {
    if k > 0 {
      assert XorBits(a, b, k) / 2 == XorBits(a / 2, b / 2, k - 1);
      assert XorBits(b, c, k) / 2 == XorBits(b / 2, c / 2, k - 1);
      XorBitsAssoc(a / 2, b / 2, c / 2, k - 1);
    }
  }

  lemma {:induction false} XorBitsSelf(a: nat, k: nat)
    ensures XorBits(a, a, k) == 0
  {
    if k > 0 { XorBitsSelf(a / 2, k - 1); }
  }

  lemma {:induction false} XorBitsZero(a: nat, k: nat)
    requires a < Pow2(k)
    ensures XorBits(a, 0, k) == a
  {
    if k > 0 { XorBitsZero(a / 2, k - 1); }
  }

  /** Python's `a ^ b` on two byte values. */
  function XorByte(a: Byte, b: Byte): Byte
  {
    assert Pow2(8) == 256;
    XorBits(a, b, 8)
  }

  lemma XorByteFacts(a: Byte, b: Byte, c: Byte)
    ensures XorByte(a, b) == XorByte(b, a)
    ensures XorByte(XorByte(a, b), c) == XorByte(a, XorByte(b, c))
    ensures XorByte(a, a) == 0 && XorByte(a, 0) == a
  {
    XorBitsComm(a, b, 8);
    XorBitsAssoc(a, b, c, 8);
    XorBitsSelf(a, 8);
    assert Pow2(8) == 256;
    XorBitsZero(a, 8);
  }

  /** Byte-wise XOR of two strings of equal length. */
  function XorBytes(a: Bytes, b: Bytes): (r: Bytes)
    requires |a| == |b|
    ensures |r| == |a|
    ensures forall i | 0 <= i < |a| :: r[i] == XorByte(a[i], b[i])
  {
    seq(|a|, i requires 0 <= i < |a| => XorByte(a[i], b[i]))
  }
}

=== FILE: cluster_head.dfy ===
/**
 The cluster head (`sync/cluster_head.py`): it keeps the authoritative
 epoch, rotates the feature configuration every tenth epoch and issues
 signed, numbered beacons. Clock readings and the random bytes it draws
 (signing key, configuration ids and seeds) are parameters; the broadcast
 thread is reduced to one call per beacon.
 */
module SyncClusterHead {
  import opened Wrappers
  import opened Bytes
  import Hkdf
  import Cfg = SyncFeatureConfig
  import SyncBeacon
  import SyncValidatorNode

  /** Rotation happens on every epoch that is a positive multiple of this. */
  const ROTATION_PERIOD: nat := 10

  datatype ClusterHead = ClusterHead(
    nodeId: Bytes,
    deltaT: int,
    beaconInterval: int,
    signingKey: Bytes,
    currentEpoch: int,
    epochStart: int,
    beaconSeq: int,
    config: Cfg.FeatureConfig,
    running: bool)

  /** The stored digest is the one `compute_digest` gives. */
  predicate DigestConsistent(p: Hkdf.Primitives, c: Cfg.FeatureConfig)
    requires Hkdf.Sound(p)
  {
    Cfg.ComputeDigest(p, c) == Ok(c.digest)
  }

  /**
   The constructor: a 6-byte id; `signing_key or token_bytes(32)`, so an
   absent or empty key is replaced by `freshKey`; epoch 0, sequence 0 and the
   default configuration built from `configId` and `seed`.
   */
  function Create(p: Hkdf.Primitives, nodeId: Bytes, deltaT: int, beaconInterval: int, signingKey: Option<Bytes>,
                  freshKey: Bytes, configId: Bytes, seed: Bytes): (r: Result<ClusterHead>)
    requires Hkdf.Sound(p) && |configId| == 16 && |seed| == 8
    ensures r.Ok? <==> |nodeId| == 6
    ensures r.Ok? ==> r.value.currentEpoch == 0 && r.value.beaconSeq == 0 && !r.value.running
    ensures r.Ok? ==> r.value.signingKey == if signingKey.Some? && |signingKey.value| > 0 then signingKey.value else freshKey
    ensures r.Ok? ==> DigestConsistent(p, r.value.config) && Cfg.WellFormed(r.value.config)
  {
    if |nodeId| != 6 then Err("node_id must be 6 bytes")
    else
      var key := if signingKey.Some? && |signingKey.value| > 0 then signingKey.value else freshKey;
      Ok(ClusterHead(nodeId, deltaT, beaconInterval, key, 0, 0, 0, Cfg.CreateDefault(p, configId, seed), false))
  }

  /** `start`: stamps the epoch start once; a second call changes nothing. */
  function Start(h: ClusterHead, now: int): (r: ClusterHead)
    ensures h.running ==> r == h
    ensures !h.running ==> r == h.(running := true, epochStart := now)
  {
    if h.running then h else h.(running := true, epochStart := now)
  }

  /** `stop`. */
  function Stop(h: ClusterHead): (r: ClusterHead)
    ensures !r.running && r == h.(running := r.running)
  {
    h.(running := false)
  }

  /** `_should_advance_epoch`: a whole period has elapsed since the epoch started. */
  predicate ShouldAdvance(h: ClusterHead, now: int)
  {
    now - h.epochStart >= h.deltaT
  }

  /** `_should_rotate_config`: the epoch is a positive multiple of ten. */
  predicate ShouldRotate(epoch: int)
  {
    epoch % ROTATION_PERIOD == 0 && epoch > 0
  }

  /** The configuration `_rotate_feature_config` builds before it computes the digest. */
  function RotationDraft(c: Cfg.FeatureConfig, configId: Bytes, seed: Bytes): Cfg.FeatureConfig
  {
    c.(version := c.version + 1, configId := configId, subcarrierSeed := seed, digest := [])
  }

  /**
   `_rotate_feature_config`: the next version with a fresh id and seed and
   everything else kept, then its digest. The draft is installed before the
   digest is computed, so when that raises the head is left holding it.
   */
  function RotateFeatureConfig(p: Hkdf.Primitives, h: ClusterHead, configId: Bytes, seed: Bytes): (r: (ClusterHead, Outcome))
    requires Hkdf.Sound(p)
    ensures r.0 == h.(config := r.0.config)
    ensures var c := r.0.config;
            && c.version == h.config.version + 1 && c.configId == configId && c.subcarrierSeed == seed
            && c.pilotPlan == h.config.pilotPlan && c.measurementWindowMs == h.config.measurementWindowMs
            && c.sampleCount == h.config.sampleCount && c.subcarrierCount == h.config.subcarrierCount
            && c.alpha == h.config.alpha
    ensures r.1.Pass? <==> Cfg.DigestFieldsFit(RotationDraft(h.config, configId, seed))
    ensures r.1.Pass? ==> DigestConsistent(p, r.0.config)
  {
    var draft := RotationDraft(h.config, configId, seed);
    var digest := Cfg.ComputeDigest(p, draft);
    if digest.Err? then (h.(config := draft), Fail(digest.error))
    else
      Cfg.DigestIgnoresDigest(draft, digest.value);
      (h.(config := draft.(digest := digest.value)), Pass)
  }

  /** `_advance_epoch`: the next epoch, starting now, with a rotation when that epoch calls for one. */
  function AdvanceEpoch(p: Hkdf.Primitives, h: ClusterHead, now: int, configId: Bytes, seed: Bytes): (r: (ClusterHead, Outcome))
    requires Hkdf.Sound(p)
    ensures r.0.currentEpoch == h.currentEpoch + 1 && r.0.epochStart == now && r.0.beaconSeq == h.beaconSeq
    ensures !ShouldRotate(h.currentEpoch + 1) ==> r == (h.(currentEpoch := h.currentEpoch + 1, epochStart := now), Pass)
    ensures ShouldRotate(h.currentEpoch + 1) ==> r.0.config.version == h.config.version + 1 && r.0.config.configId == configId
  {
    var h1 := h.(currentEpoch := h.currentEpoch + 1, epochStart := now);
    if ShouldRotate(h1.currentEpoch) then RotateFeatureConfig(p, h1, configId, seed) else (h1, Pass)
  }

  /** The unsigned beacon for the head's current state. */
  function Draft(h: ClusterHead, now: int): SyncBeacon.Beacon
  {
    SyncBeacon.Beacon(h.currentEpoch, now, h.deltaT, h.nodeId, h.beaconSeq, h.config, [])
  }

  /**
   `_generate_beacon`: advances the epoch when its period is over, then
   signs a beacon carrying the current epoch, the time, the period, the
   head's id, the sequence number and the configuration, and counts it.
   When a step raises, the state changes made before it remain and the
   sequence number is not incremented.
   */
  function GenerateBeacon(p: Hkdf.Primitives, h: ClusterHead, now: int, configId: Bytes, seed: Bytes): (r: (ClusterHead, Result<SyncBeacon.Beacon>))
    requires Hkdf.Sound(p)
    ensures r.0.currentEpoch == if ShouldAdvance(h, now) then h.currentEpoch + 1 else h.currentEpoch
    ensures r.1.Ok? ==> r.0.beaconSeq == h.beaconSeq + 1
    ensures r.1.Err? ==> r.0.beaconSeq == h.beaconSeq
    ensures r.1.Ok? ==> var b := r.1.value;
            && b.epoch == r.0.currentEpoch && b.beaconSeq == h.beaconSeq && b.timestamp == now
            && b.clusterHeadId == h.nodeId && b.deltaT == h.deltaT && b.featureConfig == r.0.config
            && SyncBeacon.WellFormed(b)
  {
    var (h1, outcome) := if ShouldAdvance(h, now) then AdvanceEpoch(p, h, now, configId, seed) else (h, Pass);
    if outcome.Fail? then (h1, Err(outcome.error))
    else
      var signed := SyncBeacon.Sign(p, h1.signingKey, Draft(h1, now));
      if signed.Err? then (h1, Err(signed.error))
      else (h1.(beaconSeq := h1.beaconSeq + 1), Ok(signed.value))
  }

  /** Every beacon the head issues verifies under its signing key. */
  lemma BeaconVerifies(p: Hkdf.Primitives, h: ClusterHead, now: int, configId: Bytes, seed: Bytes)
    requires Hkdf.Sound(p) && GenerateBeacon(p, h, now, configId, seed).1.Ok?
    ensures SyncBeacon.Verify(p, h.signingKey, GenerateBeacon(p, h, now, configId, seed).1.value) == Ok(true)
  {
    var (h1, outcome) := if ShouldAdvance(h, now) then AdvanceEpoch(p, h, now, configId, seed) else (h, Pass);
    SyncBeacon.SignThenVerify(p, h1.signingKey, Draft(h1, now));
  }

  /** Issuing a beacon keeps the configuration's digest consistent. */
  lemma GenerateKeepsDigestConsistent(p: Hkdf.Primitives, h: ClusterHead, now: int, configId: Bytes, seed: Bytes)
    requires Hkdf.Sound(p) && DigestConsistent(p, h.config)
    requires GenerateBeacon(p, h, now, configId, seed).1.Ok?
    ensures DigestConsistent(p, GenerateBeacon(p, h, now, configId, seed).0.config)
  {
  }

  /**
   Two beacons in a row carry consecutive sequence numbers and epochs that
   differ by at most one.
   */
  lemma ConsecutiveBeacons(p: Hkdf.Primitives, h: ClusterHead, now: int, now': int, configId: Bytes, seed: Bytes)
    requires Hkdf.Sound(p)
    requires GenerateBeacon(p, h, now, configId, seed).1.Ok?
    requires GenerateBeacon(p, GenerateBeacon(p, h, now, configId, seed).0, now', configId, seed).1.Ok?
    ensures var (h1, b1) := GenerateBeacon(p, h, now, configId, seed);
            var b2 := GenerateBeacon(p, h1, now', configId, seed).1;
            b2.value.beaconSeq == b1.value.beaconSeq + 1 && 0 <= b2.value.epoch - b1.value.epoch <= 1
  {
  }

  /**
   A validator holding the head's signing key takes every beacon the head
   issues past the signature check.
   */
  lemma ValidatorPassesHeadBeacons(p: Hkdf.Primitives, h: ClusterHead, v: SyncValidatorNode.Validator, now: int, received: int, configId: Bytes, seed: Bytes)
    requires Hkdf.Sound(p) && GenerateBeacon(p, h, now, configId, seed).1.Ok?
    requires v.verificationKey == Some(h.signingKey)
    ensures var b := GenerateBeacon(p, h, now, configId, seed).1.value;
            SyncValidatorNode.OnBeaconReceived(p, v, b, received) == SyncValidatorNode.Accept(p, v, b, received)
  {
    BeaconVerifies(p, h, now, configId, seed);
  }
}

=== FILE: device_node.dfy ===
/**
 A device node (`sync/device_node.py`): it follows beacons without checking
 their signatures and keeps no key material. The clock reading `now` is a
 parameter.
 */
module SyncDeviceNode {
  import opened Wrappers
  import opened Bytes
  import SyncBeacon
  import opened SyncEpochState

  datatype Device = Device(nodeId: Bytes, beaconTimeout: int, state: EpochState)

  /** The constructor: a 6-byte id, epoch 0 with its neighbours tolerated, not yet synchronized. */
  function Create(nodeId: Bytes, beaconTimeout: int): (r: Result<Device>)
    ensures r.Ok? <==> |nodeId| == 6
    ensures r.Ok? ==> r.value.state.currentEpoch == 0 && !r.value.state.synchronized
    ensures r.Ok? ==> forall e :: IsEpochValid(r.value.state, e) <==> -1 <= e <= 1
  {
    if |nodeId| != 6 then Err("node_id must be 6 bytes")
    else Ok(Device(nodeId, beaconTimeout, UpdateTolerated(Init(0, 0, 30000), 0)))
  }

  /**
   `on_beacon_received`: records the arrival, follows a newer epoch with its
   timing and configuration, re-centres the tolerated window on the beacon's
   epoch whatever that epoch is, and always reports success.
   */
  function OnBeaconReceived(d: Device, b: SyncBeacon.Beacon, now: int): (r: (Device, bool))
    ensures r.1 && r.0.state.synchronized && r.0.state.lastBeaconTime == now
    ensures r.0.state.currentEpoch == Max(d.state.currentEpoch, b.epoch)
    ensures b.epoch > d.state.currentEpoch ==> r.0.state.config == Some(b.featureConfig) && r.0.state.epochStart == b.timestamp
    ensures b.epoch <= d.state.currentEpoch ==> r.0.state.config == d.state.config && r.0.state.epochStart == d.state.epochStart
    ensures forall e :: IsEpochValid(r.0.state, e) <==> Abs(e - b.epoch) <= 1
    ensures r.0.nodeId == d.nodeId && r.0.beaconTimeout == d.beaconTimeout
  {
    var s0 := d.state.(lastBeaconTime := now);
    var s1 := if b.epoch > s0.currentEpoch then UpdateEpoch(s0, b.epoch, b.timestamp, b.deltaT, Some(b.featureConfig)) else s0;
    var s2 := UpdateTolerated(s1, b.epoch);
    (d.(state := s2.(synchronized := true)), true)
  }

  /**
   A beacon more than one epoch behind is accepted, and it moves the
   tolerated window away from the device's own epoch.
   */
  lemma StaleBeaconInvalidatesCurrentEpoch(d: Device, b: SyncBeacon.Beacon, now: int)
    requires b.epoch < d.state.currentEpoch - 1
    ensures OnBeaconReceived(d, b, now).1
    ensures !IsEpochValid(OnBeaconReceived(d, b, now).0.state, OnBeaconReceived(d, b, now).0.state.currentEpoch)
  {
    var r := OnBeaconReceived(d, b, now).0;
    assert Abs(r.state.currentEpoch - b.epoch) > 1;
  }

  /** Receiving the same beacon twice leaves the state the first reception produced. */
  lemma OnBeaconIdempotent(d: Device, b: SyncBeacon.Beacon, now: int)
    ensures OnBeaconReceived(OnBeaconReceived(d, b, now).0, b, now) == OnBeaconReceived(d, b, now)
  {
  }

  /** `check_synchronization`: past the timeout the device loses synchronization; otherwise nothing changes. */
  function CheckSynchronization(d: Device, now: int): (r: (Device, bool))
    ensures now - d.state.lastBeaconTime > d.beaconTimeout ==> !r.1 && r.0 == d.(state := d.state.(synchronized := false))
    ensures now - d.state.lastBeaconTime <= d.beaconTimeout ==> r == (d, d.state.synchronized)
  {
    if now - d.state.lastBeaconTime > d.beaconTimeout then (d.(state := d.state.(synchronized := false)), false)
    else (d, d.state.synchronized)
  }

  /** A beacon followed at once by a check leaves the device synchronized when the timeout is not negative. */
  lemma SynchronizedRightAfterBeacon(d: Device, b: SyncBeacon.Beacon, now: int)
    requires d.beaconTimeout >= 0
    ensures CheckSynchronization(OnBeaconReceived(d, b, now).0, now).1
  {
  }
}

=== FILE: epoch_state.dfy ===
/**
 The epoch state every node keeps (`core/epoch_state.py`): the current
 epoch and its timing, the tolerated neighbouring epochs, the installed
 feature configuration and the key material per epoch and device.
 */
module SyncEpochState {
  import opened Wrappers
  import opened Bytes
  import Cfg = SyncFeatureConfig
  import Km = SyncKeyMaterial

  datatype EpochState = EpochState(
    currentEpoch: int,
    epochStart: int,
    epochDuration: int,
    config: Option<Cfg.FeatureConfig>,
    tolerated: set<int>,
    activeKeys: map<int, map<Bytes, Km.KeyMaterial>>,
    lastBeaconTime: int,
    synchronized: bool)

  /** A fresh state with the dataclass defaults: no configuration, nothing tolerated, no keys, never synchronized. */
  function Init(epoch: int, start: int, duration: int): (r: EpochState)
    ensures r.currentEpoch == epoch && r.epochStart == start && r.epochDuration == duration
    ensures r.config == None && r.activeKeys == map[] && !r.synchronized
    ensures forall e :: !IsEpochValid(r, e)
  {
    EpochState(epoch, start, duration, None, {}, map[], 0, false)
  }

  /** `is_epoch_valid`. */
  predicate IsEpochValid(s: EpochState, epoch: int)
  {
    epoch in s.tolerated
  }

  /** `{e - 1, e, e + 1}`. */
  function Window(e: int): set<int>
  {
    {e - 1, e, e + 1}
  }

  /** `update_tolerated_epochs`: exactly the epochs at distance at most one become valid. */
  function UpdateTolerated(s: EpochState, current: int): (r: EpochState)
    ensures r == s.(tolerated := r.tolerated)
    ensures forall e :: IsEpochValid(r, e) <==> Abs(e - current) <= 1
  {
    s.(tolerated := Window(current))
  }

  /** `_cleanup_old_keys`: drops every epoch older than `current - 1`, keeping the rest untouched. */
  function CleanupOldKeys(keys: map<int, map<Bytes, Km.KeyMaterial>>, current: int): (r: map<int, map<Bytes, Km.KeyMaterial>>)
    ensures forall e :: e in r <==> e in keys && e >= current - 1
    ensures forall e | e in r :: r[e] == keys[e]
  {
    map e | e in keys && e >= current - 1 :: keys[e]
  }

  /**
   `update_epoch`: moves to `newEpoch` with the given timing, installs the
   configuration when one is given, re-centres the tolerated window and
   drops key material older than the previous epoch.
   */
  function UpdateEpoch(s: EpochState, newEpoch: int, start: int, duration: int, config: Option<Cfg.FeatureConfig>): (r: EpochState)
    ensures r.currentEpoch == newEpoch && r.epochStart == start && r.epochDuration == duration
    ensures r.config == (if config.Some? then config else s.config)
    ensures forall e :: IsEpochValid(r, e) <==> Abs(e - newEpoch) <= 1
    ensures r.lastBeaconTime == s.lastBeaconTime && r.synchronized == s.synchronized
  {
    var s1 := s.(currentEpoch := newEpoch, epochStart := start, epochDuration := duration);
    var s2 := if config.Some? then s1.(config := config) else s1;
    var s3 := UpdateTolerated(s2, newEpoch);
    s3.(activeKeys := CleanupOldKeys(s3.activeKeys, newEpoch))
  }

  /** `get_active_key`. */
  function GetActiveKey(s: EpochState, device: Bytes, epoch: int): (r: Option<Km.KeyMaterial>)
    ensures r.Some? <==> epoch in s.activeKeys && device in s.activeKeys[epoch]
    ensures r.Some? ==> r.value == s.activeKeys[epoch][device]
  {
    if epoch !in s.activeKeys then None
    else if device in s.activeKeys[epoch] then Some(s.activeKeys[epoch][device])
    else None
  }

  /** `add_key_material`: files the material under its own epoch and the device, replacing what was there. */
  function AddKeyMaterial(s: EpochState, device: Bytes, km: Km.KeyMaterial): (r: EpochState)
    ensures r == s.(activeKeys := r.activeKeys)
    ensures GetActiveKey(r, device, km.epoch) == Some(km)
    ensures forall d, e | d != device || e != km.epoch :: GetActiveKey(r, d, e) == GetActiveKey(s, d, e)
  {
    var bucket := if km.epoch in s.activeKeys then s.activeKeys[km.epoch] else map[];
    s.(activeKeys := s.activeKeys[km.epoch := bucket[device := km]])
  }

  /** After `update_epoch`, a key is found exactly when it was before and its epoch is not older than the previous one. */
  lemma UpdateEpochKeepsRecentKeys(s: EpochState, newEpoch: int, start: int, duration: int, config: Option<Cfg.FeatureConfig>, device: Bytes, epoch: int)
    ensures GetActiveKey(UpdateEpoch(s, newEpoch, start, duration, config), device, epoch)
         == if epoch >= newEpoch - 1 then GetActiveKey(s, device, epoch) else None
  {
  }

  /** Moving to the same epoch twice is moving once. */
  lemma UpdateEpochIdempotent(s: EpochState, newEpoch: int, start: int, duration: int, config: Option<Cfg.FeatureConfig>)
    ensures var r := UpdateEpoch(s, newEpoch, start, duration, config);
            UpdateEpoch(r, newEpoch, start, duration, config) == r
  {
    var r := UpdateEpoch(s, newEpoch, start, duration, config);
    assert CleanupOldKeys(r.activeKeys, newEpoch) == r.activeKeys;
  }

  /**
   `get_epoch_progress`: the elapsed fraction of the epoch, clamped to
   [0, 1], and 0 for an epoch of no length. Reals stand for Python's floats.
   */
  function EpochProgress(s: EpochState, now: int): (r: real)
    ensures 0.0 <= r <= 1.0
    ensures s.epochDuration == 0 ==> r == 0.0
    ensures s.epochDuration > 0 && now <= s.epochStart ==> r == 0.0
    ensures s.epochDuration > 0 && now >= s.epochStart + s.epochDuration ==> r == 1.0
    ensures s.epochDuration > 0 && s.epochStart <= now <= s.epochStart + s.epochDuration
            ==> r * s.epochDuration as real == (now - s.epochStart) as real
  {
    if s.epochDuration == 0 then 0.0
    else
      var q := (now - s.epochStart) as real / s.epochDuration as real;
      var clamped := if q < 0.0 then 0.0 else q;
      if clamped > 1.0 then 1.0 else clamped
  }

  /** `should_advance_epoch`: the epoch's end has been reached. */
  predicate ShouldAdvance(s: EpochState, now: int)
  {
    now >= s.epochStart + s.epochDuration
  }

  /** `time_until_next_epoch`: zero exactly when the epoch should advance, otherwise the time left to its end. */
  function TimeUntilNextEpoch(s: EpochState, now: int): (r: nat)
    ensures r == 0 <==> ShouldAdvance(s, now)
    ensures r > 0 ==> now + r == s.epochStart + s.epochDuration
  {
    Max(0, s.epochStart + s.epochDuration - now)
  }
}

=== FILE: fe_config.dfy ===
/**
 The feature-key engine's configuration (`FeatureEncryptionConfig`): default
 values, the ordered validation checks, the feature dimension per mode, the
 computed number of BCH blocks and the three predefined profiles.
 */
module FeConfig {
  import opened Wrappers
  import opened Bytes

  datatype Config = Config(
    mFrames: int,
    nSubcarrierTotal: int,
    nSubcarrierSelected: int,
    featureDimCsi: int,
    featureDimRff: int,
    quantizeMethod: string,
    thetaLPercentile: real,
    thetaHPercentile: real,
    voteThreshold: int,
    targetBits: int,
    bchN: int,
    bchK: int,
    bchT: int,
    bchBlocks: int,
    bchPoly: int,
    hashAlgorithm: string,
    keyLength: int,
    digestLength: int,
    hkdfSaltDom: Bytes,
    sessionKeyInfo: Bytes,
    macLength: int,
    epochLength: int,
    nonceLength: int,
    version: int,
    hashChainCounter: int
  )

  /** The dataclass defaults; `HKDF_SALT_DOM` is `b'FeatureAuth'`, `SESSION_KEY_INFO` is `'SessionKey'`. */
  function Default(): Config
  {
    Config(
      mFrames := 6, nSubcarrierTotal := 64, nSubcarrierSelected := 32,
      featureDimCsi := 64, featureDimRff := 16,
      quantizeMethod := "percentile", thetaLPercentile := 0.25, thetaHPercentile := 0.75,
      voteThreshold := 4, targetBits := 256,
      bchN := 255, bchK := 131, bchT := 18, bchBlocks := 2, bchPoly := 0x187,
      hashAlgorithm := "blake3", keyLength := 32, digestLength := 8,
      hkdfSaltDom := Ascii("FeatureAuth"), sessionKeyInfo := Ascii("SessionKey"),
      macLength := 6, epochLength := 4, nonceLength := 16, version := 1, hashChainCounter := 0)
  }

  function HighNoise(): Config { Default().(mFrames := 8, voteThreshold := 6, bchT := 24) }

  function LowLatency(): Config
  {
    Default().(mFrames := 4, voteThreshold := 3, targetBits := 128, bchBlocks := 1)
  }

  function HighSecurity(): Config
  {
    Default().(targetBits := 512, nSubcarrierSelected := 48, keyLength := 64, bchBlocks := 4)
  }

  /** `ceil(TARGET_BITS / BCH_K)` as `get_computed_bch_blocks` writes it. */
  function ComputedBchBlocks(c: Config): (b: int)
    requires c.bchK > 0
    ensures (b - 1) * c.bchK < c.targetBits <= b * c.bchK
  {
    FloorDiv(c.targetBits + c.bchK - 1, c.bchK)
  }

  /** Frame, vote, subcarrier and key-size counts as `validate` accepts them. */
  predicate ValidCounts(c: Config)
  {
    && 4 <= c.mFrames <= 10
    && c.mFrames / 2 + 1 <= c.voteThreshold <= c.mFrames
    && 16 <= c.nSubcarrierSelected <= c.nSubcarrierTotal
    && c.targetBits > 0 && c.targetBits % 8 == 0 && c.targetBits >= 128
  }

  /** The BCH parameters as `validate` accepts them. */
  predicate ValidBch(c: Config)
  {
    && c.bchK < c.bchN && c.bchT >= 1
    && c.bchK != 0 && c.bchBlocks >= FloorDiv(c.targetBits + c.bchK - 1, c.bchK)
  }

  /** The key length, thresholds and named choices as `validate` accepts them. */
  predicate ValidChoices(c: Config)
  {
    && c.keyLength in {16, 24, 32, 48, 64}
    && 0.0 < c.thetaLPercentile < 0.5 && 0.5 < c.thetaHPercentile < 1.0
    && c.quantizeMethod in {"percentile", "fixed"}
    && c.hashAlgorithm in {"blake3", "sha256"}
  }

  /** Everything `validate` accepts. */
  predicate Valid(c: Config)
  {
    ValidCounts(c) && ValidBch(c) && ValidChoices(c)
  }

  /**
   `validate`: the checks in the source's order, each raising on the first
   violation. A zero `BCH_K` makes the block computation divide by zero.
   */
  function Validate(c: Config): (r: Outcome)
    ensures r.Pass? <==> Valid(c)
    ensures !(4 <= c.mFrames <= 10) ==> r == Fail("M_FRAMES out of range")
    ensures 4 <= c.mFrames <= 10 && c.voteThreshold < c.mFrames / 2 + 1 ==> r == Fail("VOTE_THRESHOLD must be > M_FRAMES//2")
  {
    var counts := ValidateCounts(c);
    if counts.Fail? then counts
    else
      var bch := ValidateBch(c);
      if bch.Fail? then bch else ValidateChoices(c)
  }

  /** The first four groups of checks: frames, votes, subcarriers, target bits. */
  function ValidateCounts(c: Config): (r: Outcome)
    ensures r.Pass? <==> ValidCounts(c)
    ensures !(4 <= c.mFrames <= 10) ==> r == Fail("M_FRAMES out of range")
    ensures 4 <= c.mFrames <= 10 && c.voteThreshold < c.mFrames / 2 + 1 ==> r == Fail("VOTE_THRESHOLD must be > M_FRAMES//2")
  {
    if c.mFrames < 4 || c.mFrames > 10 then Fail("M_FRAMES out of range")
    else if c.voteThreshold < c.mFrames / 2 + 1 then Fail("VOTE_THRESHOLD must be > M_FRAMES//2")
    else if c.voteThreshold > c.mFrames then Fail("VOTE_THRESHOLD cannot exceed M_FRAMES")
    else if c.nSubcarrierSelected > c.nSubcarrierTotal then Fail("N_SUBCARRIER_SELECTED cannot exceed N_SUBCARRIER_TOTAL")
    else if c.nSubcarrierSelected < 16 then Fail("N_SUBCARRIER_SELECTED should be >= 16")
    else if c.targetBits <= 0 then Fail("TARGET_BITS must be positive")
    else if c.targetBits % 8 != 0 then Fail("TARGET_BITS must be multiple of 8")
    else if c.targetBits < 128 then Fail("TARGET_BITS should be >= 128")
    else Pass
  }

  /** The BCH checks, the block count computed as the source divides. */
  function ValidateBch(c: Config): (r: Outcome)
    ensures r.Pass? <==> ValidBch(c)
  {
    if c.bchK >= c.bchN then Fail("BCH_K must be < BCH_N")
    else if c.bchT < 1 then Fail("BCH_T must be positive")
    else if c.bchK == 0 then Fail("ZeroDivisionError")
    else if c.bchBlocks < FloorDiv(c.targetBits + c.bchK - 1, c.bchK) then Fail("BCH_BLOCKS insufficient for TARGET_BITS")
    else Pass
  }

  /** The last checks: key length, percentiles, quantisation method and hash. */
  function ValidateChoices(c: Config): (r: Outcome)
    ensures r.Pass? <==> ValidChoices(c)
  {
    if c.keyLength !in {16, 24, 32, 48, 64} then Fail("KEY_LENGTH not allowed")
    else if !(0.0 < c.thetaLPercentile < 0.5) then Fail("THETA_L_PERCENTILE must be in (0, 0.5)")
    else if !(0.5 < c.thetaHPercentile < 1.0) then Fail("THETA_H_PERCENTILE must be in (0.5, 1.0)")
    else if c.quantizeMethod !in {"percentile", "fixed"} then Fail("QUANTIZE_METHOD not allowed")
    else if c.hashAlgorithm !in {"blake3", "sha256"} then Fail("HASH_ALGORITHM not allowed")
    else Pass
  }

  /** A validated config with a positive message length has at least the computed number of blocks. */
  lemma ValidBlocks(c: Config)
    requires Valid(c) && c.bchK > 0
    ensures c.bchBlocks >= ComputedBchBlocks(c) >= 1
    ensures c.bchBlocks * c.bchK >= c.targetBits
    ensures c.targetBits / c.bchBlocks <= c.bchK
  {
    assert ValidBch(c) && c.targetBits > 0;
    BlockArithmetic(c.targetBits, c.bchK, ComputedBchBlocks(c), c.bchBlocks);
  }

  /** `blocks` at least the ceiling `b` of `t / k` covers `t` bits, and splitting `t` over them fits in `k`. */
  lemma BlockArithmetic(t: int, k: int, b: int, blocks: int)
    requires t > 0 && k > 0 && (b - 1) * k < t <= b * k && blocks >= b
    ensures b >= 1 && blocks * k >= t && t / blocks <= k
  {
    assert b * k > 0;
    assert blocks * k >= b * k by {
      assert (blocks - b) * k >= 0;
    }
    var q := t / blocks;
    assert q * blocks <= t;
    assert (q - k) * blocks <= 0;
  }

  lemma ProfilesValid()
    ensures Validate(Default()).Pass? && Validate(HighNoise()).Pass?
    ensures Validate(LowLatency()).Pass? && Validate(HighSecurity()).Pass?
  {
  }

  /** A two-vote threshold with six frames is below the strict majority and is rejected. */
  lemma WeakVoteRejected()
    ensures Validate(Default().(voteThreshold := 2)) == Fail("VOTE_THRESHOLD must be > M_FRAMES//2")
  {
  }

  /**
   `ch.upper()` as far as the mode comparison can tell: the letters a–z become
   A–Z, and the ten characters Unicode upper-cases to ASCII text alone become
   that text (`ß`, dotless `ı`, long `ſ` and the Latin ligatures `ﬀ`–`ﬆ`).
   Every other character is kept; its upper case contains a character outside
   ASCII either way, so no comparison with an ASCII name changes.
   */
  function UpperChar(ch: char): (r: string)
    ensures 1 <= |r| <= 3
    ensures ch as int < 128 ==> |r| == 1
  {
    if 'a' <= ch <= 'z' then [(ch as int - 32) as char]
    else if ch == '\U{DF}' then "SS"
    else if ch == '\U{131}' then "I"
    else if ch == '\U{17F}' then "S"
    else if ch == '\U{FB00}' then "FF"
    else if ch == '\U{FB01}' then "FI"
    else if ch == '\U{FB02}' then "FL"
    else if ch == '\U{FB03}' then "FFI"
    else if ch == '\U{FB04}' then "FFL"
    else if ch == '\U{FB05}' || ch == '\U{FB06}' then "ST"
    else [ch]
  }

  /** `str.upper()`, character by character; it never shortens a string. */
  function Upper(s: string): (r: string)
    ensures |r| >= |s|
    ensures (forall i | 0 <= i < |s| :: s[i] as int < 128) ==>
      |r| == |s| && forall i | 0 <= i < |s| :: [r[i]] == UpperChar(s[i])
  {
    if |s| == 0 then "" else UpperChar(s[0]) + Upper(s[1..])
  }

  /** `get_feature_dim`: the CSI dimension is two differences per adjacent pair of selected subcarriers. */
  function FeatureDim(c: Config, mode: string): (r: Result<int>)
    ensures Upper(mode) == "CSI" ==> r == Ok(2 * (c.nSubcarrierSelected - 1))
    ensures Upper(mode) == "RFF" ==> r == Ok(c.featureDimRff)
    ensures r.Err? <==> Upper(mode) !in {"CSI", "RFF"}
  {
    var m := Upper(mode);
    if m == "CSI" then Ok((c.nSubcarrierSelected - 1) * 2)
    else if m == "RFF" then Ok(c.featureDimRff)
    else Err("Unknown mode")
  }

  /** The mode names that upper-case to "CSI": each of c, s, i in either case, with `ſ` for s and `ı` for i. */
  predicate SpellsCsi(mode: string)
  {
    |mode| == 3 && mode[0] in "cC" && mode[1] in "sS\U{17F}" && mode[2] in "iI\U{131}"
  }

  /** The mode names that upper-case to "RFF": r then f, f in either case, or r then the ligature `ﬀ`. */
  predicate SpellsRff(mode: string)
  {
    || (|mode| == 3 && mode[0] in "rR" && mode[1] in "fF" && mode[2] in "fF")
    || (|mode| == 2 && mode[0] in "rR" && mode[1] == '\U{FB00}')
  }

  lemma UpperCons(s: string)
    requires |s| > 0
    ensures Upper(s) == UpperChar(s[0]) + Upper(s[1..])
  {
  }

  /** The only upper cases longer than one character are the expansions of `ß` and the ligatures. */
  lemma UpperCharShape(ch: char)
    ensures |UpperChar(ch)| == 1 || UpperChar(ch) in {"SS", "FF", "FI", "FL", "FFI", "FFL", "ST"}
  {
  }

  /** Upper-casing a string starts with upper-casing its first character. */
  lemma UpperHead(s: string, t: string)
    requires Upper(s) == t && |t| > 0
    ensures |s| > 0 && UpperChar(s[0]) == t[..|UpperChar(s[0])|] && Upper(s[1..]) == t[|UpperChar(s[0])|..]
  {
    UpperCons(s);
  }

  /** The characters that upper-case to one capital letter: itself, its lower case, and `ſ`, `ı` for S and I. */
  lemma UpperCharIs(ch: char, x: char)
    requires 'A' <= x <= 'Z' && UpperChar(ch) == [x]
    ensures ch == x || ch as int == x as int + 32 || (x == 'S' && ch == '\U{17F}') || (x == 'I' && ch == '\U{131}')
  {
  }

  lemma {:induction false} CsiSpelled(mode: string)
    requires Upper(mode) == "CSI"
    ensures SpellsCsi(mode)
  {
    UpperHead(mode, "CSI");
    UpperCharShape(mode[0]);
    assert UpperChar(mode[0]) != "CS" && UpperChar(mode[0]) != "CSI";
    UpperCharIs(mode[0], 'C');
    var m1 := mode[1..];
    UpperHead(m1, "SI");
    UpperCharShape(m1[0]);
    assert UpperChar(m1[0]) != "SI";
    UpperCharIs(m1[0], 'S');
    var m2 := m1[1..];
    UpperHead(m2, "I");
    UpperCharShape(m2[0]);
    UpperCharIs(m2[0], 'I');
    assert |Upper(m2[1..])| >= |m2[1..]|;
  }

  lemma {:induction false} SpelledCsi(mode: string)
    requires SpellsCsi(mode)
    ensures Upper(mode) == "CSI"
  {
    UpperCons(mode);
    UpperCons(mode[1..]);
    UpperCons(mode[2..]);
    assert mode[3..] == "";
  }

  lemma UpperIsCsi(mode: string)
    ensures Upper(mode) == "CSI" <==> SpellsCsi(mode)
  {
    if Upper(mode) == "CSI" {
      CsiSpelled(mode);
    }
    if SpellsCsi(mode) {
      SpelledCsi(mode);
    }
  }

  lemma {:induction false} RffSpelled(mode: string)
    requires Upper(mode) == "RFF"
    ensures SpellsRff(mode)
  {
    UpperHead(mode, "RFF");
    UpperCharShape(mode[0]);
    assert UpperChar(mode[0]) != "RF" && UpperChar(mode[0]) != "RFF";
    UpperCharIs(mode[0], 'R');
    var m1 := mode[1..];
    UpperHead(m1, "FF");
    UpperCharShape(m1[0]);
    var m2 := m1[1..];
    if |UpperChar(m1[0])| == 1 {
      UpperCharIs(m1[0], 'F');
      UpperHead(m2, "F");
      UpperCharShape(m2[0]);
      UpperCharIs(m2[0], 'F');
      assert |Upper(m2[1..])| >= |m2[1..]|;
    } else {
      assert UpperChar(m1[0]) == "FF";
      assert |Upper(m2)| >= |m2|;
    }
  }

  lemma {:induction false} SpelledRff(mode: string)
    requires SpellsRff(mode)
    ensures Upper(mode) == "RFF"
  {
    UpperCons(mode);
    UpperCons(mode[1..]);
    assert UpperChar(mode[0]) == "R";
    if |mode| == 3 {
      UpperCons(mode[2..]);
      assert UpperChar(mode[1]) == "F" && UpperChar(mode[2]) == "F";
      assert mode[3..] == "";
    } else {
      assert UpperChar(mode[1]) == "FF";
      assert mode[2..] == "";
    }
  }

  lemma UpperIsRff(mode: string)
    ensures Upper(mode) == "RFF" <==> SpellsRff(mode)
  {
    if Upper(mode) == "RFF" {
      RffSpelled(mode);
    }
    if SpellsRff(mode) {
      SpelledRff(mode);
    }
  }

  /**
   `get_feature_dim` matches the mode through `str.upper()`: exactly the
   spellings of "CSI" and "RFF" select a dimension, and everything else raises.
   */
  lemma FeatureDimCaseInsensitive(c: Config, mode: string)
    ensures FeatureDim(c, mode) == Ok(2 * (c.nSubcarrierSelected - 1)) <== SpellsCsi(mode)
    ensures FeatureDim(c, mode) == Ok(c.featureDimRff) <== SpellsRff(mode)
    ensures FeatureDim(c, mode).Err? <==> !SpellsCsi(mode) && !SpellsRff(mode)
  {
    UpperIsCsi(mode);
    UpperIsRff(mode);
  }
}

=== FILE: feature_config.dfy ===
/**
 The synchronization layer's feature-parameter configuration
 (`core/feature_config.py`): its fields, the consistency digest and the wire
 layout. The quantisation coefficient is a float in the source; it is kept
 outside the model as its two renderings (see `Alpha`).
 */
module SyncFeatureConfig {
  import opened Wrappers
  import opened Bytes
  import Hkdf
  import opened Tlv
  import Pilot

  /**
   `quantization_alpha`, seen through the two ways the source turns it into
   bytes: `text` is `str(alpha)` in UTF-8, which the digest hashes, and `wire`
   is its 4-byte IEEE-754 single-precision image, which `pack` writes.
   */
  datatype Alpha = Alpha(text: Bytes, wire: Bytes)

  datatype FeatureConfig = FeatureConfig(
    version: int,
    configId: Bytes,
    pilotPlan: Pilot.PilotPlan,
    measurementWindowMs: int,
    sampleCount: int,
    subcarrierSeed: Bytes,
    subcarrierCount: int,
    alpha: Alpha,
    digest: Bytes)

  // ---------------------------------------------------------------------------
  // Digest
  // ---------------------------------------------------------------------------

  /**
   What `compute_digest` feeds SHA-256, in order: version, id, packed pilot
   plan, window, sample count, seed, subcarrier count (integers as 4-byte
   big-endian) and the text of alpha. `to_bytes` and the plan's `pack` raise.
   */
  function DigestInput(c: FeatureConfig): (r: Result<Bytes>)
    ensures r.Ok? <==> DigestFieldsFit(c)
    ensures r.Ok? ==> r.value == DigestBytes(c)
  {
    if DigestFieldsFit(c) then Ok(DigestBytes(c)) else Err("int too big to convert")
  }

  /** The integer fields fit in 32 bits and the plan can be packed. */
  predicate DigestFieldsFit(c: FeatureConfig)
  {
    IsU32(c.version) && Pilot.WellFormed(c.pilotPlan) && IsU32(c.measurementWindowMs)
    && IsU32(c.sampleCount) && IsU32(c.subcarrierCount)
  }

  function DigestBytes(c: FeatureConfig): Bytes
    requires DigestFieldsFit(c)
  {
    Pow256Widths();
    ToBE(c.version, 4) + c.configId + Pilot.Layout(c.pilotPlan) + DigestTail(c)
  }

  /** The digest input after the plan. */
  function DigestTail(c: FeatureConfig): Bytes
    requires DigestFieldsFit(c)
  {
    Pow256Widths();
    ToBE(c.measurementWindowMs, 4) + ToBE(c.sampleCount, 4) + c.subcarrierSeed
      + ToBE(c.subcarrierCount, 4) + c.alpha.text
  }

  /** `compute_digest`: SHA-256 of the digest input. */
  function ComputeDigest(p: Hkdf.Primitives, c: FeatureConfig): (r: Result<Bytes>)
    requires Hkdf.Sound(p)
    ensures r.Ok? <==> DigestInput(c).Ok?
    ensures r.Ok? ==> |r.value| == 32 && r.value == p.sha256(DigestInput(c).value)
  {
    var input :- DigestInput(c);
    Ok(p.sha256(input))
  }

  /** The digest never reads the stored digest, so refreshing it leaves the input unchanged. */
  lemma DigestIgnoresDigest(c: FeatureConfig, digest: Bytes)
    ensures DigestInput(c.(digest := digest)) == DigestInput(c)
  {
  }

  /**
   The digest input commits to every parameter: with the id and the seed of
   fixed lengths, equal inputs come only from configurations that agree on
   everything the digest covers. Alpha is covered through its text only.
   */
  lemma DigestInputInjective(c: FeatureConfig, c': FeatureConfig)
    requires |c.configId| == |c'.configId| && |c.subcarrierSeed| == |c'.subcarrierSeed|
    requires DigestInput(c).Ok? && DigestInput(c) == DigestInput(c')
    ensures c.version == c'.version && c.configId == c'.configId && c.pilotPlan == c'.pilotPlan
    ensures c.measurementWindowMs == c'.measurementWindowMs && c.sampleCount == c'.sampleCount
    ensures c.subcarrierSeed == c'.subcarrierSeed && c.subcarrierCount == c'.subcarrierCount
    ensures c.alpha.text == c'.alpha.text
  {
    Pow256Widths();
    var v, v' := ToBE(c.version, 4), ToBE(c'.version, 4);
    var pp, pp' := Pilot.Layout(c.pilotPlan), Pilot.Layout(c'.pilotPlan);
    var t, t' := DigestTail(c), DigestTail(c');
    assert (v + c.configId) + (pp + t) == (v' + c'.configId) + (pp' + t') by {
      assert DigestBytes(c) == ((v + c.configId) + pp) + t;
      assert DigestBytes(c') == ((v' + c'.configId) + pp') + t';
      ConcatAssoc(v + c.configId, pp, t);
      ConcatAssoc(v' + c'.configId, pp', t');
    }
    ConcatCancel(v + c.configId, pp + t, v' + c'.configId, pp' + t');
    ConcatCancel(v, c.configId, v', c'.configId);
    BERoundTrip(c.version, 4);
    BERoundTrip(c'.version, 4);
    PlanCancel(c.pilotPlan, t, c'.pilotPlan, t');
    TailInjective(c, c');
  }

  /** An encoded plan is self-delimiting: what follows it cannot make two plans look alike. */
  lemma PlanCancel(plan: Pilot.PilotPlan, t: Bytes, plan': Pilot.PilotPlan, t': Bytes)
    requires Pilot.WellFormed(plan) && Pilot.WellFormed(plan')
    requires Pilot.Layout(plan) + t == Pilot.Layout(plan') + t'
    ensures plan == plan' && t == t'
  {
    var pp, pp' := Pilot.Layout(plan), Pilot.Layout(plan');
    var d := Decoder(pp + t, 0);
    assert At(d, pp) && At(d, pp');
    Pilot.ReadBack(d, plan);
    Pilot.ReadBack(d, plan');
    ConcatCancel(pp, t, pp', t');
  }

  /** The part of the digest input after the pilot plan determines the fields in it. */
  lemma TailInjective(c: FeatureConfig, c': FeatureConfig)
    requires |c.subcarrierSeed| == |c'.subcarrierSeed|
    requires DigestFieldsFit(c) && DigestFieldsFit(c') && DigestTail(c) == DigestTail(c')
    ensures c.measurementWindowMs == c'.measurementWindowMs && c.sampleCount == c'.sampleCount
    ensures c.subcarrierSeed == c'.subcarrierSeed && c.subcarrierCount == c'.subcarrierCount
    ensures c.alpha.text == c'.alpha.text
  {
    Pow256Widths();
    var w, w' := ToBE(c.measurementWindowMs, 4), ToBE(c'.measurementWindowMs, 4);
    var s, s' := ToBE(c.sampleCount, 4), ToBE(c'.sampleCount, 4);
    var n, n' := ToBE(c.subcarrierCount, 4), ToBE(c'.subcarrierCount, 4);
    var t := DigestTail(c);
    var e := 8 + |c.subcarrierSeed|;
    assert t == w + s + c.subcarrierSeed + n + c.alpha.text == w' + s' + c'.subcarrierSeed + n' + c'.alpha.text;
    assert w == t[..4] == w';
    assert s == t[4..8] == s';
    assert c.subcarrierSeed == t[8..e] == c'.subcarrierSeed;
    assert n == t[e..e + 4] == n';
    assert c.alpha.text == t[e + 4..] == c'.alpha.text;
    BERoundTrip(c.measurementWindowMs, 4);
    BERoundTrip(c'.measurementWindowMs, 4);
    BERoundTrip(c.sampleCount, 4);
    BERoundTrip(c'.sampleCount, 4);
    BERoundTrip(c.subcarrierCount, 4);
    BERoundTrip(c'.subcarrierCount, 4);
  }

  // ---------------------------------------------------------------------------
  // Wire layout
  // ---------------------------------------------------------------------------

  /** What `pack` needs: every field within its width and the packed plan within a 16-bit length. */
  predicate WellFormed(c: FeatureConfig)
  {
    && IsU32(c.version)
    && |c.configId| == 16
    && Pilot.WellFormed(c.pilotPlan)
    && Pilot.PackedSize(c.pilotPlan) < U16_LIMIT
    && IsU32(c.measurementWindowMs)
    && IsU32(c.sampleCount)
    && |c.subcarrierSeed| == 8
    && IsU32(c.subcarrierCount)
    && |c.alpha.wire| == 4
    && |c.digest| == 32
  }

  /** The fixed-width fields after the packed plan: 4 + 4 + 8 + 4 + 4 + 32 bytes. */
  const TAIL_SIZE: nat := 56

  /** The header of the layout: version, id and the length-prefixed packed plan. */
  function HeadBytes(c: FeatureConfig): (r: Bytes)
    requires WellFormed(c)
    ensures |r| == 4 + 16 + 2 + Pilot.PackedSize(c.pilotPlan)
  {
    Pow256Widths();
    ToBE(c.version, 4) + c.configId + EncodeBytes(Pilot.Layout(c.pilotPlan)).value
  }

  /** The fixed-width tail of the layout. */
  function TailBytes(c: FeatureConfig): (r: Bytes)
    requires WellFormed(c)
    ensures |r| == TAIL_SIZE
  {
    Pow256Widths();
    ToBE(c.measurementWindowMs, 4) + ToBE(c.sampleCount, 4) + c.subcarrierSeed
      + ToBE(c.subcarrierCount, 4) + c.alpha.wire + c.digest
  }

  /** The length of a packed configuration. */
  function PackedSize(c: FeatureConfig): nat
  {
    4 + 16 + 2 + Pilot.PackedSize(c.pilotPlan) + TAIL_SIZE
  }

  /**
   The bytes `pack` writes: version, 16-byte id, the length-prefixed packed
   plan, window, sample count, 8-byte seed, subcarrier count, alpha's 4-byte
   image and the 32-byte digest.
   */
  function Layout(c: FeatureConfig): (r: Bytes)
    requires WellFormed(c)
    ensures |r| == PackedSize(c)
  {
    HeadBytes(c) + TailBytes(c)
  }

  /** `pack`: raises when a field is out of its width, otherwise writes the layout. */
  function Pack(c: FeatureConfig): (r: Result<Bytes>)
    ensures r.Ok? <==> WellFormed(c)
    ensures r.Ok? ==> r.value == Layout(c)
  {
    if WellFormed(c) then Ok(Layout(c)) else Err("argument out of range")
  }

  /** The reads of `unpack` up to and including the nested plan. */
  function ReadHead(d: Decoder): (r: Result<(int, Bytes, Pilot.PilotPlan, Decoder)>)
    ensures r.Ok? ==> r.value.3.data == d.data && IsU32(r.value.0) && |r.value.1| == 16
  {
    Pow256Widths();
    var (version, d1) :- DecodeUint(d, 4);
    var (configId, d2) :- DecodeFixed(d1, 16);
    var (planData, d3) :- DecodeBytes(d2);
    var plan :- Pilot.Unpack(planData);
    Ok((version, configId, plan, d3))
  }

  /** The fixed-width fields after the plan, as `unpack` reads them. */
  datatype Tail = Tail(window: int, samples: int, seed: Bytes, count: int, wire: Bytes, digest: Bytes)

  /** The fixed-width reads of `unpack` after the plan; a float needs four bytes like `unpack_from`. */
  function ReadTail(d: Decoder): (r: Result<(Tail, Decoder)>)
    ensures r.Ok? <==> d.offset + TAIL_SIZE <= |d.data|
    ensures r.Ok? ==> r.value.1 == d.(offset := d.offset + TAIL_SIZE)
    ensures r.Ok? ==> IsU32(r.value.0.window) && IsU32(r.value.0.samples) && |r.value.0.seed| == 8
    ensures r.Ok? ==> IsU32(r.value.0.count) && |r.value.0.wire| == 4 && |r.value.0.digest| == 32
  {
    Pow256Widths();
    var (window, d1) :- DecodeUint(d, 4);
    var (samples, d2) :- DecodeUint(d1, 4);
    var (seed, d3) :- DecodeFixed(d2, 8);
    var (count, d4) :- DecodeUint(d3, 4);
    var (wire, d5) :- DecodeFixed(d4, 4);
    var (digest, d6) :- DecodeFixed(d5, 32);
    Ok((Tail(window, samples, seed, count, wire, digest), d6))
  }

  /** The configuration assembled from what `unpack` read. */
  function Assemble(version: int, configId: Bytes, plan: Pilot.PilotPlan, t: Tail, render: Bytes -> Bytes): FeatureConfig
  {
    FeatureConfig(version, configId, plan, t.window, t.samples, t.seed, t.count, Alpha(render(t.wire), t.wire), t.digest)
  }

  /**
   The reads of `unpack`. `render` stands for `str(float)` applied to the
   decoded single-precision value: the float arithmetic is outside the model.
   */
  function Read(d: Decoder, render: Bytes -> Bytes): (r: Result<(FeatureConfig, Decoder)>)
    ensures r.Ok? ==> r.value.1.data == d.data && r.value.0.alpha.text == render(r.value.0.alpha.wire)
  {
    var (version, configId, plan, d1) :- ReadHead(d);
    var (tail, d2) :- ReadTail(d1);
    Ok((Assemble(version, configId, plan, tail, render), d2))
  }

  /** `FeatureConfig.unpack`. */
  function Unpack(data: Bytes, render: Bytes -> Bytes): (r: Result<FeatureConfig>)
    ensures r.Ok? ==> r.value.alpha.text == render(r.value.alpha.wire)
  {
    var (c, _) :- Read(Decoder(data, 0), render);
    Ok(c)
  }

  function TailOf(c: FeatureConfig): Tail
  {
    Tail(c.measurementWindowMs, c.sampleCount, c.subcarrierSeed, c.subcarrierCount, c.alpha.wire, c.digest)
  }

  lemma ReadTailBack(d: Decoder, c: FeatureConfig)
    requires WellFormed(c) && At(d, TailBytes(c))
    ensures ReadTail(d) == Ok((TailOf(c), d.(offset := d.offset + TAIL_SIZE)))
  {
    Pow256Widths();
    var w, s := ToBE(c.measurementWindowMs, 4), ToBE(c.sampleCount, 4);
    var n := ToBE(c.subcarrierCount, 4);
    var o := d.offset;
    AtSplit(d, w + s + c.subcarrierSeed + n + c.alpha.wire, c.digest);
    AtSplit(d, w + s + c.subcarrierSeed + n, c.alpha.wire);
    AtSplit(d, w + s + c.subcarrierSeed, n);
    AtSplit(d, w + s, c.subcarrierSeed);
    AtSplit(d, w, s);
    ReadUintBE(d, c.measurementWindowMs, 4);
    ReadUintBE(d.(offset := o + 4), c.sampleCount, 4);
    ReadFixed(d.(offset := o + 8), c.subcarrierSeed);
    ReadUintBE(d.(offset := o + 16), c.subcarrierCount, 4);
    ReadFixed(d.(offset := o + 20), c.alpha.wire);
    ReadFixed(d.(offset := o + 24), c.digest);
  }

  lemma ReadHeadBack(d: Decoder, c: FeatureConfig)
    requires WellFormed(c) && At(d, HeadBytes(c))
    ensures ReadHead(d) == Ok((c.version, c.configId, c.pilotPlan, d.(offset := d.offset + |HeadBytes(c)|)))
  {
    var pp := Pilot.Layout(c.pilotPlan);
    assert Pilot.Unpack(pp) == Ok(c.pilotPlan) by {
      Pilot.PackRoundTrip(c.pilotPlan);
    }
    assert HeadBytes(c) == ToBE(c.version, 4) + c.configId + EncodeBytes(pp).value;
    ReadHeadParts(d, c.version, c.configId, pp, c.pilotPlan);
    assert d.(offset := d.offset + 4 + 16 + 2 + |pp|) == d.(offset := d.offset + |HeadBytes(c)|);
  }

  /** The head read back from its parts: a 32-bit version, a 16-byte id and an encoded plan. */
  lemma ReadHeadParts(d: Decoder, version: nat, configId: Bytes, pp: Bytes, plan: Pilot.PilotPlan)
    requires version < U32_LIMIT && |configId| == 16 && |pp| < U16_LIMIT && Pilot.Unpack(pp) == Ok(plan)
    requires At(d, ToBE(version, 4) + configId + EncodeBytes(pp).value)
    ensures ReadHead(d) == Ok((version, configId, plan, d.(offset := d.offset + 4 + 16 + 2 + |pp|)))
  {
    Pow256Widths();
    var v, e := ToBE(version, 4), EncodeBytes(pp).value;
    var o := d.offset;
    AtSplit(d, v + configId, e);
    AtSplit(d, v, configId);
    var d1, d2 := d.(offset := o + 4), d.(offset := o + 20);
    var d3 := d2.(offset := d2.offset + 2 + |pp|);
    assert DecodeUint(d, 4) == Ok((version, d1)) by {
      ReadUintBE(d, version, 4);
    }
    assert DecodeFixed(d1, 16) == Ok((configId, d2)) by {
      ReadFixed(d1, configId);
    }
    assert DecodeBytes(d2) == Ok((pp, d3)) by {
      ReadBytes(d2, pp);
    }
    assert d3 == d.(offset := d.offset + 4 + 16 + 2 + |pp|);
    ReadHeadOf(d, version, d1, configId, d2, pp, d3, plan);
  }

  lemma ReadHeadOf(d: Decoder, version: nat, d1: Decoder, configId: Bytes, d2: Decoder, planData: Bytes, d3: Decoder, plan: Pilot.PilotPlan)
    requires DecodeUint(d, 4) == Ok((version, d1)) && DecodeFixed(d1, 16) == Ok((configId, d2))
    requires DecodeBytes(d2) == Ok((planData, d3)) && Pilot.Unpack(planData) == Ok(plan)
    ensures ReadHead(d) == Ok((version, configId, plan, d3))
  {
  }

  /** A packed configuration at the decoder's offset, head then tail, is read back as it looks after a trip. */
  lemma ReadBack(d: Decoder, c: FeatureConfig, render: Bytes -> Bytes)
    requires WellFormed(c) && At(d, HeadBytes(c)) && At(d.(offset := d.offset + |HeadBytes(c)|), TailBytes(c))
    ensures Read(d, render) == Ok((Transit(c, render), d.(offset := d.offset + PackedSize(c))))
  {
    var d1 := d.(offset := d.offset + |HeadBytes(c)|);
    var d2 := d1.(offset := d1.offset + TAIL_SIZE);
    ReadHeadBack(d, c);
    ReadTailBack(d1, c);
    assert Read(d, render) == Ok((Assemble(c.version, c.configId, c.pilotPlan, TailOf(c), render), d2));
    assert d2 == d.(offset := d.offset + PackedSize(c));
    assert Assemble(c.version, c.configId, c.pilotPlan, TailOf(c), render) == Transit(c, render);
  }

  /**
   `unpack(pack(c))` restores every integer and byte field and alpha's image;
   alpha's text becomes the rendering of that image. The cursor ends at the
   end of the input.
   */
  lemma PackRoundTrip(c: FeatureConfig, render: Bytes -> Bytes)
    requires WellFormed(c)
    ensures Read(Decoder(Pack(c).value, 0), render) == Ok((Transit(c, render), Decoder(Pack(c).value, |Pack(c).value|)))
    ensures Unpack(Pack(c).value, render) == Ok(Transit(c, render))
  {
    var data := Pack(c).value;
    var d := Decoder(data, 0);
    assert data == Layout(c) && |data| == PackedSize(c);
    assert At(d, Layout(c));
    AtSplit(d, HeadBytes(c), TailBytes(c));
    ReadBack(d, c, render);
    assert d.(offset := d.offset + PackedSize(c)) == Decoder(data, |data|);
    assert Read(d, render) == Ok((Transit(c, render), Decoder(data, |data|)));
  }

  /** A configuration after a trip over the wire: alpha's text becomes the rendering of its image. */
  function Transit(c: FeatureConfig, render: Bytes -> Bytes): FeatureConfig
  {
    c.(alpha := Alpha(render(c.alpha.wire), c.alpha.wire))
  }

  /** The wire image does not depend on alpha's text, so a configuration re-packs to the same bytes after a trip. */
  lemma TransitRepacks(c: FeatureConfig, render: Bytes -> Bytes)
    ensures Pack(Transit(c, render)) == Pack(c)
  {
  }

  /** The stored digest still matches after a trip exactly when the rendering reproduces alpha's text. */
  lemma TransitDigest(p: Hkdf.Primitives, c: FeatureConfig, render: Bytes -> Bytes)
    requires Hkdf.Sound(p) && DigestInput(c).Ok?
    ensures render(c.alpha.wire) == c.alpha.text ==> ComputeDigest(p, Transit(c, render)) == ComputeDigest(p, c)
    ensures render(c.alpha.wire) != c.alpha.text ==> DigestInput(Transit(c, render)) != DigestInput(c)
  {
    if render(c.alpha.wire) != c.alpha.text && DigestInput(Transit(c, render)) == DigestInput(c) {
      DigestInputInjective(c, Transit(c, render));
    }
  }

  // ---------------------------------------------------------------------------
  // Default configuration
  // ---------------------------------------------------------------------------

  /** The default alpha 0.8: its text "0.8" and its single-precision image 0x3F4CCCCD. */
  const DEFAULT_ALPHA := Alpha([0x30, 0x2e, 0x38], [0x3F, 0x4C, 0xCC, 0xCD])

  /** The default plan: 10 ms frames, pilots in slots 0 and 5, a 16-byte zero training pattern. */
  const DEFAULT_PLAN := Pilot.PilotPlan(10, [0, 5], Zeros(16))

  /**
   `create_default`: version 1, the default plan, a 200 ms window, 6 samples,
   64 subcarriers and alpha 0.8, with the digest computed over the result.
   The random id and seed are parameters.
   */
  function CreateDefault(p: Hkdf.Primitives, configId: Bytes, seed: Bytes): (r: FeatureConfig)
    requires Hkdf.Sound(p)
    requires |configId| == 16 && |seed| == 8
    ensures r.version == 1 && r.configId == configId && r.subcarrierSeed == seed
    ensures WellFormed(r)
    ensures ComputeDigest(p, r) == Ok(r.digest)
  {
    Pow256Widths();
    var draft := FeatureConfig(1, configId, DEFAULT_PLAN, 200, 6, seed, 64, DEFAULT_ALPHA, []);
    var digest := ComputeDigest(p, draft).value;
    DigestIgnoresDigest(draft, digest);
    draft.(digest := digest)
  }
}

=== FILE: feature_engine.dfy ===
/**
 The feature-key engine's orchestration (`FeatureEncryption`): registration
 publishes helper data and keeps the quantisation thresholds per device;
 authentication recovers the stable string from a fresh reading and derives
 the same keys and, from the stored thresholds, the same digest.

 A reading is what `process_multi_frames` returns: the padded bit string and
 the two threshold arrays as `ndarray.tobytes()` serialises them (their
 floating-point computation is outside the model). The engine runs the
 fuzzy extractor as the source does, with block size `TARGET_BITS // BCH_BLOCKS`
 and `BCH_N`-bit helper blocks.
 */
module FeatureEngine {
  import opened Wrappers
  import opened Bytes
  import opened Bits
  import opened FeConfig
  import opened FuzzyExtractor
  import opened FuzzyExtractorProofs
  import opened KeyDerivation

  /** `Context`: addresses, domain, version, epoch, hash-chain counter and nonce. */
  datatype Context = Context(
    srcMac: Bytes, dstMac: Bytes, dom: Bytes, ver: int, epoch: int, ci: int, nonce: Bytes)

  /** `KeyOutput`: the stable string S, the perturbation L, K, Ks and the digest. */
  datatype KeyOutput = KeyOutput(s: Bytes, l: Bytes, k: Bytes, ks: Bytes, digest: Bytes)

  /** The output of `process_multi_frames`, thresholds serialised. */
  datatype Reading = Reading(bits: seq<bool>, thetaL: Bytes, thetaH: Bytes)

  /** The per-device helper data store and threshold store. */
  datatype Store = Store(helpers: map<string, Bytes>, thresholds: map<string, (Bytes, Bytes)>)

  /** The registration metadata the model keeps: `bit_count` and `helper_data_id`. */
  datatype Metadata = Metadata(bitCount: nat, helperId: string)

  datatype Engine = Engine(config: Config, codec: BchCodec, prims: Primitives)

  function EmptyStore(): Store
  {
    Store(map[], map[])
  }

  function Geom(c: Config): Geometry
  {
    Geometry(c.targetBits, c.bchBlocks, c.bchN, c.bchK)
  }

  /** A validated configuration with a positive message length, and sound primitives. */
  ghost predicate Ready(e: Engine)
  {
    Valid(e.config) && Sane(Geom(e.config)) && Sound(e.prims)
  }

  /** The constructor: `validate` runs before any component is built, so an engine always has a valid config. */
  function Create(c: Config, codec: BchCodec, p: Primitives): (r: Result<Engine>)
    ensures r.Ok? <==> Valid(c)
    ensures r.Err? ==> Validate(c).Fail? && r.error == Validate(c).error
  {
    match Validate(c)
    case Fail(msg) => Err(msg)
    case Pass => Ok(Engine(c, codec, p))
  }

  /** `S` zero-padded to 32 bytes, then cut to 32. */
  function NormalizeS(s: Bytes): (r: Bytes)
    ensures |r| == 32
    ensures forall i | 0 <= i < 32 :: r[i] == (if i < |s| then s[i] else 0)
  {
    var padded := if |s| < 32 then s + Zeros(32 - |s|) else s;
    padded[..32]
  }

  /** The context fields key derivation can accept. */
  predicate ContextOk(c: Config, ctx: Context)
  {
    && IsU32(ctx.epoch) && |ctx.nonce| == c.nonceLength
    && |ctx.srcMac| == c.macLength && |ctx.dstMac| == c.macLength
    && IsU8(ctx.ver) && IsU32(ctx.ci)
  }

  /** `_derive_keys`: normalise S, then derive L, K and Ks (with `context.Ci`); the digest is filled later. */
  function DeriveKeys(e: Engine, sBytes: Bytes, ctx: Context): (r: Result<KeyOutput>)
    requires Ready(e)
    ensures r.Ok? <==> ContextOk(e.config, ctx) && HashAvailable(e.config, e.prims)
    ensures ContextOk(e.config, ctx) && !HashAvailable(e.config, e.prims) ==> r == Err(HASHLIB_MISSING)
    ensures r.Ok? ==>
      var o := r.value;
      && o.s == NormalizeS(sBytes) && o.digest == []
      && ComputeL(e.config, e.prims, ctx.epoch, ctx.nonce) == Ok(o.l)
      && DeriveFeatureKey(e.config, e.prims, o.s, o.l, ctx.dom, ctx.srcMac, ctx.dstMac, ctx.ver, ctx.epoch) == Ok(o.k)
      && DeriveSessionKey(e.config, e.prims, o.k, ctx.epoch, ctx.ci) == Ok(o.ks)
      && |o.l| == 32 && |o.k| == e.config.keyLength && |o.ks| == e.config.keyLength
  {
    var c, p := e.config, e.prims;
    var s := NormalizeS(sBytes);
    var l :- ComputeL(c, p, ctx.epoch, ctx.nonce);
    var k :- DeriveFeatureKey(c, p, s, l, ctx.dom, ctx.srcMac, ctx.dstMac, ctx.ver, ctx.epoch);
    var ks :- DeriveSessionKey(c, p, k, ctx.epoch, ctx.ci);
    Ok(KeyOutput(s, l, k, ks, []))
  }

  /** The store after registering `id`: both entries written, every other device untouched. */
  function StoreFor(store: Store, id: string, helper: Bytes, rd: Reading): (s: Store)
    ensures s.helpers.Keys == store.helpers.Keys + {id} && s.helpers[id] == helper
    ensures s.thresholds.Keys == store.thresholds.Keys + {id} && s.thresholds[id] == (rd.thetaL, rd.thetaH)
    ensures forall d | d in store.helpers && d != id :: s.helpers[d] == store.helpers[d]
    ensures forall d | d in store.thresholds && d != id :: s.thresholds[d] == store.thresholds[d]
  {
    Store(store.helpers[id := helper], store.thresholds[id := (rd.thetaL, rd.thetaH)])
  }

  /** The keys and metadata `register` returns once the helper data is stored: S is `r` itself, undecoded. */
  function RegisterKeys(e: Engine, id: string, rd: Reading, ctx: Context, mask: Bytes): (r: Result<(KeyOutput, Metadata)>)
    requires Ready(e)
    ensures r.Ok? <==> ContextOk(e.config, ctx) && IsU8(e.config.version) && HashAvailable(e.config, e.prims)
    ensures r.Ok? ==>
      var (o, meta) := r.value;
      && o.s == NormalizeS(BitsToBytes(rd.bits))
      && DeriveKeys(e, BitsToBytes(rd.bits), ctx) == Ok(o.(digest := []))
      && GenerateDigest(e.config, e.prims, mask, rd.thetaL, rd.thetaH, 1, None) == Ok(o.digest)
      && meta == Metadata(|rd.bits|, id)
  {
    var keys :- DeriveKeys(e, BitsToBytes(rd.bits), ctx);
    var digest :- GenerateDigest(e.config, e.prims, mask, rd.thetaL, rd.thetaH, 1, None);
    Ok((keys.(digest := digest), Metadata(|rd.bits|, id)))
  }

  /**
   `register`. The store is written as soon as the helper data exists, so a
   later failure in key derivation still leaves the new entries behind; the
   store is therefore returned beside the result.
   */
  function Register(e: Engine, store: Store, id: string, rd: Reading, ctx: Context, mask: Bytes)
    : (out: (Store, Result<(KeyOutput, Metadata)>))
    requires Ready(e)
    ensures |rd.bits| != e.config.targetBits ==> out.0 == store && out.1.Err?
    ensures |rd.bits| == e.config.targetBits ==>
      && out.0 == StoreFor(store, id, GenerateHelper(Geom(e.config), e.codec, rd.bits).value, rd)
      && out.1 == RegisterKeys(e, id, rd, ctx, mask)
  {
    match GenerateHelper(Geom(e.config), e.codec, rd.bits)
    case Err(msg) => (store, Err(msg))
    case Ok(helper) => (StoreFor(store, id, helper, rd), RegisterKeys(e, id, rd, ctx, mask))
  }

  /** The thresholds the authentication digest uses: the stored ones, else the fresh ones. */
  function DigestThresholds(store: Store, id: string, rd: Reading): (t: (Bytes, Bytes))
    ensures id in store.thresholds ==> t == store.thresholds[id]
    ensures id !in store.thresholds ==> t == (rd.thetaL, rd.thetaH)
  {
    if id in store.thresholds then store.thresholds[id] else (rd.thetaL, rd.thetaH)
  }

  /** What `authenticate` does once extraction succeeded: derive the keys, then the digest from `DigestThresholds`. */
  function RecoverKeys(e: Engine, store: Store, id: string, bits: seq<bool>, rd: Reading, ctx: Context, mask: Bytes)
    : (r: Result<Option<KeyOutput>>)
    requires Ready(e)
    ensures r.Ok? <==> ContextOk(e.config, ctx) && IsU8(e.config.version) && HashAvailable(e.config, e.prims)
    ensures r.Ok? ==>
      var t := DigestThresholds(store, id, rd);
      && r.value.Some?
      && DeriveKeys(e, BitsToBytes(bits), ctx) == Ok(r.value.value.(digest := []))
      && GenerateDigest(e.config, e.prims, mask, t.0, t.1, 1, None) == Ok(r.value.value.digest)
  {
    var keys :- DeriveKeys(e, BitsToBytes(bits), ctx);
    var t := DigestThresholds(store, id, rd);
    var digest :- GenerateDigest(e.config, e.prims, mask, t.0, t.1, 1, None);
    Ok(Some(keys.(digest := digest)))
  }

  /**
   `authenticate`: `None` stands for `(None, False)`. It takes the store but
   returns none, so it cannot write either store.
   */
  function Authenticate(e: Engine, store: Store, id: string, rd: Reading, ctx: Context, mask: Bytes)
    : (r: Result<Option<KeyOutput>>)
    requires Ready(e)
    ensures id !in store.helpers ==> r == Ok(None)
    ensures id in store.helpers ==>
      var x := ExtractStableKey(Geom(e.config), e.codec, rd.bits, store.helpers[id]);
      && (x.Err? <==> r.Err? && |rd.bits| != e.config.targetBits)
      && (x.Ok? && !x.value.1 ==> r == Ok(None))
      && (x.Ok? && x.value.1 ==> r == RecoverKeys(e, store, id, x.value.0, rd, ctx, mask))
  {
    if id !in store.helpers then Ok(None)
    else
      var (bits, success) :- ExtractStableKey(Geom(e.config), e.codec, rd.bits, store.helpers[id]);
      if !success then Ok(None) else RecoverKeys(e, store, id, bits, rd, ctx, mask)
  }

  /**
   The BCH code encodes messages of the block width to `ecc_bytes` bytes,
   corrects up to `t` flipped bits, and its helper blocks line up with the stride.
   */
  ghost predicate CodecCorrects(e: Engine, t: nat)
    requires Ready(e)
  {
    var g := Geom(e.config);
    EncodesWidth(e.codec, MsgBytes(g)) && CorrectsUpTo(e.codec, MsgBytes(g), t) && Aligned(g, e.codec)
  }

  /**
   Authenticating a registered device with a reading whose every block is within
   the decoder's budget derives the keys from the registered bit string's first
   `BCH_BLOCKS·(TARGET_BITS // BCH_BLOCKS)` bits, and the digest from the
   thresholds stored at registration.
   */
  lemma AuthenticateRecoversPrefix(
    e: Engine, store: Store, id: string, rd: Reading, again: Reading, ctx: Context, mask: Bytes, t: nat)
    requires Ready(e) && CodecCorrects(e, t)
    requires |rd.bits| == e.config.targetBits && |again.bits| == e.config.targetBits
    requires WithinBudget(Geom(e.config), e.codec, t, rd.bits, again.bits, FloorBlockSize(Geom(e.config), rd.bits))
    ensures var s := Register(e, store, id, rd, ctx, mask).0;
            Authenticate(e, s, id, again, ctx, mask)
              == RecoverKeys(e, s, id, Take(rd.bits, Offset(e.config.bchBlocks, FloorBlockSize(Geom(e.config), rd.bits))),
                             again, ctx, mask)
  {
    ValidBlocks(e.config);
    NoisyRoundTrip(Geom(e.config), e.codec, t, rd.bits, again.bits);
  }

  /**
   When the blocks split the target evenly (as in every shipped profile),
   registering and then authenticating with a reading within budget, whatever
   its fresh thresholds, reproduces S, L, K, Ks and the digest exactly.
   */
  lemma RegisterThenAuthenticate(
    e: Engine, store: Store, id: string, rd: Reading, again: Reading, ctx: Context, mask: Bytes, t: nat)
    requires Ready(e) && CodecCorrects(e, t)
    requires e.config.targetBits % e.config.bchBlocks == 0
    requires |again.bits| == |rd.bits|
    requires WithinBudget(Geom(e.config), e.codec, t, rd.bits, again.bits, FloorBlockSize(Geom(e.config), rd.bits))
    requires Register(e, store, id, rd, ctx, mask).1.Ok?
    ensures Authenticate(e, Register(e, store, id, rd, ctx, mask).0, id, again, ctx, mask)
      == Ok(Some(Register(e, store, id, rd, ctx, mask).1.value.0))
  {
    var c, g := e.config, Geom(e.config);
    var s := Register(e, store, id, rd, ctx, mask).0;
    AuthenticateRecoversPrefix(e, store, id, rd, again, ctx, mask, t);
    var q := FloorBlockSize(g, rd.bits);
    DivisibleCovers(|rd.bits|, c.bchBlocks);
    TakeAll(rd.bits, Offset(c.bchBlocks, q));
    assert DigestThresholds(s, id, again) == (rd.thetaL, rd.thetaH);
  }

  /**
   A profile whose blocks split the target evenly, whose helper blocks line up,
   and whose codeword is longer than the `BCH_N` bits a helper block keeps.
   */
  predicate SplitsEvenly(c: Config, codec: BchCodec)
  {
    && Sane(Geom(c)) && c.targetBits % c.bchBlocks == 0 && Aligned(Geom(c), codec)
    && KeptBits(Geom(c), codec) == c.bchN < 8 * CodewordBytes(Geom(c), codec)
  }

  /** With an ECC of at least 15 bytes, every shipped profile splits evenly and drops codeword bits. */
  lemma ProfilesSplitEvenly(codec: BchCodec)
    requires codec.eccBytes >= 15
    ensures SplitsEvenly(Default(), codec) && SplitsEvenly(HighNoise(), codec)
    ensures SplitsEvenly(LowLatency(), codec) && SplitsEvenly(HighSecurity(), codec)
  {
  }

  /** An unregistered device never authenticates, whatever it presents. */
  lemma UnregisteredFails(e: Engine, id: string, rd: Reading, ctx: Context, mask: Bytes)
    requires Ready(e)
    ensures Authenticate(e, EmptyStore(), id, rd, ctx, mask) == Ok(None)
  {
  }

  /**
   With BLAKE3 installed, an engine configured for `'sha256'` raises the
   `NameError` from `register` after the helper data and thresholds are
   already stored, and from `authenticate` once extraction succeeds.
   */
  lemma Sha256EngineRaises(
    e: Engine, store: Store, id: string, rd: Reading, bits: seq<bool>, ctx: Context, mask: Bytes)
    requires Ready(e) && e.prims.hasBlake3 && e.config.hashAlgorithm == "sha256"
    requires |rd.bits| == e.config.targetBits && ContextOk(e.config, ctx)
    ensures Register(e, store, id, rd, ctx, mask).0
      == StoreFor(store, id, GenerateHelper(Geom(e.config), e.codec, rd.bits).value, rd)
    ensures Register(e, store, id, rd, ctx, mask).1 == Err(HASHLIB_MISSING)
    ensures RecoverKeys(e, store, id, bits, rd, ctx, mask) == Err(HASHLIB_MISSING)
  {
  }

  /** Re-registering a device replaces its entries and leaves every other device's untouched. */
  lemma ReRegisterOverwrites(
    e: Engine, store: Store, id: string, other: string, rd1: Reading, rd2: Reading, ctx: Context, mask: Bytes)
    requires Ready(e) && other != id
    requires |rd1.bits| == e.config.targetBits && |rd2.bits| == e.config.targetBits
    ensures var s1 := Register(e, store, id, rd1, ctx, mask).0;
            var s2 := Register(e, s1, id, rd2, ctx, mask).0;
            && s2.thresholds[id] == (rd2.thetaL, rd2.thetaH)
            && (other in store.helpers ==> other in s2.helpers && s2.helpers[other] == store.helpers[other])
            && s2.helpers.Keys == store.helpers.Keys + {id}
  {
  }
}

=== FILE: fuzzy_extractor.dfy ===
/**
 The code-offset fuzzy extractor (`FuzzyExtractor`). Registration splits the
 bit string into `BCH_BLOCKS` blocks, encodes each (zero-padded or cut to
 `BCH_K` bits) with the BCH code, and publishes `codeword ⊕ (block ‖ zeros)`;
 authentication XORs the helper data with the fresh reading and decodes.

 The BCH code itself is a parameter (`BchCodec`): its encoder, taken to
 succeed on every message, and its error-count decoder and in-place
 corrector, either of which may raise.
 */
module FuzzyExtractor {
  import opened Wrappers
  import opened Bytes
  import opened Bits

  /** `bchlib.BCH`: `ecc_bytes`, `encode`, `decode` (None when it raises) and `correct`. */
  datatype BchCodec = BchCodec(
    eccBytes: nat,
    encode: Bytes -> Bytes,
    decode: (Bytes, Bytes) -> Option<int>,
    correct: (Bytes, Bytes) -> Option<Bytes>)

  /** `TARGET_BITS`, `BCH_BLOCKS`, `BCH_N`, `BCH_K`. */
  datatype Geometry = Geometry(targetBits: int, blocks: int, n: int, k: int)

  predicate Sane(g: Geometry)
  {
    g.blocks > 0 && g.k > 0 && g.n >= 0
  }

  /** Bytes of one packed message block, `(k + 7) // 8`. */
  function MsgBytes(g: Geometry): nat
    requires Sane(g)
  {
    (g.k + 7) / 8
  }

  /** Bytes of helper data read per block, `(n + 7) // 8`. */
  function HelperBytes(g: Geometry): nat
    requires Sane(g)
  {
    (g.n + 7) / 8
  }

  /** Message plus ECC bytes per block. */
  function CodewordBytes(g: Geometry, codec: BchCodec): nat
    requires Sane(g)
  {
    MsgBytes(g) + codec.eccBytes
  }

  /** Every message of the block width encodes to `ecc_bytes` bytes. */
  ghost predicate EncodesWidth(codec: BchCodec, msgLen: nat)
  {
    forall m: Bytes | |m| == msgLen :: |codec.encode(m)| == codec.eccBytes
  }

  /**
   The BCH code's promise: a received word (message then ECC) within `t` bit
   flips of a codeword decodes without error and corrects to its message.
   */
  ghost predicate CorrectsUpTo(codec: BchCodec, msgLen: nat, t: nat)
  {
    forall m: Bytes, w: Bytes | |m| == msgLen && |w| == msgLen + codec.eccBytes
        && Distance(AllBits(w), AllBits(m + codec.encode(m))) <= t ::
      codec.decode(w[..msgLen], w[msgLen..]).Some? && codec.decode(w[..msgLen], w[msgLen..]).value >= 0
      && codec.correct(w[..msgLen], w[msgLen..]) == Some(m)
  }

  /** Correction rewrites a message in place and so keeps its length. */
  ghost predicate CorrectKeepsLength(codec: BchCodec)
  {
    forall m: Bytes, e: Bytes | codec.correct(m, e).Some? :: |codec.correct(m, e).value| == |m|
  }

  /** The codeword bits a helper block keeps: `_bytes_to_bits(codeword, n)` stops at `n`. */
  function KeptBits(g: Geometry, codec: BchCodec): nat
    requires Sane(g)
  {
    Min(g.n, 8 * CodewordBytes(g, codec))
  }

  /** `r[start:end]` with `start = j·bs` and `end = min((j+1)·bs, len(r))`. */
  function BlockOf(r: seq<bool>, j: nat, bs: nat): (b: seq<bool>)
    ensures |b| <= bs
  {
    Slice(r, Offset(j, bs), Min(Offset(j, bs) + bs, |r|))
  }

  /** Zero-pad a block to `k` bits, or cut it to `k`. */
  function FitTo(b: seq<bool>, k: nat): (f: seq<bool>)
    ensures |f| == k
    ensures |b| <= k ==> f == PadTo(b, k)
  {
    if |b| < k then PadTo(b, k) else b[..k]
  }

  /** A block's BCH message: the block fitted to `k` bits, packed to bytes. */
  function MessageOf(g: Geometry, block: seq<bool>): (m: Bytes)
    requires Sane(g)
    ensures |m| == MsgBytes(g)
  {
    BitsToBytes(FitTo(block, g.k))
  }

  /** `msg_bytes + bch.encode(msg_bytes)`. */
  function CodewordOf(g: Geometry, codec: BchCodec, block: seq<bool>): (c: Bytes)
    requires Sane(g)
    ensures EncodesWidth(codec, MsgBytes(g)) ==> |c| == CodewordBytes(g, codec)
  {
    var msg := MessageOf(g, block);
    msg + codec.encode(msg)
  }

  /** One block of `generate_helper_data`: `BitsToBytes(codeword ⊕ (block ‖ zeros))`. */
  function HelperBlock(g: Geometry, codec: BchCodec, block: seq<bool>): (h: Bytes)
    requires Sane(g)
    ensures EncodesWidth(codec, MsgBytes(g)) ==> |h| == (KeptBits(g, codec) + 7) / 8
  {
    var codeword := BytesToBits(CodewordOf(g, codec, block), g.n);
    BitsToBytes(ZipXor(codeword, PadTo(FitTo(block, g.k), g.n)))
  }

  /** The helper block of each of the `blocks` blocks, in order (`P_blocks`). */
  function HelperBlocks(g: Geometry, codec: BchCodec, r: seq<bool>, bs: nat): (ps: seq<Bytes>)
    requires Sane(g)
    ensures |ps| == g.blocks
    ensures forall j | 0 <= j < |ps| :: ps[j] == HelperBlock(g, codec, BlockOf(r, j, bs))
    ensures EncodesWidth(codec, MsgBytes(g)) ==>
      forall j | 0 <= j < |ps| :: |ps[j]| == (KeptBits(g, codec) + 7) / 8
  {
    seq(g.blocks, j requires 0 <= j => HelperBlock(g, codec, BlockOf(r, j, bs)))
  }

  /** `generate_helper_data` with block size `bs`; raises unless `len(r) == TARGET_BITS`. */
  function GenerateWith(g: Geometry, codec: BchCodec, r: seq<bool>, bs: nat): (p: Result<Bytes>)
    requires Sane(g)
    ensures p.Err? <==> |r| != g.targetBits
  {
    if |r| != g.targetBits then Err("Expected r length TARGET_BITS")
    else Ok(Join(HelperBlocks(g, codec, r, bs)))
  }

  /** `bch.decode` then `bch.correct`; on any failure the uncorrected message is kept. */
  function DecodeBlock(codec: BchCodec, msg: Bytes, ecc: Bytes): (r: (Bytes, bool))
    ensures !r.1 ==> r.0 == msg
    ensures r.1 <==> (codec.decode(msg, ecc).Some? && codec.decode(msg, ecc).value >= 0
                      && codec.correct(msg, ecc).Some?)
    ensures r.1 ==> r.0 == codec.correct(msg, ecc).value
  {
    match codec.decode(msg, ecc)
    case None => (msg, false)
    case Some(flips) =>
      if flips < 0 then (msg, false)
      else
        match codec.correct(msg, ecc)
        case None => (msg, false)
        case Some(corrected) => (corrected, true)
  }

  /** The noisy codeword bytes split by byte counts, zero-padded if short. */
  function SplitCodeword(g: Geometry, codec: BchCodec, noisy: Bytes): (r: (Bytes, Bytes))
    requires Sane(g)
    ensures |r.0| == MsgBytes(g) && |r.1| == codec.eccBytes
    ensures |noisy| >= CodewordBytes(g, codec) ==>
      r.0 == noisy[..MsgBytes(g)] && r.1 == noisy[MsgBytes(g)..CodewordBytes(g, codec)]
  {
    var total := CodewordBytes(g, codec);
    var nb := if |noisy| < total then noisy + Zeros(total - |noisy|) else noisy;
    (nb[..MsgBytes(g)], nb[MsgBytes(g)..total])
  }

  /** One block of `extract_stable_key` from the fresh block and its helper bytes. */
  function ExtractBlock(g: Geometry, codec: BchCodec, block: seq<bool>, helper: Bytes, bs: nat): (r: (seq<bool>, bool))
    requires Sane(g)
    ensures |r.0| <= bs
    ensures CorrectKeepsLength(codec) && bs <= g.k ==> |r.0| == bs
  {
    var noisyBits := ZipXor(BytesToBits(helper, g.n), PadTo(block, g.n));
    var (msg, ecc) := SplitCodeword(g, codec, BitsToBytes(noisyBits));
    var (corrected, ok) := DecodeBlock(codec, msg, ecc);
    (Take(BytesToBits(corrected, g.k), bs), ok)
  }

  /** The helper bytes of block `j`: `P[j·hbs:(j+1)·hbs]`. */
  function HelperSlice(g: Geometry, p: Bytes, j: nat): Bytes
    requires Sane(g)
  {
    Slice(p, Offset(j, HelperBytes(g)), Offset(j, HelperBytes(g)) + HelperBytes(g))
  }

  /** The per-block results of extraction: the block's bits and whether it decoded. */
  function ExtractedBlocks(g: Geometry, codec: BchCodec, rp: seq<bool>, p: Bytes, bs: nat): (rs: seq<(seq<bool>, bool)>)
    requires Sane(g)
    ensures |rs| == g.blocks
    ensures forall j | 0 <= j < |rs| :: rs[j] == ExtractBlock(g, codec, BlockOf(rp, j, bs), HelperSlice(g, p, j), bs)
  {
    seq(g.blocks, j requires 0 <= j => ExtractBlock(g, codec, BlockOf(rp, j, bs), HelperSlice(g, p, j), bs))
  }

  function BitsOf(rs: seq<(seq<bool>, bool)>): (bs: seq<seq<bool>>)
    ensures |bs| == |rs| && forall j | 0 <= j < |rs| :: bs[j] == rs[j].0
  {
    seq(|rs|, j requires 0 <= j < |rs| => rs[j].0)
  }

  predicate AllDecoded(rs: seq<(seq<bool>, bool)>)
  {
    forall j | 0 <= j < |rs| :: rs[j].1
  }

  /**
   The joined block results, cut to `n` bits, are at most `blocks·bs` bits; when
   correction keeps lengths and `bs ≤ k`, every block is exactly `bs` bits, so
   block `j` sits at `j·bs` wherever it fits.
   */
  lemma ExtractedLayout(g: Geometry, codec: BchCodec, rp: seq<bool>, p: Bytes, bs: nat, n: nat)
    requires Sane(g)
    ensures var key := Take(Join(BitsOf(ExtractedBlocks(g, codec, rp, p, bs))), n);
            |key| <= Min(Offset(g.blocks, bs), n)
            && (CorrectKeepsLength(codec) && bs <= g.k ==>
                  |key| == Min(Offset(g.blocks, bs), n)
                  && forall j | 0 <= j < g.blocks && Offset(j, bs) + bs <= |key| ::
                       key[Offset(j, bs)..Offset(j, bs) + bs]
                         == ExtractBlock(g, codec, BlockOf(rp, j, bs), HelperSlice(g, p, j), bs).0)
  {
    var parts := BitsOf(ExtractedBlocks(g, codec, rp, p, bs));
    var key := Take(Join(parts), n);
    JoinBoundedLength(parts, bs);
    if CorrectKeepsLength(codec) && bs <= g.k {
      JoinUniformLength(parts, bs);
      forall j | 0 <= j < g.blocks && Offset(j, bs) + bs <= |key|
        ensures key[Offset(j, bs)..Offset(j, bs) + bs] == parts[j]
      {
        TakeJoinUniformSlice(parts, bs, n, j);
      }
    }
  }

  /**
   `extract_stable_key` with block size `bs`; raises unless `len(r') == TARGET_BITS`.
   The key is the corrected blocks in order, cut to `len(r')`; it succeeds
   exactly when every block decoded.
   */
  function ExtractWith(g: Geometry, codec: BchCodec, rp: seq<bool>, p: Bytes, bs: nat): (r: Result<(seq<bool>, bool)>)
    requires Sane(g)
    ensures r.Err? <==> |rp| != g.targetBits
    ensures r.Ok? ==> |r.value.0| <= Min(Offset(g.blocks, bs), |rp|)
    ensures r.Ok? && CorrectKeepsLength(codec) && bs <= g.k ==>
      |r.value.0| == Min(Offset(g.blocks, bs), |rp|)
      && forall j | 0 <= j < g.blocks && Offset(j, bs) + bs <= |r.value.0| ::
           r.value.0[Offset(j, bs)..Offset(j, bs) + bs]
             == ExtractBlock(g, codec, BlockOf(rp, j, bs), HelperSlice(g, p, j), bs).0
    ensures r.Ok? ==> (r.value.1 <==> forall j | 0 <= j < g.blocks ::
      ExtractBlock(g, codec, BlockOf(rp, j, bs), HelperSlice(g, p, j), bs).1)
  {
    if |rp| != g.targetBits then Err("Expected r_prime length TARGET_BITS")
    else
      var rs := ExtractedBlocks(g, codec, rp, p, bs);
      ExtractedLayout(g, codec, rp, p, bs, |rp|);
      Ok((Take(Join(BitsOf(rs)), |rp|), AllDecoded(rs)))
  }

  // ---------------------------------------------------------------------------
  // The source's block size, TARGET_BITS // BCH_BLOCKS
  // ---------------------------------------------------------------------------

  function FloorBlockSize(g: Geometry, r: seq<bool>): nat
    requires Sane(g)
  {
    |r| / g.blocks
  }

  /** `generate_helper_data` as written. */
  function GenerateHelper(g: Geometry, codec: BchCodec, r: seq<bool>): (p: Result<Bytes>)
    requires Sane(g)
    ensures p.Err? <==> |r| != g.targetBits
  {
    GenerateWith(g, codec, r, FloorBlockSize(g, r))
  }

  /** `extract_stable_key` as written. */
  function ExtractStableKey(g: Geometry, codec: BchCodec, rp: seq<bool>, p: Bytes): (r: Result<(seq<bool>, bool)>)
    requires Sane(g)
    ensures r.Err? <==> |rp| != g.targetBits
  {
    ExtractWith(g, codec, rp, p, FloorBlockSize(g, rp))
  }

  // ---------------------------------------------------------------------------
  // Block size rounded up, so that the blocks cover every bit
  // ---------------------------------------------------------------------------

  function CeilBlockSize(g: Geometry, r: seq<bool>): nat
    requires Sane(g)
  {
    (|r| + g.blocks - 1) / g.blocks
  }

  function GenerateHelperCovering(g: Geometry, codec: BchCodec, r: seq<bool>): (p: Result<Bytes>)
    requires Sane(g)
    ensures p.Err? <==> |r| != g.targetBits
  {
    GenerateWith(g, codec, r, CeilBlockSize(g, r))
  }

  function ExtractCovering(g: Geometry, codec: BchCodec, rp: seq<bool>, p: Bytes): (r: Result<(seq<bool>, bool)>)
    requires Sane(g)
    ensures r.Err? <==> |rp| != g.targetBits
  {
    ExtractWith(g, codec, rp, p, CeilBlockSize(g, rp))
  }
}


/**
 The round trips of the fuzzy extractor. A block of the fresh reading that
 differs from the registered block in few enough bits decodes back to it; what
 "few enough" means is the decoder's budget `t` less the codeword bits the
 helper data could not hold (`LostOnes`), which extraction reads back as zeros.
 */
module FuzzyExtractorProofs {
  import opened Wrappers
  import opened Bytes
  import opened Bits
  import opened FuzzyExtractor

  /**
   The helper blocks line up with the `(n + 7) // 8` stride extraction reads
   them at: every block is exactly one stride long when the codeword has at
   least `n` bits, and a single block is read from the start whatever its length.
   */
  predicate Aligned(g: Geometry, codec: BchCodec)
    requires Sane(g)
  {
    8 * CodewordBytes(g, codec) >= g.n || g.blocks == 1
  }

  /** The set codeword bits past the `n` a helper block keeps. */
  function LostOnes(g: Geometry, codec: BchCodec, b: seq<bool>): nat
    requires Sane(g)
  {
    var c := AllBits(CodewordOf(g, codec, b));
    Ones(c[Min(KeptBits(g, codec), |c|)..])
  }

  /** Per block, the reading's flipped bits plus the lost codeword bits stay within `t`. */
  predicate WithinBudget(g: Geometry, codec: BchCodec, t: nat, r: seq<bool>, rp: seq<bool>, bs: nat)
    requires Sane(g)
  {
    forall j | 0 <= j < g.blocks ::
      Distance(BlockOf(r, j, bs), BlockOf(rp, j, bs)) + LostOnes(g, codec, BlockOf(r, j, bs)) <= t
  }

  /** The fresh block XOR-ed into the helper of `b`: the bits extraction packs and decodes. */
  function NoisyBits(g: Geometry, codec: BchCodec, b: seq<bool>, b': seq<bool>): seq<bool>
    requires Sane(g)
  {
    ZipXor(BytesToBits(HelperBlock(g, codec, b), g.n), PadTo(b', g.n))
  }

  /** The word extraction hands the decoder, message then ECC, for reading `b'` against the helper of `b`. */
  function DecoderWord(g: Geometry, codec: BchCodec, b: seq<bool>, b': seq<bool>): Bytes
    requires Sane(g)
  {
    var sp := SplitCodeword(g, codec, BitsToBytes(NoisyBits(g, codec, b, b')));
    sp.0 + sp.1
  }

  lemma MulSucc(m: int, d: int)
    ensures (m + 1) * d == m * d + d
  {
  }

  lemma MulMono(a: int, b: int, c: nat)
    requires a <= b
    ensures a * c <= b * c
  {
    assert b * c - a * c == (b - a) * c;
  }

  /** Euclidean quotient: `q` is `a / b` exactly when `q·b ≤ a < q·b + b`. */
  lemma DivUnique(a: int, b: int, q: int)
    requires b > 0 && q * b <= a < q * b + b
    ensures a / b == q
  {
    var x := a / b;
    assert a == x * b + a % b;
    if x > q {
      MulMono(q + 1, x, b);
      MulSucc(q, b);
    } else if x < q {
      MulMono(x + 1, q, b);
      MulSucc(x, b);
    }
  }

  lemma SplitConcat<T>(a: seq<T>, b: seq<T>)
    ensures (a + b)[..|a|] == a && (a + b)[|a|..|a| + |b|] == b
  {
  }

  lemma PadPrefix(b: seq<bool>, bs: nat, k: nat)
    requires |b| <= bs <= k
    ensures PadTo(b, k)[..bs] == PadTo(b, bs)
  {
  }

  lemma PadTwice(b: seq<bool>, k: nat, n: nat)
    requires |b| <= k <= n
    ensures PadTo(PadTo(b, k), n) == PadTo(b, n)
  {
  }

  /** The helper's first `n` bits are the codeword's first `n` bits XOR the zero-padded block. */
  lemma HelperBits(g: Geometry, codec: BchCodec, b: seq<bool>)
    requires Sane(g) && |b| <= g.k <= g.n && EncodesWidth(codec, MsgBytes(g))
    ensures BytesToBits(HelperBlock(g, codec, b), g.n)
         == ZipXor(BytesToBits(CodewordOf(g, codec, b), g.n), PadTo(b, g.n))
  {
    var hbits := ZipXor(BytesToBits(CodewordOf(g, codec, b), g.n), PadTo(b, g.n));
    assert PadTo(FitTo(b, g.k), g.n) == PadTo(b, g.n) by { PadTwice(b, g.k, g.n); }
    assert HelperBlock(g, codec, b) == BitsToBytes(hbits);
    UnpackPadded(hbits);
    if |hbits| < g.n {
      var d := CodewordBytes(g, codec);
      assert |hbits| == 8 * d;
      assert (-|hbits|) % 8 == 0 by { assert -|hbits| == 8 * -(d as int); }
      assert hbits + Falses(0) == hbits;
    } else {
      assert (hbits + Falses((-|hbits|) % 8))[..g.n] == hbits;
    }
  }

  /** A block's message unpacks to the block, zero-padded to `bs` bits. */
  lemma MessageBits(g: Geometry, b: seq<bool>, bs: nat)
    requires Sane(g) && |b| <= bs <= g.k
    ensures Take(BytesToBits(MessageOf(g, b), g.k), bs) == PadTo(b, bs)
  {
    BitsRoundTrip(FitTo(b, g.k));
    PadPrefix(b, bs, g.k);
  }

  /** Splitting a word of at most `d` bytes zero-fills it to `d` bytes, message first. */
  lemma SplitFilled(g: Geometry, codec: BchCodec, noisy: Bytes)
    requires Sane(g) && |noisy| <= CodewordBytes(g, codec)
    ensures var sp := SplitCodeword(g, codec, noisy);
            sp.0 + sp.1 == noisy + Zeros(CodewordBytes(g, codec) - |noisy|)
  {
    var d, M := CodewordBytes(g, codec), MsgBytes(g);
    var nb := noisy + Zeros(d - |noisy|);
    assert nb == (if |noisy| < d then noisy + Zeros(d - |noisy|) else noisy);
    assert nb[..M] + nb[M..d] == nb;
  }

  /** XOR-ing in two padded blocks at width `n` touches only the kept `L` bits. */
  lemma XorTwice(c: seq<bool>, b: seq<bool>, b': seq<bool>, n: nat, L: nat)
    requires L == Min(n, |c|) && |b| <= L && |b'| <= L
    ensures ZipXor(ZipXor(Take(c, n), PadTo(b, n)), PadTo(b', n))
         == ZipXor(c[..L], ZipXor(PadTo(b, L), PadTo(b', L)))
  {
  }

  /** Two padded blocks of one length differ exactly where the blocks do. */
  lemma XorPads(b: seq<bool>, b': seq<bool>, L: nat)
    requires |b| == |b'| <= L
    ensures ZipXor(PadTo(b, L), PadTo(b', L)) == ZipXor(b, b') + Falses(L - |b|)
  {
  }

  /** XOR-ing the codeword back out of its kept bits leaves the difference, then the lost bits. */
  lemma XorBack(c: seq<bool>, e: seq<bool>, L: nat)
    requires |e| == L <= |c|
    ensures ZipXor(ZipXor(c[..L], e) + Falses(|c| - L), c) == e + c[L..]
  {
  }

  /** The bits extraction decodes: the kept codeword bits with both blocks XOR-ed in. */
  lemma NoisyBitsShape(g: Geometry, codec: BchCodec, b: seq<bool>, b': seq<bool>)
    requires Sane(g) && |b| <= g.k && |b'| <= g.k && g.k <= g.n && EncodesWidth(codec, MsgBytes(g))
    ensures var c := AllBits(CodewordOf(g, codec, b));
            var L := KeptBits(g, codec);
            L <= |c| == 8 * CodewordBytes(g, codec)
            && NoisyBits(g, codec, b, b') == ZipXor(c[..L], ZipXor(PadTo(b, L), PadTo(b', L)))
  {
    var c := AllBits(CodewordOf(g, codec, b));
    assert g.k <= 8 * MsgBytes(g) <= |c| == 8 * CodewordBytes(g, codec);
    assert NoisyBits(g, codec, b, b') == ZipXor(ZipXor(Take(c, g.n), PadTo(b, g.n)), PadTo(b', g.n)) by {
      HelperBits(g, codec, b);
    }
    XorTwice(c, b, b', g.n, KeptBits(g, codec));
  }

  /** Packing at most `8·d` bits and splitting the bytes hands the decoder those bits, zero-filled. */
  lemma WordOfBits(g: Geometry, codec: BchCodec, x: seq<bool>)
    requires Sane(g) && |x| <= 8 * CodewordBytes(g, codec)
    ensures var sp := SplitCodeword(g, codec, BitsToBytes(x));
            |sp.0 + sp.1| == CodewordBytes(g, codec)
            && AllBits(sp.0 + sp.1) == x + Falses(8 * CodewordBytes(g, codec) - |x|)
  {
    var d := CodewordBytes(g, codec);
    var noisy := BitsToBytes(x);
    UnpackZeroFilled(x, d);
    SplitFilled(g, codec, noisy);
    FilledBits(SplitCodeword(g, codec, noisy), x, d);
  }

  lemma FilledBits(sp: (Bytes, Bytes), x: seq<bool>, d: nat)
    requires |x| <= 8 * d && |BitsToBytes(x)| <= d
    requires sp.0 + sp.1 == BitsToBytes(x) + Zeros(d - |BitsToBytes(x)|)
    ensures |sp.0 + sp.1| == d && AllBits(sp.0 + sp.1) == x + Falses(8 * d - |x|)
  {
    UnpackZeroFilled(x, d);
  }

  /**
   The decoder sees the codeword's first `n` bits with the differences between
   the registered and the fresh block flipped in, and zeros after them.
   */
  lemma DecoderWordBits(g: Geometry, codec: BchCodec, b: seq<bool>, b': seq<bool>)
    requires Sane(g) && |b| <= g.k && |b'| <= g.k && g.k <= g.n && EncodesWidth(codec, MsgBytes(g))
    ensures var c := AllBits(CodewordOf(g, codec, b));
            var L := KeptBits(g, codec);
            L <= |c| && |DecoderWord(g, codec, b, b')| == CodewordBytes(g, codec)
            && AllBits(DecoderWord(g, codec, b, b'))
               == ZipXor(c[..L], ZipXor(PadTo(b, L), PadTo(b', L))) + Falses(|c| - L)
  {
    var c := AllBits(CodewordOf(g, codec, b));
    var L := KeptBits(g, codec);
    var x := NoisyBits(g, codec, b, b');
    var y := ZipXor(c[..L], ZipXor(PadTo(b, L), PadTo(b', L)));
    assert x == y && |c| == 8 * CodewordBytes(g, codec) && L <= |c| by { NoisyBitsShape(g, codec, b, b'); }
    assert |y| == L;
    var sp := SplitCodeword(g, codec, BitsToBytes(x));
    assert DecoderWord(g, codec, b, b') == sp.0 + sp.1;
    WordOfBits(g, codec, x);
  }

  /** The decoder's word is as far from the codeword as `b'` from `b`, plus the lost bits. */
  lemma DecoderWordDistance(g: Geometry, codec: BchCodec, b: seq<bool>, b': seq<bool>)
    requires Sane(g) && |b| == |b'| <= g.k <= g.n && EncodesWidth(codec, MsgBytes(g))
    ensures Distance(AllBits(DecoderWord(g, codec, b, b')), AllBits(CodewordOf(g, codec, b)))
         == Distance(b, b') + LostOnes(g, codec, b)
  {
    var c := AllBits(CodewordOf(g, codec, b));
    var L := KeptBits(g, codec);
    DecoderWordBits(g, codec, b, b');
    assert |b| <= L by { assert 8 * MsgBytes(g) >= g.k; }
    assert LostOnes(g, codec, b) == Ones(c[L..]);
    FlippedDistance(c, b, b', L);
  }

  /** Flipping the differences of `b` and `b'` into the first `L` bits and zeroing the rest. */
  lemma FlippedDistance(c: seq<bool>, b: seq<bool>, b': seq<bool>, L: nat)
    requires |b| == |b'| <= L <= |c|
    ensures Distance(ZipXor(c[..L], ZipXor(PadTo(b, L), PadTo(b', L))) + Falses(|c| - L), c)
         == Distance(b, b') + Ones(c[L..])
  {
    var front := ZipXor(b, b') + Falses(L - |b|);
    assert ZipXor(PadTo(b, L), PadTo(b', L)) == front by { XorPads(b, b', L); }
    assert ZipXor(ZipXor(c[..L], front) + Falses(|c| - L), c) == front + c[L..] by { XorBack(c, front, L); }
    OnesAppend(front, c[L..]);
    OnesAppend(ZipXor(b, b'), Falses(L - |b|));
    OnesFalses(L - |b|);
  }

  /**
   One block: a fresh reading within the budget of the registered block,
   XOR-ed with that block's helper, decodes to the registered block.
   */
  lemma NoisyBlock(g: Geometry, codec: BchCodec, t: nat, b: seq<bool>, b': seq<bool>, bs: nat)
    requires Sane(g) && |b| == |b'| <= bs <= g.k <= g.n
    requires EncodesWidth(codec, MsgBytes(g)) && CorrectsUpTo(codec, MsgBytes(g), t)
    requires Distance(b, b') + LostOnes(g, codec, b) <= t
    ensures ExtractBlock(g, codec, b', HelperBlock(g, codec, b), bs) == (PadTo(b, bs), true)
  {
    var M := MsgBytes(g);
    var m := MessageOf(g, b);
    var w := DecoderWord(g, codec, b, b');
    DecoderWordBits(g, codec, b, b');
    DecoderWordDistance(g, codec, b, b');
    assert codec.decode(w[..M], w[M..]).Some? && codec.decode(w[..M], w[M..]).value >= 0
        && codec.correct(w[..M], w[M..]) == Some(m);
    var noisy := BitsToBytes(ZipXor(BytesToBits(HelperBlock(g, codec, b), g.n), PadTo(b', g.n)));
    var (msg, ecc) := SplitCodeword(g, codec, noisy);
    SplitConcat(msg, ecc);
    assert msg == w[..M] && ecc == w[M..];
    assert DecodeBlock(codec, msg, ecc) == (m, true);
    MessageBits(g, b, bs);
  }

  /** Aligned helper blocks are one stride long, or a single block no longer than it. */
  lemma StrideFits(g: Geometry, codec: BchCodec)
    requires Sane(g) && Aligned(g, codec)
    ensures var hl := (KeptBits(g, codec) + 7) / 8;
            hl == HelperBytes(g) || (g.blocks == 1 && hl <= HelperBytes(g))
  {
  }

  /** Extraction reads back exactly the helper block generation wrote for block `j`. */
  lemma HelperSliceOf(g: Geometry, codec: BchCodec, r: seq<bool>, bs: nat, j: nat)
    requires Sane(g) && j < g.blocks
    requires EncodesWidth(codec, MsgBytes(g)) && Aligned(g, codec)
    ensures HelperSlice(g, Join(HelperBlocks(g, codec, r, bs)), j) == HelperBlocks(g, codec, r, bs)[j]
  {
    var hl := (KeptBits(g, codec) + 7) / 8;
    StrideFits(g, codec);
    UniformSlice(g, HelperBlocks(g, codec, r, bs), hl, j);
  }

  /** `HelperSlice` reads back part `j` of parts that all have one length fitting the stride. */
  lemma UniformSlice(g: Geometry, parts: seq<Bytes>, hl: nat, j: nat)
    requires Sane(g) && j < |parts|
    requires forall i | 0 <= i < |parts| :: |parts[i]| == hl
    requires hl == HelperBytes(g) || (|parts| == 1 && hl <= HelperBytes(g))
    ensures HelperSlice(g, Join(parts), j) == parts[j]
  {
    StridedSlice(parts, hl, HelperBytes(g), j);
  }

  /**
   Parts of `d` elements each, read back at stride `w`: part `j` comes back when
   the stride is the width, or when there is a single part no longer than it.
   */
  lemma StridedSlice<T>(parts: seq<seq<T>>, d: nat, w: nat, j: nat)
    requires forall i | 0 <= i < |parts| :: |parts[i]| == d
    requires j < |parts| && (w == d || (|parts| == 1 && d <= w))
    ensures Slice(Join(parts), Offset(j, w), Offset(j, w) + w) == parts[j]
  {
    var o := Offset(j, w);
    if w == d {
      JoinUniformSlice(parts, d, j);
      assert Slice(Join(parts), o, o + w) == Join(parts)[o..o + w];
    } else {
      assert parts[..0] == [];
      assert Join(parts) == parts[0];
      assert o == 0 && Slice(parts[0], 0, w) == parts[0][0..d];
    }
  }

  /** The first `m` blocks of `r`, each padded to `bs` bits, concatenated. */
  function Covered(r: seq<bool>, m: nat, bs: nat): seq<bool>
  {
    PadTo(r[..Min(Offset(m, bs), |r|)], Offset(m, bs))
  }

  lemma PadConcat(r: seq<bool>, m: nat, bs: nat)
    ensures Covered(r, m, bs) + PadTo(BlockOf(r, m, bs), bs) == Covered(r, m + 1, bs)
  {
    OffsetSucc(m, bs);
    var start := Offset(m, bs);
    var a, c := Min(start, |r|), Min(start + bs, |r|);
    assert BlockOf(r, m, bs) == r[a..c];
    assert Covered(r, m, bs) == PadTo(r[..a], start);
    assert Covered(r, m + 1, bs) == PadTo(r[..c], start + bs);
    PadSplit(r, start, bs);
  }

  /** Padding the part of `r` before `start` and the next `bs` bits separately pads the whole prefix. */
  lemma PadSplit(r: seq<bool>, start: nat, bs: nat)
    ensures var a, c := Min(start, |r|), Min(start + bs, |r|);
            PadTo(r[..a], start) + PadTo(r[a..c], bs) == PadTo(r[..c], start + bs)
  {
    var a, c := Min(start, |r|), Min(start + bs, |r|);
    var lhs := PadTo(r[..a], start) + PadTo(r[a..c], bs);
    var rhs := PadTo(r[..c], start + bs);
    assert |lhs| == |rhs|;
    forall i | 0 <= i < |lhs| ensures lhs[i] == rhs[i] {
      if i < start {
        assert lhs[i] == (i < a && r[i]);
      } else {
        assert lhs[i] == (i - start < c - a && r[a + i - start]);
      }
    }
  }

  /** Blocks each padded to `bs` bits join to the padded covered prefix. */
  lemma TakeCovered(r: seq<bool>, m: nat, bs: nat)
    ensures Take(Covered(r, m, bs), |r|) == Take(r, Offset(m, bs))
  {
  }

  lemma {:induction false} JoinCovered(r: seq<bool>, bs: nat, parts: seq<seq<bool>>)
    requires forall j | 0 <= j < |parts| :: parts[j] == PadTo(BlockOf(r, j, bs), bs)
    ensures Join(parts) == Covered(r, |parts|, bs)
  {
    if |parts| > 0 {
      var m := |parts| - 1;
      JoinCovered(r, bs, parts[..m]);
      PadConcat(r, m, bs);
    }
  }

  /** Block results that each decoded to their padded block join to the covered prefix. */
  lemma CoveredResults(r: seq<bool>, bs: nat, rs: seq<(seq<bool>, bool)>)
    requires forall j | 0 <= j < |rs| :: rs[j] == (PadTo(BlockOf(r, j, bs), bs), true)
    ensures AllDecoded(rs) && Join(BitsOf(rs)) == Covered(r, |rs|, bs)
  {
    JoinCovered(r, bs, BitsOf(rs));
  }

  /** Every block of a reading within budget decodes to the registered block. */
  lemma ExtractedRoundTrip(g: Geometry, codec: BchCodec, t: nat, r: seq<bool>, rp: seq<bool>, bs: nat)
    requires Sane(g) && |r| == |rp| && bs <= g.k <= g.n
    requires EncodesWidth(codec, MsgBytes(g)) && CorrectsUpTo(codec, MsgBytes(g), t) && Aligned(g, codec)
    requires WithinBudget(g, codec, t, r, rp, bs)
    ensures var rs := ExtractedBlocks(g, codec, rp, Join(HelperBlocks(g, codec, r, bs)), bs);
            AllDecoded(rs) && Join(BitsOf(rs)) == Covered(r, g.blocks, bs)
  {
    var p := Join(HelperBlocks(g, codec, r, bs));
    var rs := ExtractedBlocks(g, codec, rp, p, bs);
    forall j | 0 <= j < g.blocks ensures rs[j] == (PadTo(BlockOf(r, j, bs), bs), true) {
      ExtractedBlock(g, codec, t, r, rp, bs, j);
    }
    CoveredResults(r, bs, rs);
  }

  /** Block `j` of a reading within budget, read against the joined helper data, decodes to block `j` of `r`. */
  lemma ExtractedBlock(g: Geometry, codec: BchCodec, t: nat, r: seq<bool>, rp: seq<bool>, bs: nat, j: nat)
    requires Sane(g) && |r| == |rp| && bs <= g.k <= g.n && j < g.blocks
    requires EncodesWidth(codec, MsgBytes(g)) && CorrectsUpTo(codec, MsgBytes(g), t) && Aligned(g, codec)
    requires WithinBudget(g, codec, t, r, rp, bs)
    ensures ExtractBlock(g, codec, BlockOf(rp, j, bs), HelperSlice(g, Join(HelperBlocks(g, codec, r, bs)), j), bs)
         == (PadTo(BlockOf(r, j, bs), bs), true)
  {
    var blk, blk' := BlockOf(r, j, bs), BlockOf(rp, j, bs);
    assert HelperSlice(g, Join(HelperBlocks(g, codec, r, bs)), j) == HelperBlock(g, codec, blk) by {
      HelperSliceOf(g, codec, r, bs, j);
    }
    NoisyBlock(g, codec, t, blk, blk', bs);
  }

  /** Extracting with a reading within budget returns the registered reading's first `blocks·bs` bits and succeeds. */
  lemma RoundTripWith(g: Geometry, codec: BchCodec, t: nat, r: seq<bool>, rp: seq<bool>, bs: nat)
    requires Sane(g) && |r| == g.targetBits && |rp| == g.targetBits && bs <= g.k <= g.n
    requires EncodesWidth(codec, MsgBytes(g)) && CorrectsUpTo(codec, MsgBytes(g), t) && Aligned(g, codec)
    requires WithinBudget(g, codec, t, r, rp, bs)
    ensures GenerateWith(g, codec, r, bs).Ok?
    ensures ExtractWith(g, codec, rp, GenerateWith(g, codec, r, bs).value, bs)
         == Ok((Take(r, Offset(g.blocks, bs)), true))
  {
    var p := Join(HelperBlocks(g, codec, r, bs));
    assert GenerateWith(g, codec, r, bs) == Ok(p);
    var rs := ExtractedBlocks(g, codec, rp, p, bs);
    assert AllDecoded(rs) && Join(BitsOf(rs)) == Covered(r, g.blocks, bs) by {
      ExtractedRoundTrip(g, codec, t, r, rp, bs);
    }
    assert ExtractWith(g, codec, rp, p, bs) == Ok((Take(Join(BitsOf(rs)), |rp|), AllDecoded(rs)));
    TakeCovered(r, g.blocks, bs);
  }

  /** `t // b` blocks fit in `k` bits each and cover all but `t mod b` bits. */
  lemma FloorFits(t: nat, b: nat, k: int)
    requires b > 0 && t <= b * k
    ensures t / b <= k
    ensures Offset(b, t / b) <= t
    ensures t % b != 0 ==> Offset(b, t / b) < t
  {
    var q := t / b;
    assert t == q * b + t % b;
    if q > k {
      MulMono(k + 1, q, b);
      MulSucc(k, b);
    }
  }

  /** `b` blocks of `t // b` bits cover exactly `t` bits when `b` divides `t`. */
  lemma DivisibleCovers(t: nat, b: nat)
    requires b > 0 && t % b == 0
    ensures Offset(b, t / b) == t
  {
    assert t == (t / b) * b + t % b;
  }

  /** Blocks of `ceil(t / b)` bits still fit in `k` and cover all `t` bits. */
  lemma CeilFits(t: nat, b: nat, k: int)
    requires b > 0 && t <= b * k
    ensures (t + b - 1) / b <= k
    ensures Offset(b, (t + b - 1) / b) >= t
  {
    var c := (t + b - 1) / b;
    assert t + b - 1 == c * b + (t + b - 1) % b;
    if c > k {
      MulMono(k + 1, c, b);
      MulSucc(k, b);
    }
  }

  /** Blocks that cover every bit give back the whole registered reading. */
  lemma FullRoundTrip(g: Geometry, codec: BchCodec, t: nat, r: seq<bool>, rp: seq<bool>, bs: nat)
    requires Sane(g) && |r| == g.targetBits && |rp| == g.targetBits && bs <= g.k <= g.n
    requires Offset(g.blocks, bs) >= |r|
    requires EncodesWidth(codec, MsgBytes(g)) && CorrectsUpTo(codec, MsgBytes(g), t) && Aligned(g, codec)
    requires WithinBudget(g, codec, t, r, rp, bs)
    ensures GenerateWith(g, codec, r, bs).Ok?
    ensures ExtractWith(g, codec, rp, GenerateWith(g, codec, r, bs).value, bs) == Ok((r, true))
  {
    RoundTripWith(g, codec, t, r, rp, bs);
    TakeAll(r, Offset(g.blocks, bs));
  }

  /**
   The source's round trip: with `TARGET_BITS ≤ BCH_BLOCKS·BCH_K` (what
   validation enforces), an aligned layout, and every block of the fresh
   reading within budget of the registered one, extraction succeeds and returns
   the first `BCH_BLOCKS·(TARGET_BITS // BCH_BLOCKS)` registered bits.
   */
  lemma NoisyRoundTrip(g: Geometry, codec: BchCodec, t: nat, r: seq<bool>, rp: seq<bool>)
    requires Sane(g) && |r| == g.targetBits && |rp| == g.targetBits
    requires g.targetBits <= g.blocks * g.k && g.k <= g.n
    requires EncodesWidth(codec, MsgBytes(g)) && CorrectsUpTo(codec, MsgBytes(g), t) && Aligned(g, codec)
    requires WithinBudget(g, codec, t, r, rp, FloorBlockSize(g, r))
    ensures GenerateHelper(g, codec, r).Ok?
    ensures ExtractStableKey(g, codec, rp, GenerateHelper(g, codec, r).value)
         == Ok((Take(r, Offset(g.blocks, FloorBlockSize(g, r))), true))
  {
    FloorCovers(g, r, rp);
    RoundTripWith(g, codec, t, r, rp, FloorBlockSize(g, r));
  }

  /** The same with the very registered reading, when no block loses more than `t` codeword bits. */
  lemma NoNoiseRoundTrip(g: Geometry, codec: BchCodec, t: nat, r: seq<bool>)
    requires Sane(g) && |r| == g.targetBits && g.targetBits <= g.blocks * g.k && g.k <= g.n
    requires EncodesWidth(codec, MsgBytes(g)) && CorrectsUpTo(codec, MsgBytes(g), t) && Aligned(g, codec)
    requires forall j | 0 <= j < g.blocks :: LostOnes(g, codec, BlockOf(r, j, FloorBlockSize(g, r))) <= t
    ensures GenerateHelper(g, codec, r).Ok?
    ensures ExtractStableKey(g, codec, r, GenerateHelper(g, codec, r).value)
         == Ok((Take(r, Offset(g.blocks, FloorBlockSize(g, r))), true))
  {
    var bs := FloorBlockSize(g, r);
    forall j | 0 <= j < g.blocks ensures Distance(BlockOf(r, j, bs), BlockOf(r, j, bs)) == 0 {
      DistanceSelf(BlockOf(r, j, bs));
    }
    NoisyRoundTrip(g, codec, t, r, r);
  }

  /**
   When `BCH_BLOCKS` does not divide `TARGET_BITS`, extraction returns fewer
   bits than were registered, whatever the code, the reading and the helper.
   */
  lemma FloorBlockSizeDropsTail(g: Geometry, codec: BchCodec, rp: seq<bool>, p: Bytes)
    requires Sane(g) && |rp| == g.targetBits && |rp| % g.blocks != 0
    ensures var s := ExtractStableKey(g, codec, rp, p);
            s.Ok? && |s.value.0| < |rp|
  {
    var q := FloorBlockSize(g, rp);
    assert |rp| == q * g.blocks + |rp| % g.blocks;
  }

  /** With the block size rounded up, a reading within budget gives back the whole registered reading. */
  lemma CoveringRoundTrip(g: Geometry, codec: BchCodec, t: nat, r: seq<bool>, rp: seq<bool>)
    requires Sane(g) && |r| == g.targetBits && |rp| == g.targetBits
    requires g.targetBits <= g.blocks * g.k && g.k <= g.n
    requires EncodesWidth(codec, MsgBytes(g)) && CorrectsUpTo(codec, MsgBytes(g), t) && Aligned(g, codec)
    requires WithinBudget(g, codec, t, r, rp, CeilBlockSize(g, r))
    ensures GenerateHelperCovering(g, codec, r).Ok?
    ensures ExtractCovering(g, codec, rp, GenerateHelperCovering(g, codec, r).value) == Ok((r, true))
  {
    CeilCovers(g, r, rp);
    FullRoundTrip(g, codec, t, r, rp, CeilBlockSize(g, r));
  }

  /** The source's block size depends only on the length and fits in `k`. */
  lemma FloorCovers(g: Geometry, r: seq<bool>, rp: seq<bool>)
    requires Sane(g) && |r| == |rp| && |r| <= g.blocks * g.k
    ensures FloorBlockSize(g, rp) == FloorBlockSize(g, r) <= g.k
  {
    FloorFits(|r|, g.blocks, g.k);
  }

  /** The rounded-up block size depends only on the length, fits in `k` and covers every bit. */
  lemma CeilCovers(g: Geometry, r: seq<bool>, rp: seq<bool>)
    requires Sane(g) && |r| == |rp| && |r| <= g.blocks * g.k
    ensures CeilBlockSize(g, rp) == CeilBlockSize(g, r) <= g.k
    ensures Offset(g.blocks, CeilBlockSize(g, r)) >= |r|
  {
    CeilFits(|r|, g.blocks, g.k);
  }

  /** The two block sizes agree when the blocks divide the target exactly. */
  lemma CoveringAgreesWhenDivisible(g: Geometry, r: seq<bool>)
    requires Sane(g) && |r| % g.blocks == 0
    ensures CeilBlockSize(g, r) == FloorBlockSize(g, r)
  {
    var q := |r| / g.blocks;
    assert |r| == q * g.blocks;
    MulSucc(q, g.blocks);
    DivUnique(|r| + g.blocks - 1, g.blocks, q);
  }

  // ---------------------------------------------------------------------------
  // A codeword longer than `n` bits
  // ---------------------------------------------------------------------------

  /** A codeword of at most `n` bits loses nothing, so the whole budget goes to noise. */
  lemma NothingLostWhenCodewordFits(g: Geometry, codec: BchCodec, b: seq<bool>)
    requires Sane(g) && 8 * CodewordBytes(g, codec) <= g.n && EncodesWidth(codec, MsgBytes(g))
    ensures LostOnes(g, codec, b) == 0
  {
    var c := AllBits(CodewordOf(g, codec, b));
    assert c[Min(KeptBits(g, codec), |c|)..] == [];
  }

  /**
   With a codeword longer than `n` bits, even the very registered reading
   hands the decoder the codeword with its bits from `n` on zeroed: the set
   bits among them are errors the decoder must spend its budget on.
   */
  lemma RegisteredReadingLosesTail(g: Geometry, codec: BchCodec, b: seq<bool>)
    requires Sane(g) && |b| <= g.k <= g.n && EncodesWidth(codec, MsgBytes(g))
    requires 8 * CodewordBytes(g, codec) > g.n
    ensures var c := AllBits(CodewordOf(g, codec, b));
            AllBits(DecoderWord(g, codec, b, b)) == c[..g.n] + Falses(|c| - g.n)
    ensures Distance(AllBits(DecoderWord(g, codec, b, b)), AllBits(CodewordOf(g, codec, b)))
         == LostOnes(g, codec, b)
  {
    var c := AllBits(CodewordOf(g, codec, b));
    var L := KeptBits(g, codec);
    assert L == g.n;
    assert AllBits(DecoderWord(g, codec, b, b)) == c[..g.n] + Falses(|c| - g.n) by {
      DecoderWordBits(g, codec, b, b);
      XorSame(c[..L], PadTo(b, L));
    }
    assert Distance(AllBits(DecoderWord(g, codec, b, b)), c) == LostOnes(g, codec, b) by {
      DistanceSelf(b);
      DecoderWordDistance(g, codec, b, b);
    }
  }

  /** XOR-ing a string with itself into `x` leaves `x`. */
  lemma XorSame(x: seq<bool>, p: seq<bool>)
    requires |p| == |x|
    ensures ZipXor(x, ZipXor(p, p)) == x
  {
  }

  /** The evidently intended layout: each helper block holds the whole codeword, `8·d` bits. */
  function Widen(g: Geometry, codec: BchCodec): (w: Geometry)
    requires Sane(g)
    ensures Sane(w) && MsgBytes(w) == MsgBytes(g) && CodewordBytes(w, codec) == CodewordBytes(g, codec)
    ensures KeptBits(w, codec) == 8 * CodewordBytes(g, codec) && Aligned(w, codec)
    ensures w.k <= w.n
  {
    g.(n := 8 * CodewordBytes(g, codec))
  }

  /**
   Under the widened layout no codeword bit is lost: every block tolerates a
   full `t` flipped bits, and extraction returns what the source's does.
   */
  lemma WidenedRoundTrip(g: Geometry, codec: BchCodec, t: nat, r: seq<bool>, rp: seq<bool>)
    requires Sane(g) && |r| == g.targetBits && |rp| == g.targetBits && g.targetBits <= g.blocks * g.k
    requires EncodesWidth(codec, MsgBytes(g)) && CorrectsUpTo(codec, MsgBytes(g), t)
    requires forall j | 0 <= j < g.blocks ::
      Distance(BlockOf(r, j, FloorBlockSize(g, r)), BlockOf(rp, j, FloorBlockSize(g, r))) <= t
    ensures GenerateHelper(Widen(g, codec), codec, r).Ok?
    ensures ExtractStableKey(Widen(g, codec), codec, rp, GenerateHelper(Widen(g, codec), codec, r).value)
         == Ok((Take(r, Offset(g.blocks, FloorBlockSize(g, r))), true))
  {
    var w := Widen(g, codec);
    var bs := FloorBlockSize(w, r);
    assert bs == FloorBlockSize(g, r);
    forall j | 0 <= j < w.blocks
      ensures Distance(BlockOf(r, j, bs), BlockOf(rp, j, bs)) + LostOnes(w, codec, BlockOf(r, j, bs)) <= t
    {
      NothingLostWhenCodewordFits(w, codec, BlockOf(r, j, bs));
    }
    assert WithinBudget(w, codec, t, r, rp, bs);
    NoisyRoundTrip(w, codec, t, r, rp);
  }
}

=== FILE: gossip.dfy ===
/**
 Gossip of the revocation list between validators (`network/gossip.py`):
 every node keeps the set of revoked token ids and a state version that
 grows whenever the set does. Sending, the timer thread and the peer choice
 of `random.choice` are parameters or left out; `list(set)` is kept as the
 set it lists, since its order is arbitrary.
 */
module SyncGossip {
  import opened Wrappers
  import opened Bytes

  datatype GossipMessage = GossipMessage(fromNode: Bytes, version: int, epoch: int, revocations: set<Bytes>, timestamp: int)

  datatype Gossip = Gossip(localNode: Bytes, peers: seq<Bytes>, interval: int, version: int, revocations: set<Bytes>)

  /** The constructor: a 6-byte local id, version 0 and nothing revoked. */
  function Create(localNode: Bytes, peers: seq<Bytes>, interval: int): (r: Result<Gossip>)
    ensures r.Ok? <==> |localNode| == 6
    ensures r.Ok? ==> r.value.version == 0 && r.value.revocations == {} && r.value.peers == peers
  {
    if |localNode| != 6 then Err("local_node must be 6 bytes")
    else Ok(Gossip(localNode, peers, interval, 0, {}))
  }

  /** `_build_gossip_message`: the node's id, version and revocations, with epoch 0. */
  function BuildMessage(g: Gossip, now: int): (r: GossipMessage)
    ensures r.fromNode == g.localNode && r.version == g.version && r.revocations == g.revocations && r.epoch == 0
  {
    GossipMessage(g.localNode, g.version, 0, g.revocations, now)
  }

  /** `_gossip_round`: nothing without peers; otherwise the chosen peer and the node's message. */
  function GossipRound(g: Gossip, choice: nat, now: int): (r: Option<(Bytes, GossipMessage)>)
    ensures r.None? <==> |g.peers| == 0
    ensures r.Some? ==> r.value.0 in g.peers && r.value.1 == BuildMessage(g, now)
  {
    if |g.peers| == 0 then None else Some((g.peers[choice % |g.peers|], BuildMessage(g, now)))
  }

  /**
   `on_gossip_received`: merges the peer's revocations and bumps the version
   once when any were new. The second component is the set of new ids the
   state-update callback receives (empty when it is not called).
   */
  function OnGossipReceived(g: Gossip, msg: GossipMessage): (r: (Gossip, set<Bytes>))
    ensures r.1 == msg.revocations - g.revocations
    ensures forall id :: id in r.0.revocations <==> id in g.revocations || id in msg.revocations
    ensures r.0.version == if r.1 == {} then g.version else g.version + 1
    ensures r.0 == g.(version := r.0.version, revocations := r.0.revocations)
  {
    var added := msg.revocations - g.revocations;
    if added == {} then
      assert forall id | id in msg.revocations :: id in g.revocations by {
        forall id | id in msg.revocations ensures id in g.revocations {
          assert id !in added;
        }
      }
      (g, {})
    else (g.(revocations := g.revocations + added, version := g.version + 1), added)
  }

  /** `add_revocation`: adds the id, bumping the version only when it is new. */
  function AddRevocation(g: Gossip, matId: Bytes): (r: Gossip)
    ensures IsRevoked(r, matId)
    ensures forall id | id != matId :: IsRevoked(r, id) <==> IsRevoked(g, id)
    ensures r.version == if IsRevoked(g, matId) then g.version else g.version + 1
  {
    if matId !in g.revocations then g.(revocations := g.revocations + {matId}, version := g.version + 1) else g
  }

  /** `is_revoked`. */
  predicate IsRevoked(g: Gossip, matId: Bytes)
  {
    matId in g.revocations
  }

  /** The version never outruns the number of revoked ids, and it is zero while nothing is revoked. */
  predicate VersionInvariant(g: Gossip)
  {
    0 <= g.version <= |g.revocations| && (g.revocations == {} ==> g.version == 0)
  }

  lemma UnionGrows(a: set<Bytes>, b: set<Bytes>)
    requires b - a != {}
    ensures |a + b| >= |a| + 1
  {
    var x :| x in b - a;
    var c := a + {x};
    var rest := (a + b) - c;
    assert |c| == |a| + 1;
    assert c + rest == a + b && c * rest == {};
  }

  /** Both updates keep the version invariant. */
  lemma {:induction false} UpdatesKeepVersionInvariant(g: Gossip, msg: GossipMessage, matId: Bytes)
    requires VersionInvariant(g)
    ensures VersionInvariant(OnGossipReceived(g, msg).0)
    ensures VersionInvariant(AddRevocation(g, matId))
  {
    var added := msg.revocations - g.revocations;
    if added != {} {
      UnionGrows(g.revocations, added);
    }
    if matId !in g.revocations {
      assert matId in {matId} - g.revocations;
      UnionGrows(g.revocations, {matId});
    }
  }

  /** Hearing the same message again changes nothing. */
  lemma ReceiveIdempotent(g: Gossip, msg: GossipMessage)
    ensures OnGossipReceived(OnGossipReceived(g, msg).0, msg) == (OnGossipReceived(g, msg).0, {})
  {
  }

  /** Two nodes that exchange one message each end up with the same revocation set, the union of both. */
  lemma ExchangeConverges(a: Gossip, b: Gossip, now: int)
    ensures var a' := OnGossipReceived(a, BuildMessage(b, now)).0;
            var b' := OnGossipReceived(b, BuildMessage(a, now)).0;
            a'.revocations == b'.revocations == a.revocations + b.revocations
  {
  }
}

=== FILE: hkdf.dfy ===
/**
 The synchronization layer's hand-written HKDF (`crypto/hkdf.py`, section 2 of
 RFC 5869) over HMAC-SHA256, and the two derivation functions built on it.
 HMAC-SHA256, SHA-256 and SHA3-256, which the whole synchronization layer
 shares, are parameters; only their 32-byte outputs are assumed.
 */
module Hkdf {
  import opened Wrappers
  import opened Bytes

  /** SHA-256's digest size, the `hash_len` of the default construction. */
  const HASH_LEN: nat := 32

  /** The most `expand` will produce: 255 blocks (section 2.3 of RFC 5869). */
  const MAX_OUTPUT: nat := 255 * HASH_LEN

  datatype Primitives = Primitives(hmac: (Bytes, Bytes) -> Bytes, sha256: Bytes -> Bytes, sha3: Bytes -> Bytes)

  ghost predicate Sound(p: Primitives)
  {
    && (forall k, d :: |p.hmac(k, d)| == HASH_LEN)
    && (forall d :: |p.sha256(d)| == 32)
    && (forall d :: |p.sha3(d)| == 32)
  }

  /** The salt `extract` keys HMAC with: `hash_len` zero bytes replace a missing or empty one. */
  function EffectiveSalt(salt: Option<Bytes>): (r: Bytes)
    ensures |r| > 0
    ensures salt.Some? && |salt.value| > 0 ==> r == salt.value
    ensures salt.None? || |salt.value| == 0 ==> r == Zeros(HASH_LEN)
  {
    if salt.None? || |salt.value| == 0 then Zeros(HASH_LEN) else salt.value
  }

  /** HKDF-Extract: PRK = HMAC(salt, IKM). */
  function Extract(p: Primitives, salt: Option<Bytes>, ikm: Bytes): (r: Bytes)
    requires Sound(p)
    ensures |r| == HASH_LEN
  {
    p.hmac(EffectiveSalt(salt), ikm)
  }

  /** T(i) of section 2.3 of RFC 5869: T(0) is empty and T(i) = HMAC(PRK, T(i-1) ‖ info ‖ i). */
  function Block(p: Primitives, prk: Bytes, info: Bytes, i: nat): (r: Bytes)
    requires Sound(p)
    requires i < 256
    ensures |r| == if i == 0 then 0 else HASH_LEN
  {
    if i == 0 then [] else p.hmac(prk, Block(p, prk, info, i - 1) + info + [i])
  }

  /** T(1) ‖ … ‖ T(n): the reference definition of the output stream. */
  function Stream(p: Primitives, prk: Bytes, info: Bytes, n: nat): (r: Bytes)
    requires Sound(p)
    requires n < 256
    ensures |r| == n * HASH_LEN
  {
    if n == 0 then [] else Stream(p, prk, info, n - 1) + Block(p, prk, info, n)
  }

  /** `n = ceil(length / hash_len)`, computed with floor division; a non-positive count runs no round. */
  function BlockCount(length: int): (n: nat)
    requires length <= MAX_OUTPUT
    ensures n < 256
    ensures length <= 0 ==> n == 0
    ensures length > 0 ==> (n - 1) * HASH_LEN < length <= n * HASH_LEN
  {
    Max(FloorDiv(length + HASH_LEN - 1, HASH_LEN), 0)
  }

  /** The first `length` bytes of the stream: what `expand` is meant to return. */
  function Okm(p: Primitives, prk: Bytes, info: Bytes, length: int): (r: Bytes)
    requires Sound(p)
    requires length <= MAX_OUTPUT
    ensures |r| == Max(length, 0)
  {
    Prefix(Stream(p, prk, info, BlockCount(length)), length)
  }

  /**
   HKDF-Expand as the source runs it: one HMAC round per block, chaining the
   previous block, then the prefix. It raises for more than 255 blocks; any
   other length, negative ones included, yields exactly `max(length, 0)` bytes.
   */
  method Expand(p: Primitives, prk: Bytes, info: Bytes, length: int) returns (r: Result<Bytes>)
    requires Sound(p)
    ensures r.Err? <==> length > MAX_OUTPUT
    ensures r.Ok? ==> |r.value| == Max(length, 0) && r.value == Okm(p, prk, info, length)
  {
    if length > MAX_OUTPUT {
      return Err("Length too long");
    }
    var n := BlockCount(length);
    var okm: Bytes := [];
    var t: Bytes := [];
    var i: nat := 1;
    while i <= n
      invariant 1 <= i <= n + 1
      invariant t == Block(p, prk, info, i - 1)
      invariant okm == Stream(p, prk, info, i - 1)
    {
      t := p.hmac(prk, t + info + [i]);
      okm := okm + t;
      i := i + 1;
    }
    return Ok(Prefix(okm, length));
  }

  lemma {:induction false} StreamPrefix(p: Primitives, prk: Bytes, info: Bytes, m: nat, n: nat)
    requires Sound(p)
    requires m <= n < 256
    ensures Stream(p, prk, info, m) <= Stream(p, prk, info, n)
  {
    if m < n {
      StreamPrefix(p, prk, info, m, n - 1);
    }
  }

  /** A shorter output is a prefix of a longer one with the same PRK and info. */
  lemma ExpandPrefixConsistent(p: Primitives, prk: Bytes, info: Bytes, l1: int, l2: int)
    requires Sound(p)
    requires l1 <= l2 <= MAX_OUTPUT
    ensures Okm(p, prk, info, l1) <= Okm(p, prk, info, l2)
  {
    if l1 > 0 {
      var n1, n2 := BlockCount(l1), BlockCount(l2);
      StreamPrefix(p, prk, info, n1, n2);
      var s1, s2 := Stream(p, prk, info, n1), Stream(p, prk, info, n2);
      assert Okm(p, prk, info, l1) == s1[..l1] == s2[..l1];
      assert Okm(p, prk, info, l2) == s2[..l2];
    }
  }

  /** `derive`: extract with the salt, then expand with the info (empty when absent). */
  method Derive(p: Primitives, ikm: Bytes, length: int, salt: Option<Bytes>, info: Option<Bytes>) returns (r: Result<Bytes>)
    requires Sound(p)
    ensures r.Err? <==> length > MAX_OUTPUT
    ensures r.Ok? ==> |r.value| == Max(length, 0)
    ensures r.Ok? ==> r.value == Okm(p, Extract(p, salt, ikm), if info.Some? then info.value else [], length)
  {
    var i := if info.Some? then info.value else [];
    var prk := Extract(p, salt, ikm);
    r := Expand(p, prk, i, length);
  }

  /** `src ‖ dst ‖ version` as a 4-byte big-endian integer; `to_bytes` raises outside 32 bits. */
  function FeatureInfo(src: Bytes, dst: Bytes, version: int): (r: Result<Bytes>)
    ensures r.Ok? <==> IsU32(version)
    ensures r.Ok? ==> |r.value| == |src| + |dst| + 4 && FromBE(r.value[|src| + |dst|..]) == version
    ensures r.Ok? ==> r.value[..|src|] == src && r.value[|src|..|src| + |dst|] == dst
  {
    Pow256Widths();
    var v :- PackBE(version, 4);
    Ok(src + dst + v)
  }

  /** With the MAC lengths fixed, the info block determines the addresses and the version. */
  lemma FeatureInfoInjective(src: Bytes, dst: Bytes, version: int, src': Bytes, dst': Bytes, version': int)
    requires |src| == |src'| && |dst| == |dst'|
    requires FeatureInfo(src, dst, version).Ok? && FeatureInfo(src', dst', version').Ok?
    requires FeatureInfo(src, dst, version) == FeatureInfo(src', dst', version')
    ensures src == src' && dst == dst' && version == version'
  {
  }

  /** `derive_feature_key`: K = HKDF(S ‖ L; salt = domain; info = src ‖ dst ‖ version), 32 bytes. */
  method DeriveFeatureKey(p: Primitives, s: Bytes, l: Bytes, domain: Bytes, src: Bytes, dst: Bytes, version: int)
    returns (r: Result<Bytes>)
    requires Sound(p)
    ensures r.Ok? <==> IsU32(version)
    ensures r.Ok? ==> |r.value| == 32
    ensures r.Ok? ==> r.value == Okm(p, Extract(p, Some(domain), s + l), FeatureInfo(src, dst, version).value, 32)
  {
    var info := FeatureInfo(src, dst, version);
    if info.Err? {
      return Err(info.error);
    }
    r := Derive(p, s + l, 32, Some(domain), Some(info.value));
  }

  /** `epoch ‖ Ci`, each a 4-byte big-endian integer. */
  function SessionInfo(epoch: int, counter: int): (r: Result<Bytes>)
    ensures r.Ok? <==> IsU32(epoch) && IsU32(counter)
    ensures r.Ok? ==> |r.value| == 8 && FromBE(r.value[..4]) == epoch && FromBE(r.value[4..]) == counter
  {
    Pow256Widths();
    var e :- PackBE(epoch, 4);
    var c :- PackBE(counter, 4);
    assert (e + c)[..4] == e && (e + c)[4..] == c;
    Ok(e + c)
  }

  /** Distinct (epoch, counter) pairs feed HKDF distinct info blocks. */
  lemma SessionInfoInjective(epoch: int, counter: int, epoch': int, counter': int)
    requires SessionInfo(epoch, counter).Ok? && SessionInfo(epoch', counter').Ok?
    requires SessionInfo(epoch, counter) == SessionInfo(epoch', counter')
    ensures epoch == epoch' && counter == counter'
  {
  }

  /** `derive_session_key`: Ks = HKDF(K; no salt; info = epoch ‖ Ci), 32 bytes. */
  method DeriveSessionKey(p: Primitives, k: Bytes, epoch: int, counter: int) returns (r: Result<Bytes>)
    requires Sound(p)
    ensures r.Ok? <==> IsU32(epoch) && IsU32(counter)
    ensures r.Ok? ==> |r.value| == 32
    ensures r.Ok? ==> r.value == Okm(p, Extract(p, None, k), SessionInfo(epoch, counter).value, 32)
  {
    var info := SessionInfo(epoch, counter);
    if info.Err? {
      return Err(info.error);
    }
    r := Derive(p, k, 32, None, Some(info.value));
  }

  /** `blake3_hash`, which despite its name is SHA3-256. */
  function Blake3Hash(p: Primitives, data: Bytes): (r: Bytes)
    requires Sound(p)
    ensures |r| == 32
  {
    p.sha3(data)
  }

  /** `truncate`: Python's `data[:length]`, a prefix of the input. */
  function Truncate(data: Bytes, length: int): (r: Bytes)
    ensures r <= data
    ensures length >= 0 ==> |r| == Min(length, |data|)
    ensures length < 0 ==> |r| == Max(|data| + length, 0)
  {
    Prefix(data, length)
  }
}

=== FILE: key_derivation.dfy ===
/**
 Key derivation of the feature-key engine (`KeyDerivation`): the random
 perturbation `L`, the feature key `K`, the session key `Ks` and the
 consistency digest. The hash (BLAKE3 or SHA-256) and the `cryptography`
 HKDF over SHA-256 are parameters; only their output lengths are assumed.
 Whether `import blake3` succeeds is a parameter too: the module binds
 `hashlib` only when it fails, so with BLAKE3 installed the SHA-256 branch
 of `_hash` raises `NameError`.
 */
module KeyDerivation {
  import opened Wrappers
  import opened Bytes
  import opened FeConfig

  /**
   The primitives key derivation calls: the two hashes `_hash` chooses from
   and HKDF as `HKDF(SHA256, length, salt, info).derive(ikm)`, its arguments
   in the order salt, ikm, info, length; `hasBlake3` is `HAS_BLAKE3`.
   */
  datatype Primitives = Primitives(
    hasBlake3: bool,
    blake3: Bytes -> Bytes,
    sha256: Bytes -> Bytes,
    hkdf: (Option<Bytes>, Bytes, Bytes, nat) -> Bytes)

  /** Both hashes give 32 bytes; HKDF gives the requested number of bytes. */
  ghost predicate Sound(p: Primitives)
  {
    && (forall d :: |p.blake3(d)| == 32)
    && (forall d :: |p.sha256(d)| == 32)
    && (forall salt, ikm, info, n :: |p.hkdf(salt, ikm, info, n)| == n)
  }

  /** The key lengths `validate` admits; HKDF accepts every one of them. */
  predicate KeyLengthAllowed(c: Config)
  {
    c.keyLength in {16, 24, 32, 48, 64}
  }

  /** What calling `hashlib.sha256` raises when the module never imported `hashlib`. */
  const HASHLIB_MISSING: string := "NameError: name 'hashlib' is not defined"

  /** Whether `_hash` can run: either it takes the BLAKE3 branch, or `hashlib` was imported. */
  predicate HashAvailable(c: Config, p: Primitives)
  {
    !p.hasBlake3 || c.hashAlgorithm == "blake3"
  }

  /**
   `_hash` as written: BLAKE3 when configured and installed, otherwise
   `hashlib.sha256`, which raises when BLAKE3 is installed because `hashlib`
   is then unbound.
   */
  function Hash(c: Config, p: Primitives, data: Bytes): (r: Result<Bytes>)
    requires Sound(p)
    ensures r.Ok? <==> HashAvailable(c, p)
    ensures r.Err? ==> r.error == HASHLIB_MISSING
    ensures r.Ok? ==> |r.value| == 32
    ensures p.hasBlake3 && c.hashAlgorithm == "blake3" ==> r == Ok(p.blake3(data))
    ensures !p.hasBlake3 ==> r == Ok(p.sha256(data))
  {
    if c.hashAlgorithm == "blake3" && p.hasBlake3 then Ok(p.blake3(data))
    else if p.hasBlake3 then Err(HASHLIB_MISSING)
    else Ok(p.sha256(data))
  }

  /** `_hash` as evidently intended, with `hashlib` imported unconditionally: the SHA-256 fallback always runs. */
  function HashIntended(c: Config, p: Primitives, data: Bytes): (h: Bytes)
    requires Sound(p)
    ensures |h| == 32
  {
    if c.hashAlgorithm == "blake3" && p.hasBlake3 then p.blake3(data) else p.sha256(data)
  }

  /**
   The intended hash is defined for every configuration, gives SHA-256 for
   `'sha256'` whether or not BLAKE3 is installed, and agrees with the written
   `_hash` wherever that one does not raise.
   */
  lemma IntendedHashAgrees(c: Config, p: Primitives, data: Bytes)
    requires Sound(p)
    ensures c.hashAlgorithm != "blake3" ==> HashIntended(c, p, data) == p.sha256(data)
    ensures Hash(c, p, data).Ok? ==> Hash(c, p, data).value == HashIntended(c, p, data)
    ensures Hash(c, p, data).Err? <==> p.hasBlake3 && c.hashAlgorithm != "blake3"
  {
  }

  /** The bytes `compute_L` hashes: the epoch as `<I`, then the nonce; both can be read back. */
  function LInput(epoch: nat, nonce: Bytes): (d: Bytes)
    requires epoch < U32_LIMIT
    ensures |d| == 4 + |nonce|
    ensures FromLE(d[..4]) == epoch && d[4..] == nonce
  {
    Pow256Widths();
    LERoundTrip(epoch, 4);
    var e := ToLE(epoch, 4);
    assert (e + nonce)[..4] == e;
    e + nonce
  }

  /**
   `compute_L`: a negative epoch or a nonce of the wrong length raises; so
   does an epoch beyond `<I`, and then `_hash` may raise.
   */
  function ComputeL(c: Config, p: Primitives, epoch: int, nonce: Bytes): (r: Result<Bytes>)
    requires Sound(p)
    ensures r.Ok? <==> 0 <= epoch < U32_LIMIT && |nonce| == c.nonceLength && HashAvailable(c, p)
    ensures epoch < 0 ==> r == Err("epoch must be non-negative int")
    ensures 0 <= epoch < U32_LIMIT && |nonce| == c.nonceLength && !HashAvailable(c, p) ==> r == Err(HASHLIB_MISSING)
    ensures r.Ok? ==> |r.value| == 32 && Ok(r.value) == Hash(c, p, LInput(epoch, nonce))
  {
    if epoch < 0 then Err("epoch must be non-negative int")
    else if |nonce| != c.nonceLength then Err("nonce length mismatch")
    else if epoch >= U32_LIMIT then Err("struct.error: argument out of range")
    else
      var h :- Hash(c, p, LInput(epoch, nonce));
      assert Prefix(h, 32) == h;
      Ok(Prefix(h, 32))
  }

  /** The HKDF info of the feature key: version byte, source, destination, epoch as `<I`. */
  function FeatureInfo(ver: nat, src: Bytes, dst: Bytes, epoch: nat): (info: Bytes)
    requires ver < U8_LIMIT && epoch < U32_LIMIT
    ensures |info| == 1 + |src| + |dst| + 4
    ensures info[0] == ver
    ensures info[1..1 + |src|] == src
    ensures info[1 + |src|..1 + |src| + |dst|] == dst
    ensures FromLE(info[1 + |src| + |dst|..]) == epoch
  {
    Pow256Widths();
    LERoundTrip(epoch, 4);
    var e := ToLE(epoch, 4);
    var info := [ver as Byte] + src + dst + e;
    assert info[1..1 + |src|] == src;
    assert info[1 + |src|..1 + |src| + |dst|] == dst;
    assert info[1 + |src| + |dst|..] == e;
    info
  }

  /** With six-byte addresses the info is the documented 17 bytes, and distinct contexts give distinct info. */
  lemma FeatureInfoInjective(
    v1: nat, s1: Bytes, d1: Bytes, e1: nat, v2: nat, s2: Bytes, d2: Bytes, e2: nat)
    requires v1 < U8_LIMIT && e1 < U32_LIMIT && v2 < U8_LIMIT && e2 < U32_LIMIT
    requires |s1| == |d1| == |s2| == |d2| == 6
    ensures |FeatureInfo(v1, s1, d1, e1)| == 17
    ensures FeatureInfo(v1, s1, d1, e1) == FeatureInfo(v2, s2, d2, e2) <==>
      v1 == v2 && s1 == s2 && d1 == d2 && e1 == e2
  {
    var i1, i2 := FeatureInfo(v1, s1, d1, e1), FeatureInfo(v2, s2, d2, e2);
    if i1 == i2 {
      assert i1[1..7] == i2[1..7];
      assert i1[7..13] == i2[7..13];
      assert i1[13..] == i2[13..];
    }
  }

  /**
   `derive_feature_key`: PRK is a full HKDF with salt `dom` over `S ‖ L`
   (32 bytes, empty info); `K` is a second full, salt-less HKDF of PRK with
   the context info. Wrong lengths raise in the order S, L, src, dst; an
   out-of-range version or epoch raises in `struct.pack`.
   */
  function DeriveFeatureKey(
    c: Config, p: Primitives, s: Bytes, l: Bytes, dom: Bytes, src: Bytes, dst: Bytes, ver: int, epoch: int): (r: Result<Bytes>)
    requires Sound(p) && KeyLengthAllowed(c)
    ensures r.Ok? <==>
      |s| == 32 && |l| == 32 && |src| == c.macLength && |dst| == c.macLength && IsU8(ver) && IsU32(epoch)
    ensures |s| != 32 ==> r == Err("S length must be 32 bytes")
    ensures |s| == 32 && |l| != 32 ==> r == Err("L length must be 32 bytes")
    ensures r.Ok? ==> |r.value| == c.keyLength
    ensures r.Ok? ==> r.value == p.hkdf(None, p.hkdf(Some(dom), s + l, [], 32), FeatureInfo(ver, src, dst, epoch), c.keyLength)
  {
    if |s| != 32 then Err("S length must be 32 bytes")
    else if |l| != 32 then Err("L length must be 32 bytes")
    else if |src| != c.macLength then Err("srcMAC length mismatch")
    else if |dst| != c.macLength then Err("dstMAC length mismatch")
    else if !IsU8(ver) || !IsU32(epoch) then Err("struct.error: argument out of range")
    else
      var prk := p.hkdf(Some(dom), s + l, [], 32);
      Ok(p.hkdf(None, prk, FeatureInfo(ver, src, dst, epoch), c.keyLength))
  }

  /** The HKDF info of the session key: the name, the epoch and the counter, each as `<I`. */
  function SessionInfo(name: Bytes, epoch: nat, ci: nat): (info: Bytes)
    requires epoch < U32_LIMIT && ci < U32_LIMIT
    ensures |info| == |name| + 8
    ensures info[..|name|] == name
    ensures FromLE(info[|name|..|name| + 4]) == epoch
    ensures FromLE(info[|name| + 4..]) == ci
  {
    Pow256Widths();
    LERoundTrip(epoch, 4);
    LERoundTrip(ci, 4);
    var e, n := ToLE(epoch, 4), ToLE(ci, 4);
    var info := name + e + n;
    assert info[..|name|] == name;
    assert info[|name|..|name| + 4] == e;
    assert info[|name| + 4..] == n;
    info
  }

  /** Under one name, the session info is 18 bytes for `"SessionKey"` and determines epoch and counter. */
  lemma SessionInfoInjective(name: Bytes, e1: nat, c1: nat, e2: nat, c2: nat)
    requires e1 < U32_LIMIT && c1 < U32_LIMIT && e2 < U32_LIMIT && c2 < U32_LIMIT
    ensures name == Default().sessionKeyInfo ==> |SessionInfo(name, e1, c1)| == 18
    ensures SessionInfo(name, e1, c1) == SessionInfo(name, e2, c2) <==> e1 == e2 && c1 == c2
  {
    var i1, i2 := SessionInfo(name, e1, c1), SessionInfo(name, e2, c2);
    if i1 == i2 {
      assert i1[|name|..|name| + 4] == i2[|name|..|name| + 4];
      assert i1[|name| + 4..] == i2[|name| + 4..];
    }
  }

  /** `derive_session_key`: a salt-less HKDF of `K` with the session info. */
  function DeriveSessionKey(c: Config, p: Primitives, k: Bytes, epoch: int, ci: int): (r: Result<Bytes>)
    requires Sound(p) && KeyLengthAllowed(c)
    ensures r.Ok? <==> |k| == c.keyLength && IsU32(epoch) && IsU32(ci)
    ensures |k| != c.keyLength ==> r == Err("K length mismatch")
    ensures r.Ok? ==> |r.value| == c.keyLength
    ensures r.Ok? ==> r.value == p.hkdf(None, k, SessionInfo(c.sessionKeyInfo, epoch, ci), c.keyLength)
  {
    if |k| != c.keyLength then Err("K length mismatch")
    else if !IsU32(epoch) || !IsU32(ci) then Err("struct.error: argument out of range")
    else Ok(p.hkdf(None, k, SessionInfo(c.sessionKeyInfo, epoch, ci), c.keyLength))
  }

  /** The bytes the digest hashes: mask, both threshold arrays, then the algorithm id and version bytes. */
  function DigestInput(mask: Bytes, thetaL: Bytes, thetaH: Bytes, algId: nat, ver: nat): (d: Bytes)
    requires algId < U8_LIMIT && ver < U8_LIMIT
    ensures |d| == |mask| + |thetaL| + |thetaH| + 2
    ensures d[..|mask|] == mask
    ensures d[|mask|..|mask| + |thetaL|] == thetaL
    ensures d[|mask| + |thetaL|..|d| - 2] == thetaH
    ensures d[|d| - 2] == algId && d[|d| - 1] == ver
  {
    var d := mask + thetaL + thetaH + [algId as Byte, ver as Byte];
    assert d[..|mask|] == mask;
    assert d[|mask|..|mask| + |thetaL|] == thetaL;
    assert d[|mask| + |thetaL|..|d| - 2] == thetaH;
    d
  }

  /** With the mask and threshold widths fixed, the digest input determines every field. */
  lemma DigestInputInjective(
    m1: Bytes, l1: Bytes, h1: Bytes, a1: nat, v1: nat, m2: Bytes, l2: Bytes, h2: Bytes, a2: nat, v2: nat)
    requires a1 < U8_LIMIT && v1 < U8_LIMIT && a2 < U8_LIMIT && v2 < U8_LIMIT
    requires |m1| == |m2| && |l1| == |l2| && |h1| == |h2|
    ensures DigestInput(m1, l1, h1, a1, v1) == DigestInput(m2, l2, h2, a2, v2) <==>
      m1 == m2 && l1 == l2 && h1 == h2 && a1 == a2 && v1 == v2
  {
    var d1, d2 := DigestInput(m1, l1, h1, a1, v1), DigestInput(m2, l2, h2, a2, v2);
    if d1 == d2 {
      var a, b, e := |m1|, |m1| + |l1|, |d1| - 2;
      assert m1 == d1[..a] == m2;
      assert l1 == d1[a..b] == l2;
      assert h1 == d1[b..e] == h2;
      assert a1 == d1[e] == a2 && v1 == d1[e + 1] == v2;
    }
  }

  /**
   `generate_digest`: the first `DIGEST_LENGTH` bytes of the hash of the
   digest input; the version defaults to `VERSION`. Either byte out of range
   raises in `struct.pack`, and then `_hash` may raise.
   */
  function GenerateDigest(
    c: Config, p: Primitives, mask: Bytes, thetaL: Bytes, thetaH: Bytes, algId: int, ver: Option<int>): (r: Result<Bytes>)
    requires Sound(p)
    ensures var v := if ver.Some? then ver.value else c.version;
      && (r.Ok? <==> IsU8(algId) && IsU8(v) && HashAvailable(c, p))
      && (IsU8(algId) && IsU8(v) && !HashAvailable(c, p) ==> r == Err(HASHLIB_MISSING))
      && (r.Ok? ==> r.value == Prefix(Hash(c, p, DigestInput(mask, thetaL, thetaH, algId, v)).value, c.digestLength))
    ensures r.Ok? && c.digestLength >= 0 ==> |r.value| == Min(c.digestLength, 32)
  {
    var v := if ver.Some? then ver.value else c.version;
    if !IsU8(algId) || !IsU8(v) then Err("struct.error: argument out of range")
    else
      var h :- Hash(c, p, DigestInput(mask, thetaL, thetaH, algId, v));
      Ok(Prefix(h, c.digestLength))
  }

  /** The default configuration's digest is eight bytes, and omitting the version means `VERSION`. */
  lemma DefaultDigest(p: Primitives, mask: Bytes, thetaL: Bytes, thetaH: Bytes)
    requires Sound(p)
    ensures HashAvailable(Default(), p)
    ensures GenerateDigest(Default(), p, mask, thetaL, thetaH, 1, None).Ok?
    ensures |GenerateDigest(Default(), p, mask, thetaL, thetaH, 1, None).value| == 8
    ensures GenerateDigest(Default(), p, mask, thetaL, thetaH, 1, None)
      == GenerateDigest(Default(), p, mask, thetaL, thetaH, 1, Some(1))
  {
  }

  /**
   A configuration `validate` accepts with `HASH_ALGORITHM = 'sha256'` cannot
   derive anything when BLAKE3 is installed: for every epoch and nonce that
   pass the checks, `compute_L` raises the `NameError`, and so does
   `generate_digest` for every byte pair that packs.
   */
  lemma Sha256ConfigRaises(p: Primitives, epoch: nat, nonce: Bytes, mask: Bytes, thetaL: Bytes, thetaH: Bytes)
    requires Sound(p) && p.hasBlake3
    requires epoch < U32_LIMIT && |nonce| == 16
    ensures Valid(Default().(hashAlgorithm := "sha256"))
    ensures ComputeL(Default().(hashAlgorithm := "sha256"), p, epoch, nonce) == Err(HASHLIB_MISSING)
    ensures GenerateDigest(Default().(hashAlgorithm := "sha256"), p, mask, thetaL, thetaH, 1, None) == Err(HASHLIB_MISSING)
  {
    assert Validate(Default().(hashAlgorithm := "sha256")).Pass?;
  }
}

=== FILE: key_material.dfy ===
/**
 Epoch-bound key material (`core/key_material.py`): the validity window, the
 pseudonym derivation and the fixed 100-byte wire layout.
 */
module SyncKeyMaterial {
  import opened Wrappers
  import opened Bytes
  import Hkdf
  import opened Tlv

  datatype KeyMaterial = KeyMaterial(
    epoch: int,
    featureKey: Bytes,
    sessionKey: Bytes,
    pseudonym: Bytes,
    counter: int,
    validFrom: int,
    validUntil: int)

  /** `is_valid`: inside the closed window [valid_from, valid_until]. */
  predicate IsValid(km: KeyMaterial, now: int)
  {
    km.validFrom <= now <= km.validUntil
  }

  /** `is_epoch_match`. */
  predicate IsEpochMatch(km: KeyMaterial, epoch: int)
  {
    km.epoch == epoch
  }

  /** The ASCII label "psn". */
  const PSN_LABEL: Bytes := [0x70, 0x73, 0x6e]

  /** `"psn" ‖ epoch ‖ Ci`, both 4-byte big-endian; `to_bytes` raises outside 32 bits. */
  function PseudonymInput(epoch: int, counter: int): (r: Result<Bytes>)
    ensures r.Ok? <==> IsU32(epoch) && IsU32(counter)
    ensures r.Ok? ==> |r.value| == 11 && r.value[..3] == PSN_LABEL
    ensures r.Ok? ==> FromBE(r.value[3..7]) == epoch && FromBE(r.value[7..]) == counter
  {
    Pow256Widths();
    var e :- PackBE(epoch, 4);
    var c :- PackBE(counter, 4);
    var input := PSN_LABEL + e + c;
    assert input[3..7] == e && input[7..] == c;
    Ok(input)
  }

  /** Two (epoch, counter) pairs never share a pseudonym input. */
  lemma PseudonymInputInjective(epoch: int, counter: int, epoch': int, counter': int)
    requires PseudonymInput(epoch, counter).Ok? && PseudonymInput(epoch', counter').Ok?
    requires PseudonymInput(epoch, counter) == PseudonymInput(epoch', counter')
    ensures epoch == epoch' && counter == counter'
  {
  }

  /** `derive_pseudonym`: the first 12 bytes of HMAC-SHA256(K, "psn" ‖ epoch ‖ Ci). */
  function DerivePseudonym(p: Hkdf.Primitives, featureKey: Bytes, epoch: int, counter: int): (r: Result<Bytes>)
    requires Hkdf.Sound(p)
    ensures r.Ok? <==> IsU32(epoch) && IsU32(counter)
    ensures r.Ok? ==> |r.value| == 12 && r.value <= p.hmac(featureKey, PseudonymInput(epoch, counter).value)
  {
    var input :- PseudonymInput(epoch, counter);
    Ok(Hkdf.Truncate(p.hmac(featureKey, input), 12))
  }

  /** The field widths `pack` insists on. */
  predicate WellFormed(km: KeyMaterial)
  {
    && IsU32(km.epoch)
    && |km.featureKey| == 32
    && |km.sessionKey| == 32
    && |km.pseudonym| == 12
    && IsU32(km.counter)
    && IsU64(km.validFrom)
    && IsU64(km.validUntil)
  }

  const PACKED_SIZE: nat := 4 + 32 + 32 + 12 + 4 + 8 + 8

  /** `pack`: the seven fields in order, big-endian, 100 bytes; any field out of its width raises. */
  function Pack(km: KeyMaterial): (r: Result<Bytes>)
    ensures r.Ok? <==> WellFormed(km)
    ensures r.Ok? ==> |r.value| == PACKED_SIZE
  {
    Pow256Widths();
    var e :- PackBE(km.epoch, 4);
    var fk :- EncodeFixed(km.featureKey, 32);
    var sk :- EncodeFixed(km.sessionKey, 32);
    var ps :- EncodeFixed(km.pseudonym, 12);
    var c :- PackBE(km.counter, 4);
    var f :- PackBE(km.validFrom, 8);
    var u :- PackBE(km.validUntil, 8);
    Ok(e + fk + sk + ps + c + f + u)
  }

  /** The reads of `unpack`, from the decoder's offset. */
  function Read(d: Decoder): (r: Result<(KeyMaterial, Decoder)>)
    ensures r.Ok? <==> d.offset + PACKED_SIZE <= |d.data|
    ensures r.Ok? ==> WellFormed(r.value.0) && r.value.1 == d.(offset := d.offset + PACKED_SIZE)
  {
    Pow256Widths();
    var (epoch, d1) :- DecodeUint(d, 4);
    var (featureKey, d2) :- DecodeFixed(d1, 32);
    var (sessionKey, d3) :- DecodeFixed(d2, 32);
    var (pseudonym, d4) :- DecodeFixed(d3, 12);
    var (counter, d5) :- DecodeUint(d4, 4);
    var (validFrom, d6) :- DecodeUint(d5, 8);
    var (validUntil, d7) :- DecodeUint(d6, 8);
    Ok((KeyMaterial(epoch, featureKey, sessionKey, pseudonym, counter, validFrom, validUntil), d7))
  }

  /** `unpack`: the first 100 bytes; shorter input raises and trailing bytes are ignored. */
  function Unpack(data: Bytes): (r: Result<KeyMaterial>)
    ensures r.Ok? <==> |data| >= PACKED_SIZE
    ensures r.Ok? ==> WellFormed(r.value)
  {
    var (km, _) :- Read(Decoder(data, 0));
    Ok(km)
  }

  /** `unpack(pack(k)) == k`, and the decoder ends with nothing left over. */
  lemma PackRoundTrip(km: KeyMaterial)
    requires WellFormed(km)
    ensures Read(Decoder(Pack(km).value, 0)) == Ok((km, Decoder(Pack(km).value, PACKED_SIZE)))
    ensures RemainingBytes(Decoder(Pack(km).value, PACKED_SIZE)) == 0
    ensures Unpack(Pack(km).value) == Ok(km)
  {
    Pow256Widths();
    var e, c := PackBE(km.epoch, 4).value, PackBE(km.counter, 4).value;
    var f, u := PackBE(km.validFrom, 8).value, PackBE(km.validUntil, 8).value;
    var data := Pack(km).value;
    assert data == e + km.featureKey + km.sessionKey + km.pseudonym + c + f + u;
    var d0 := Decoder(data, 0);
    assert At(d0, data);
    AtSplit(d0, e + km.featureKey + km.sessionKey + km.pseudonym + c + f, u);
    AtSplit(d0, e + km.featureKey + km.sessionKey + km.pseudonym + c, f);
    AtSplit(d0, e + km.featureKey + km.sessionKey + km.pseudonym, c);
    AtSplit(d0, e + km.featureKey + km.sessionKey, km.pseudonym);
    AtSplit(d0, e + km.featureKey, km.sessionKey);
    AtSplit(d0, e, km.featureKey);
    ReadUint(d0, km.epoch, 4);
    ReadFixed(Decoder(data, 4), km.featureKey);
    ReadFixed(Decoder(data, 36), km.sessionKey);
    ReadFixed(Decoder(data, 68), km.pseudonym);
    ReadUint(Decoder(data, 80), km.counter, 4);
    ReadUint(Decoder(data, 84), km.validFrom, 8);
    ReadUint(Decoder(data, 92), km.validUntil, 8);
  }

  /** Conversely, whatever `unpack` accepts packs back to the 100 bytes it read. */
  lemma UnpackRoundTrip(data: Bytes)
    requires |data| >= PACKED_SIZE
    ensures Pack(Unpack(data).value) == Ok(data[..PACKED_SIZE])
  {
    var km := Unpack(data).value;
    UnpackFields(data);
    PackLayout(km);
    TakeConcat(data, 4, 36);
    TakeConcat(data, 36, 68);
    TakeConcat(data, 68, 80);
    TakeConcat(data, 80, 84);
    TakeConcat(data, 84, 92);
    TakeConcat(data, 92, 100);
  }

  /** Where `unpack` takes each field from. */
  lemma UnpackFields(data: Bytes)
    requires |data| >= PACKED_SIZE
    ensures Unpack(data).Ok?
    ensures var km := Unpack(data).value;
            && ToBE(km.epoch, 4) == data[..4] && km.featureKey == data[4..36]
            && km.sessionKey == data[36..68] && km.pseudonym == data[68..80]
            && ToBE(km.counter, 4) == data[80..84] && ToBE(km.validFrom, 8) == data[84..92]
            && ToBE(km.validUntil, 8) == data[92..100]
  {
    Pow256Widths();
    assert Read(Decoder(data, 0)).Ok?;
  }

  /** The bytes `pack` writes, field by field. */
  lemma PackLayout(km: KeyMaterial)
    requires WellFormed(km)
    ensures Pack(km) == Ok(ToBE(km.epoch, 4) + km.featureKey + km.sessionKey + km.pseudonym
                           + ToBE(km.counter, 4) + ToBE(km.validFrom, 8) + ToBE(km.validUntil, 8))
  {
    Pow256Widths();
    PackBEIsToBE(km.epoch, 4);
    PackBEIsToBE(km.counter, 4);
    PackBEIsToBE(km.validFrom, 8);
    PackBEIsToBE(km.validUntil, 8);
  }
}

=== FILE: mat_token.dfy ===
/**
 The admission token (`auth/mat_token.py`): its validity test, its wire
 layout and the aggregate signature the issuing validators put on it.
 */
module SyncMatToken {
  import opened Wrappers
  import opened Bytes
  import Hkdf
  import opened Tlv
  import Signatures

  /** A token; `region` is held as the UTF-8 bytes of the region name. */
  datatype MatToken = MatToken(
    issuers: seq<Bytes>,
    pseudonym: Bytes,
    epoch: int,
    ttl: int,
    region: Bytes,
    matId: Bytes,
    issuedAt: int,
    signature: Bytes)

  /**
   `is_valid`: not past `issued_at + ttl`, and the token's epoch within
   `tolerance` of the current one.
   */
  function IsValid(m: MatToken, now: int, currentEpoch: int, tolerance: int): (r: bool)
    ensures r <==> now <= m.issuedAt + m.ttl && m.epoch - tolerance <= currentEpoch <= m.epoch + tolerance
  {
    if now > m.issuedAt + m.ttl then false
    else if Abs(currentEpoch - m.epoch) > tolerance then false
    else true
  }

  // ---------------------------------------------------------------------------
  // Wire layout
  // ---------------------------------------------------------------------------

  /** The issuer count fits 16 bits and every issuer id is 6 bytes. */
  predicate IssuersFit(issuers: seq<Bytes>)
  {
    |issuers| < U16_LIMIT && forall j | 0 <= j < |issuers| :: |issuers[j]| == 6
  }

  /** What `pack` needs: every field within the width it is written in. */
  predicate WellFormed(m: MatToken)
  {
    && IssuersFit(m.issuers)
    && |m.pseudonym| == 12
    && IsU32(m.epoch)
    && IsU32(m.ttl)
    && |m.region| < U16_LIMIT
    && |m.matId| == 16
    && IsU64(m.issuedAt)
    && |m.signature| == 32
  }

  /** The issuer ids one after another, as the `pack` loop appends them. */
  function IssuerBytes(issuers: seq<Bytes>): (r: Bytes)
    requires forall j | 0 <= j < |issuers| :: |issuers[j]| == 6
    ensures |r| == 6 * |issuers|
  {
    if |issuers| == 0 then []
    else
      assert forall j | 0 <= j < |issuers| - 1 :: issuers[1..][j] == issuers[j + 1];
      issuers[0] + IssuerBytes(issuers[1..])
  }

  /** The count and the issuers. */
  function IssuerSetBytes(issuers: seq<Bytes>): (r: Bytes)
    requires IssuersFit(issuers)
    ensures |r| == 2 + 6 * |issuers|
  {
    Pow256Widths();
    ToBE(|issuers|, 2) + IssuerBytes(issuers)
  }

  /** Pseudonym, epoch and lifetime: 20 bytes. */
  function BindingBytes(m: MatToken): (r: Bytes)
    requires WellFormed(m)
    ensures |r| == 20
  {
    Pow256Widths();
    m.pseudonym + ToBE(m.epoch, 4) + ToBE(m.ttl, 4)
  }

  /** Region behind its length, token id, issue time and signature. */
  function TailBytes(m: MatToken): (r: Bytes)
    requires WellFormed(m)
    ensures |r| == 58 + |m.region|
  {
    Pow256Widths();
    EncodeBytes(m.region).value + m.matId + ToBE(m.issuedAt, 8) + m.signature
  }

  function PackedSize(m: MatToken): nat
  {
    80 + 6 * |m.issuers| + |m.region|
  }

  /** `pack`; it raises when a field does not fit (an unsigned token's missing signature included). */
  function Pack(m: MatToken): (r: Result<Bytes>)
    ensures r.Ok? <==> WellFormed(m)
    ensures r.Ok? ==> |r.value| == PackedSize(m)
  {
    if WellFormed(m) then Ok(IssuerSetBytes(m.issuers) + BindingBytes(m) + TailBytes(m))
    else Err("field out of range")
  }

  /** `[decode_bytes_fixed(6) for _ in range(n)]`. */
  function ReadIssuers(d: Decoder, n: nat): (r: Result<(seq<Bytes>, Decoder)>)
    ensures r.Ok? <==> n == 0 || d.offset + 6 * n <= |d.data|
    ensures r.Ok? ==> |r.value.0| == n && r.value.1 == d.(offset := d.offset + 6 * n)
    ensures r.Ok? ==> forall j | 0 <= j < n :: |r.value.0[j]| == 6
    decreases n
  {
    if n == 0 then Ok(([], d))
    else
      var (x, d1) :- DecodeFixed(d, 6);
      var (xs, d2) :- ReadIssuers(d1, n - 1);
      Ok(([x] + xs, d2))
  }

  /** The issuer count, then that many issuer ids. */
  function ReadIssuerSet(d: Decoder): (r: Result<(seq<Bytes>, Decoder)>)
    ensures r.Ok? ==> IssuersFit(r.value.0) && r.value.1 == d.(offset := d.offset + 2 + 6 * |r.value.0|)
  {
    Pow256Widths();
    var (n, d1) :- DecodeUint(d, 2);
    ReadIssuers(d1, n)
  }

  /** Pseudonym, epoch and lifetime as `unpack` reads them. */
  function ReadBinding(d: Decoder): (r: Result<(Bytes, int, int, Decoder)>)
    ensures r.Ok? <==> d.offset + 20 <= |d.data|
    ensures r.Ok? ==> r.value.3 == d.(offset := d.offset + 20)
  {
    Pow256Widths();
    var (pseudonym, d1) :- DecodeFixed(d, 12);
    var (epoch, d2) :- DecodeUint(d1, 4);
    var (ttl, d3) :- DecodeUint(d2, 4);
    Ok((pseudonym, epoch, ttl, d3))
  }

  /**
   Region, token id, issue time and signature; the region must decode as
   UTF-8, which `utf8` decides.
   */
  function ReadTail(d: Decoder, utf8: Bytes -> bool): (r: Result<(Bytes, Bytes, int, Bytes)>)
    ensures r.Ok? ==> utf8(r.value.0) && |r.value.1| == 16 && |r.value.3| == 32
  {
    Pow256Widths();
    var (region, d1) :- DecodeBytes(d);
    if !utf8(region) then Err("invalid utf-8")
    else
      var (matId, d2) :- DecodeFixed(d1, 16);
      var (issuedAt, d3) :- DecodeUint(d2, 8);
      var (signature, _) :- DecodeFixed(d3, 32);
      Ok((region, matId, issuedAt, signature))
  }

  /** `unpack`: trailing bytes are ignored. */
  function Unpack(data: Bytes, utf8: Bytes -> bool): (r: Result<MatToken>)
    ensures r.Ok? ==> WellFormed(r.value) && utf8(r.value.region)
  {
    var (issuers, d1) :- ReadIssuerSet(Decoder(data, 0));
    var (pseudonym, epoch, ttl, d2) :- ReadBinding(d1);
    var (region, matId, issuedAt, signature) :- ReadTail(d2, utf8);
    Ok(MatToken(issuers, pseudonym, epoch, ttl, region, matId, issuedAt, signature))
  }

  lemma {:induction false} ReadIssuersBack(d: Decoder, issuers: seq<Bytes>)
    requires forall j | 0 <= j < |issuers| :: |issuers[j]| == 6
    requires At(d, IssuerBytes(issuers))
    ensures ReadIssuers(d, |issuers|) == Ok((issuers, d.(offset := d.offset + 6 * |issuers|)))
    decreases |issuers|
  {
    if |issuers| > 0 {
      var rest := issuers[1..];
      assert IssuerBytes(issuers) == issuers[0] + IssuerBytes(rest);
      AtSplit(d, issuers[0], IssuerBytes(rest));
      ReadFixed(d, issuers[0]);
      ReadIssuersBack(d.(offset := d.offset + 6), rest);
      assert [issuers[0]] + rest == issuers;
    }
  }

  lemma ReadIssuerSetBack(d: Decoder, issuers: seq<Bytes>)
    requires IssuersFit(issuers) && At(d, IssuerSetBytes(issuers))
    ensures ReadIssuerSet(d) == Ok((issuers, d.(offset := d.offset + 2 + 6 * |issuers|)))
  {
    Pow256Widths();
    var d1 := d.(offset := d.offset + 2);
    AtSplit(d, ToBE(|issuers|, 2), IssuerBytes(issuers));
    assert DecodeUint(d, 2) == Ok((|issuers|, d1)) by { ReadUintBE(d, |issuers|, 2); }
    ReadIssuersBack(d1, issuers);
    assert d1.(offset := d1.offset + 6 * |issuers|) == d.(offset := d.offset + 2 + 6 * |issuers|);
  }

  lemma ReadBindingBack(d: Decoder, m: MatToken)
    requires WellFormed(m) && At(d, BindingBytes(m))
    ensures ReadBinding(d) == Ok((m.pseudonym, m.epoch, m.ttl, d.(offset := d.offset + 20)))
  {
    Pow256Widths();
    var e, t := ToBE(m.epoch, 4), ToBE(m.ttl, 4);
    AtSplit(d, m.pseudonym + e, t);
    AtSplit(d, m.pseudonym, e);
    ReadFixed(d, m.pseudonym);
    ReadUintBE(d.(offset := d.offset + 12), m.epoch, 4);
    ReadUintBE(d.(offset := d.offset + 16), m.ttl, 4);
  }

  lemma ReadTailBack(d: Decoder, m: MatToken, utf8: Bytes -> bool)
    requires WellFormed(m) && utf8(m.region) && At(d, TailBytes(m))
    ensures ReadTail(d, utf8) == Ok((m.region, m.matId, m.issuedAt, m.signature))
  {
    Pow256Widths();
    assert TailBytes(m) == EncodeBytes(m.region).value + m.matId + ToBE(m.issuedAt, 8) + m.signature;
    ReadTailParts(d, m.region, m.matId, m.issuedAt, m.signature, utf8);
  }

  lemma ReadTailParts(d: Decoder, region: Bytes, matId: Bytes, issuedAt: nat, signature: Bytes, utf8: Bytes -> bool)
    requires EncodeBytes(region).Ok? && utf8(region) && |matId| == 16 && issuedAt < Pow256(8) && |signature| == 32
    requires At(d, EncodeBytes(region).value + matId + ToBE(issuedAt, 8) + signature)
    ensures ReadTail(d, utf8) == Ok((region, matId, issuedAt, signature))
  {
    var r, i := EncodeBytes(region).value, ToBE(issuedAt, 8);
    assert |r| == 2 + |region|;
    var o := d.offset + |r|;
    var d1, d2, d3, d4 := d.(offset := o), d.(offset := o + 16), d.(offset := o + 24), d.(offset := o + 56);
    assert |r + matId| == |r| + 16 && |r + matId + i| == |r| + 24;
    AtSplit(d, r + matId + i, signature);
    AtSplit(d, r + matId, i);
    AtSplit(d, r, matId);
    assert DecodeBytes(d) == Ok((region, d1)) by { ReadBytes(d, region); }
    assert DecodeFixed(d1, 16) == Ok((matId, d2)) by { ReadFixed(d1, matId); }
    assert DecodeUint(d2, 8) == Ok((issuedAt, d3)) by { ReadUintBE(d2, issuedAt, 8); }
    assert DecodeFixed(d3, 32) == Ok((signature, d4)) by { ReadFixed(d3, signature); }
    ReadTailOf(d, region, d1, matId, d2, issuedAt, d3, signature, d4, utf8);
  }

  lemma ReadTailOf(d: Decoder, region: Bytes, d1: Decoder, matId: Bytes, d2: Decoder, issuedAt: nat, d3: Decoder,
                   signature: Bytes, d4: Decoder, utf8: Bytes -> bool)
    requires DecodeBytes(d) == Ok((region, d1)) && utf8(region)
    requires DecodeFixed(d1, 16) == Ok((matId, d2)) && DecodeUint(d2, 8) == Ok((issuedAt, d3))
    requires DecodeFixed(d3, 32) == Ok((signature, d4))
    ensures ReadTail(d, utf8) == Ok((region, matId, issuedAt, signature))
  {
  }

  /** `unpack(pack(m))` gives back `m` whenever its region decodes. */
  lemma PackRoundTrip(m: MatToken, utf8: Bytes -> bool)
    requires WellFormed(m) && utf8(m.region)
    ensures Unpack(Pack(m).value, utf8) == Ok(m)
  {
    var s, b, t := IssuerSetBytes(m.issuers), BindingBytes(m), TailBytes(m);
    var data := Pack(m).value;
    var d := Decoder(data, 0);
    var d1 := d.(offset := |s|);
    var d2 := d1.(offset := |s| + 20);
    assert At(d, s) && At(d1, b) && At(d2, t) by {
      assert At(d, s + b + t);
      AtSplit(d, s + b, t);
      AtSplit(d, s, b);
    }
    ReadIssuerSetBack(d, m.issuers);
    ReadBindingBack(d1, m);
    ReadTailBack(d2, m, utf8);
  }

  // ---------------------------------------------------------------------------
  // Aggregate signature
  // ---------------------------------------------------------------------------

  /**
   `compute_signature_data`: the issuers, the pseudonym, the epoch as 4
   big-endian bytes (`to_bytes` raises outside 32 bits) and the token id.
   */
  function ComputeSignatureData(m: MatToken): (r: Result<Bytes>)
    ensures r.Ok? <==> IsU32(m.epoch)
    ensures r.Ok? ==> |r.value| == |Join(m.issuers)| + |m.pseudonym| + 4 + |m.matId|
    ensures r.Ok? ==> FromBE(r.value[|Join(m.issuers)| + |m.pseudonym|..|r.value| - |m.matId|]) == m.epoch
  {
    Pow256Widths();
    var e :- PackBE(m.epoch, 4);
    var data := Join(m.issuers) + m.pseudonym + e + m.matId;
    assert data[|Join(m.issuers)| + |m.pseudonym|..|data| - |m.matId|] == e;
    Ok(data)
  }

  /** Lifetime, region, issue time and signature are not signed: tokens that differ only there share their signature data. */
  lemma UnsignedFields(m: MatToken, ttl: int, region: Bytes, issuedAt: int, signature: Bytes)
    ensures ComputeSignatureData(m.(ttl := ttl, region := region, issuedAt := issuedAt, signature := signature))
         == ComputeSignatureData(m)
  {
  }

  /**
   `sign_with_keys`: the XOR of every key's HMAC tag over the signature data.
   With no keys the aggregate is empty.
   */
  function SignWithKeys(p: Hkdf.Primitives, keys: seq<Bytes>, m: MatToken): (r: Result<MatToken>)
    requires Hkdf.Sound(p)
    ensures r.Ok? <==> IsU32(m.epoch)
    ensures r.Ok? ==> r.value == m.(signature := r.value.signature)
    ensures r.Ok? && |keys| == 0 ==> r.value.signature == []
    ensures r.Ok? && |keys| > 0 ==> r.value.signature == Signatures.XorAll(Signatures.SignAll(p, keys, ComputeSignatureData(m).value), 32)
  {
    var data :- ComputeSignatureData(m);
    var sigs := seq(|keys|, k requires 0 <= k < |keys| => Signatures.ComputeHmacTag(p, keys[k], [data]));
    assert sigs == Signatures.SignAll(p, keys, data);
    var aggregate := Signatures.Aggregate(sigs).value;
    Ok(m.(signature := aggregate))
  }

  /** `verify_with_keys`. */
  function VerifyWithKeys(p: Hkdf.Primitives, keys: seq<Bytes>, m: MatToken): (r: Result<bool>)
    requires Hkdf.Sound(p)
    ensures r.Ok? <==> IsU32(m.epoch)
    ensures r.Ok? ==> (r.value <==> Signatures.VerifyAggregate(p, ComputeSignatureData(m).value, m.signature, keys))
  {
    var data :- ComputeSignatureData(m);
    Ok(Signatures.VerifyAggregate(p, data, m.signature, keys))
  }

  /** A token signed with a set of keys verifies against the same keys. */
  lemma SignThenVerify(p: Hkdf.Primitives, keys: seq<Bytes>, m: MatToken)
    requires Hkdf.Sound(p) && IsU32(m.epoch)
    ensures VerifyWithKeys(p, keys, SignWithKeys(p, keys, m).value) == Ok(true)
  {
    var s := SignWithKeys(p, keys, m).value;
    UnsignedFields(m, m.ttl, m.region, m.issuedAt, s.signature);
    Signatures.AggregateThenVerify(p, keys, ComputeSignatureData(m).value);
  }

  /** Signing with no keys leaves a token that `pack` refuses. */
  lemma SignedWithoutKeysDoesNotPack(p: Hkdf.Primitives, m: MatToken)
    requires Hkdf.Sound(p) && IsU32(m.epoch)
    ensures Pack(SignWithKeys(p, [], m).value).Err?
  {
  }

  /** A token signed with at least one key packs when its other fields fit, and verifies after the trip. */
  lemma SignedTokenVerifiesAfterTrip(p: Hkdf.Primitives, keys: seq<Bytes>, m: MatToken, utf8: Bytes -> bool)
    requires Hkdf.Sound(p) && |keys| > 0
    requires WellFormed(m.(signature := Zeros(32))) && utf8(m.region)
    ensures Pack(SignWithKeys(p, keys, m).value).Ok?
    ensures Unpack(Pack(SignWithKeys(p, keys, m).value).value, utf8) == Ok(SignWithKeys(p, keys, m).value)
    ensures VerifyWithKeys(p, keys, Unpack(Pack(SignWithKeys(p, keys, m).value).value, utf8).value) == Ok(true)
  {
    var s := SignWithKeys(p, keys, m).value;
    assert WellFormed(s);
    PackRoundTrip(s, utf8);
    SignThenVerify(p, keys, m);
  }
}

=== FILE: mobility.dfy ===
/**
 UAV mobility support (`uav_mobility_support.py`): a node hands its
 connection over from one peer to another, either quickly with an admission
 token and session key it already holds (from a cache keyed by peer, with an
 expiry), or fully by authenticating again with the new peer.

 Clock readings are a parameter `now` (one reading per call); the new peer's
 authentication is a parameter holding its answer. Hand-over latencies are
 floating-point measurements and are not modelled.
 */
module UavMobility {
  import opened Wrappers
  import opened Bytes

  /** A cached token and session key, with the time they were cached. */
  datatype CacheEntry = CacheEntry(token: Bytes, sessionKey: Option<Bytes>, cachedAt: int)

  /** `HandoverContext`, without the latency measurement. */
  datatype Handover = Handover(oldPeer: Bytes, newPeer: Bytes, token: Bytes, sessionKey: Option<Bytes>, startedAt: int, completed: bool)

  datatype Mobility = Mobility(
    nodeMac: Bytes,
    fastEnabled: bool,
    cacheTime: int,
    cache: map<Bytes, CacheEntry>,
    currentPeer: Option<Bytes>,
    currentSessionKey: Option<Bytes>,
    currentToken: Option<Bytes>,
    history: seq<Handover>)

  /** What the new peer's `authenticate` answered: success, session key and token. */
  datatype AuthResponse = AuthResponse(success: bool, sessionKey: Option<Bytes>, token: Option<Bytes>)

  /** The constructor: nothing cached, no peer, no history. */
  function Create(nodeMac: Bytes, fastEnabled: bool, cacheTime: int): (r: Mobility)
    ensures r.cache == map[] && r.currentPeer.None? && r.history == []
    ensures r.fastEnabled == fastEnabled && r.cacheTime == cacheTime
  {
    Mobility(nodeMac, fastEnabled, cacheTime, map[], None, None, None, [])
  }

  /** The entry has outlived the cache time. */
  predicate Expired(m: Mobility, e: CacheEntry, now: int)
  {
    now - e.cachedAt > m.cacheTime
  }

  /** `cache_mat_token`: the peer's entry is replaced, stamped now. */
  function CacheMatToken(m: Mobility, peer: Bytes, token: Bytes, sessionKey: Option<Bytes>, now: int): (r: Mobility)
    ensures r == m.(cache := r.cache)
    ensures peer in r.cache && r.cache[peer] == CacheEntry(token, sessionKey, now)
    ensures forall p | p != peer :: (p in r.cache <==> p in m.cache) && (p in m.cache ==> r.cache[p] == m.cache[p])
  {
    m.(cache := m.cache[peer := CacheEntry(token, sessionKey, now)])
  }

  /**
   `get_cached_mat_token`: the token and key cached for the peer, unless there
   are none or they have expired, in which case the entry is evicted.
   */
  function GetCached(m: Mobility, peer: Bytes, now: int): (r: (Mobility, Option<(Bytes, Option<Bytes>)>))
    ensures peer !in m.cache ==> r == (m, None)
    ensures peer in m.cache && Expired(m, m.cache[peer], now) ==> r == (m.(cache := m.cache - {peer}), None)
    ensures peer in m.cache && !Expired(m, m.cache[peer], now) ==>
              r == (m, Some((m.cache[peer].token, m.cache[peer].sessionKey)))
  {
    if peer !in m.cache then (m, None)
    else
      var e := m.cache[peer];
      if Expired(m, e, now) then (m.(cache := m.cache - {peer}), None)
      else (m, Some((e.token, e.sessionKey)))
  }

  /** A cached entry is returned exactly while it has not expired. */
  lemma CacheThenGet(m: Mobility, peer: Bytes, token: Bytes, sessionKey: Option<Bytes>, now: int, later: int)
    ensures var c := CacheMatToken(m, peer, token, sessionKey, now);
            GetCached(c, peer, later).1 == (if later - now <= m.cacheTime then Some((token, sessionKey)) else None)
  {
  }

  /**
   `fast_handover`: refused when fast hand-over is disabled, or when the
   token or the key is missing and nothing valid is cached for the old peer
   (the cache lookup may evict it). Otherwise the node moves to the new peer
   with the token and key, caches them for the new peer and records a
   completed hand-over.
   */
  function FastHandover(m: Mobility, oldPeer: Bytes, newPeer: Bytes, token: Option<Bytes>, sessionKey: Option<Bytes>, now: int): (r: (Mobility, Option<Handover>))
    ensures !m.fastEnabled ==> r == (m, None)
    ensures m.fastEnabled && token.Some? && sessionKey.Some? ==> r.1.Some?
    ensures m.fastEnabled && (token.None? || sessionKey.None?) ==>
              (r.1.Some? <==> GetCached(m, oldPeer, now).1.Some?)
    ensures r.1.None? ==> r.0 == m || r.0 == GetCached(m, oldPeer, now).0
    ensures r.1.Some? ==> var h := r.1.value;
            && h.oldPeer == oldPeer && h.newPeer == newPeer && h.completed && h.startedAt == now
            && r.0.currentPeer == Some(newPeer) && r.0.currentToken == Some(h.token) && r.0.currentSessionKey == h.sessionKey
            && newPeer in r.0.cache && r.0.cache[newPeer] == CacheEntry(h.token, h.sessionKey, now)
            && r.0.history == m.history + [h]
  {
    if !m.fastEnabled then (m, None)
    else
      var (m1, credentials) :=
        if token.None? || sessionKey.None? then
          var (m1, cached) := GetCached(m, oldPeer, now);
          if cached.None? then (m1, None) else (m1, Some((cached.value.0, cached.value.1)))
        else (m, Some((token.value, sessionKey)));
      if credentials.None? then (m1, None)
      else
        var (t, k) := credentials.value;
        var h := Handover(oldPeer, newPeer, t, k, now, true);
        var m2 := CacheMatToken(m1.(currentPeer := Some(newPeer), currentSessionKey := k, currentToken := Some(t)), newPeer, t, k, now);
        (m2.(history := m2.history + [h]), Some(h))
  }

  /**
   Roaming: after a fast hand-over to a peer, the node can hand over fast
   again from that peer, within the cache time, without presenting the
   token, and it carries the same token and key.
   */
  lemma FastHandoverChains(m: Mobility, a: Bytes, b: Bytes, c: Bytes, token: Option<Bytes>, sessionKey: Option<Bytes>, now: int, later: int)
    requires FastHandover(m, a, b, token, sessionKey, now).1.Some?
    requires later - now <= m.cacheTime
    ensures var (m1, h1) := FastHandover(m, a, b, token, sessionKey, now);
            var h2 := FastHandover(m1, b, c, None, None, later).1;
            h2.Some? && h2.value.token == h1.value.token && h2.value.sessionKey == h1.value.sessionKey
  {
  }

  /** Truthiness of an optional byte string: present and non-empty. */
  predicate Truthy(b: Option<Bytes>)
  {
    b.Some? && |b.value| > 0
  }

  /**
   `full_handover`: a failed authentication changes nothing; otherwise the
   node moves to the new peer with the answer's key and token, caches them
   only when the token is non-empty, and records a completed hand-over whose
   token is empty when the answer carried none.
   */
  function FullHandover(m: Mobility, oldPeer: Bytes, newPeer: Bytes, response: AuthResponse, now: int): (r: (Mobility, Option<Handover>))
    ensures r.1.None? <==> !response.success
    ensures r.1.None? ==> r.0 == m
    ensures r.1.Some? ==> var h := r.1.value;
            && h == Handover(oldPeer, newPeer, if Truthy(response.token) then response.token.value else [], response.sessionKey, now, true)
            && r.0.currentPeer == Some(newPeer) && r.0.currentToken == response.token && r.0.currentSessionKey == response.sessionKey
            && r.0.history == m.history + [h]
            && (Truthy(response.token) ==> r.0.cache == m.cache[newPeer := CacheEntry(response.token.value, response.sessionKey, now)])
            && (!Truthy(response.token) ==> r.0.cache == m.cache)
  {
    if !response.success then (m, None)
    else
      var t := if Truthy(response.token) then response.token.value else [];
      var h := Handover(oldPeer, newPeer, t, response.sessionKey, now, true);
      var m1 := m.(currentPeer := Some(newPeer), currentSessionKey := response.sessionKey, currentToken := response.token);
      var m2 := if Truthy(response.token) then CacheMatToken(m1, newPeer, response.token.value, response.sessionKey, now) else m1;
      (m2.(history := m2.history + [h]), Some(h))
  }

  /** How `smart_handover` went. */
  datatype HandoverKind = FastKind | FullKind | Failed | InsufficientParams

  /**
   `smart_handover`: a fast hand-over from the cache when enabled; failing
   that, a full one when the new peer's authentication is available
   (`response` holds its answer), else `insufficient_params`.
   */
  function SmartHandover(m: Mobility, oldPeer: Bytes, newPeer: Bytes, response: Option<AuthResponse>, now: int): (r: (Mobility, bool, HandoverKind))
    ensures r.1 <==> r.2 == FastKind || r.2 == FullKind
    ensures r.2 == FastKind <==> m.fastEnabled && FastHandover(m, oldPeer, newPeer, None, None, now).1.Some?
    ensures r.2 == InsufficientParams <==> r.2 != FastKind && response.None?
    ensures r.2 == FullKind ==> response.Some? && response.value.success
    ensures r.2 == Failed ==> response.Some? && !response.value.success
  {
    var (m1, fast) := if m.fastEnabled then FastHandover(m, oldPeer, newPeer, None, None, now) else (m, None);
    if fast.Some? then (m1, true, FastKind)
    else if response.None? then (m1, false, InsufficientParams)
    else
      var (m2, full) := FullHandover(m1, oldPeer, newPeer, response.value, now);
      if full.Some? then (m2, true, FullKind) else (m2, false, Failed)
  }

  /** `clear_mat_token_cache`: empties the cache (the count it prints is not returned). */
  function ClearCache(m: Mobility): (r: Mobility)
    ensures forall p :: p !in r.cache
    ensures r.(cache := m.cache) == m
  {
    m.(cache := map[])
  }

  /** The peers whose entries have expired. */
  function ExpiredPeers(m: Mobility, now: int): set<Bytes>
  {
    set p | p in m.cache && Expired(m, m.cache[p], now)
  }

  /** `cleanup_expired_tokens`: removes exactly the expired entries and returns how many. */
  function CleanupExpired(m: Mobility, now: int): (r: (Mobility, nat))
    ensures r.0 == m.(cache := r.0.cache)
    ensures forall p :: p in r.0.cache <==> p in m.cache && !Expired(m, m.cache[p], now)
    ensures forall p | p in r.0.cache :: r.0.cache[p] == m.cache[p]
    ensures r.1 == |m.cache.Keys| - |r.0.cache.Keys|
  {
    var expired := ExpiredPeers(m, now);
    var kept := map p | p in m.cache && !Expired(m, m.cache[p], now) :: m.cache[p];
    assert kept.Keys == m.cache.Keys - expired;
    assert expired <= m.cache.Keys;
    (m.(cache := kept), |expired|)
  }

  /** After a clean-up every remaining entry is served by the cache lookup at the same time. */
  lemma CleanupLeavesValidEntries(m: Mobility, now: int, peer: Bytes)
    requires peer in CleanupExpired(m, now).0.cache
    ensures GetCached(CleanupExpired(m, now).0, peer, now).1 == Some((m.cache[peer].token, m.cache[peer].sessionKey))
  {
  }
}

=== FILE: mode1.dfy ===
/**
 Mode 1, fast authentication from a radio-frequency fingerprint
 (`mode1_rff_auth.py`): the simulated fingerprint matcher, the device registry
 and the three-step decision that ends in a fast token. Scores and SNR are
 Python floats and `real`s here; the clock is `now`, randomly generated
 templates and keys are parameters.
 */
module Mode1 {
  import opened Wrappers
  import opened Bytes
  import AuthConfig
  import opened AuthCommon
  import opened AuthUtils
  import TokenManager

  /** The score at or above which the simulated matcher reports a pass. */
  const PASS_SCORE: real := 0.8

  datatype Template = Template(devId: Bytes, templateData: Bytes, createdAt: int, ver: string)

  /** The matcher's store: every template sits under its own 6-byte device id. */
  type Templates = map<Bytes, Template>

  predicate TemplatesValid(ts: Templates)
  {
    forall d | d in ts :: |d| == 6 && ts[d].devId == d
  }

  /** `register_template`: a 6-byte id, else raise; replaces any earlier template. */
  function RegisterTemplate(ts: Templates, devId: Bytes, templateData: Bytes, now: int): (r: Result<Templates>)
    ensures r.Ok? <==> |devId| == 6
    ensures r.Ok? ==> r.value == ts[devId := Template(devId, templateData, now, "1.0")]
    ensures r.Ok? && TemplatesValid(ts) ==> TemplatesValid(r.value)
  {
    if |devId| != 6 then Err("dev_id must be 6 bytes")
    else Ok(ts[devId := Template(devId, templateData, now, "1.0")])
  }

  /** `remove_template`. */
  function RemoveTemplate(ts: Templates, devId: Bytes): (r: (Templates, bool))
    ensures r.1 <==> devId in ts
    ensures r.0 == ts - {devId}
  {
    if devId in ts then (ts - {devId}, true) else (ts, false)
  }

  /** How many of the first `n` positions hold the same byte in both sequences. */
  function CountMatches(a: Bytes, b: Bytes, n: nat): (r: nat)
    requires n <= |a| && n <= |b|
    ensures r <= n
    ensures r == n <==> a[..n] == b[..n]
  {
    if n == 0 then 0
    else
      assert a[..n] == a[..n-1] + [a[n-1]] && b[..n] == b[..n-1] + [b[n-1]];
      CountMatches(a, b, n - 1) + (if a[n-1] == b[n-1] then 1 else 0)
  }

  /**
   The byte-level similarity of `_simulate_matching`: 1.0 for identical data,
   otherwise the matching positions over the longer length.
   */
  function BaseScore(t: Bytes, o: Bytes): (s: real)
    ensures 0.0 <= s <= 1.0
    ensures s == 1.0 <==> t == o
  {
    if t == o then 1.0
    else
      var m := CountMatches(t, o, Min(|t|, |o|));
      var longest := Max(|t|, |o|);
      assert m < longest by {
        if |t| == |o| {
          assert t[..|t|] == t && o[..|o|] == o;
        }
      }
      Ratio(m, longest)
  }

  /** `m / n` as a real, for `m < n`: strictly between -1 and 1, never negative. */
  function Ratio(m: nat, n: nat): (q: real)
    requires m < n
    ensures 0.0 <= q < 1.0
  {
    var q := m as real / n as real;
    assert q * n as real == m as real;
    q
  }

  /** The SNR weighting: 0.5 below 10 dB, 0.8 below 20 dB, then rising from 0.95 to 1.0 at 30 dB. */
  function SnrFactor(snr: real): (f: real)
    ensures 0.5 <= f <= 1.0
    ensures f == 1.0 <==> snr >= 30.0
    ensures snr < 10.0 <==> f == 0.5
  {
    if snr < 10.0 then 0.5
    else if snr < 20.0 then 0.8
    else 0.95 + ((if snr < 30.0 then snr else 30.0) - 20.0) * 0.005
  }

  lemma ProductBounds(b: real, f: real)
    requires 0.0 <= b <= 1.0 && 0.5 <= f <= 1.0
    ensures 0.0 <= b * f <= f
    ensures b * f == 1.0 <==> b == 1.0 && f == 1.0
  {
    if b < 1.0 {
      assert b * f < 1.0 * f;
    }
  }

  /** `_simulate_matching`: a score in [0, 1] that reaches 1 only for identical data at 30 dB or more. */
  function SimulateMatching(t: Bytes, o: Bytes, snr: real): (score: real)
    ensures 0.0 <= score <= 1.0
    ensures score == 1.0 <==> t == o && snr >= 30.0
    ensures t == o ==> score == SnrFactor(snr)
    ensures score <= SnrFactor(snr)
  {
    var b := BaseScore(t, o);
    var f := SnrFactor(snr);
    ProductBounds(b, f);
    assert b == 1.0 ==> b * f == f;
    assert b * f <= SnrFactor(snr);
    b * f
  }

  /**
   `match`: an unknown device gets a failing judgment with score 0; a known
   one is scored against its template and passes at 0.8. The judgment's own
   check raises for an unknown id that is not 6 bytes.
   */
  function Match(ts: Templates, devId: Bytes, observed: Bytes, snr: real, now: int): (r: Result<RffJudgment>)
    requires TemplatesValid(ts)
    ensures r.Err? <==> devId !in ts && |devId| != 6
    ensures r.Ok? ==> ValidJudgment(r.value) && r.value.devId == devId
    ensures devId !in ts && |devId| == 6 ==> r == Ok(RffJudgment(devId, false, 0.0, snr, "1.0", now))
    ensures devId in ts ==> r.Ok? && r.value.rffScore == SimulateMatching(ts[devId].templateData, observed, snr)
    ensures r.Ok? ==> (r.value.rffPass <==> devId in ts && r.value.rffScore >= PASS_SCORE)
  {
    if devId !in ts then
      if |devId| != 6 then Err("dev_id must be 6 bytes")
      else Ok(RffJudgment(devId, false, 0.0, snr, "1.0", now))
    else
      var t := ts[devId];
      var score := SimulateMatching(t.templateData, observed, snr);
      Ok(RffJudgment(devId, score >= PASS_SCORE, score, snr, t.ver, now))
  }

  /** Below 10 dB no observation passes, since the score is capped at 0.5. */
  lemma LowSnrNeverPasses(ts: Templates, devId: Bytes, observed: Bytes, snr: real, now: int)
    requires TemplatesValid(ts) && snr < 10.0
    ensures Match(ts, devId, observed, snr, now).Ok? ==> !Match(ts, devId, observed, snr, now).value.rffPass
  {
  }

  /** An observation equal to the template passes from 10 dB on. */
  lemma ExactObservationPasses(ts: Templates, devId: Bytes, snr: real, now: int)
    requires TemplatesValid(ts) && devId in ts && snr >= 10.0
    ensures Match(ts, devId, ts[devId].templateData, snr, now).Ok?
    ensures Match(ts, devId, ts[devId].templateData, snr, now).value.rffPass
  {
  }

  // ---------------------------------------------------------------------------
  // Mode1FastAuth
  // ---------------------------------------------------------------------------

  datatype Mode1 = Mode1(
    config: AuthConfig.Config,
    tokens: TokenManager.FastManager,
    matcher: Templates,
    registry: map<Bytes, DeviceIdentity>)

  /** The state every operation keeps: templates under their own ids, the manager's config, registered ids of 6 bytes. */
  predicate Invariant(s: Mode1)
  {
    && AuthConfig.Valid(s.config) && s.config.mode1Enabled
    && s.tokens.config == s.config
    && TemplatesValid(s.matcher)
    && (forall d | d in s.registry :: |d| == 6)
  }

  /**
   The constructor: mode 1 must be enabled; a given key must have the
   configured length, an absent one is replaced by `generated`.
   */
  function NewMode1(config: AuthConfig.Config, kMgmt: Option<Bytes>, generated: Bytes): (r: Result<Mode1>)
    requires AuthConfig.Valid(config)
    requires |generated| == config.kMgmtLength
    ensures r.Ok? <==> config.mode1Enabled && (kMgmt.Some? ==> |kMgmt.value| == config.kMgmtLength)
    ensures r.Ok? ==> Invariant(r.value) && r.value.registry == map[] && r.value.matcher == map[]
    ensures r.Ok? ==> r.value.tokens.kMgmt == (if kMgmt.Some? then kMgmt.value else generated)
    ensures r.Ok? ==> TokenManager.NewFastManager(config, r.value.tokens.kMgmt) == Ok(r.value.tokens)
  {
    if !config.mode1Enabled then Err("MODE1_ENABLED is False, cannot initialize Mode1FastAuth")
    else if kMgmt.Some? && |kMgmt.value| != config.kMgmtLength then Err("k_mgmt has the wrong length")
    else
      var key := if kMgmt.Some? then kMgmt.value else generated;
      Ok(Mode1(config, TokenManager.FastManager(config, key, map[]), map[], map[]))
  }

  /** `register_device`: records the identity and the template (`templateData` stands for a random one when none is given). */
  function RegisterDevice(s: Mode1, devId: Bytes, templateData: Bytes, now: int): (r: Result<Mode1>)
    requires Invariant(s)
    ensures r.Ok? <==> |devId| == 6
    ensures r.Ok? ==> Invariant(r.value)
    ensures r.Ok? ==>
      && devId in r.value.registry && devId in r.value.matcher
      && r.value.matcher[devId].templateData == templateData
      && r.value.tokens == s.tokens
  {
    if |devId| != 6 then Err("dev_id must be 6 bytes")
    else
      var ts := RegisterTemplate(s.matcher, devId, templateData, now).value;
      Ok(s.(registry := s.registry[devId := DeviceIdentity(devId, None, 0)], matcher := ts))
  }

  /**
   Step 2, the link-layer decision on a judgment: registry, pass flag and
   threshold, in that order; `None` lets the request through.
   */
  function Decide(s: Mode1, j: RffJudgment, devId: Bytes): (reason: Option<string>)
    ensures reason.None? <==> devId in s.registry && j.rffPass && j.rffScore >= s.config.rffThreshold
    ensures devId !in s.registry ==> reason == Some("device_not_registered")
    ensures devId in s.registry && !j.rffPass ==> reason == Some("rff_failed")
  {
    if devId !in s.registry then Some("device_not_registered")
    else if !j.rffPass then Some("rff_failed")
    else if j.rffScore < s.config.rffThreshold then Some("rff_score_below_threshold")
    else None
  }

  /** Step 3: issue a fast token (MAC cut to 16 bytes) and return it serialized, with no session key. */
  function IssueStep(s: Mode1, p: Primitives, devId: Bytes, policy: Bytes, now: int): (r: (Mode1, Result<AuthResult>))
    requires Invariant(s) && Sound(p)
    ensures Invariant(r.0)
    ensures r.0 == s.(tokens := r.0.tokens)
    ensures r.1.Ok? ==> r.1.value.success && r.1.value.mode == "mode1" && ValidResult(r.1.value) && r.1.value.sessionKey.None?
    ensures r.1.Ok? ==>
      var (tm, issued) := TokenManager.IssueToken(s.tokens, p, devId, policy, now);
      issued.Ok? && r.0.tokens == tm && SerializeToken(issued.value) == Ok(r.1.value.token.value)
    ensures r.1.Ok? <==>
      TokenManager.IssueToken(s.tokens, p, devId, policy, now).1.Ok? && |policy| < 256
  {
    var (tm, issued) := TokenManager.IssueToken(s.tokens, p, devId, policy, now);
    match issued
    case Err(e) => (s, Err(e))
    case Ok(t) =>
      match SerializeToken(t)
      case Err(e) => (s.(tokens := tm), Err(e))
      case Ok(bytes) => (s.(tokens := tm), Ok(AuthResult(true, "mode1", Some(bytes), None, None)))
  }

  /**
   `authenticate`: the matcher's judgment comes first (it may raise), then
   the decision, whose refusal reason becomes a failed result, then the
   token.
   */
  function Authenticate(s: Mode1, p: Primitives, devId: Bytes, observed: Bytes, snr: real, policy: Bytes, now: int)
    : (r: (Mode1, Result<AuthResult>))
    requires Invariant(s) && Sound(p)
    ensures Invariant(r.0)
    ensures r.0.registry == s.registry && r.0.matcher == s.matcher
    ensures r.1.Ok? ==> ValidResult(r.1.value) && r.1.value.mode == "mode1" && r.1.value.sessionKey.None?
    ensures devId !in s.registry && |devId| == 6 ==> r == (s, Ok(Failure("mode1", "device_not_registered")))
    ensures r.1.Ok? && r.1.value.success ==>
      && devId in s.registry && devId in s.matcher
      && SimulateMatching(s.matcher[devId].templateData, observed, snr) >= PASS_SCORE
      && SimulateMatching(s.matcher[devId].templateData, observed, snr) >= s.config.rffThreshold
      && r == IssueStep(s, p, devId, policy, now)
  {
    match Match(s.matcher, devId, observed, snr, now)
    case Err(e) => (s, Err(e))
    case Ok(j) =>
      match Decide(s, j, devId)
      case Some(reason) => (s, Ok(Failure("mode1", reason)))
      case None => IssueStep(s, p, devId, policy, now)
  }

  /** `verify_token`: delegated to the token manager. */
  function VerifyToken(s: Mode1, p: Primitives, t: TokenFast, now: int): (r: Result<bool>)
    requires Sound(p) && ValidToken(t)
    ensures now > t.tExpire || now < t.tStart ==> r == Ok(false)
    ensures r == TokenManager.VerifyToken(s.tokens, p, t, now)
  {
    TokenManager.VerifyToken(s.tokens, p, t, now)
  }

  /** `revoke_device`: drops the device from registry, matcher and token store; true when any held it. */
  function RevokeDevice(s: Mode1, devId: Bytes): (r: (Mode1, bool))
    requires Invariant(s)
    ensures Invariant(r.0)
    ensures r.1 <==> devId in s.registry || devId in s.matcher || devId in s.tokens.tokens
    ensures devId !in r.0.registry && devId !in r.0.matcher && devId !in r.0.tokens.tokens
    ensures r.0.registry == s.registry - {devId} && r.0.matcher == s.matcher - {devId}
  {
    var inRegistry := devId in s.registry;
    var (ts, removedTemplate) := RemoveTemplate(s.matcher, devId);
    var (tm, revokedToken) := TokenManager.RevokeToken(s.tokens, devId);
    (Mode1(s.config, tm, ts, s.registry - {devId}), inRegistry || removedTemplate || revokedToken)
  }

  /** A revoked device is turned away as unregistered. */
  lemma RevokedDeviceRejected(s: Mode1, p: Primitives, devId: Bytes, observed: Bytes, snr: real, policy: Bytes, now: int)
    requires Invariant(s) && Sound(p) && |devId| == 6
    ensures Authenticate(RevokeDevice(s, devId).0, p, devId, observed, snr, policy, now).1
      == Ok(Failure("mode1", "device_not_registered"))
  {
  }

  /**
   End to end: a registered device presenting its template at 30 dB or more,
   with a serializable policy and an in-range clock, is authenticated.
   */
  lemma RegisteredDeviceAuthenticates(
    s: Mode1, p: Primitives, devId: Bytes, template: Bytes, policy: Bytes, snr: real, now: int, registeredAt: int)
    requires Invariant(s) && Sound(p) && |devId| == 6 && snr >= 30.0 && |policy| < 256
    requires IsU32(now) && IsU32(now + s.config.tokenFastTtl) && TokenManager.MacUsable(s.tokens)
    ensures RegisterDevice(s, devId, template, registeredAt).Ok?
    ensures var s' := RegisterDevice(s, devId, template, registeredAt).value;
      var r := Authenticate(s', p, devId, template, snr, policy, now).1;
      r.Ok? && r.value.success
  {
  }
}

=== FILE: mode2.dfy ===
/**
 Mode 2, strong authentication from feature-derived keys
 (`mode2_strong_auth.py`). The device derives a pseudonym and a tag from its
 feature key `K` and sends an `AuthReq`; the verifier finds the device by
 pseudonym, reconstructs the keys, checks digest and tag, and issues a MAT.
 Key generation and reconstruction belong to the feature-encryption engine
 (module `FeatureEngine`); here their outcomes are inputs.
 */
module Mode2 {
  import opened Wrappers
  import opened Bytes
  import AuthConfig
  import opened AuthCommon
  import opened AuthUtils
  import TokenManager

  /** The outputs of feature-based key generation that mode 2 consumes: feature key, session key, config digest. */
  datatype FeKeys = FeKeys(k: Bytes, ks: Bytes, digest: Bytes)

  /** What the verifier's key reconstruction reports: an exception, a failed decode, or the keys. */
  datatype Recovery = Raised(message: string) | Mismatch | Recovered(keys: FeKeys)

  /** The ASCII label `b"Pseudo"`. */
  const PSEUDO_LABEL: Bytes := [0x50, 0x73, 0x65, 0x75, 0x64, 0x6f]

  // ---------------------------------------------------------------------------
  // Pseudonym and tag, shared by both sides
  // ---------------------------------------------------------------------------

  /** The pseudonym hash input `"Pseudo" ‖ K ‖ epoch`, the epoch little-endian. */
  function PseudoInput(k: Bytes, epoch: nat): (d: Bytes)
    requires epoch < U32_LIMIT
    ensures |d| == 10 + |k| && d[..6] == PSEUDO_LABEL && d[6..6 + |k|] == k
    ensures FromLE(d[6 + |k|..]) == epoch
  {
    Pow256Widths();
    LERoundTrip(epoch, 4);
    var d := PSEUDO_LABEL + k + ToLE(epoch, 4);
    assert d[6 + |k|..] == ToLE(epoch, 4);
    d
  }

  /** A pseudonym can be computed: a 32-bit epoch, a known hash, and at most 32 bytes asked of it. */
  predicate PseudoComputable(c: AuthConfig.Config, epoch: int)
  {
    IsU32(epoch) && c.hashAlgorithm in {"blake3", "sha256"} && c.pseudoLength <= 32
  }

  /**
   `generate_pseudo`: the 32-byte hash of `"Pseudo" ‖ K ‖ epoch` cut to the
   configured pseudonym length. The same function on both sides.
   */
  function GeneratePseudo(c: AuthConfig.Config, p: Primitives, k: Bytes, epoch: int): (r: Result<Bytes>)
    requires Sound(p)
    ensures r.Ok? <==> PseudoComputable(c, epoch)
    ensures r.Ok? ==>
      var h := HashData(p, PseudoInput(k, epoch), c.hashAlgorithm, Some(32));
      h.Ok? && |h.value| == 32 && Truncate(h.value, c.pseudoLength) == r
    ensures r.Ok? && c.pseudoLength >= 0 ==> |r.value| == c.pseudoLength
  {
    if !IsU32(epoch) then Err("struct.error: argument out of range")
    else
      var h :- HashData(p, PseudoInput(k, epoch), c.hashAlgorithm, Some(32));
      Truncate(h, c.pseudoLength)
  }

  /** The tag input `src ‖ dst ‖ epoch ‖ nonce ‖ seq ‖ alg ‖ csi_id`; unlike `to_bytes` it has no length byte and no version. */
  function TagMessage(ctx: AuthContext): (m: Bytes)
    requires ValidContext(ctx)
    ensures |m| == 40 + |ctx.algId|
    ensures m[..36] == ContextHead(ctx) && m[..6] == ctx.srcMac
    ensures m[36..36 + |ctx.algId|] == ctx.algId && FromLE(m[36 + |ctx.algId|..]) == ctx.csiId
  {
    Pow256Widths();
    LERoundTrip(ctx.csiId, 4);
    var head := ContextHead(ctx);
    var m := head + ctx.algId + ToLE(ctx.csiId, 4);
    assert m[..36] == head && m[..6] == head[..6];
    assert m[36 + |ctx.algId|..] == ToLE(ctx.csiId, 4);
    m
  }

  /** The tag does not cover the version byte: contexts differing only there get the same tag input. */
  lemma TagMessageIgnoresVersion(ctx: AuthContext, ver: int)
    requires ValidContext(ctx) && IsU8(ver)
    ensures TagMessage(ctx.(ver := ver)) == TagMessage(ctx)
  {
    assert ContextHead(ctx.(ver := ver)) == ContextHead(ctx);
  }

  /** Apart from the version, the tag input determines the context. */
  lemma TagMessageInjective(a: AuthContext, b: AuthContext)
    requires ValidContext(a) && ValidContext(b)
    ensures TagMessage(a) == TagMessage(b) <==> a.(ver := b.ver) == b
  {
    if TagMessage(a) == TagMessage(b) {
      var m := TagMessage(a);
      var n := |a.algId|;
      assert |b.algId| == n;
      var ha, hb := ContextHead(a), ContextHead(b);
      assert ha == hb;
      assert a.srcMac == ha[..6] == hb[..6] == b.srcMac;
      assert a.dstMac == ha[6..12] == hb[6..12] == b.dstMac;
      assert a.nonce == ha[16..32] == hb[16..32] == b.nonce;
      assert a.algId == m[36..36 + n] == b.algId;
    } else if a.(ver := b.ver) == b {
      TagMessageIgnoresVersion(a, b.ver);
    }
  }

  /** The MAC over `K` succeeds: HMAC-SHA256 always, BLAKE3 with a key of at least 32 bytes. */
  predicate MacAccepts(c: AuthConfig.Config, k: Bytes)
  {
    c.macAlgorithm == "hmac-sha256" || (c.macAlgorithm == "blake3" && |k| >= 32)
  }

  /** `compute_tag`: the 32-byte MAC of the tag input under `K`, cut to the configured tag length. */
  function ComputeTag(c: AuthConfig.Config, p: Primitives, k: Bytes, ctx: AuthContext): (r: Result<Bytes>)
    requires Sound(p) && ValidContext(ctx)
    ensures r.Ok? <==> MacAccepts(c, k) && c.tagLength <= 32
    ensures r.Ok? ==>
      var mac := ComputeMac(p, k, TagMessage(ctx), c.macAlgorithm, Some(32));
      mac.Ok? && |mac.value| == 32 && Truncate(mac.value, c.tagLength) == r
    ensures r.Ok? && c.tagLength >= 0 ==> |r.value| == c.tagLength
  {
    var mac :- ComputeMac(p, k, TagMessage(ctx), c.macAlgorithm, Some(32));
    Truncate(mac, c.tagLength)
  }

  // ---------------------------------------------------------------------------
  // DeviceSide
  // ---------------------------------------------------------------------------

  /**
   `create_auth_request`: a 6-byte device id, the feature keys (a failed key
   generation raises), pseudonym and tag, the request built (and validated)
   from the context, and its serialization. Returns the request, `Ks` and `K`.
   */
  function CreateAuthRequest(c: AuthConfig.Config, p: Primitives, devId: Bytes, keys: Result<FeKeys>, ctx: AuthContext)
    : (r: Result<(AuthReq, Bytes, Bytes)>)
    requires Sound(p) && ValidContext(ctx)
    ensures |devId| != 6 ==> r.Err?
    ensures keys.Err? ==> r.Err?
    ensures r.Ok? ==>
      var (req, ks, k) := r.value;
      && keys == Ok(FeKeys(k, ks, req.digest))
      && ValidReq(req) && |req.algId| < 256
      && GeneratePseudo(c, p, k, ctx.epoch) == Ok(req.devPseudo)
      && ComputeTag(c, p, k, ctx) == Ok(req.tag)
      && req == AuthReq(req.devPseudo, ctx.csiId, ctx.epoch, ctx.nonce, ctx.seqNo, ctx.algId, ctx.ver, req.digest, req.tag)
  {
    if |devId| != 6 then Err("dev_id must be 6 bytes")
    else
      match keys
      case Err(e) => Err("FeatureKeyGen failed: " + e)
      case Ok(fk) =>
        var pseudo :- GeneratePseudo(c, p, fk.k, ctx.epoch);
        var tag :- ComputeTag(c, p, fk.k, ctx);
        var req :- NewReq(AuthReq(pseudo, ctx.csiId, ctx.epoch, ctx.nonce, ctx.seqNo, ctx.algId, ctx.ver, fk.digest, tag));
        if |req.algId| >= 256 then Err("struct.error: ubyte format requires 0 <= number <= 255")
        else Ok((req, fk.ks, fk.k))
  }

  /** A pseudonym length other than 12 (allowed by the configuration) makes every request invalid. */
  lemma PseudoLengthMustBeTwelve(c: AuthConfig.Config, p: Primitives, devId: Bytes, keys: Result<FeKeys>, ctx: AuthContext)
    requires Sound(p) && ValidContext(ctx) && c.pseudoLength != 12 && c.pseudoLength >= 0
    ensures CreateAuthRequest(c, p, devId, keys, ctx).Err?
  {
  }

  /** Likewise a tag length of 8, which the configuration accepts but a request does not. */
  lemma TagLengthEightRejected(c: AuthConfig.Config, p: Primitives, devId: Bytes, keys: Result<FeKeys>, ctx: AuthContext)
    requires Sound(p) && ValidContext(ctx) && c.tagLength == 8
    ensures CreateAuthRequest(c, p, devId, keys, ctx).Err?
  {
  }

  // ---------------------------------------------------------------------------
  // VerifierSide
  // ---------------------------------------------------------------------------

  /**
   The verifier: its identity, its MAT manager, and the registry of
   `dev_id -> (K, epoch)`, whose insertion order (`order`) decides which
   device a pseudonym is first matched against.
   */
  datatype Verifier = Verifier(
    config: AuthConfig.Config,
    issuerId: Bytes,
    issuerKey: Bytes,
    mats: TokenManager.MatManager,
    order: seq<Bytes>,
    registry: map<Bytes, (Bytes, int)>)

  predicate Distinct(s: seq<Bytes>)
  {
    forall i, j | 0 <= i < j < |s| :: s[i] != s[j]
  }

  predicate Invariant(v: Verifier)
  {
    && |v.issuerId| == 6 && |v.issuerKey| == 32
    && v.mats == TokenManager.MatManager(v.config, v.issuerId, v.issuerKey, v.mats.store)
    && Distinct(v.order)
    && (forall d | d in v.order :: d in v.registry)
    && (forall d | d in v.registry :: d in v.order)
  }

  /** The constructor: a 6-byte issuer id, a 32-byte key, an empty registry. */
  function NewVerifier(c: AuthConfig.Config, issuerId: Bytes, issuerKey: Bytes): (r: Result<Verifier>)
    ensures r.Ok? <==> |issuerId| == 6 && |issuerKey| == 32
    ensures r.Ok? ==> Invariant(r.value) && r.value.registry == map[] && r.value.mats.store == map[]
  {
    if |issuerId| != 6 then Err("issuer_id must be 6 bytes")
    else if |issuerKey| != 32 then Err("issuer_key must be 32 bytes")
    else Ok(Verifier(c, issuerId, issuerKey, TokenManager.MatManager(c, issuerId, issuerKey, map[]), [], map[]))
  }

  /** `register_device`: records (or replaces) the device's key and epoch without any check; a new id goes last. */
  function RegisterDevice(v: Verifier, devId: Bytes, k: Bytes, epoch: int): (r: Verifier)
    requires Invariant(v)
    ensures Invariant(r)
    ensures r.registry == v.registry[devId := (k, epoch)]
    ensures r.order == if devId in v.registry then v.order else v.order + [devId]
    ensures r.mats == v.mats
  {
    if devId in v.registry then v.(registry := v.registry[devId := (k, epoch)])
    else v.(order := v.order + [devId], registry := v.registry[devId := (k, epoch)])
  }

  /** Key `k` yields pseudonym `pseudo` at `epoch`. */
  predicate Claims(c: AuthConfig.Config, p: Primitives, k: Bytes, epoch: int, pseudo: Bytes)
    requires Sound(p)
  {
    GeneratePseudo(c, p, k, epoch) == Ok(pseudo)
  }

  /**
   The position, from `i` on, of the first device of `order` whose expected
   pseudonym equals `pseudo`; computing a pseudonym may raise.
   */
  function LocateFrom(c: AuthConfig.Config, p: Primitives, order: seq<Bytes>, registry: map<Bytes, (Bytes, int)>,
                      pseudo: Bytes, epoch: int, i: nat): (r: Result<Option<nat>>)
    requires Sound(p) && i <= |order|
    requires forall d | d in order :: d in registry
    ensures r.Err? <==> i < |order| && !PseudoComputable(c, epoch)
    ensures r.Ok? && r.value.Some? ==>
      && i <= r.value.value < |order|
      && Claims(c, p, registry[order[r.value.value]].0, epoch, pseudo)
      && forall j | i <= j < r.value.value :: !Claims(c, p, registry[order[j]].0, epoch, pseudo)
    ensures r == Ok(None) <==>
      r.Ok? && forall j | i <= j < |order| :: !Claims(c, p, registry[order[j]].0, epoch, pseudo)
    decreases |order| - i
  {
    if i == |order| then Ok(None)
    else
      var expected :- GeneratePseudo(c, p, registry[order[i]].0, epoch);
      ConstantTimeEqualIsEquality(expected, pseudo);
      if ConstantTimeEqual(expected, pseudo) then Ok(Some(i))
      else LocateFrom(c, p, order, registry, pseudo, epoch, i + 1)
  }

  /** `locate_device`: the first registered device, in insertion order, claiming the pseudonym; the registered epoch is not consulted. */
  function LocateDevice(v: Verifier, p: Primitives, pseudo: Bytes, epoch: int): (r: Result<Option<Bytes>>)
    requires Sound(p) && Invariant(v)
    ensures r.Ok? && r.value.Some? ==>
      r.value.value in v.registry && Claims(v.config, p, v.registry[r.value.value].0, epoch, pseudo)
    ensures r == Ok(None) <==>
      r.Ok? && forall d | d in v.registry :: !Claims(v.config, p, v.registry[d].0, epoch, pseudo)
    ensures PseudoComputable(v.config, epoch) ==> r.Ok?
  {
    LocateCoversRegistry(v, p, pseudo, epoch);
    match LocateFrom(v.config, p, v.order, v.registry, pseudo, epoch, 0)
    case Err(e) => Err(e)
    case Ok(None) => Ok(None)
    case Ok(Some(i)) => Ok(Some(v.order[i]))
  }

  /** The registry and its order hold the same ids, so a search of the order that finds nothing covers every entry. */
  lemma LocateCoversRegistry(v: Verifier, p: Primitives, pseudo: Bytes, epoch: int)
    requires Sound(p) && Invariant(v)
    ensures LocateFrom(v.config, p, v.order, v.registry, pseudo, epoch, 0) == Ok(None) ==>
      forall d | d in v.registry :: !Claims(v.config, p, v.registry[d].0, epoch, pseudo)
  {
    if LocateFrom(v.config, p, v.order, v.registry, pseudo, epoch, 0) == Ok(None) {
      forall d | d in v.registry
        ensures !Claims(v.config, p, v.registry[d].0, epoch, pseudo)
      {
        var i :| 0 <= i < |v.order| && v.order[i] == d;
      }
    }
  }

  /**
   The context the verifier rebuilds for the tag check. As written its
   source address is `dev_pseudo[:6]`; corrected, it is the located device's
   id, the address the device put in its own context.
   */
  function VerifierContext(v: Verifier, req: AuthReq, devId: Bytes, asWritten: bool): (ctx: AuthContext)
  {
    AuthContext(if asWritten then Take(req.devPseudo, 6) else devId, v.issuerId,
                req.epoch, req.nonce, req.seqNo, req.algId, req.ver, req.csiId)
  }

  /** Step 4: the tag check on the rebuilt context; building it or computing the tag may raise. */
  function TagMatches(v: Verifier, p: Primitives, req: AuthReq, devId: Bytes, k: Bytes, asWritten: bool): (r: Result<bool>)
    requires Sound(p) && Invariant(v) && ValidReq(req)
    ensures r == Ok(true) <==>
      var ctx := VerifierContext(v, req, devId, asWritten);
      ValidContext(ctx) && ComputeTag(v.config, p, k, ctx) == Ok(req.tag)
    ensures asWritten ==> (r.Ok? <==> MacAccepts(v.config, k) && v.config.tagLength <= 32)
  {
    var ctx := VerifierContext(v, req, devId, asWritten);
    var checked :- OutcomeOf(CheckContext(ctx), ctx);
    var expected :- ComputeTag(v.config, p, k, checked);
    ConstantTimeEqualIsEquality(expected, req.tag);
    Ok(ConstantTimeEqual(expected, req.tag))
  }

  /** Step 5: issue a MAT for the pseudonym and answer with it serialized and the session key. */
  function IssueStep(v: Verifier, p: Primitives, req: AuthReq, ks: Bytes, matId: Bytes, now: int)
    : (r: (Verifier, Result<AuthResult>))
    requires Sound(p) && Invariant(v) && ValidReq(req)
    ensures Invariant(r.0) && r.0 == v.(mats := r.0.mats)
    ensures r.1.Ok? ==>
      var (mats, issued) := TokenManager.IssueMat(v.mats, p, req.devPseudo, req.epoch, matId, now);
      && issued.Ok? && r.0.mats == mats
      && r.1.value == AuthResult(true, "mode2", Some(SerializeMat(issued.value).value), Some(ks), None)
    ensures r.1.Ok? <==>
      TokenManager.IssueMat(v.mats, p, req.devPseudo, req.epoch, matId, now).1.Ok? && v.config.matTtl < U32_LIMIT
  {
    var (mats, issued) := TokenManager.IssueMat(v.mats, p, req.devPseudo, req.epoch, matId, now);
    match issued
    case Err(e) => (v, Err(e))
    case Ok(mat) =>
      match SerializeMat(mat)
      case Err(e) => (v.(mats := mats), Err(e))
      case Ok(bytes) => (v.(mats := mats), Ok(AuthResult(true, "mode2", Some(bytes), Some(ks), None)))
  }

  /**
   `verify_auth_request` with the tag context chosen by `asWritten`: locate,
   reconstruct, digest, tag, issue, each refusal with its reason.
   */
  function VerifyWith(v: Verifier, p: Primitives, req: AuthReq, recovery: Recovery, matId: Bytes, now: int, asWritten: bool)
    : (r: (Verifier, Result<AuthResult>))
    requires Sound(p) && Invariant(v) && ValidReq(req)
    ensures Invariant(r.0) && r.0 == v.(mats := r.0.mats)
    ensures r.1.Ok? ==> ValidResult(r.1.value) && r.1.value.mode == "mode2"
    ensures r.1.Ok? && !r.1.value.success ==> r.0 == v
    ensures LocateDevice(v, p, req.devPseudo, req.epoch) == Ok(None) ==>
      r == (v, Ok(Failure("mode2", "device_not_registered")))
    ensures forall devId, keys |
      && LocateDevice(v, p, req.devPseudo, req.epoch) == Ok(Some(devId)) && recovery == Recovered(keys)
      && keys.digest == req.digest && TagMatches(v, p, req, devId, keys.k, asWritten) == Ok(true) ::
      r == IssueStep(v, p, req, keys.ks, matId, now)
    ensures r.1.Ok? && r.1.value.success ==>
      && recovery.Recovered?
      && recovery.keys.digest == req.digest
      && r.1.value.sessionKey == Some(recovery.keys.ks)
      && r == IssueStep(v, p, req, recovery.keys.ks, matId, now)
      && var located := LocateDevice(v, p, req.devPseudo, req.epoch);
         located.Ok? && located.value.Some?
         && TagMatches(v, p, req, located.value.value, recovery.keys.k, asWritten) == Ok(true)
  {
    AfterLocate(v, p, req, LocateDevice(v, p, req.devPseudo, req.epoch), recovery, matId, now, asWritten)
  }

  /** Steps 2 to 5, given the outcome of locating the device. */
  function AfterLocate(v: Verifier, p: Primitives, req: AuthReq, located: Result<Option<Bytes>>, recovery: Recovery,
                       matId: Bytes, now: int, asWritten: bool): (r: (Verifier, Result<AuthResult>))
    requires Sound(p) && Invariant(v) && ValidReq(req)
    ensures Invariant(r.0) && r.0 == v.(mats := r.0.mats)
    ensures r.1.Ok? ==> ValidResult(r.1.value) && r.1.value.mode == "mode2"
    ensures r.1.Ok? && !r.1.value.success ==> r.0 == v
    ensures located == Ok(None) ==> r == (v, Ok(Failure("mode2", "device_not_registered")))
    ensures (&& located.Ok? && located.value.Some? && recovery.Recovered? && recovery.keys.digest == req.digest
             && TagMatches(v, p, req, located.value.value, recovery.keys.k, asWritten) == Ok(true)) ==>
      r == IssueStep(v, p, req, recovery.keys.ks, matId, now)
    ensures r.1.Ok? && r.1.value.success ==>
      && located.Ok? && located.value.Some? && recovery.Recovered?
      && recovery.keys.digest == req.digest
      && r.1.value.sessionKey == Some(recovery.keys.ks)
      && r == IssueStep(v, p, req, recovery.keys.ks, matId, now)
      && TagMatches(v, p, req, located.value.value, recovery.keys.k, asWritten) == Ok(true)
  {
    match located
    case Err(e) => (v, Err(e))
    case Ok(None) => (v, Ok(Failure("mode2", "device_not_registered")))
    case Ok(Some(devId)) =>
      match recovery
      case Raised(e) => (v, Ok(Failure("mode2", "feature_keygen_failed: " + e)))
      case Mismatch => (v, Ok(Failure("mode2", "feature_mismatch")))
      case Recovered(keys) => CheckRecovered(v, p, req, devId, keys, matId, now, asWritten)
  }

  /** Steps 3 to 5 for a located device whose keys were reconstructed: digest, tag, issue. */
  function CheckRecovered(
    v: Verifier, p: Primitives, req: AuthReq, devId: Bytes, keys: FeKeys, matId: Bytes, now: int, asWritten: bool)
    : (r: (Verifier, Result<AuthResult>))
    requires Sound(p) && Invariant(v) && ValidReq(req)
    ensures Invariant(r.0) && r.0 == v.(mats := r.0.mats)
    ensures r.1.Ok? ==> ValidResult(r.1.value) && r.1.value.mode == "mode2"
    ensures r.1.Ok? && !r.1.value.success ==> r.0 == v
    ensures keys.digest != req.digest ==> r == (v, Ok(Failure("mode2", "digest_mismatch")))
    ensures keys.digest == req.digest && TagMatches(v, p, req, devId, keys.k, asWritten) == Ok(true) ==>
      r == IssueStep(v, p, req, keys.ks, matId, now)
    ensures r.1.Ok? && r.1.value.success ==>
      && keys.digest == req.digest
      && TagMatches(v, p, req, devId, keys.k, asWritten) == Ok(true)
      && r == IssueStep(v, p, req, keys.ks, matId, now)
  {
    ConstantTimeEqualIsEquality(keys.digest, req.digest);
    if !ConstantTimeEqual(keys.digest, req.digest) then (v, Ok(Failure("mode2", "digest_mismatch")))
    else
      match TagMatches(v, p, req, devId, keys.k, asWritten)
      case Err(e) => (v, Err(e))
      case Ok(false) => (v, Ok(Failure("mode2", "tag_mismatch")))
      case Ok(true) => IssueStep(v, p, req, keys.ks, matId, now)
  }

  /** `verify_auth_request` as written: the tag context's source address is the pseudonym's first six bytes. */
  function VerifyAuthRequestAsWritten(v: Verifier, p: Primitives, req: AuthReq, recovery: Recovery, matId: Bytes, now: int)
    : (r: (Verifier, Result<AuthResult>))
    requires Sound(p) && Invariant(v) && ValidReq(req)
    ensures Invariant(r.0) && r.0.registry == v.registry
    ensures r.1.Ok? ==> ValidResult(r.1.value) && r.1.value.mode == "mode2"
  {
    VerifyWith(v, p, req, recovery, matId, now, true)
  }

  /**
   `verify_auth_request` with the tag context's source address set to the
   located device's id, the address the device used.
   */
  function VerifyAuthRequest(v: Verifier, p: Primitives, req: AuthReq, recovery: Recovery, matId: Bytes, now: int)
    : (r: (Verifier, Result<AuthResult>))
    requires Sound(p) && Invariant(v) && ValidReq(req)
    ensures Invariant(r.0) && r.0.registry == v.registry
    ensures r.1.Ok? ==> ValidResult(r.1.value) && r.1.value.mode == "mode2"
  {
    VerifyWith(v, p, req, recovery, matId, now, false)
  }

  /** `req` is what the device side sends for context `ctx` under `keys`: the context's fields, the keys' digest, the tag over the context. */
  predicate SentFor(c: AuthConfig.Config, p: Primitives, req: AuthReq, keys: FeKeys, ctx: AuthContext)
    requires Sound(p) && ValidContext(ctx)
  {
    && ValidReq(req)
    && req == AuthReq(req.devPseudo, ctx.csiId, ctx.epoch, ctx.nonce, ctx.seqNo, ctx.algId, ctx.ver, keys.digest, req.tag)
    && ComputeTag(c, p, keys.k, ctx) == Ok(req.tag)
  }

  /** Every request `create_auth_request` returns is sent for its context and keys. */
  lemma CreatedRequestSent(c: AuthConfig.Config, p: Primitives, devId: Bytes, keys: FeKeys, ctx: AuthContext)
    requires Sound(p) && ValidContext(ctx)
    requires CreateAuthRequest(c, p, devId, Ok(keys), ctx).Ok?
    ensures SentFor(c, p, CreateAuthRequest(c, p, devId, Ok(keys), ctx).value.0, keys, ctx)
    ensures CreateAuthRequest(c, p, devId, Ok(keys), ctx).value.1 == keys.ks
  {
  }

  /**
   End to end (corrected): a request sent for a context addressed from the
   device's id to this verifier is accepted when the verifier locates that
   device and reconstructs the same keys, provided the MAT can be issued
   and serialized; the session key handed back is the device's.
   */
  lemma HonestRequestAccepted(
    v: Verifier, p: Primitives, devId: Bytes, keys: FeKeys, ctx: AuthContext, req: AuthReq, matId: Bytes, now: int)
    requires Sound(p) && Invariant(v) && ValidContext(ctx)
    requires AuthConfig.Valid(v.config) && v.config.mode2Enabled && v.config.matTtl < U32_LIMIT && |matId| == 16
    requires ctx.srcMac == devId && ctx.dstMac == v.issuerId
    requires SentFor(v.config, p, req, keys, ctx)
    requires LocateDevice(v, p, req.devPseudo, req.epoch) == Ok(Some(devId))
    ensures var r := VerifyAuthRequest(v, p, req, Recovered(keys), matId, now).1;
      r.Ok? && r.value.success && r.value.sessionKey == Some(keys.ks)
  {
    SentTagPasses(v, p, devId, keys, ctx, req);
    IssueStepSucceeds(v, p, req, keys.ks, matId, now);
  }

  /** The verifier's corrected context for the sending device is the device's own, so the tag check passes. */
  lemma SentTagPasses(v: Verifier, p: Primitives, devId: Bytes, keys: FeKeys, ctx: AuthContext, req: AuthReq)
    requires Sound(p) && Invariant(v) && ValidContext(ctx)
    requires ctx.srcMac == devId && ctx.dstMac == v.issuerId
    requires SentFor(v.config, p, req, keys, ctx)
    ensures TagMatches(v, p, req, devId, keys.k, false) == Ok(true)
  {
    assert VerifierContext(v, req, devId, false) == ctx;
  }

  /** Issuing succeeds for a valid request once mode 2's bounds hold and the TTL fits 32 bits. */
  lemma IssueStepSucceeds(v: Verifier, p: Primitives, req: AuthReq, ks: Bytes, matId: Bytes, now: int)
    requires Sound(p) && Invariant(v) && ValidReq(req)
    requires AuthConfig.Valid(v.config) && v.config.mode2Enabled && v.config.matTtl < U32_LIMIT && |matId| == 16
    ensures IssueStep(v, p, req, ks, matId, now).1.Ok?
    ensures IssueStep(v, p, req, ks, matId, now).1.value.sessionKey == Some(ks)
  {
    var sig := TokenManager.MatSignature(v.mats, p, req.devPseudo, req.epoch, v.config.matTtl, matId);
    assert sig.Ok?;
  }

  /**
   As written, the same honest request is accepted only if the MAC gives
   the same tag over two different inputs: the device's, with its own id
   as source, and the verifier's, with the pseudonym's first six bytes.
   */
  lemma AsWrittenAcceptsOnlyOnTagCollision(
    v: Verifier, p: Primitives, devId: Bytes, keys: FeKeys, ctx: AuthContext, req: AuthReq, matId: Bytes, now: int)
    requires Sound(p) && Invariant(v) && ValidContext(ctx)
    requires ctx.srcMac == devId && ctx.dstMac == v.issuerId
    requires SentFor(v.config, p, req, keys, ctx)
    requires LocateDevice(v, p, req.devPseudo, req.epoch) == Ok(Some(devId)) && req.devPseudo[..6] != devId
    requires var r := VerifyAuthRequestAsWritten(v, p, req, Recovered(keys), matId, now).1;
      r.Ok? && r.value.success
    ensures var seen := VerifierContext(v, req, devId, true);
      && ValidContext(seen)
      && TagMessage(seen) != TagMessage(ctx)
      && ComputeTag(v.config, p, keys.k, seen) == ComputeTag(v.config, p, keys.k, ctx)
  {
    var seen := VerifierContext(v, req, devId, true);
    assert seen.srcMac == req.devPseudo[..6];
    assert TagMessage(seen)[..6] != TagMessage(ctx)[..6];
    assert VerifyWith(v, p, req, Recovered(keys), matId, now, true).1.value.success;
    assert TagMatches(v, p, req, devId, keys.k, true) == Ok(true);
  }
}

=== FILE: pilot_plan.dfy ===
/**
 The TDD pilot plan (`PilotPlan` in `core/feature_config.py`): the pilot
 instants inside an epoch and the plan's wire layout.
 */
module Pilot {
  import opened Wrappers
  import opened Bytes
  import opened Tlv

  datatype PilotPlan = PilotPlan(frameDurationMs: int, slots: seq<int>, pattern: Bytes)

  /** One frame's pilots: `frame + slot` for each slot, in order, keeping those before `end`. */
  function FrameTimes(slots: seq<int>, frame: int, end: int): (r: seq<int>)
    ensures |r| <= |slots|
    ensures forall i | 0 <= i < |r| :: r[i] < end
    ensures (forall j | 0 <= j < |slots| :: slots[j] >= 0) ==> forall i | 0 <= i < |r| :: r[i] >= frame
    ensures forall j | 0 <= j < |slots| && frame + slots[j] < end :: frame + slots[j] in r
  {
    if |slots| == 0 then []
    else
      var rest := FrameTimes(slots[1..], frame, end);
      assert forall j | 1 <= j < |slots| :: slots[j] == slots[1..][j - 1];
      if frame + slots[0] < end then [frame + slots[0]] + rest else rest
  }

  /** The frames from `frame` on, while `frame < end`; each round moves forward by `frameDuration`. */
  function TimesFrom(slots: seq<int>, frameDuration: int, frame: int, end: int): (r: seq<int>)
    requires frameDuration > 0 || frame >= end
    ensures forall i | 0 <= i < |r| :: r[i] < end
    ensures (forall j | 0 <= j < |slots| :: slots[j] >= 0) ==> forall i | 0 <= i < |r| :: r[i] >= frame
    decreases end - frame
  {
    if frame >= end then []
    else FrameTimes(slots, frame, end) + TimesFrom(slots, frameDuration, frame + frameDuration, end)
  }

  /**
   `get_pilot_times`. The loop only ends when the frame duration is positive or
   the epoch is empty; with a non-positive duration and a non-empty epoch the
   source never returns.
   */
  function GetPilotTimes(plan: PilotPlan, epochStart: int, epochDuration: int): (r: seq<int>)
    requires plan.frameDurationMs > 0 || epochDuration <= 0
    ensures forall i | 0 <= i < |r| :: r[i] < epochStart + epochDuration
    ensures (forall j | 0 <= j < |plan.slots| :: plan.slots[j] >= 0) ==> forall i | 0 <= i < |r| :: r[i] >= epochStart
  {
    TimesFrom(plan.slots, plan.frameDurationMs, epochStart, epochStart + epochDuration)
  }

  /** Completeness: every slot of every frame that starts inside the epoch and stays inside it is listed. */
  lemma {:induction false} TimesFromComplete(slots: seq<int>, frameDuration: int, frame: int, end: int, k: nat, j: nat)
    requires frameDuration > 0
    requires j < |slots|
    requires frame + k * frameDuration < end && frame + k * frameDuration + slots[j] < end
    ensures frame + k * frameDuration + slots[j] in TimesFrom(slots, frameDuration, frame, end)
    decreases k
  {
    if k > 0 {
      assert frame + k * frameDuration == (frame + frameDuration) + (k - 1) * frameDuration;
      assert frame < end by {
        assert frame <= frame + k * frameDuration;
      }
      TimesFromComplete(slots, frameDuration, frame + frameDuration, end, k - 1, j);
    }
  }

  lemma PilotTimesComplete(plan: PilotPlan, epochStart: int, epochDuration: int, k: nat, j: nat)
    requires plan.frameDurationMs > 0 && j < |plan.slots|
    requires epochStart + k * plan.frameDurationMs + plan.slots[j] < epochStart + epochDuration
    requires k * plan.frameDurationMs < epochDuration
    ensures epochStart + k * plan.frameDurationMs + plan.slots[j] in GetPilotTimes(plan, epochStart, epochDuration)
  {
    TimesFromComplete(plan.slots, plan.frameDurationMs, epochStart, epochStart + epochDuration, k, j);
  }

  // ---------------------------------------------------------------------------
  // Wire layout
  // ---------------------------------------------------------------------------

  /** The slots as consecutive 4-byte big-endian integers; a slot outside 32 bits raises. */
  function EncodeSlots(slots: seq<int>): (r: Result<Bytes>)
    ensures r.Ok? <==> forall j | 0 <= j < |slots| :: IsU32(slots[j])
    ensures r.Ok? ==> |r.value| == 4 * |slots|
  {
    Pow256Widths();
    if |slots| == 0 then Ok([])
    else
      assert forall j | 1 <= j < |slots| :: slots[j] == slots[1..][j - 1];
      var head :- PackBE(slots[0], 4);
      var rest :- EncodeSlots(slots[1..]);
      Ok(head + rest)
  }

  /** `[decode_uint32() for _ in range(n)]`. */
  function ReadSlots(d: Decoder, n: nat): (r: Result<(seq<int>, Decoder)>)
    ensures r.Ok? <==> n == 0 || d.offset + 4 * n <= |d.data|
    ensures r.Ok? ==> |r.value.0| == n && r.value.1 == d.(offset := d.offset + 4 * n)
    ensures r.Ok? ==> forall j | 0 <= j < n :: IsU32(r.value.0[j])
    decreases n
  {
    Pow256Widths();
    if n == 0 then Ok(([], d))
    else
      var (x, d1) :- DecodeUint(d, 4);
      var (xs, d2) :- ReadSlots(d1, n - 1);
      Ok(([x] + xs, d2))
  }

  lemma {:induction false} ReadSlotsBack(d: Decoder, slots: seq<int>)
    requires EncodeSlots(slots).Ok? && At(d, EncodeSlots(slots).value)
    ensures ReadSlots(d, |slots|) == Ok((slots, d.(offset := d.offset + 4 * |slots|)))
    decreases |slots|
  {
    Pow256Widths();
    if |slots| > 0 {
      var head, rest := PackBE(slots[0], 4).value, EncodeSlots(slots[1..]).value;
      assert EncodeSlots(slots).value == head + rest;
      AtSplit(d, head, rest);
      ReadUint(d, slots[0], 4);
      ReadSlotsBack(d.(offset := d.offset + 4), slots[1..]);
      assert [slots[0]] + slots[1..] == slots;
    }
  }

  /** What `pack` needs: every integer within its field and the pattern's length within 16 bits. */
  predicate WellFormed(plan: PilotPlan)
  {
    && IsU32(plan.frameDurationMs)
    && |plan.slots| < U16_LIMIT
    && (forall j | 0 <= j < |plan.slots| :: IsU32(plan.slots[j]))
    && |plan.pattern| < U16_LIMIT
  }

  /** The length of a packed plan. */
  function PackedSize(plan: PilotPlan): nat
  {
    4 + 2 + 4 * |plan.slots| + 2 + |plan.pattern|
  }

  /** The body of `pack`, after the two header fields: the slots, then the length-prefixed pattern. */
  function BodyBytes(plan: PilotPlan): (r: Bytes)
    requires WellFormed(plan)
    ensures |r| == 4 * |plan.slots| + 2 + |plan.pattern|
  {
    EncodeSlots(plan.slots).value + EncodeBytes(plan.pattern).value
  }

  /** The bytes `pack` writes: frame duration, slot count, then the body. */
  function Layout(plan: PilotPlan): (r: Bytes)
    requires WellFormed(plan)
    ensures |r| == PackedSize(plan)
  {
    Pow256Widths();
    ToBE(plan.frameDurationMs, 4) + ToBE(|plan.slots|, 2) + BodyBytes(plan)
  }

  /** `pack`: raises when a field is out of its width, otherwise writes the layout. */
  function Pack(plan: PilotPlan): (r: Result<Bytes>)
    ensures r.Ok? <==> WellFormed(plan)
    ensures r.Ok? ==> r.value == Layout(plan)
  {
    if WellFormed(plan) then Ok(Layout(plan)) else Err("argument out of range")
  }

  /** The reads of `unpack` after the two header fields; a short pattern is accepted as it stands. */
  function ReadBody(d: Decoder, frame: nat, n: nat): (r: Result<(PilotPlan, Decoder)>)
    ensures r.Ok? ==> r.value.1.data == d.data && r.value.0.frameDurationMs == frame && |r.value.0.slots| == n
  {
    var (slots, d1) :- ReadSlots(d, n);
    var (pattern, d2) :- DecodeBytes(d1);
    Ok((PilotPlan(frame, slots, pattern), d2))
  }

  /** The reads of `unpack`: frame duration, slot count, then the body. */
  function Read(d: Decoder): (r: Result<(PilotPlan, Decoder)>)
    ensures r.Ok? ==> r.value.1.data == d.data
    ensures r.Ok? ==> IsU32(r.value.0.frameDurationMs) && |r.value.0.slots| < U16_LIMIT
  {
    Pow256Widths();
    var (frame, d1) :- DecodeUint(d, 4);
    var (n, d2) :- DecodeUint(d1, 2);
    ReadBody(d2, frame, n)
  }

  /** `PilotPlan.unpack`. */
  function Unpack(data: Bytes): (r: Result<PilotPlan>)
    ensures r.Ok? ==> IsU32(r.value.frameDurationMs) && |r.value.slots| < U16_LIMIT
  {
    var (plan, _) :- Read(Decoder(data, 0));
    Ok(plan)
  }

  /** The body read back from its parts: encoded slots, then an encoded pattern. */
  lemma ReadBodyParts(d: Decoder, frame: nat, slots: seq<int>, pattern: Bytes)
    requires EncodeSlots(slots).Ok? && EncodeBytes(pattern).Ok?
    requires At(d, EncodeSlots(slots).value + EncodeBytes(pattern).value)
    ensures ReadBody(d, frame, |slots|) == Ok((PilotPlan(frame, slots, pattern), d.(offset := d.offset + 4 * |slots| + 2 + |pattern|)))
  {
    var s, t := EncodeSlots(slots).value, EncodeBytes(pattern).value;
    assert |s| == 4 * |slots| && |t| == 2 + |pattern|;
    var d1 := d.(offset := d.offset + |s|);
    var d2 := d.(offset := d.offset + 4 * |slots| + 2 + |pattern|);
    AtSplit(d, s, t);
    ReadBytes(d1, pattern);
    ReadSlotsBack(d, slots);
    assert d1 == d.(offset := d.offset + 4 * |slots|);
    assert d1.(offset := d1.offset + 2 + |pattern|) == d2;
    ReadBodyOf(d, frame, slots, d1, pattern, d2);
  }

  lemma ReadBodyOf(d: Decoder, frame: nat, slots: seq<int>, d1: Decoder, pattern: Bytes, d2: Decoder)
    requires ReadSlots(d, |slots|) == Ok((slots, d1)) && DecodeBytes(d1) == Ok((pattern, d2))
    ensures ReadBody(d, frame, |slots|) == Ok((PilotPlan(frame, slots, pattern), d2))
  {
  }

  /** A plan read back from its parts: frame duration, slot count, slots and pattern. */
  lemma ReadParts(d: Decoder, plan: PilotPlan)
    requires 0 <= plan.frameDurationMs < U32_LIMIT && |plan.slots| < U16_LIMIT
    requires EncodeSlots(plan.slots).Ok? && EncodeBytes(plan.pattern).Ok?
    requires At(d, ToBE(plan.frameDurationMs, 4) + ToBE(|plan.slots|, 2)
                   + (EncodeSlots(plan.slots).value + EncodeBytes(plan.pattern).value))
    ensures Read(d) == Ok((plan, d.(offset := d.offset + PackedSize(plan))))
  {
    Pow256Widths();
    var frame, slots, pattern := plan.frameDurationMs, plan.slots, plan.pattern;
    var f, n := ToBE(frame, 4), ToBE(|slots|, 2);
    var b := EncodeSlots(slots).value + EncodeBytes(pattern).value;
    AtSplit(d, f + n, b);
    AtSplit(d, f, n);
    var d1, d2 := d.(offset := d.offset + |f|), d.(offset := d.offset + |f + n|);
    ReadUintBE(d, frame, 4);
    ReadUintBE(d1, |slots|, 2);
    assert d1 == d.(offset := d.offset + 4) && d2 == d1.(offset := d1.offset + 2);
    ReadBodyParts(d2, frame, slots, pattern);
    assert d2.(offset := d2.offset + 4 * |slots| + 2 + |pattern|) == d.(offset := d.offset + PackedSize(plan));
    assert PilotPlan(frame, slots, pattern) == plan;
    ReadOf(d, frame, d1, |slots|, d2);
  }

  lemma ReadOf(d: Decoder, frame: nat, d1: Decoder, n: nat, d2: Decoder)
    requires DecodeUint(d, 4) == Ok((frame, d1)) && DecodeUint(d1, 2) == Ok((n, d2))
    ensures Read(d) == ReadBody(d2, frame, n)
  {
  }

  lemma ReadBack(d: Decoder, plan: PilotPlan)
    requires WellFormed(plan) && At(d, Layout(plan))
    ensures Read(d) == Ok((plan, d.(offset := d.offset + PackedSize(plan))))
  {
    Pow256Widths();
    assert Layout(plan) == ToBE(plan.frameDurationMs, 4) + ToBE(|plan.slots|, 2)
                           + (EncodeSlots(plan.slots).value + EncodeBytes(plan.pattern).value);
    ReadParts(d, plan);
  }

  /** A packed plan at the decoder's offset is read back, and the cursor moves past it. */
  lemma ReadPacked(d: Decoder, plan: PilotPlan)
    requires WellFormed(plan) && At(d, Pack(plan).value)
    ensures Read(d) == Ok((plan, d.(offset := d.offset + PackedSize(plan))))
  {
    ReadBack(d, plan);
  }

  /** `PilotPlan.unpack(pack(p)) == p`. */
  lemma PackRoundTrip(plan: PilotPlan)
    requires WellFormed(plan)
    ensures Unpack(Pack(plan).value) == Ok(plan)
  {
    var data := Pack(plan).value;
    assert At(Decoder(data, 0), data);
    ReadPacked(Decoder(data, 0), plan);
  }
}

=== FILE: quantizer.dfy ===
/**
 Ternary quantisation, strict-majority voting and padding to the target bit
 count (`FeatureQuantizer`). Thresholds are inputs: their floating-point
 computation is outside the model, as are the stability ranking used to order
 the unused dimensions (a parameter `arrange`) and the operating system's
 random source (a parameter `rng` standing for `secrets.token_bytes`).
 */
module Quantizer {
  import opened Bytes
  import opened Bits

  /** A quantised value: 1, 0 or the erasure -1. */
  datatype Trit = Zero | One | Erased

  predicate IsMatrix<T>(z: seq<seq<T>>, d: nat)
  {
    forall m | 0 <= m < |z| :: |z[m]| == d
  }

  /** One element of `quantize_frame`: `> θH` gives 1, `< θL` gives 0, `θL ≤ z ≤ θH` erases. */
  function QuantizeValue(z: real, thetaL: real, thetaH: real): (q: Trit)
    ensures q == Erased <==> thetaL <= z <= thetaH
    ensures q == Zero <==> z < thetaL
    ensures q == One <==> thetaH < z && thetaL <= z
  {
    if thetaL <= z <= thetaH then Erased
    else if z < thetaL then Zero
    else One
  }

  /** `quantize_frame` with per-dimension thresholds. */
  function QuantizeFrame(z: seq<real>, thetaL: seq<real>, thetaH: seq<real>): (q: seq<Trit>)
    requires |thetaL| == |z| && |thetaH| == |z|
    ensures |q| == |z|
    ensures forall d | 0 <= d < |z| :: q[d] == QuantizeValue(z[d], thetaL[d], thetaH[d])
  {
    seq(|z|, d requires 0 <= d < |z| => QuantizeValue(z[d], thetaL[d], thetaH[d]))
  }

  /** `quantize_frames`: every row with the same thresholds; the M×D shape is kept. */
  function QuantizeFrames(zs: seq<seq<real>>, thetaL: seq<real>, thetaH: seq<real>): (qs: seq<seq<Trit>>)
    requires IsMatrix(zs, |thetaL|) && |thetaH| == |thetaL|
    ensures |qs| == |zs| && IsMatrix(qs, |thetaL|)
    ensures forall m, d | 0 <= m < |zs| && 0 <= d < |thetaL| ::
      qs[m][d] == QuantizeValue(zs[m][d], thetaL[d], thetaH[d])
  {
    seq(|zs|, m requires 0 <= m < |zs| => QuantizeFrame(zs[m], thetaL, thetaH))
  }

  /** The number of frames whose value in dimension `d` is `t`. */
  function Count(qs: seq<seq<Trit>>, d: nat, t: Trit): (c: nat)
    requires forall m | 0 <= m < |qs| :: d < |qs[m]|
    ensures c <= |qs|
  {
    if |qs| == 0 then 0 else (if qs[0][d] == t then 1 else 0) + Count(qs[1..], d, t)
  }

  /** Erasures never vote: the three counts partition the frames. */
  lemma {:induction false} CountsPartition(qs: seq<seq<Trit>>, d: nat)
    requires forall m | 0 <= m < |qs| :: d < |qs[m]|
    ensures Count(qs, d, Zero) + Count(qs, d, One) + Count(qs, d, Erased) == |qs|
  {
    if |qs| > 0 {
      CountsPartition(qs[1..], d);
    }
  }

  /** A dimension yields a bit when either count reaches the threshold. */
  predicate Decided(qs: seq<seq<Trit>>, d: nat, threshold: int)
    requires forall m | 0 <= m < |qs| :: d < |qs[m]|
  {
    Count(qs, d, One) >= threshold || Count(qs, d, Zero) >= threshold
  }

  /** The voted bit: ones win ties with the threshold, as the `if`/`elif` order makes them. */
  function VoteBit(qs: seq<seq<Trit>>, d: nat, threshold: int): bool
    requires forall m | 0 <= m < |qs| :: d < |qs[m]|
  {
    Count(qs, d, One) >= threshold
  }

  /**
   `majority_vote` over dimensions `[0, upTo)`: the bits of the decided
   dimensions in increasing order, and those dimensions.
   */
  function MajorityVote(qs: seq<seq<Trit>>, dims: nat, threshold: int, upTo: nat): (r: (seq<bool>, seq<nat>))
    requires IsMatrix(qs, dims) && upTo <= dims
    ensures |r.0| == |r.1| <= upTo
    ensures forall i, j | 0 <= i < j < |r.1| :: r.1[i] < r.1[j]
    ensures forall i | 0 <= i < |r.1| :: r.1[i] < upTo
    ensures forall d | 0 <= d < upTo :: d in r.1 <==> Decided(qs, d, threshold)
    ensures forall i | 0 <= i < |r.1| :: r.0[i] == VoteBit(qs, r.1[i], threshold)
  {
    if upTo == 0 then ([], [])
    else
      var (bits, sel) := MajorityVote(qs, dims, threshold, upTo - 1);
      var d := upTo - 1;
      if Decided(qs, d, threshold) then (bits + [VoteBit(qs, d, threshold)], sel + [d])
      else (bits, sel)
  }

  /** With a strict-majority threshold, at most one value can reach it, so the vote is unambiguous. */
  lemma StrictMajorityUnambiguous(qs: seq<seq<Trit>>, d: nat, threshold: int)
    requires forall m | 0 <= m < |qs| :: d < |qs[m]|
    requires threshold >= |qs| / 2 + 1
    ensures !(Count(qs, d, One) >= threshold && Count(qs, d, Zero) >= threshold)
  {
    CountsPartition(qs, d);
  }

  /** Six frames split three ones to three zeros yield no bit at threshold four. */
  lemma TiedDimensionDropped(qs: seq<seq<Trit>>, d: nat)
    requires forall m | 0 <= m < |qs| :: d < |qs[m]|
    requires |qs| == 6 && Count(qs, d, One) == 3 && Count(qs, d, Zero) == 3
    ensures !Decided(qs, d, 4)
  {
  }

  /** The dimensions in `[from, dims)` that are not in `used`, in increasing order. */
  function UnusedDims(used: seq<nat>, from: nat, dims: nat): (r: seq<nat>)
    decreases dims - from
    ensures forall i | 0 <= i < |r| :: from <= r[i]
    ensures forall i, j | 0 <= i < j < |r| :: r[i] < r[j]
    ensures forall x :: x in r <==> from <= x < dims && x !in used
  {
    if from >= dims then []
    else if from in used then UnusedDims(used, from + 1, dims)
    else [from] + UnusedDims(used, from + 1, dims)
  }

  /** The bit an unused dimension contributes: 1 iff it has at least as many ones as zeros. */
  function FillBit(qs: seq<seq<Trit>>, d: nat): bool
    requires forall m | 0 <= m < |qs| :: d < |qs[m]|
  {
    Count(qs, d, One) >= Count(qs, d, Zero)
  }

  /** A reordering of a dimension list (the stability ranking), which must be a permutation of it. */
  ghost predicate IsArrangement(arrange: seq<nat> -> seq<nat>)
  {
    forall s: seq<nat> :: multiset(arrange(s)) == multiset(s)
  }

  /** `secrets.token_bytes`: `n` bytes for every request of `n`. */
  ghost predicate IsTokenSource(rng: nat -> Bytes)
  {
    forall n :: |rng(n)| == n
  }

  /** `_generate_secure_random_bits(n)`: the low bits first of `ceil(n/8)` random bytes. */
  function RandomBits(rng: nat -> Bytes, n: nat): (r: seq<bool>)
    requires IsTokenSource(rng)
    ensures |r| == n
  {
    BytesToBits(rng((n + 7) / 8), n)
  }

  /** Every ranked unused dimension is a real dimension that was not selected. */
  lemma RankedDims(selected: seq<nat>, dims: nat, arrange: seq<nat> -> seq<nat>)
    requires IsArrangement(arrange)
    ensures forall i | 0 <= i < |arrange(UnusedDims(selected, 0, dims))| ::
      arrange(UnusedDims(selected, 0, dims))[i] < dims && arrange(UnusedDims(selected, 0, dims))[i] !in selected
  {
    var u := UnusedDims(selected, 0, dims);
    forall i | 0 <= i < |arrange(u)| ensures arrange(u)[i] < dims && arrange(u)[i] !in selected {
      var x := arrange(u)[i];
      assert x in multiset(arrange(u));
      assert x in multiset(u);
      assert x in u;
    }
  }

  /** The majority bits of the first `k` ranked dimensions. */
  function FillBits(qs: seq<seq<Trit>>, dims: nat, ranked: seq<nat>, k: nat): (f: seq<bool>)
    requires IsMatrix(qs, dims) && k <= |ranked|
    requires forall i | 0 <= i < k :: ranked[i] < dims
    ensures |f| == k && forall i | 0 <= i < k :: f[i] == FillBit(qs, ranked[i])
  {
    seq(k, i requires 0 <= i < k => FillBit(qs, ranked[i]))
  }

  /** `pad_bits_to_target`. */
  function PadBitsToTarget(
    bits: seq<bool>, selected: seq<nat>, qs: seq<seq<Trit>>, dims: nat, target: nat,
    arrange: seq<nat> -> seq<nat>, rng: nat -> Bytes): (r: seq<bool>)
    requires IsMatrix(qs, dims) && IsArrangement(arrange) && IsTokenSource(rng)
    ensures |r| == target
    ensures |bits| >= target ==> r == bits[..target]
    ensures |bits| < target ==> r[..|bits|] == bits
    ensures |bits| < target ==>
      var ranked := arrange(UnusedDims(selected, 0, dims));
      var k := Min(target - |bits|, |ranked|);
      && (forall i | 0 <= i < k :: ranked[i] < dims && ranked[i] !in selected && r[|bits| + i] == FillBit(qs, ranked[i]))
      && r[|bits| + k..] == RandomBits(rng, target - |bits| - k)
  {
    if |bits| >= target then bits[..target]
    else
      var ranked := arrange(UnusedDims(selected, 0, dims));
      var k := Min(target - |bits|, |ranked|);
      RankedDims(selected, dims, arrange);
      var fill := FillBits(qs, dims, ranked, k);
      var rest := RandomBits(rng, target - |bits| - k);
      ConcatThree(bits, fill, rest);
      bits + fill + rest
  }

  /** `process_multi_frames` with the thresholds supplied: quantise, vote, pad. */
  function ProcessMultiFrames(
    zs: seq<seq<real>>, thetaL: seq<real>, thetaH: seq<real>, threshold: int, target: nat,
    arrange: seq<nat> -> seq<nat>, rng: nat -> Bytes): (r: seq<bool>)
    requires IsMatrix(zs, |thetaL|) && |thetaH| == |thetaL|
    requires IsArrangement(arrange) && IsTokenSource(rng)
    ensures |r| == target
  {
    var qs := QuantizeFrames(zs, thetaL, thetaH);
    var (bits, selected) := MajorityVote(qs, |thetaL|, threshold, |thetaL|);
    PadBitsToTarget(bits, selected, qs, |thetaL|, target, arrange, rng)
  }
}

=== FILE: secure_channel.dfy ===
/**
 The UAV secure channel (`uav_secure_channel.py`): AES-256-GCM messages
 between two nodes or to a group, with a header that is authenticated as
 additional data, a per-peer sequence counter, a freshness check on the
 timestamp and a bounded window of sequence numbers already seen.

 AES-GCM is a parameter (`Aead`); SHA-256, which hashes group names, comes
 from the shared primitives. Clock readings and nonces are parameters.
 */
module UavSecureChannel {
  import opened Wrappers
  import opened Bytes
  import Hkdf

  const MSG_TYPE_P2P: nat := 1
  const MSG_TYPE_GROUP: nat := 2

  /** Messages older than this many milliseconds are refused. */
  const MAX_MESSAGE_AGE_MS: int := 30000

  /** Messages may claim to come from at most this many milliseconds in the future. */
  const MAX_CLOCK_SKEW_MS: int := 5000

  /** How many sequence numbers per sender the replay check remembers. */
  const REPLAY_WINDOW_SIZE: nat := 1000

  /** The fixed header: version, type, two 6-byte addresses, sequence, timestamp, 12-byte nonce, length. */
  const MIN_MESSAGE_SIZE: nat := 40

  const TAG_SIZE: nat := 16

  /** The tag a deserialized message holds: the default, since the real tag stays inside the ciphertext. */
  const DEFAULT_TAG: Bytes := Zeros(16)

  /** The ASCII colon that separates the sender from the group in a group replay key. */
  const COLON: Byte := 0x3a

  /** AES-GCM: `encrypt(key, nonce, plaintext, aad)` and `decrypt(key, nonce, ciphertext, aad)`, `None` where it raises. */
  datatype Aead = Aead(encrypt: (Bytes, Bytes, Bytes, Bytes) -> Bytes, decrypt: (Bytes, Bytes, Bytes, Bytes) -> Option<Bytes>)

  /** What the model assumes of AES-256-GCM: a 16-byte tag, and decryption with the same key, nonce and AAD recovers the plaintext. */
  ghost predicate AeadSound(a: Aead)
  {
    forall key, nonce, pt, aad | |key| == 32 ::
      |a.encrypt(key, nonce, pt, aad)| == |pt| + TAG_SIZE && a.decrypt(key, nonce, a.encrypt(key, nonce, pt, aad), aad) == Some(pt)
  }

  // ---------------------------------------------------------------------------
  // Wire format
  // ---------------------------------------------------------------------------

  datatype SecureMessage = SecureMessage(
    version: int,
    msgType: int,
    src: Bytes,
    dst: Bytes,
    sequence: int,
    timestamp: int,
    nonce: Bytes,
    ciphertext: Bytes,
    tag: Bytes)

  /** The integer fields fit their `struct` formats and the ciphertext length fits 16 bits. */
  predicate FieldsFit(m: SecureMessage)
  {
    IsU8(m.version) && IsU8(m.msgType) && IsU32(m.sequence) && IsU64(m.timestamp) && |m.ciphertext| < U16_LIMIT
  }

  /** The addresses and nonce have the sizes `deserialize` reads them at. */
  predicate Sized(m: SecureMessage)
  {
    |m.src| == 6 && |m.dst| == 6 && |m.nonce| == 12
  }

  /** The serialized header: every field but the ciphertext, with the ciphertext's length. */
  function Header(m: SecureMessage): Bytes
    requires FieldsFit(m)
  {
    Pow256Widths();
    ToBE(m.version, 1) + ToBE(m.msgType, 1) + m.src + m.dst + ToBE(m.sequence, 4) + ToBE(m.timestamp, 8)
      + m.nonce + ToBE(|m.ciphertext|, 2)
  }

  function Wire(m: SecureMessage): Bytes
    requires FieldsFit(m)
  {
    Header(m) + m.ciphertext
  }

  /** `serialize`: the addresses and nonce are written as they are, without a length check. */
  function Serialize(m: SecureMessage): (r: Result<Bytes>)
    ensures r.Ok? <==> FieldsFit(m)
    ensures r.Ok? ==> |r.value| == 16 + |m.src| + |m.dst| + |m.nonce| + |m.ciphertext|
  {
    if FieldsFit(m) then Ok(Wire(m)) else Err("struct.error: argument out of range")
  }

  /**
   `deserialize`: at least 40 bytes and as many ciphertext bytes as the
   length field announces; trailing bytes are ignored and the version is
   not checked.
   */
  function Deserialize(data: Bytes): (r: Result<SecureMessage>)
    ensures r.Ok? <==> |data| >= MIN_MESSAGE_SIZE && |data| >= MIN_MESSAGE_SIZE + FromBE(data[38..40])
    ensures r.Ok? ==> Sized(r.value) && FieldsFit(r.value) && r.value.tag == DEFAULT_TAG
  {
    Pow256Widths();
    if |data| < MIN_MESSAGE_SIZE then Err("message too short")
    else
      var n := FromBE(data[38..40]);
      if |data| < MIN_MESSAGE_SIZE + n then Err("ciphertext length mismatch")
      else
        Ok(SecureMessage(data[0], data[1], data[2..8], data[8..14], FromBE(data[14..18]), FromBE(data[18..26]),
                         data[26..38], data[40..40 + n], DEFAULT_TAG))
  }

  lemma OneByte(x: nat)
    requires x < 256
    ensures ToBE(x, 1) == [x]
  {
  }

  /** The positions of the fields in a serialized message with 6-byte addresses and a 12-byte nonce. */
  lemma WireFields(m: SecureMessage)
    requires FieldsFit(m) && Sized(m)
    ensures var w := Wire(m);
            && |w| == MIN_MESSAGE_SIZE + |m.ciphertext|
            && w[0] == m.version && w[1] == m.msgType && w[2..8] == m.src && w[8..14] == m.dst
            && w[14..18] == ToBE(m.sequence, 4) && w[18..26] == ToBE(m.timestamp, 8)
            && w[26..38] == m.nonce && w[38..40] == ToBE(|m.ciphertext|, 2) && w[40..] == m.ciphertext
  {
    Pow256Widths();
    OneByte(m.version);
    OneByte(m.msgType);
  }

  /** `deserialize(serialize(m))` is `m` with the default tag, for addresses and nonce of the sizes it reads. */
  lemma SerializeRoundTrip(m: SecureMessage)
    requires FieldsFit(m) && Sized(m)
    ensures Deserialize(Serialize(m).value) == Ok(m.(tag := DEFAULT_TAG))
  {
    Pow256Widths();
    var w := Wire(m);
    WireFields(m);
    BERoundTrip(m.sequence, 4);
    BERoundTrip(m.timestamp, 8);
    BERoundTrip(|m.ciphertext|, 2);
    assert w[40..40 + |m.ciphertext|] == m.ciphertext;
  }

  /** The header bytes of a message split at the field boundaries. */
  lemma HeaderSplit(data: Bytes)
    requires |data| >= MIN_MESSAGE_SIZE
    ensures data[..MIN_MESSAGE_SIZE] == [data[0]] + [data[1]] + data[2..8] + data[8..14] + data[14..18] + data[18..26]
                                        + data[26..38] + data[38..40]
  {
  }

  /** What `deserialize` accepts re-serializes to the bytes it read. */
  lemma DeserializeRoundTrip(data: Bytes)
    requires Deserialize(data).Ok?
    ensures var n := FromBE(data[38..40]);
            Serialize(Deserialize(data).value) == Ok(data[..MIN_MESSAGE_SIZE + n])
  {
    Pow256Widths();
    var m := Deserialize(data).value;
    var n := FromBE(data[38..40]);
    BEInjective(data[14..18]);
    BEInjective(data[18..26]);
    BEInjective(data[38..40]);
    OneByte(data[0]);
    OneByte(data[1]);
    HeaderSplit(data);
    assert Header(m) == data[..MIN_MESSAGE_SIZE];
    assert data[..MIN_MESSAGE_SIZE + n] == data[..MIN_MESSAGE_SIZE] + data[MIN_MESSAGE_SIZE..MIN_MESSAGE_SIZE + n];
  }

  /** `_build_aad`: version 1, type, addresses, sequence and timestamp. */
  function BuildAad(msgType: int, src: Bytes, dst: Bytes, sequence: int, timestamp: int): (r: Result<Bytes>)
    ensures r.Ok? <==> IsU8(msgType) && IsU32(sequence) && IsU64(timestamp)
  {
    Pow256Widths();
    if IsU8(msgType) && IsU32(sequence) && IsU64(timestamp) then
      Ok(ToBE(1, 1) + ToBE(msgType, 1) + src + dst + ToBE(sequence, 4) + ToBE(timestamp, 8))
    else Err("struct.error: argument out of range")
  }

  /** The AAD of a version-1 message is its serialized header up to the timestamp: every header field but the nonce and length is authenticated. */
  lemma AadIsHeaderPrefix(m: SecureMessage)
    requires FieldsFit(m) && m.version == 1
    ensures BuildAad(m.msgType, m.src, m.dst, m.sequence, m.timestamp).Ok?
    ensures var aad := BuildAad(m.msgType, m.src, m.dst, m.sequence, m.timestamp).value;
            aad == Serialize(m).value[..|aad|]
  {
  }

  // ---------------------------------------------------------------------------
  // Sequence numbers and the replay window
  // ---------------------------------------------------------------------------

  /** The sending counters and the received sequence numbers, both keyed by peer address or group key. */
  datatype Channel = Channel(nodeMac: Bytes, counters: map<Bytes, int>, received: map<Bytes, set<int>>)

  /** The constructor: a 6-byte address, no counters, nothing received. */
  function Create(nodeMac: Bytes): (r: Result<Channel>)
    ensures r.Ok? <==> |nodeMac| == 6
    ensures r.Ok? ==> r.value.nodeMac == nodeMac && r.value.counters == map[] && r.value.received == map[]
  {
    if |nodeMac| != 6 then Err("node_mac must be 6 bytes") else Ok(Channel(nodeMac, map[], map[]))
  }

  /** The last sequence number sent under `id`, 0 before the first. */
  function LastSent(c: Channel, id: Bytes): int
  {
    if id in c.counters then c.counters[id] else 0
  }

  /** `_get_next_sequence`: one past the last number sent under `id`; other counters are untouched. */
  function NextSequence(c: Channel, id: Bytes): (r: (Channel, int))
    ensures r.1 == LastSent(c, id) + 1 && LastSent(r.0, id) == r.1
    ensures forall other | other != id :: LastSent(r.0, other) == LastSent(c, other)
    ensures r.0 == c.(counters := r.0.counters)
  {
    var n := LastSent(c, id) + 1;
    (c.(counters := c.counters[id := n]), n)
  }

  /** Successive numbers under one id run 1, 2, 3, … from a fresh channel. */
  lemma SequencesCount(c: Channel, id: Bytes)
    requires id !in c.counters
    ensures NextSequence(c, id).1 == 1
    ensures NextSequence(NextSequence(c, id).0, id).1 == 2
  {
  }

  /** The sequence numbers remembered for `id`. */
  function Seen(c: Channel, id: Bytes): set<int>
  {
    if id in c.received then c.received[id] else {}
  }

  /** `_is_replay`. */
  predicate IsReplay(c: Channel, id: Bytes, sequence: int)
  {
    id in c.received && sequence in c.received[id]
  }

  lemma HasElement(s: set<int>)
    requires s != {}
    ensures exists x :: x in s
  {
    if forall x: int :: x !in s {
      assert false;
    }
  }

  /** A least element, found by removing one element and comparing it with the least of the rest. */
  lemma {:induction false} LeastOf(s: set<int>) returns (least: int)
    requires s != {}
    ensures least in s && forall y | y in s :: least <= y
    decreases |s|
  {
    HasElement(s);
    var x :| x in s;
    if s == {x} {
      least := x;
    } else {
      var m := LeastOf(s - {x});
      MinWith(s, x, m);
      least := if x < m then x else m;
    }
  }

  lemma SetMinExists(s: set<int>)
    requires s != {}
    ensures exists m :: m in s && forall y | y in s :: m <= y
  {
    var least := LeastOf(s);
  }

  /** The smaller of `x` and the least of the others is the least of all. */
  lemma MinWith(s: set<int>, x: int, m: int)
    requires x in s && m in s - {x} && forall y | y in s - {x} :: m <= y
    ensures var least := if x < m then x else m;
            least in s && forall y | y in s :: least <= y
  {
    var least := if x < m then x else m;
    forall y | y in s ensures least <= y {
      if y != x {
        assert y in s - {x};
      }
    }
  }

  /** The smallest element. */
  function SetMin(s: set<int>): (m: int)
    requires s != {}
    ensures m in s && forall y | y in s :: m <= y
  {
    SetMinExists(s);
    var m :| m in s && forall y | y in s :: m <= y;
    m
  }

  /**
   `set(sorted(s)[-k:])`: the `k` largest elements, or all of them when
   there are no more than `k`.
   */
  function KeepNewest(s: set<int>, k: nat): (r: set<int>)
    ensures r <= s && |r| == Min(|s|, k)
    ensures forall x, y | x in r && y in s - r :: y < x
    decreases |s|
  {
    if |s| <= k then s
    else
      var m := SetMin(s);
      var r := KeepNewest(s - {m}, k);
      assert forall x, y | x in r && y in s - r :: y < x by {
        forall x, y | x in r && y in s - r ensures y < x {
          if y != m {
            assert y in (s - {m}) - r;
          }
        }
      }
      r
  }

  /**
   `_record_sequence`: adds the number to those seen under `id` and, past
   the window size, keeps only the largest; other ids are untouched.
   */
  function RecordSequence(c: Channel, id: Bytes, sequence: int): (r: Channel)
    ensures r == c.(received := r.received) && id in r.received
    ensures forall other | other != id :: Seen(r, other) == Seen(c, other) && (other in r.received <==> other in c.received)
    ensures Seen(r, id) <= Seen(c, id) + {sequence}
    ensures |Seen(r, id)| == Min(|Seen(c, id) + {sequence}|, REPLAY_WINDOW_SIZE)
    ensures forall x, y | x in Seen(r, id) && y in (Seen(c, id) + {sequence}) - Seen(r, id) :: y < x
  {
    var s := Seen(c, id) + {sequence};
    var kept := if |s| > REPLAY_WINDOW_SIZE then KeepNewest(s, REPLAY_WINDOW_SIZE) else s;
    c.(received := c.received[id := kept])
  }

  /** A number larger than every one seen before is remembered. */
  lemma NewestIsRemembered(c: Channel, id: Bytes, sequence: int)
    requires forall y | y in Seen(c, id) :: y < sequence
    ensures IsReplay(RecordSequence(c, id, sequence), id, sequence)
  {
    var r := RecordSequence(c, id, sequence);
    var s := Seen(c, id) + {sequence};
    var kept := Seen(r, id);
    assert kept != {};
    HasElement(kept);
    var x :| x in kept;
    assert x <= sequence;
    assert sequence !in kept ==> sequence in s - kept;
  }

  /** While the window is not full, every recorded number is remembered. */
  lemma OpenWindowRemembers(c: Channel, id: Bytes, sequence: int)
    requires |Seen(c, id)| < REPLAY_WINDOW_SIZE
    ensures IsReplay(RecordSequence(c, id, sequence), id, sequence)
  {
  }

  /**
   Once the window is full, a number below all it holds is forgotten as
   soon as it is recorded, so the same message can be accepted again.
   */
  lemma BelowFullWindowForgotten(c: Channel, id: Bytes, sequence: int)
    requires |Seen(c, id)| >= REPLAY_WINDOW_SIZE
    requires forall y | y in Seen(c, id) :: sequence < y
    ensures !IsReplay(RecordSequence(c, id, sequence), id, sequence)
  {
    var s := Seen(c, id) + {sequence};
    var r := RecordSequence(c, id, sequence);
    assert sequence !in Seen(c, id);
    assert |s| == |Seen(c, id)| + 1;
    assert s - Seen(r, id) != {};
    HasElement(s - Seen(r, id));
  }

  /** `reset_sequence`: forgets the counter and the window of `id`. */
  function ResetSequence(c: Channel, id: Bytes): (r: Channel)
    ensures LastSent(r, id) == 0 && Seen(r, id) == {}
    ensures forall other | other != id :: LastSent(r, other) == LastSent(c, other) && Seen(r, other) == Seen(c, other)
    ensures r.nodeMac == c.nodeMac
  {
    c.(counters := c.counters - {id}, received := c.received - {id})
  }

  // ---------------------------------------------------------------------------
  // Point-to-point messages
  // ---------------------------------------------------------------------------

  /** The timestamp is at most 30 s old and at most 5 s ahead. */
  predicate Fresh(now: int, timestamp: int)
  {
    -MAX_CLOCK_SKEW_MS <= now - timestamp <= MAX_MESSAGE_AGE_MS
  }

  /** The AAD of a message as the receiver rebuilds it. */
  function AadOf(m: SecureMessage): Bytes
    requires FieldsFit(m)
  {
    BuildAad(m.msgType, m.src, m.dst, m.sequence, m.timestamp).value
  }

  /**
   `encrypt_p2p`: a 32-byte key and a 6-byte destination are required; the
   next sequence number for the destination is drawn before anything else
   can raise, so a later failure still consumes it.
   */
  function EncryptP2p(aead: Aead, c: Channel, plaintext: Bytes, key: Bytes, dst: Bytes, now: int, nonce: Bytes): (r: (Channel, Result<Bytes>))
    ensures |key| != 32 || |dst| != 6 ==> r == (c, Err("invalid key or destination size"))
    ensures |key| == 32 && |dst| == 6 ==> r.0 == NextSequence(c, dst).0
    ensures r.1.Ok? ==> var sequence := NextSequence(c, dst).1;
                        && BuildAad(MSG_TYPE_P2P, c.nodeMac, dst, sequence, now).Ok?
                        && var aad := BuildAad(MSG_TYPE_P2P, c.nodeMac, dst, sequence, now).value;
                           Serialize(SecureMessage(1, MSG_TYPE_P2P, c.nodeMac, dst, sequence, now, nonce,
                                                   aead.encrypt(key, nonce, plaintext, aad), DEFAULT_TAG)) == r.1
  {
    if |key| != 32 || |dst| != 6 then (c, Err("invalid key or destination size"))
    else
      var (c1, sequence) := NextSequence(c, dst);
      var aad := BuildAad(MSG_TYPE_P2P, c.nodeMac, dst, sequence, now);
      if aad.Err? then (c1, Err(aad.error))
      else
        var m := SecureMessage(1, MSG_TYPE_P2P, c.nodeMac, dst, sequence, now, nonce,
                               aead.encrypt(key, nonce, plaintext, aad.value), DEFAULT_TAG);
        (c1, Serialize(m))
  }

  /** The checks `decrypt_p2p` makes before decrypting: type, destination, freshness and replay. */
  predicate P2pAdmissible(c: Channel, m: SecureMessage, now: int)
  {
    m.msgType == MSG_TYPE_P2P && m.dst == c.nodeMac && Fresh(now, m.timestamp) && !IsReplay(c, m.src, m.sequence)
  }

  /**
   `decrypt_p2p`: the plaintext and the sender's address when the message
   parses, passes the checks and decrypts; the sender's number is then
   recorded. Any failure leaves the channel unchanged.
   */
  function DecryptP2p(aead: Aead, c: Channel, data: Bytes, key: Bytes, now: int): (r: (Channel, Option<(Bytes, Bytes)>))
    ensures r.1.None? ==> r.0 == c
    ensures r.1.Some? <==> Deserialize(data).Ok? && P2pAdmissible(c, Deserialize(data).value, now)
                           && aead.decrypt(key, Deserialize(data).value.nonce, Deserialize(data).value.ciphertext, AadOf(Deserialize(data).value)).Some?
    ensures r.1.Some? ==> var m := Deserialize(data).value;
                          r.1.value == (aead.decrypt(key, m.nonce, m.ciphertext, AadOf(m)).value, m.src)
                          && r.0 == RecordSequence(c, m.src, m.sequence)
  {
    var parsed := Deserialize(data);
    if parsed.Err? then (c, None)
    else
      var m := parsed.value;
      if m.msgType != MSG_TYPE_P2P then (c, None)
      else if m.dst != c.nodeMac then (c, None)
      else if now - m.timestamp > MAX_MESSAGE_AGE_MS then (c, None)
      else if now - m.timestamp < -MAX_CLOCK_SKEW_MS then (c, None)
      else if IsReplay(c, m.src, m.sequence) then (c, None)
      else
        var plaintext := aead.decrypt(key, m.nonce, m.ciphertext, AadOf(m));
        if plaintext.None? then (c, None)
        else (RecordSequence(c, m.src, m.sequence), Some((plaintext.value, m.src)))
  }

  /**
   A message one node encrypts for another is delivered: with the shared
   key, in time and not seen before, the receiver gets the plaintext and the
   sender's address.
   */
  lemma P2pDelivery(aead: Aead, sender: Channel, receiver: Channel, plaintext: Bytes, key: Bytes, now: int, later: int, nonce: Bytes)
    requires AeadSound(aead) && |key| == 32 && |nonce| == 12
    requires |sender.nodeMac| == 6 && |receiver.nodeMac| == 6
    requires EncryptP2p(aead, sender, plaintext, key, receiver.nodeMac, now, nonce).1.Ok?
    requires Fresh(later, now) && !IsReplay(receiver, sender.nodeMac, NextSequence(sender, receiver.nodeMac).1)
    ensures DecryptP2p(aead, receiver, EncryptP2p(aead, sender, plaintext, key, receiver.nodeMac, now, nonce).1.value, key, later).1
         == Some((plaintext, sender.nodeMac))
  {
    var sequence := NextSequence(sender, receiver.nodeMac).1;
    var aad := BuildAad(MSG_TYPE_P2P, sender.nodeMac, receiver.nodeMac, sequence, now).value;
    var m := SecureMessage(1, MSG_TYPE_P2P, sender.nodeMac, receiver.nodeMac, sequence, now, nonce,
                           aead.encrypt(key, nonce, plaintext, aad), DEFAULT_TAG);
    SerializeRoundTrip(m);
    assert Deserialize(Serialize(m).value) == Ok(m);
    assert AadOf(m) == aad;
  }

  /**
   A delivered message is refused when it comes again, as long as its
   number is newer than all remembered before or the window was not full.
   */
  lemma ReplayRefused(aead: Aead, c: Channel, data: Bytes, key: Bytes, now: int, later: int)
    requires DecryptP2p(aead, c, data, key, now).1.Some?
    requires var m := Deserialize(data).value;
             |Seen(c, m.src)| < REPLAY_WINDOW_SIZE || forall y | y in Seen(c, m.src) :: y < m.sequence
    ensures DecryptP2p(aead, DecryptP2p(aead, c, data, key, now).0, data, key, later).1.None?
  {
    var m := Deserialize(data).value;
    if |Seen(c, m.src)| < REPLAY_WINDOW_SIZE {
      OpenWindowRemembers(c, m.src, m.sequence);
    } else {
      NewestIsRemembered(c, m.src, m.sequence);
    }
  }

  // ---------------------------------------------------------------------------
  // Group messages
  // ---------------------------------------------------------------------------

  /** `_hash_group_id`: the first 6 bytes of SHA-256 of the group name's UTF-8 bytes. */
  function HashGroupId(p: Hkdf.Primitives, groupId: Bytes): (r: Bytes)
    requires Hkdf.Sound(p)
    ensures |r| == 6 && r == p.sha256(groupId)[..6]
  {
    p.sha256(groupId)[..6]
  }

  /** The key a group message's sequence number is remembered under: sender, colon, group hash. */
  function ReplayKey(src: Bytes, groupHash: Bytes): (r: Bytes)
    ensures |r| == |src| + 1 + |groupHash|
  {
    src + [COLON] + groupHash
  }

  /**
   Group replay keys of 6-byte senders and group hashes never collide with
   each other for different pairs, nor with a 6-byte peer address.
   */
  lemma ReplayKeyInjective(src: Bytes, g: Bytes, src': Bytes, g': Bytes, peer: Bytes)
    requires |src| == |src'| == 6 && |g| == |g'| == 6 && |peer| == 6
    ensures ReplayKey(src, g) == ReplayKey(src', g') ==> src == src' && g == g'
    ensures ReplayKey(src, g) != peer
  {
    if ReplayKey(src, g) == ReplayKey(src', g') {
      assert src == ReplayKey(src, g)[..6] && src' == ReplayKey(src', g')[..6];
      assert g == ReplayKey(src, g)[7..] && g' == ReplayKey(src', g')[7..];
    }
  }

  /** `encrypt_group`: a 32-byte key is required; the group's counter is keyed by its hash. */
  function EncryptGroup(aead: Aead, p: Hkdf.Primitives, c: Channel, plaintext: Bytes, key: Bytes, groupId: Bytes, now: int, nonce: Bytes): (r: (Channel, Result<Bytes>))
    requires Hkdf.Sound(p)
    ensures |key| != 32 ==> r == (c, Err("invalid group key size"))
    ensures |key| == 32 ==> r.0 == NextSequence(c, HashGroupId(p, groupId)).0
    ensures r.1.Ok? ==> var g := HashGroupId(p, groupId);
                        var sequence := NextSequence(c, g).1;
                        && BuildAad(MSG_TYPE_GROUP, c.nodeMac, g, sequence, now).Ok?
                        && var aad := BuildAad(MSG_TYPE_GROUP, c.nodeMac, g, sequence, now).value;
                           Serialize(SecureMessage(1, MSG_TYPE_GROUP, c.nodeMac, g, sequence, now, nonce,
                                                   aead.encrypt(key, nonce, plaintext, aad), DEFAULT_TAG)) == r.1
  {
    if |key| != 32 then (c, Err("invalid group key size"))
    else
      var g := HashGroupId(p, groupId);
      var (c1, sequence) := NextSequence(c, g);
      var aad := BuildAad(MSG_TYPE_GROUP, c.nodeMac, g, sequence, now);
      if aad.Err? then (c1, Err(aad.error))
      else
        var m := SecureMessage(1, MSG_TYPE_GROUP, c.nodeMac, g, sequence, now, nonce,
                               aead.encrypt(key, nonce, plaintext, aad.value), DEFAULT_TAG);
        (c1, Serialize(m))
  }

  /** The checks `decrypt_group` makes before decrypting. */
  predicate GroupAdmissible(c: Channel, m: SecureMessage, groupHash: Bytes, now: int)
  {
    m.msgType == MSG_TYPE_GROUP && m.dst == groupHash && Fresh(now, m.timestamp)
    && !IsReplay(c, ReplayKey(m.src, groupHash), m.sequence)
  }

  /** `decrypt_group`: as `decrypt_p2p`, with the group hash as destination and the replay key per sender and group. */
  function DecryptGroup(aead: Aead, p: Hkdf.Primitives, c: Channel, data: Bytes, key: Bytes, groupId: Bytes, now: int): (r: (Channel, Option<(Bytes, Bytes)>))
    requires Hkdf.Sound(p)
    ensures r.1.None? ==> r.0 == c
    ensures r.1.Some? <==> Deserialize(data).Ok? && GroupAdmissible(c, Deserialize(data).value, HashGroupId(p, groupId), now)
                           && aead.decrypt(key, Deserialize(data).value.nonce, Deserialize(data).value.ciphertext, AadOf(Deserialize(data).value)).Some?
    ensures r.1.Some? ==> var m := Deserialize(data).value;
                          r.1.value == (aead.decrypt(key, m.nonce, m.ciphertext, AadOf(m)).value, m.src)
                          && r.0 == RecordSequence(c, ReplayKey(m.src, HashGroupId(p, groupId)), m.sequence)
  {
    var parsed := Deserialize(data);
    if parsed.Err? then (c, None)
    else
      var m := parsed.value;
      var g := HashGroupId(p, groupId);
      if m.msgType != MSG_TYPE_GROUP then (c, None)
      else if m.dst != g then (c, None)
      else if now - m.timestamp > MAX_MESSAGE_AGE_MS then (c, None)
      else if now - m.timestamp < -MAX_CLOCK_SKEW_MS then (c, None)
      else
        var rk := ReplayKey(m.src, g);
        if IsReplay(c, rk, m.sequence) then (c, None)
        else
          var plaintext := aead.decrypt(key, m.nonce, m.ciphertext, AadOf(m));
          if plaintext.None? then (c, None)
          else (RecordSequence(c, rk, m.sequence), Some((plaintext.value, m.src)))
  }

  /** A group message reaches every member holding the group key and name, in time and not seen before. */
  lemma GroupDelivery(aead: Aead, p: Hkdf.Primitives, sender: Channel, receiver: Channel, plaintext: Bytes, key: Bytes,
                      groupId: Bytes, now: int, later: int, nonce: Bytes)
    requires AeadSound(aead) && Hkdf.Sound(p) && |key| == 32 && |nonce| == 12 && |sender.nodeMac| == 6
    requires EncryptGroup(aead, p, sender, plaintext, key, groupId, now, nonce).1.Ok?
    requires Fresh(later, now)
    requires !IsReplay(receiver, ReplayKey(sender.nodeMac, HashGroupId(p, groupId)), NextSequence(sender, HashGroupId(p, groupId)).1)
    ensures DecryptGroup(aead, p, receiver, EncryptGroup(aead, p, sender, plaintext, key, groupId, now, nonce).1.value, key, groupId, later).1
         == Some((plaintext, sender.nodeMac))
  {
    var g := HashGroupId(p, groupId);
    var sequence := NextSequence(sender, g).1;
    var aad := BuildAad(MSG_TYPE_GROUP, sender.nodeMac, g, sequence, now).value;
    var m := SecureMessage(1, MSG_TYPE_GROUP, sender.nodeMac, g, sequence, now, nonce,
                           aead.encrypt(key, nonce, plaintext, aad), DEFAULT_TAG);
    SerializeRoundTrip(m);
    assert Deserialize(Serialize(m).value) == Ok(m);
    assert AadOf(m) == aad;
  }
}

=== FILE: signatures.dfy ===
/**
 The synchronization layer's signatures (`crypto/signatures.py`): HMAC-SHA256
 signing with constant-time verification, and the stand-in "aggregate
 signature" that XORs equal-length tags together.
 */
module Signatures {
  import opened Wrappers
  import opened Bytes
  import Hkdf

  /** `SimpleHMAC.sign`. */
  function Sign(p: Hkdf.Primitives, key: Bytes, data: Bytes): (r: Bytes)
    requires Hkdf.Sound(p)
    ensures |r| == 32
  {
    p.hmac(key, data)
  }

  /** `hmac.compare_digest`: equal lengths and equal bytes. */
  predicate CompareDigest(a: Bytes, b: Bytes)
  {
    |a| == |b| && forall i | 0 <= i < |a| :: a[i] == b[i]
  }

  /** `SimpleHMAC.verify`: accepts exactly the tag `sign` produces. */
  function Verify(p: Hkdf.Primitives, key: Bytes, data: Bytes, signature: Bytes): (r: bool)
    requires Hkdf.Sound(p)
    ensures r <==> signature == Sign(p, key, data)
  {
    var expected := Sign(p, key, data);
    assert CompareDigest(expected, signature) <==> expected == signature;
    CompareDigest(expected, signature)
  }

  lemma SignThenVerify(p: Hkdf.Primitives, key: Bytes, data: Bytes)
    requires Hkdf.Sound(p)
    ensures Verify(p, key, data, Sign(p, key, data))
  {
  }

  // ---------------------------------------------------------------------------
  // XOR aggregation
  // ---------------------------------------------------------------------------

  /** Every signature has width `w`. */
  predicate Uniform(sigs: seq<Bytes>, w: nat)
  {
    forall k | 0 <= k < |sigs| :: |sigs[k]| == w
  }

  /** The reference: `w` zero bytes XORed with every signature in turn. */
  function XorAll(sigs: seq<Bytes>, w: nat): (r: Bytes)
    requires Uniform(sigs, w)
    ensures |r| == w
  {
    if |sigs| == 0 then Zeros(w) else XorBytes(XorAll(sigs[..|sigs| - 1], w), sigs[|sigs| - 1])
  }

  lemma XorBytesZeros(a: Bytes)
    ensures XorBytes(Zeros(|a|), a) == a
  {
    forall i | 0 <= i < |a|
      ensures XorBytes(Zeros(|a|), a)[i] == a[i]
    {
      XorByteFacts(a[i], 0, 0);
    }
  }

  /** Adding the same two signatures in either order gives the same bytes. */
  lemma XorBytesSwap(a: Bytes, b: Bytes, c: Bytes)
    requires |a| == |b| == |c|
    ensures XorBytes(XorBytes(a, b), c) == XorBytes(XorBytes(a, c), b)
  {
    forall i | 0 <= i < |a|
      ensures XorBytes(XorBytes(a, b), c)[i] == XorBytes(XorBytes(a, c), b)[i]
    {
      XorByteFacts(a[i], b[i], c[i]);
      XorByteFacts(a[i], c[i], b[i]);
      XorByteFacts(b[i], c[i], a[i]);
    }
  }

  function Remove<T>(s: seq<T>, j: nat): (r: seq<T>)
    requires j < |s|
    ensures |r| == |s| - 1
  {
    s[..j] + s[j + 1..]
  }

  /** Any one signature can be taken out of the fold and added last. */
  lemma {:induction false} XorAllRemove(sigs: seq<Bytes>, w: nat, j: nat)
    requires Uniform(sigs, w) && j < |sigs|
    ensures Uniform(Remove(sigs, j), w)
    ensures XorAll(sigs, w) == XorBytes(XorAll(Remove(sigs, j), w), sigs[j])
    decreases |sigs|
  {
    var n := |sigs|;
    var init := sigs[..n - 1];
    if j == n - 1 {
      assert Remove(sigs, j) == init;
    } else {
      XorAllRemove(init, w, j);
      var rest, rest' := Remove(init, j), Remove(sigs, j);
      assert rest' == rest + [sigs[n - 1]];
      assert rest'[..n - 2] == rest && rest'[n - 2] == sigs[n - 1];
      assert Uniform(rest', w);
      var x := XorAll(rest, w);
      assert XorAll(rest', w) == XorBytes(x, sigs[n - 1]);
      assert XorAll(init, w) == XorBytes(x, sigs[j]);
      XorBytesSwap(x, sigs[j], sigs[n - 1]);
    }
  }

  /** Taking the last of `a` and a matching element of `b` out of two permutations leaves permutations. */
  lemma RemoveMatching<T>(a: seq<T>, b: seq<T>, j: nat)
    requires multiset(a) == multiset(b) && 0 < |a| && j < |b| && b[j] == a[|a| - 1]
    ensures multiset(a[..|a| - 1]) == multiset(Remove(b, j))
  {
    assert a == a[..|a| - 1] + [a[|a| - 1]];
    assert multiset(a) == multiset(a[..|a| - 1]) + multiset{b[j]};
    assert b == b[..j] + [b[j]] + b[j + 1..];
    assert multiset(b) == multiset(b[..j]) + multiset{b[j]} + multiset(b[j + 1..]);
    assert multiset(Remove(b, j)) == multiset(b[..j]) + multiset(b[j + 1..]);
    assert multiset(a[..|a| - 1]) == multiset(a) - multiset{b[j]};
    assert multiset(Remove(b, j)) == multiset(b) - multiset{b[j]};
  }

  /** The aggregate does not depend on the order of the signatures. */
  lemma {:induction false} XorAllOrderIndependent(a: seq<Bytes>, b: seq<Bytes>, w: nat)
    requires Uniform(a, w) && Uniform(b, w)
    requires multiset(a) == multiset(b)
    ensures XorAll(a, w) == XorAll(b, w)
    decreases |a|
  {
    if |a| > 0 {
      var n := |a|;
      assert a[n - 1] in multiset(b);
      var j :| 0 <= j < |b| && b[j] == a[n - 1];
      XorAllRemove(b, w, j);
      RemoveMatching(a, b, j);
      XorAllOrderIndependent(a[..n - 1], Remove(b, j), w);
    } else {
      assert |b| == |multiset(b)| == 0;
    }
  }

  const LENGTH_MISMATCH := "Signature length mismatch"

  /** The loop of `aggregate` from index `k` on, with the running XOR in `acc`. */
  function AggregateFrom(acc: Bytes, sigs: seq<Bytes>, k: nat): (r: Result<Bytes>)
    requires 1 <= k <= |sigs| && Uniform(sigs[..k], |acc|)
    requires acc == XorAll(sigs[..k], |acc|)
    ensures r.Ok? <==> Uniform(sigs, |acc|)
    ensures r.Ok? ==> r.value == XorAll(sigs, |acc|)
    ensures r.Err? ==> r.error == LENGTH_MISMATCH
    decreases |sigs| - k
  {
    if k == |sigs| then
      assert sigs[..k] == sigs;
      Ok(acc)
    else if |sigs[k]| != |acc| then
      Err(LENGTH_MISMATCH)
    else
      assert sigs[..k + 1][..k] == sigs[..k];
      AggregateFrom(XorBytes(acc, sigs[k]), sigs, k + 1)
  }

  /**
   `AggregateSignature.aggregate`: empty for no signatures; otherwise the
   byte-wise XOR of all of them, raising when any length differs from the first.
   */
  function Aggregate(sigs: seq<Bytes>): (r: Result<Bytes>)
    ensures |sigs| == 0 ==> r == Ok([])
    ensures |sigs| > 0 ==> (r.Ok? <==> Uniform(sigs, |sigs[0]|))
    ensures |sigs| > 0 && r.Ok? ==> r.value == XorAll(sigs, |sigs[0]|)
    ensures r.Err? ==> r.error == LENGTH_MISMATCH
  {
    if |sigs| == 0 then Ok([])
    else
      assert sigs[..1][..0] == [];
      XorBytesZeros(sigs[0]);
      AggregateFrom(sigs[0], sigs, 1)
  }

  /** Reordering the signatures never changes the aggregate or whether it raises. */
  lemma AggregateOrderIndependent(a: seq<Bytes>, b: seq<Bytes>)
    requires multiset(a) == multiset(b)
    ensures Aggregate(a) == Aggregate(b)
  {
    assert |a| == |multiset(a)| == |multiset(b)| == |b|;
    if |a| > 0 {
      var w := |a[0]|;
      assert a[0] in multiset(b);
      assert b[0] in multiset(a);
      if Uniform(a, w) {
        assert Uniform(b, w) by {
          forall k | 0 <= k < |b| ensures |b[k]| == w {
            assert b[k] in multiset(a);
          }
        }
        XorAllOrderIndependent(a, b, w);
      } else {
        var k :| 0 <= k < |a| && |a[k]| != w;
        assert a[k] in multiset(b) && a[0] in multiset(b);
        var i :| 0 <= i < |b| && b[i] == a[0];
        var i' :| 0 <= i' < |b| && b[i'] == a[k];
        assert |b[i]| != |b[i']|;
      }
    }
  }

  /** The individual tags `[sign_k(data) for k in keys]`. */
  function SignAll(p: Hkdf.Primitives, keys: seq<Bytes>, data: Bytes): (r: seq<Bytes>)
    requires Hkdf.Sound(p)
    ensures |r| == |keys| && Uniform(r, 32)
    ensures forall k | 0 <= k < |keys| :: r[k] == Sign(p, keys[k], data)
  {
    seq(|keys|, k requires 0 <= k < |keys| => Sign(p, keys[k], data))
  }

  /**
   `verify_aggregate`: recomputes every key's tag, aggregates them and compares.
   The tags are all 32 bytes, so the aggregation cannot raise. The optional
   `threshold` argument is never read and is not modelled.
   */
  function VerifyAggregate(p: Hkdf.Primitives, data: Bytes, aggregateSig: Bytes, keys: seq<Bytes>): (r: bool)
    requires Hkdf.Sound(p)
    ensures r <==> (|keys| == 0 && aggregateSig == []) || (|keys| > 0 && aggregateSig == XorAll(SignAll(p, keys, data), 32))
  {
    var expected := Aggregate(SignAll(p, keys, data));
    assert CompareDigest(expected.value, aggregateSig) <==> expected.value == aggregateSig;
    CompareDigest(expected.value, aggregateSig)
  }

  lemma AggregateThenVerify(p: Hkdf.Primitives, keys: seq<Bytes>, data: Bytes)
    requires Hkdf.Sound(p)
    ensures Aggregate(SignAll(p, keys, data)).Ok?
    ensures VerifyAggregate(p, data, Aggregate(SignAll(p, keys, data)).value, keys)
  {
  }

  /** `compute_hmac_tag`: feeding the parts to HMAC one by one is HMAC of their concatenation. */
  function ComputeHmacTag(p: Hkdf.Primitives, key: Bytes, parts: seq<Bytes>): (r: Bytes)
    requires Hkdf.Sound(p)
    ensures |r| == 32
    ensures |parts| == 1 ==> r == Sign(p, key, parts[0])
  {
    assert |parts| == 1 ==> parts[..0] == [] && Join(parts) == parts[0];
    p.hmac(key, Join(parts))
  }
}

=== FILE: swarm_manager.dfy ===
/**
 The UAV swarm manager (`src/uav_swarm_manager.py`): the members of a
 group, kept in insertion order, and the group key, derived by SHA-256 from
 the active members' session keys and re-derived on every rotation with a
 version counter.

 The peer verifier's registration and verification are parameters (their
 outcome is an input), as are clock readings; SHA-256 comes from the shared
 primitives. The group name is its UTF-8 bytes.
 */
module UavSwarmManager {
  import opened Wrappers
  import opened Bytes
  import Hkdf

  // ---------------------------------------------------------------------------
  // Byte-string order and sorting
  // ---------------------------------------------------------------------------

  /** Python's `bytes` ordering: byte by byte, with a proper prefix first. */
  predicate LexLe(a: Bytes, b: Bytes)
    decreases |a|
  {
    |a| == 0 || (|b| > 0 && (a[0] < b[0] || (a[0] == b[0] && LexLe(a[1..], b[1..]))))
  }

  lemma {:induction false} LexTotal(a: Bytes, b: Bytes)
    ensures LexLe(a, b) || LexLe(b, a)
    decreases |a|
  {
    if |a| > 0 && |b| > 0 && a[0] == b[0] {
      LexTotal(a[1..], b[1..]);
    }
  }

  lemma {:induction false} LexAntisymmetric(a: Bytes, b: Bytes)
    requires LexLe(a, b) && LexLe(b, a)
    ensures a == b
    decreases |a|
  {
    if |a| > 0 {
      LexAntisymmetric(a[1..], b[1..]);
      assert a == [a[0]] + a[1..] && b == [b[0]] + b[1..];
    }
  }

  lemma {:induction false} LexTransitive(a: Bytes, b: Bytes, c: Bytes)
    requires LexLe(a, b) && LexLe(b, c)
    ensures LexLe(a, c)
    decreases |a|
  {
    if |a| > 0 && a[0] == b[0] && b[0] == c[0] {
      LexTransitive(a[1..], b[1..], c[1..]);
    }
  }

  predicate Sorted(s: seq<Bytes>)
  {
    forall i, j | 0 <= i < j < |s| :: LexLe(s[i], s[j])
  }

  /** Inserts `x` into a sorted list at its place. */
  function Insert(x: Bytes, s: seq<Bytes>): (r: seq<Bytes>)
    requires Sorted(s)
    ensures Sorted(r) && multiset(r) == multiset(s) + multiset{x}
  {
    if |s| == 0 then [x]
    else if LexLe(x, s[0]) then
      BelowHead(x, s);
      ConsSorted(x, s);
      assert s == [s[0]] + s[1..];
      [x] + s
    else
      LexTotal(x, s[0]);
      var rest := Insert(x, s[1..]);
      assert s == [s[0]] + s[1..];
      HeadBelowRest(s, x, rest);
      ConsSorted(s[0], rest);
      [s[0]] + rest
  }

  /** Below the head of a sorted list is below all of it. */
  lemma BelowHead(x: Bytes, s: seq<Bytes>)
    requires Sorted(s) && |s| > 0 && LexLe(x, s[0])
    ensures forall k | 0 <= k < |s| :: LexLe(x, s[k])
  {
    forall k | 0 < k < |s| ensures LexLe(x, s[k]) {
      LexTransitive(x, s[0], s[k]);
    }
  }

  /** The head of a sorted list lies below the rest with `x` put in, when it lies below `x`. */
  lemma HeadBelowRest(s: seq<Bytes>, x: Bytes, rest: seq<Bytes>)
    requires Sorted(s) && |s| > 0 && LexLe(s[0], x) && multiset(rest) == multiset(s[1..]) + multiset{x}
    ensures forall k | 0 <= k < |rest| :: LexLe(s[0], rest[k])
  {
    forall k | 0 <= k < |rest| ensures LexLe(s[0], rest[k]) {
      assert rest[k] in multiset(rest);
      if rest[k] != x {
        assert rest[k] in s[1..];
        var m :| 0 <= m < |s[1..]| && s[1..][m] == rest[k];
        assert s[m + 1] == rest[k];
      }
    }
  }

  lemma ConsSorted(y: Bytes, r: seq<Bytes>)
    requires Sorted(r) && forall k | 0 <= k < |r| :: LexLe(y, r[k])
    ensures Sorted([y] + r)
  {
    var t := [y] + r;
    forall i, j | 0 <= i < j < |t| ensures LexLe(t[i], t[j]) {
      if i > 0 {
        assert t[i] == r[i - 1] && t[j] == r[j - 1];
      } else {
        assert t[j] == r[j - 1];
      }
    }
  }

  /** `sorted`: the keys in ascending byte order. */
  function Sort(s: seq<Bytes>): (r: seq<Bytes>)
    ensures Sorted(r) && multiset(r) == multiset(s)
  {
    if |s| == 0 then []
    else
      assert s == [s[0]] + s[1..];
      Insert(s[0], Sort(s[1..]))
  }

  /** A list of byte strings has one sorted arrangement. */
  lemma {:induction false} SortedUnique(a: seq<Bytes>, b: seq<Bytes>)
    requires Sorted(a) && Sorted(b) && multiset(a) == multiset(b)
    ensures a == b
    decreases |a|
  {
    assert |a| == |multiset(a)| == |multiset(b)| == |b|;
    if |a| > 0 {
      SortedHeads(a, b);
      MultisetTail(a, b);
      SortedUnique(a[1..], b[1..]);
      assert a == [a[0]] + a[1..] && b == [b[0]] + b[1..];
    }
  }

  /** Sorted lists with the same elements start with the same element. */
  lemma SortedHeads(a: seq<Bytes>, b: seq<Bytes>)
    requires Sorted(a) && Sorted(b) && multiset(a) == multiset(b) && |a| > 0 && |b| > 0
    ensures a[0] == b[0]
  {
    assert a[0] in multiset(b) && b[0] in multiset(a);
    var j :| 0 <= j < |b| && b[j] == a[0];
    var i :| 0 <= i < |a| && a[i] == b[0];
    if a[0] != b[0] {
      assert LexLe(a[0], a[i]) && LexLe(b[0], b[j]);
      LexAntisymmetric(a[0], b[0]);
    }
  }

  lemma MultisetTail<T>(a: seq<T>, b: seq<T>)
    requires |a| > 0 && |b| > 0 && a[0] == b[0] && multiset(a) == multiset(b)
    ensures multiset(a[1..]) == multiset(b[1..])
  {
    var x := a[0];
    assert a == [x] + a[1..] && b == [x] + b[1..];
    var A, B := multiset(a[1..]), multiset(b[1..]);
    assert multiset{x} + A == multiset{x} + B;
    forall e ensures A[e] == B[e] {
      assert (multiset{x} + A)[e] == (multiset{x} + B)[e];
    }
  }


  // ---------------------------------------------------------------------------
  // Members
  // ---------------------------------------------------------------------------

  /** `UAVMemberInfo`. */
  datatype Member = Member(
    nodeMac: Bytes,
    featureKey: Bytes,
    sessionKey: Option<Bytes>,
    matToken: Option<Bytes>,
    joinedAt: int,
    lastSeen: int,
    epoch: int,
    authCount: int,
    isActive: bool)

  /** The manager: `members` is the member dictionary in insertion order. */
  datatype Swarm = Swarm(
    coordinatorMac: Bytes,
    coordinatorKey: Bytes,
    groupId: Bytes,
    memberTimeout: int,
    rotationInterval: int,
    members: seq<Member>,
    groupKey: Option<Bytes>,
    version: int,
    lastRotation: int)

  predicate HasMac(ms: seq<Member>, mac: Bytes)
  {
    exists m | m in ms :: m.nodeMac == mac
  }

  /** The dictionary's keys are distinct. */
  predicate UniqueMacs(ms: seq<Member>)
  {
    forall i, j | 0 <= i < j < |ms| :: ms[i].nodeMac != ms[j].nodeMac
  }

  /** The members `keep` accepts, in their order. */
  function Filter(ms: seq<Member>, keep: Member -> bool): (r: seq<Member>)
    ensures |r| <= |ms|
    ensures forall m :: m in r <==> m in ms && keep(m)
    ensures UniqueMacs(ms) ==> UniqueMacs(r)
  {
    if |ms| == 0 then []
    else
      var rest := Filter(ms[1..], keep);
      MembersCons(ms);
      if keep(ms[0]) then
        assert UniqueMacs(ms) ==> UniqueMacs([ms[0]] + rest) by {
          if UniqueMacs(ms) {
            HeadUnique(ms, rest);
          }
        }
        [ms[0]] + rest
      else
        rest
  }

  /** A non-empty list is its head and its tail. */
  lemma MembersCons(ms: seq<Member>)
    requires |ms| > 0
    ensures forall m :: m in ms <==> m == ms[0] || m in ms[1..]
    ensures UniqueMacs(ms) ==> UniqueMacs(ms[1..])
  {
    assert ms == [ms[0]] + ms[1..];
  }

  /** The head of a list with distinct ids, put before members of its tail with distinct ids, keeps them distinct. */
  lemma HeadUnique(ms: seq<Member>, rest: seq<Member>)
    requires UniqueMacs(ms) && |ms| > 0 && UniqueMacs(rest) && forall m | m in rest :: m in ms[1..]
    ensures UniqueMacs([ms[0]] + rest)
  {
    forall k | 0 <= k < |rest| ensures rest[k].nodeMac != ms[0].nodeMac {
      assert rest[k] in ms[1..];
      var m :| 0 <= m < |ms[1..]| && ms[1..][m] == rest[k];
      assert ms[m + 1] == rest[k];
    }
    var t := [ms[0]] + rest;
    forall i, j | 0 <= i < j < |t| ensures t[i].nodeMac != t[j].nodeMac {
      assert t[j] == rest[j - 1];
      if i > 0 {
        assert t[i] == rest[i - 1];
      }
    }
  }

  /** The members without the one keyed by `mac`. */
  function Without(ms: seq<Member>, mac: Bytes): (r: seq<Member>)
  {
    Filter(ms, (m: Member) => m.nodeMac != mac)
  }

  /** How `Replace` changes the member it finds. */
  datatype Change =
    | MarkInactive
    | Touch(now: int)
    | Authenticate(now: int, sessionKey: Option<Bytes>, token: Option<Bytes>)

  /** The change applied to one member: never its id. */
  function Apply(c: Change, m: Member): (r: Member)
    ensures r.nodeMac == m.nodeMac
  {
    match c
    case MarkInactive => m.(isActive := false)
    case Touch(now) => m.(lastSeen := now)
    case Authenticate(now, sessionKey, token) =>
      m.(lastSeen := now, sessionKey := sessionKey, matToken := token, authCount := m.authCount + 1)
  }

  /** The members with the one keyed by `mac` changed by `c`; the ids stay as they were. */
  function Replace(ms: seq<Member>, mac: Bytes, c: Change): (r: seq<Member>)
    ensures |r| == |ms|
    ensures forall i | 0 <= i < |ms| :: r[i] == if ms[i].nodeMac == mac then Apply(c, ms[i]) else ms[i]
    ensures Macs(r) == Macs(ms)
    ensures UniqueMacs(ms) ==> UniqueMacs(r)
  {
    if |ms| == 0 then []
    else [if ms[0].nodeMac == mac then Apply(c, ms[0]) else ms[0]] + Replace(ms[1..], mac, c)
  }

  /** `members.get(mac)`. */
  function Find(ms: seq<Member>, mac: Bytes): (r: Option<Member>)
    ensures r.None? <==> !HasMac(ms, mac)
    ensures r.Some? ==> r.value in ms && r.value.nodeMac == mac
  {
    if |ms| == 0 then None
    else if ms[0].nodeMac == mac then Some(ms[0])
    else
      assert forall m | m in ms :: m == ms[0] || m in ms[1..];
      Find(ms[1..], mac)
  }

  /** The node ids of `ms`, in order. */
  function Macs(ms: seq<Member>): (r: seq<Bytes>)
    ensures |r| == |ms| && forall i | 0 <= i < |ms| :: r[i] == ms[i].nodeMac
  {
    seq(|ms|, i requires 0 <= i < |ms| => ms[i].nodeMac)
  }

  lemma MacsOf(ms: seq<Member>)
    ensures forall mac :: mac in Macs(ms) <==> exists m | m in ms :: m.nodeMac == mac
  {
    forall mac | mac in Macs(ms) ensures exists m | m in ms :: m.nodeMac == mac {
      var i :| 0 <= i < |ms| && Macs(ms)[i] == mac;
      assert ms[i] in ms;
    }
    forall mac | exists m | m in ms :: m.nodeMac == mac ensures mac in Macs(ms) {
      var m :| m in ms && m.nodeMac == mac;
      var i :| 0 <= i < |ms| && ms[i] == m;
      assert Macs(ms)[i] == mac;
    }
  }

  /** A member whose session key takes part in the group key: active, with a non-empty session key. */
  predicate Contributes(m: Member)
  {
    m.isActive && m.sessionKey.Some? && |m.sessionKey.value| > 0
  }

  /** The session keys `_rotate_group_key` collects, in member order. */
  function ActiveSessionKeys(ms: seq<Member>): (r: seq<Bytes>)
    ensures |r| <= |ms|
    ensures forall k :: k in r <==> exists m | m in ms :: Contributes(m) && m.sessionKey.value == k
  {
    if |ms| == 0 then []
    else
      assert forall m | m in ms :: m == ms[0] || m in ms[1..];
      (if Contributes(ms[0]) then [ms[0].sessionKey.value] else []) + ActiveSessionKeys(ms[1..])
  }

  // ---------------------------------------------------------------------------
  // The group key
  // ---------------------------------------------------------------------------

  /**
   `_derive_group_key`: SHA-256 of the group name, the sorted session keys
   joined (or the coordinator's key when there are none) and the version as
   4 little-endian bytes, which raises outside 32 bits.
   */
  function DeriveGroupKey(p: Hkdf.Primitives, groupId: Bytes, keys: seq<Bytes>, coordinatorKey: Bytes, version: int): (r: Result<Bytes>)
    requires Hkdf.Sound(p)
    ensures r.Ok? <==> IsU32(version)
    ensures r.Ok? ==> |r.value| == 32
  {
    var base := if |keys| == 0 then coordinatorKey else Join(Sort(keys));
    var v :- PackLE(version, 4);
    Ok(p.sha256(groupId + base + v))
  }

  /** The group key does not depend on the order the session keys were collected in. */
  lemma DeriveOrderIndependent(p: Hkdf.Primitives, groupId: Bytes, keys: seq<Bytes>, keys': seq<Bytes>, coordinatorKey: Bytes, version: int)
    requires Hkdf.Sound(p) && multiset(keys) == multiset(keys')
    ensures DeriveGroupKey(p, groupId, keys, coordinatorKey, version) == DeriveGroupKey(p, groupId, keys', coordinatorKey, version)
  {
    assert |keys| == |multiset(keys)| == |keys'|;
    SortedUnique(Sort(keys), Sort(keys'));
  }

  /** With no contributing member the key is derived from the coordinator's key. */
  lemma EmptyGroupUsesCoordinatorKey(p: Hkdf.Primitives, groupId: Bytes, coordinatorKey: Bytes, version: int)
    requires Hkdf.Sound(p) && IsU32(version)
    ensures DeriveGroupKey(p, groupId, [], coordinatorKey, version) == Ok(p.sha256(groupId + coordinatorKey + ToLE(version, 4)))
  {
  }

  /**
   `_rotate_group_key`: the key derived from the active members' session
   keys under the current version, then the version incremented and the
   rotation time stamped. Nothing changes when the derivation raises.
   */
  function RotateGroupKey(p: Hkdf.Primitives, s: Swarm, now: int): (r: Result<Swarm>)
    requires Hkdf.Sound(p)
    ensures r.Ok? <==> IsU32(s.version)
    ensures r.Ok? ==> r.value == s.(groupKey := r.value.groupKey, version := s.version + 1, lastRotation := now)
    ensures r.Ok? ==> r.value.groupKey == Some(DeriveGroupKey(p, s.groupId, ActiveSessionKeys(s.members), s.coordinatorKey, s.version).value)
  {
    var key :- DeriveGroupKey(p, s.groupId, ActiveSessionKeys(s.members), s.coordinatorKey, s.version);
    Ok(s.(groupKey := Some(key), version := s.version + 1, lastRotation := now))
  }

  /** The constructor: no members and one rotation, so version 1 and a key from the coordinator's. */
  function Create(p: Hkdf.Primitives, coordinatorMac: Bytes, coordinatorKey: Bytes, groupId: Bytes,
                  memberTimeout: int, rotationInterval: int, now: int): (r: Swarm)
    requires Hkdf.Sound(p)
    ensures r.members == [] && r.version == 1 && r.lastRotation == now
    ensures r.groupKey == Some(p.sha256(groupId + coordinatorKey + [0, 0, 0, 0]))
  {
    Pow256Widths();
    var s := Swarm(coordinatorMac, coordinatorKey, groupId, memberTimeout, rotationInterval, [], None, 0, now);
    assert ToLE(0, 4) == [0, 0, 0, 0];
    RotateGroupKey(p, s, now).value
  }

  /** `update_group_key`: one rotation. */
  function UpdateGroupKey(p: Hkdf.Primitives, s: Swarm, now: int): (r: Result<Swarm>)
    requires Hkdf.Sound(p)
    ensures r.Ok? ==> r.value.version == s.version + 1 && r.value.members == s.members
  {
    RotateGroupKey(p, s, now)
  }

  /** `auto_rotate_group_key_if_needed`: a rotation once the interval has passed. */
  function AutoRotate(p: Hkdf.Primitives, s: Swarm, now: int): (r: (Swarm, Result<bool>))
    requires Hkdf.Sound(p)
    ensures r.1 == Ok(true) <==> now - s.lastRotation > s.rotationInterval && IsU32(s.version)
    ensures r.1 == Ok(true) ==> r.0.version == s.version + 1
    ensures r.1 != Ok(true) ==> r.0 == s
  {
    if now - s.lastRotation > s.rotationInterval then
      var rotated := RotateGroupKey(p, s, now);
      if rotated.Err? then (s, Err(rotated.error)) else (rotated.value, Ok(true))
    else (s, Ok(false))
  }

  // ---------------------------------------------------------------------------
  // Membership
  // ---------------------------------------------------------------------------

  /**
   `add_member`: refused for an existing member or when the verifier refuses
   the registration (`registered`); otherwise the member is appended, active,
   joined and seen now, with no authentication yet. The key is not rotated.
   */
  function AddMember(s: Swarm, mac: Bytes, featureKey: Bytes, epoch: int, sessionKey: Option<Bytes>, matToken: Option<Bytes>,
                     registered: bool, now: int): (r: (Swarm, bool))
    ensures r.1 <==> !HasMac(s.members, mac) && registered
    ensures !r.1 ==> r.0 == s
    ensures r.1 ==> r.0 == s.(members := s.members + [Member(mac, featureKey, sessionKey, matToken, now, now, epoch, 0, true)])
  {
    if HasMac(s.members, mac) then (s, false)
    else if !registered then (s, false)
    else (s.(members := s.members + [Member(mac, featureKey, sessionKey, matToken, now, now, epoch, 0, true)]), true)
  }

  /** `remove_member`: the member leaves; the group key is not rotated. */
  function RemoveMember(s: Swarm, mac: Bytes): (r: (Swarm, bool))
    ensures r.1 <==> HasMac(s.members, mac)
    ensures !HasMac(r.0.members, mac)
    ensures forall m :: m in r.0.members <==> m in s.members && m.nodeMac != mac
    ensures r.0 == s.(members := r.0.members)
  {
    if !HasMac(s.members, mac) then (s, false)
    else (s.(members := Without(s.members, mac)), true)
  }

  /**
   `revoke_member`: the member is marked inactive, the key rotated without
   it, and then it leaves. When the rotation raises, the member stays, marked
   inactive.
   */
  function RevokeMember(p: Hkdf.Primitives, s: Swarm, mac: Bytes, now: int): (r: (Swarm, Result<bool>))
    requires Hkdf.Sound(p)
    ensures !HasMac(s.members, mac) ==> r == (s, Ok(false))
    ensures r.1.Err? ==> r.0 == s.(members := Replace(s.members, mac, MarkInactive))
    ensures r.1 == Ok(true) ==> !HasMac(r.0.members, mac) && r.0.version == s.version + 1
  {
    if !HasMac(s.members, mac) then (s, Ok(false))
    else
      var marked := s.(members := Replace(s.members, mac, MarkInactive));
      var rotated := RotateGroupKey(p, marked, now);
      if rotated.Err? then (marked, Err(rotated.error))
      else (rotated.value.(members := Without(rotated.value.members, mac)), Ok(true))
  }

  /** Marking a member inactive drops its session key from those the key is derived from. */
  lemma {:induction false} DeactivatedKeyExcluded(ms: seq<Member>, mac: Bytes)
    ensures ActiveSessionKeys(Replace(ms, mac, MarkInactive)) == ActiveSessionKeys(Without(ms, mac))
  {
    if |ms| > 0 {
      var r := Replace(ms, mac, MarkInactive);
      var w := Without(ms[1..], mac);
      assert r[1..] == Replace(ms[1..], mac, MarkInactive);
      DeactivatedKeyExcluded(ms[1..], mac);
      KeysCons(r);
      WithoutCons(ms, mac);
      if ms[0].nodeMac != mac {
        assert r[0] == ms[0];
        KeysCons([ms[0]] + w);
        assert ([ms[0]] + w)[1..] == w;
      }
    }
  }

  lemma KeysCons(ms: seq<Member>)
    requires |ms| > 0
    ensures ActiveSessionKeys(ms) == (if Contributes(ms[0]) then [ms[0].sessionKey.value] else []) + ActiveSessionKeys(ms[1..])
  {
  }

  lemma WithoutCons(ms: seq<Member>, mac: Bytes)
    requires |ms| > 0
    ensures Without(ms, mac) == (if ms[0].nodeMac == mac then [] else [ms[0]]) + Without(ms[1..], mac)
  {
  }

  /** Removing a member after marking it inactive leaves the others exactly as they were. */
  lemma {:induction false} WithoutDeactivated(ms: seq<Member>, mac: Bytes)
    ensures Without(Replace(ms, mac, MarkInactive), mac) == Without(ms, mac)
  {
    if |ms| > 0 {
      WithoutDeactivated(ms[1..], mac);
      assert Replace(ms, mac, MarkInactive)[1..] == Replace(ms[1..], mac, MarkInactive);
    }
  }

  /**
   A revocation leaves the other members untouched and derives the new key
   from their session keys alone: the revoked member's key does not enter it.
   */
  lemma RevokeExcludesMember(p: Hkdf.Primitives, s: Swarm, mac: Bytes, now: int)
    requires Hkdf.Sound(p) && HasMac(s.members, mac) && IsU32(s.version)
    ensures var r := RevokeMember(p, s, mac, now);
            && r.1 == Ok(true)
            && r.0.members == Without(s.members, mac)
            && r.0.groupKey == Some(DeriveGroupKey(p, s.groupId, ActiveSessionKeys(Without(s.members, mac)), s.coordinatorKey, s.version).value)
  {
    DeactivatedKeyExcluded(s.members, mac);
    WithoutDeactivated(s.members, mac);
  }

  /** `update_member_activity`: the member is seen now. */
  function UpdateMemberActivity(s: Swarm, mac: Bytes, now: int): (r: (Swarm, bool))
    ensures r.1 <==> HasMac(s.members, mac)
    ensures !r.1 ==> r.0 == s
    ensures r.1 ==> r.0 == s.(members := Replace(s.members, mac, Touch(now)))
  {
    if !HasMac(s.members, mac) then (s, false)
    else (s.(members := Replace(s.members, mac, Touch(now))), true)
  }

  /** Idle for longer than the member timeout. */
  predicate Idle(s: Swarm, m: Member, now: int)
  {
    now - m.lastSeen > s.memberTimeout
  }

  /** The members still within the timeout, in order. */
  function Kept(s: Swarm, now: int): (r: seq<Member>)
    ensures forall m :: m in r <==> m in s.members && !Idle(s, m, now)
    ensures UniqueMacs(s.members) ==> UniqueMacs(r)
  {
    Filter(s.members, (m: Member) => !Idle(s, m, now))
  }

  /** The ids of the idle members, in order. */
  function IdleIds(s: Swarm, now: int): (r: seq<Bytes>)
    ensures forall mac :: mac in r <==> exists m | m in s.members :: Idle(s, m, now) && m.nodeMac == mac
  {
    var idle := Filter(s.members, (m: Member) => Idle(s, m, now));
    MacsOf(idle);
    Macs(idle)
  }

  /**
   `cleanup_inactive_members`: the idle members leave and their ids are
   returned in order; the key is rotated when any left. When the rotation
   raises, they have left all the same.
   */
  function CleanupInactive(p: Hkdf.Primitives, s: Swarm, now: int): (r: (Swarm, Result<seq<Bytes>>))
    requires Hkdf.Sound(p)
    ensures forall m :: m in r.0.members <==> m in s.members && !Idle(s, m, now)
    ensures r.1.Ok? ==> r.1.value == IdleIds(s, now)
    ensures r.1.Ok? ==> r.0.version == if r.1.value == [] then s.version else s.version + 1
    ensures r.1.Err? ==> r.0.version == s.version && (exists m | m in s.members :: Idle(s, m, now))
  {
    var removed := IdleIds(s, now);
    if |removed| == 0 then (s.(members := Kept(s, now)), Ok([]))
    else
      assert removed[0] in removed;
      var rotated := RotateGroupKey(p, s.(members := Kept(s, now)), now);
      if rotated.Err? then (s.(members := Kept(s, now)), Err(rotated.error))
      else (rotated.value, Ok(removed))
  }

  /** What `verify` of the peer verifier answered: success, the node id, session key and token. */
  datatype AuthResponse = AuthResponse(success: bool, nodeId: Option<Bytes>, sessionKey: Option<Bytes>, token: Option<Bytes>)

  /**
   `verify_member`: a successful answer naming a member updates that
   member's session key, token, last-seen time and count; a successful answer
   naming a stranger is reported with its id but changes nothing; any other
   answer is a failure without an id.
   */
  function VerifyMember(s: Swarm, response: AuthResponse, now: int): (r: (Swarm, bool, Option<Bytes>))
    ensures var named := response.success && response.nodeId.Some? && |response.nodeId.value| > 0;
            && (r.1 <==> named && HasMac(s.members, response.nodeId.value))
            && (r.2 == if named then response.nodeId else None)
            && (!r.1 ==> r.0 == s)
    ensures r.1 ==> r.0 == s.(members := Replace(s.members, response.nodeId.value,
                                                 Authenticate(now, response.sessionKey, response.token)))
  {
    if response.success && response.nodeId.Some? && |response.nodeId.value| > 0 then
      var id := response.nodeId.value;
      if HasMac(s.members, id) then
        (s.(members := Replace(s.members, id, Authenticate(now, response.sessionKey, response.token))), true, Some(id))
      else (s, false, Some(id))
    else (s, false, None)
  }

  /** `get_member_info`. */
  function GetMemberInfo(s: Swarm, mac: Bytes): (r: Option<Member>)
    ensures r.None? <==> !HasMac(s.members, mac)
    ensures r.Some? ==> r.value in s.members && r.value.nodeMac == mac
  {
    Find(s.members, mac)
  }

  /** `get_active_members`: the ids of the active members, in order. */
  function GetActiveMembers(s: Swarm): (r: seq<Bytes>)
    ensures forall mac :: mac in r <==> exists m | m in s.members :: m.isActive && m.nodeMac == mac
  {
    var active := Filter(s.members, (m: Member) => m.isActive);
    MacsOf(active);
    Macs(active)
  }

  /** Every operation keeps the member ids distinct, as the dictionary does. */
  lemma OperationsKeepMacsUnique(p: Hkdf.Primitives, s: Swarm, mac: Bytes, featureKey: Bytes, epoch: int, sessionKey: Option<Bytes>,
                                 matToken: Option<Bytes>, registered: bool, response: AuthResponse, now: int)
    requires Hkdf.Sound(p) && UniqueMacs(s.members)
    ensures UniqueMacs(AddMember(s, mac, featureKey, epoch, sessionKey, matToken, registered, now).0.members)
    ensures UniqueMacs(RemoveMember(s, mac).0.members)
    ensures UniqueMacs(RevokeMember(p, s, mac, now).0.members)
    ensures UniqueMacs(UpdateMemberActivity(s, mac, now).0.members)
    ensures UniqueMacs(CleanupInactive(p, s, now).0.members)
    ensures UniqueMacs(VerifyMember(s, response, now).0.members)
  {
    MembershipKeepsMacsUnique(p, s, mac, featureKey, epoch, sessionKey, matToken, registered, now);
    UpdatesKeepMacsUnique(p, s, mac, response, now);
  }

  lemma MembershipKeepsMacsUnique(p: Hkdf.Primitives, s: Swarm, mac: Bytes, featureKey: Bytes, epoch: int, sessionKey: Option<Bytes>,
                                  matToken: Option<Bytes>, registered: bool, now: int)
    requires Hkdf.Sound(p) && UniqueMacs(s.members)
    ensures UniqueMacs(AddMember(s, mac, featureKey, epoch, sessionKey, matToken, registered, now).0.members)
    ensures UniqueMacs(RemoveMember(s, mac).0.members)
    ensures UniqueMacs(RevokeMember(p, s, mac, now).0.members)
  {
    if !HasMac(s.members, mac) && registered {
      AppendFresh(s.members, Member(mac, featureKey, sessionKey, matToken, now, now, epoch, 0, true));
    }
  }

  lemma UpdatesKeepMacsUnique(p: Hkdf.Primitives, s: Swarm, mac: Bytes, response: AuthResponse, now: int)
    requires Hkdf.Sound(p) && UniqueMacs(s.members)
    ensures UniqueMacs(UpdateMemberActivity(s, mac, now).0.members)
    ensures UniqueMacs(CleanupInactive(p, s, now).0.members)
    ensures UniqueMacs(VerifyMember(s, response, now).0.members)
  {
  }

  lemma AppendFresh(ms: seq<Member>, m: Member)
    requires UniqueMacs(ms) && !HasMac(ms, m.nodeMac)
    ensures UniqueMacs(ms + [m])
  {
    forall i, j | 0 <= i < j < |ms + [m]| ensures (ms + [m])[i].nodeMac != (ms + [m])[j].nodeMac {
      if j == |ms| {
        assert ms[i] in ms;
      }
    }
  }
}

=== FILE: sync_mat_manager.dfy ===
/**
 The admission-token manager of the synchronization service
 (`sync/mat_manager.py`): it issues tokens signed by every validator's key,
 verifies them, and keeps the revocation list. Clock readings and the random
 token ids are parameters.
 */
module SyncMatManager {
  import opened Wrappers
  import opened Bytes
  import Hkdf
  import opened SyncMatToken

  /** The region's name as its UTF-8 bytes. */
  datatype MatManager = MatManager(
    validatorNodes: seq<Bytes>,
    signingKeys: seq<Bytes>,
    region: Bytes,
    issued: map<Bytes, MatToken>,
    revoked: set<Bytes>)

  /** The constructor: one signing key per validator, nothing issued or revoked. */
  function Create(validatorNodes: seq<Bytes>, signingKeys: seq<Bytes>, region: Bytes): (r: Result<MatManager>)
    ensures r.Ok? <==> |validatorNodes| == |signingKeys|
    ensures r.Ok? ==> r.value.issued == map[] && r.value.revoked == {}
  {
    if |validatorNodes| != |signingKeys| then Err("validator_nodes and signing_keys must have same length")
    else Ok(MatManager(validatorNodes, signingKeys, region, map[], {}))
  }

  /**
   `issue_mat`: a token naming every validator as issuer, bound to the
   pseudonym and epoch, issued now, signed with every key and recorded under
   its id. The pseudonym must be 12 bytes; signing raises for an epoch
   outside 32 bits.
   */
  function IssueMat(p: Hkdf.Primitives, m: MatManager, pseudonym: Bytes, epoch: int, ttl: int, matId: Bytes, now: int): (r: Result<(MatManager, MatToken)>)
    requires Hkdf.Sound(p)
    ensures r.Ok? <==> |pseudonym| == 12 && IsU32(epoch)
    ensures r.Ok? ==> var t := r.value.1;
            && t.issuers == m.validatorNodes && t.pseudonym == pseudonym && t.epoch == epoch && t.ttl == ttl
            && t.region == m.region && t.matId == matId && t.issuedAt == now
            && VerifyWithKeys(p, m.signingKeys, t) == Ok(true)
    ensures r.Ok? ==> r.value.0 == m.(issued := m.issued[matId := r.value.1])
  {
    if |pseudonym| != 12 then Err("device_pseudonym must be 12 bytes")
    else
      var draft := MatToken(m.validatorNodes, pseudonym, epoch, ttl, m.region, matId, now, []);
      var signed :- SignWithKeys(p, m.signingKeys, draft);
      SignThenVerify(p, m.signingKeys, draft);
      Ok((m.(issued := m.issued[matId := signed]), signed))
  }

  /**
   `verify_mat`: refused when revoked, then when outside its lifetime or more
   than one epoch away, then when the aggregate signature does not match the
   manager's keys.
   */
  function VerifyMat(p: Hkdf.Primitives, m: MatManager, t: MatToken, currentEpoch: int, now: int): (r: Result<bool>)
    requires Hkdf.Sound(p)
    ensures r == Ok(true) <==> t.matId !in m.revoked && IsValid(t, now, currentEpoch, 1) && VerifyWithKeys(p, m.signingKeys, t) == Ok(true)
    ensures t.matId in m.revoked || !IsValid(t, now, currentEpoch, 1) ==> r == Ok(false)
  {
    if t.matId in m.revoked then Ok(false)
    else if !IsValid(t, now, currentEpoch, 1) then Ok(false)
    else VerifyWithKeys(p, m.signingKeys, t)
  }

  /** A freshly issued token verifies for its lifetime, within one epoch of its own, until it is revoked. */
  lemma IssuedTokenVerifies(p: Hkdf.Primitives, m: MatManager, pseudonym: Bytes, epoch: int, ttl: int, matId: Bytes, now: int,
                            later: int, currentEpoch: int)
    requires Hkdf.Sound(p) && |pseudonym| == 12 && IsU32(epoch)
    requires matId !in m.revoked && later <= now + ttl && Abs(currentEpoch - epoch) <= 1
    ensures var (m', t) := IssueMat(p, m, pseudonym, epoch, ttl, matId, now).value;
            VerifyMat(p, m', t, currentEpoch, later) == Ok(true)
  {
  }

  /** `revoke_mat`. */
  function RevokeMat(m: MatManager, matId: Bytes): (r: MatManager)
    ensures r == m.(revoked := r.revoked)
    ensures forall id :: id in r.revoked <==> id in m.revoked || id == matId
  {
    m.(revoked := m.revoked + {matId})
  }

  /** `revoke_mat_by_pseudonym`: every issued token carrying the pseudonym is revoked, and nothing else is. */
  function RevokeByPseudonym(m: MatManager, pseudonym: Bytes): (r: MatManager)
    ensures r == m.(revoked := r.revoked)
    ensures forall id :: id in r.revoked <==> id in m.revoked || (id in m.issued && m.issued[id].pseudonym == pseudonym)
  {
    m.(revoked := m.revoked + set id | id in m.issued && m.issued[id].pseudonym == pseudonym)
  }

  /** After revoking a pseudonym, none of the tokens issued to it verifies any more. */
  lemma RevokedPseudonymRefused(p: Hkdf.Primitives, m: MatManager, pseudonym: Bytes, t: MatToken, currentEpoch: int, now: int)
    requires Hkdf.Sound(p)
    requires t.matId in m.issued && m.issued[t.matId].pseudonym == pseudonym
    ensures VerifyMat(p, RevokeByPseudonym(m, pseudonym), t, currentEpoch, now) == Ok(false)
  {
  }

  /** `rotate_mats_on_epoch_change`: forgets tokens bound to an epoch before the previous one; revocations stay. */
  function RotateMatsOnEpochChange(m: MatManager, newEpoch: int): (r: MatManager)
    ensures r == m.(issued := r.issued)
    ensures forall id :: id in r.issued <==> id in m.issued && m.issued[id].epoch >= newEpoch - 1
    ensures forall id | id in r.issued :: r.issued[id] == m.issued[id]
  {
    m.(issued := map id | id in m.issued && m.issued[id].epoch >= newEpoch - 1 :: m.issued[id])
  }

  /** `sync_revocation_list`: adds the peer's revocations. */
  function SyncRevocationList(m: MatManager, peer: seq<Bytes>): (r: MatManager)
    ensures r == m.(revoked := r.revoked)
    ensures forall id :: id in r.revoked <==> id in m.revoked || id in peer
  {
    m.(revoked := m.revoked + set id | id in peer)
  }

  /** Merging revocation lists converges: the order of peers does not matter and repeating one changes nothing. */
  lemma SyncRevocationConverges(m: MatManager, a: seq<Bytes>, b: seq<Bytes>)
    ensures SyncRevocationList(SyncRevocationList(m, a), b) == SyncRevocationList(SyncRevocationList(m, b), a)
    ensures SyncRevocationList(SyncRevocationList(m, a), a) == SyncRevocationList(m, a)
  {
  }
}

=== FILE: tlv.dfy ===
/**
 The synchronization layer's big-endian encoder and cursor decoder
 (`utils/serialization.py`). The decoder is a value: every read returns what
 it read together with the advanced cursor. Float encodings are not modelled.
 */
module Tlv {
  import opened Wrappers
  import opened Bytes

  /** `encode_bytes`: a 2-byte big-endian length, then the bytes; `struct.pack` raises past 65535. */
  function EncodeBytes(value: Bytes): (r: Result<Bytes>)
    ensures r.Ok? <==> |value| < U16_LIMIT
    ensures r.Ok? ==> |r.value| == 2 + |value| && r.value[2..] == value
    ensures r.Ok? ==> FromBE(r.value[..2]) == |value|
  {
    Pow256Widths();
    var n :- PackBE(|value|, 2);
    assert (n + value)[..2] == n;
    Ok(n + value)
  }

  /** `encode_bytes_fixed`: the bytes unchanged, or an error when they are not `size` long. */
  function EncodeFixed(value: Bytes, size: nat): (r: Result<Bytes>)
    ensures r.Ok? <==> |value| == size
    ensures r.Ok? ==> r.value == value
  {
    if |value| != size then Err("Expected size bytes") else Ok(value)
  }

  /** `encode_tlv`: a 1-byte type, a 2-byte big-endian length, then the value. */
  function EncodeTlv(typeId: int, value: Bytes): (r: Result<Bytes>)
    ensures r.Ok? <==> IsU8(typeId) && |value| < U16_LIMIT
    ensures r.Ok? ==> |r.value| == 3 + |value| && r.value[0] == typeId
    ensures r.Ok? ==> FromBE(r.value[1..3]) == |value| && r.value[3..] == value
  {
    Pow256Widths();
    var t :- PackBE(typeId, 1);
    var n :- PackBE(|value|, 2);
    assert t == [typeId] by { BEInjective(t); }
    assert (t + n + value)[1..3] == n;
    Ok(t + n + value)
  }

  /** A `TLVDecoder`: the input and the read offset, which may run past the end. */
  datatype Decoder = Decoder(data: Bytes, offset: nat)

  /** `has_remaining`. */
  predicate HasRemaining(d: Decoder) { d.offset < |d.data| }

  /** `remaining_bytes`, negative once a short `decode_bytes` has pushed the offset past the end. */
  function RemainingBytes(d: Decoder): int { |d.data| - d.offset }

  /** `decode_uint8/16/32/64`: `struct.unpack_from` raises unless `width` bytes remain. */
  function DecodeUint(d: Decoder, width: nat): (r: Result<(nat, Decoder)>)
    ensures r.Ok? <==> d.offset + width <= |d.data|
    ensures r.Ok? ==> r.value.1 == d.(offset := d.offset + width)
    ensures r.Ok? ==> r.value.0 < Pow256(width) && ToBE(r.value.0, width) == d.data[d.offset..d.offset + width]
  {
    if d.offset + width > |d.data| then Err("unpack_from requires a larger buffer")
    else
      var field := d.data[d.offset..d.offset + width];
      BEInjective(field);
      Ok((FromBE(field), d.(offset := d.offset + width)))
  }

  /**
   `decode_bytes`: a 2-byte length, then up to that many bytes. The slice is not
   checked, so a short input yields a short value and still advances the offset
   by the declared length.
   */
  function DecodeBytes(d: Decoder): (r: Result<(Bytes, Decoder)>)
    ensures r.Ok? <==> d.offset + 2 <= |d.data|
    ensures r.Ok? ==> r.value.1.data == d.data && r.value.1.offset == d.offset + 2 + FromBE(d.data[d.offset..d.offset + 2])
    ensures r.Ok? ==> r.value.0 == Slice(d.data, d.offset + 2, r.value.1.offset)
  {
    var (n, d1) :- DecodeUint(d, 2);
    BEInjective(d.data[d.offset..d.offset + 2]);
    Ok((Slice(d1.data, d1.offset, d1.offset + n), d1.(offset := d1.offset + n)))
  }

  /**
   `decode_bytes_fixed`: exactly `size` bytes, raising when fewer remain; a
   zero-byte read succeeds even past the end.
   */
  function DecodeFixed(d: Decoder, size: nat): (r: Result<(Bytes, Decoder)>)
    ensures r.Ok? <==> size == 0 || d.offset + size <= |d.data|
    ensures r.Ok? ==> |r.value.0| == size && r.value.1 == d.(offset := d.offset + size)
    ensures r.Ok? ==> r.value.0 == Slice(d.data, d.offset, d.offset + size)
  {
    var value := Slice(d.data, d.offset, d.offset + size);
    if |value| != size then Err("Expected size bytes")
    else Ok((value, d.(offset := d.offset + size)))
  }

  /** `decode_tlv`: type, length, then up to that many bytes, unchecked as in `decode_bytes`. */
  function DecodeTlv(d: Decoder): (r: Result<(nat, Bytes, Decoder)>)
    ensures r.Ok? <==> d.offset + 3 <= |d.data|
    ensures r.Ok? ==> r.value.0 == d.data[d.offset] && r.value.2.data == d.data
    ensures r.Ok? ==> r.value.2.offset == d.offset + 3 + FromBE(d.data[d.offset + 1..d.offset + 3])
    ensures r.Ok? ==> r.value.1 == Slice(d.data, d.offset + 3, r.value.2.offset)
  {
    if d.offset + 3 > |d.data| then Err("unpack_from requires a larger buffer")
    else
      var t := FromBE(d.data[d.offset..d.offset + 1]);
      var n := FromBE(d.data[d.offset + 1..d.offset + 3]);
      assert t == d.data[d.offset] by {
        assert d.data[d.offset..d.offset + 1] == [d.data[d.offset]];
      }
      Ok((t, Slice(d.data, d.offset + 3, d.offset + 3 + n), d.(offset := d.offset + 3 + n)))
  }

  // ---------------------------------------------------------------------------
  // Reading back what was written
  // ---------------------------------------------------------------------------

  /** Whether `field` sits at the decoder's offset. */
  predicate At(d: Decoder, field: Bytes)
  {
    d.offset + |field| <= |d.data| && d.data[d.offset..d.offset + |field|] == field
  }

  lemma AtSplit(d: Decoder, a: Bytes, b: Bytes)
    requires At(d, a + b)
    ensures At(d, a) && At(d.(offset := d.offset + |a|), b)
  {
    assert d.data[d.offset..d.offset + |a|] == (a + b)[..|a|];
    assert d.data[d.offset + |a|..d.offset + |a| + |b|] == (a + b)[|a|..];
  }

  /** An integer written at the offset is read back, and the cursor moves past it. */
  lemma ReadUint(d: Decoder, x: int, width: nat)
    requires PackBE(x, width).Ok? && At(d, PackBE(x, width).value)
    ensures DecodeUint(d, width) == Ok((x, d.(offset := d.offset + width)))
  {
  }

  /** The same for an integer given by its big-endian image. */
  lemma ReadUintBE(d: Decoder, x: nat, width: nat)
    requires x < Pow256(width) && At(d, ToBE(x, width))
    ensures DecodeUint(d, width) == Ok((x, d.(offset := d.offset + width)))
  {
    BERoundTrip(x, width);
  }

  /** Bytes written by `encode_bytes` are read back by `decode_bytes`. */
  lemma ReadBytes(d: Decoder, value: Bytes)
    requires EncodeBytes(value).Ok? && At(d, EncodeBytes(value).value)
    ensures DecodeBytes(d) == Ok((value, d.(offset := d.offset + 2 + |value|)))
  {
    var e := EncodeBytes(value).value;
    assert d.data[d.offset..d.offset + 2] == e[..2];
    assert d.data[d.offset + 2..d.offset + 2 + |value|] == e[2..];
  }

  /** Fixed-size bytes written at the offset are read back. */
  lemma ReadFixed(d: Decoder, value: Bytes)
    requires At(d, value)
    ensures DecodeFixed(d, |value|) == Ok((value, d.(offset := d.offset + |value|)))
  {
    assert Slice(d.data, d.offset, d.offset + |value|) == value;
  }

  lemma SubSlice(s: Bytes, lo: nat, hi: nat, a: nat, b: nat)
    requires lo <= hi <= |s| && a <= b <= hi - lo
    ensures s[lo..hi][a..b] == s[lo + a..lo + b]
  {
    var l, r := s[lo..hi][a..b], s[lo + a..lo + b];
    assert |l| == |r|;
    forall i | 0 <= i < |l| ensures l[i] == r[i] {
      assert l[i] == s[lo..hi][a + i];
    }
  }

  /** `decode_tlv` inverts `encode_tlv`. */
  lemma ReadTlv(d: Decoder, typeId: int, value: Bytes)
    requires EncodeTlv(typeId, value).Ok? && At(d, EncodeTlv(typeId, value).value)
    ensures DecodeTlv(d) == Ok((typeId, value, d.(offset := d.offset + 3 + |value|)))
  {
    var e := EncodeTlv(typeId, value).value;
    var o := d.offset;
    SubSlice(d.data, o, o + |e|, 1, 3);
    SubSlice(d.data, o, o + |e|, 3, |e|);
    assert d.data[o] == e[0];
    assert FromBE(d.data[d.offset + 1..d.offset + 3]) == |value|;
    assert Slice(d.data, d.offset + 3, d.offset + 3 + |value|) == value;
  }

  /**
   A length prefix promising more than remains: `decode_bytes` still succeeds,
   returns fewer bytes than declared and leaves the offset past the end.
   */
  lemma ShortBytesAccepted(d: Decoder)
    requires d.offset + 2 <= |d.data|
    requires d.offset + 2 + FromBE(d.data[d.offset..d.offset + 2]) > |d.data|
    ensures DecodeBytes(d).Ok?
    ensures |DecodeBytes(d).value.0| < FromBE(d.data[d.offset..d.offset + 2])
    ensures RemainingBytes(DecodeBytes(d).value.1) < 0
  {
  }
}

=== FILE: token_manager.dfy ===
/**
 The token managers (`token_manager.py`): `TokenFastManager` issues and checks
 the mode-1 fast tokens under a management key, `MATManager` issues, checks,
 revokes and expires the mode-2 admission tokens. The clock is the parameter
 `now`; the random MAT identifier is the parameter `matId`.
 */
module TokenManager {
  import opened Wrappers
  import opened Bytes
  import AuthConfig
  import opened AuthCommon
  import opened AuthUtils

  // ---------------------------------------------------------------------------
  // TokenFastManager
  // ---------------------------------------------------------------------------

  datatype FastManager = FastManager(config: AuthConfig.Config, kMgmt: Bytes, tokens: map<Bytes, TokenFast>)

  /** The constructor: the management key must be 16 or 32 bytes; the store starts empty. */
  function NewFastManager(config: AuthConfig.Config, kMgmt: Bytes): (r: Result<FastManager>)
    ensures r.Ok? <==> |kMgmt| in {16, 32}
    ensures r.Ok? ==> r.value.kMgmt == kMgmt && r.value.config == config && r.value.tokens == map[]
  {
    if |kMgmt| !in {16, 32} then Err("k_mgmt must be 16 or 32 bytes")
    else Ok(FastManager(config, kMgmt, map[]))
  }

  /**
   The token MAC. As written it is `compute_mac(..., length=16)`, which
   HMAC-SHA256 answers with 32 bytes; `truncated` cuts it to the 16 bytes a
   token holds, as `truncate` in the same package would.
   */
  function FastMac(m: FastManager, p: Primitives, body: Bytes, truncated: bool): (r: Result<Bytes>)
    requires Sound(p)
    ensures r.Ok? <==> ComputeMac(p, m.kMgmt, body, m.config.macAlgorithm, Some(16)).Ok?
    ensures r.Ok? && truncated ==> |r.value| == 16
    ensures r.Ok? && !truncated ==> r == ComputeMac(p, m.kMgmt, body, m.config.macAlgorithm, Some(16))
  {
    var mac :- ComputeMac(p, m.kMgmt, body, m.config.macAlgorithm, Some(16));
    if truncated then Truncate(mac, 16) else Ok(mac)
  }

  /** The MAC computation succeeds: a known algorithm, and for BLAKE3 a key of at least 32 bytes. */
  predicate MacUsable(m: FastManager)
  {
    m.config.macAlgorithm == "hmac-sha256" || (m.config.macAlgorithm == "blake3" && |m.kMgmt| >= 32)
  }

  /** `issue_token_fast` with the MAC rule chosen by `truncated`. */
  function IssueWith(m: FastManager, p: Primitives, devId: Bytes, policy: Bytes, now: int, truncated: bool)
    : (r: (FastManager, Result<TokenFast>))
    requires Sound(p)
    ensures r.1.Err? ==> r.0 == m
    ensures r.1.Ok? ==> r.0 == m.(tokens := m.tokens[devId := r.1.value])
  {
    var tExpire := now + m.config.tokenFastTtl;
    if |devId| != 6 then (m, Err("dev_id must be 6 bytes"))
    else if !IsU32(now) || !IsU32(tExpire) then (m, Err("struct.error: argument out of range"))
    else
      match FastMac(m, p, TokenBody(devId, now, tExpire, policy), truncated)
      case Err(e) => (m, Err(e))
      case Ok(mac) =>
        match NewToken(devId, now, tExpire, policy, mac)
        case Err(e) => (m, Err(e))
        case Ok(t) => (m.(tokens := m.tokens[devId := t]), Ok(t))
  }

  /**
   `issue_token_fast` as written: for HMAC-SHA256 the 32-byte MAC fails the
   token's 16-byte check, so issuing always raises.
   */
  function IssueTokenAsWritten(m: FastManager, p: Primitives, devId: Bytes, policy: Bytes, now: int)
    : (r: (FastManager, Result<TokenFast>))
    requires Sound(p)
    ensures r.1.Ok? <==>
      && |devId| == 6 && IsU32(now) && IsU32(now + m.config.tokenFastTtl) && m.config.tokenFastTtl > 0
      && m.config.macAlgorithm == "blake3" && |m.kMgmt| >= 32
    ensures r.1.Err? ==> r.0 == m
  {
    IssueWith(m, p, devId, policy, now, false)
  }

  /**
   `issue_token_fast` with the MAC cut to 16 bytes: a token valid for
   `[now, now + TTL]` under the device id, replacing any earlier one.
   */
  function IssueToken(m: FastManager, p: Primitives, devId: Bytes, policy: Bytes, now: int)
    : (r: (FastManager, Result<TokenFast>))
    requires Sound(p)
    ensures |devId| != 6 ==> r == (m, Err("dev_id must be 6 bytes"))
    ensures r.1.Ok? <==>
      |devId| == 6 && IsU32(now) && IsU32(now + m.config.tokenFastTtl) && m.config.tokenFastTtl > 0 && MacUsable(m)
    ensures r.1.Ok? ==> var t := r.1.value;
      && ValidToken(t)
      && t.devId == devId && t.tStart == now && t.tExpire == now + m.config.tokenFastTtl && t.policy == policy
      && r.0 == m.(tokens := m.tokens[devId := t])
    ensures r.1.Err? ==> r.0 == m
  {
    IssueWith(m, p, devId, policy, now, true)
  }

  /** `verify_token_fast` with the MAC rule chosen by `truncated`; MAC failures raise. */
  function VerifyWith(m: FastManager, p: Primitives, t: TokenFast, now: int, truncated: bool): (r: Result<bool>)
    requires Sound(p) && ValidToken(t)
    ensures now > t.tExpire || now < t.tStart ==> r == Ok(false)
    ensures r == Ok(true) ==>
      && t.tStart <= now <= t.tExpire
      && FastMac(m, p, TokenBody(t.devId, t.tStart, t.tExpire, t.policy), truncated) == Ok(t.mac)
  {
    if now > t.tExpire then Ok(false)
    else if now < t.tStart then Ok(false)
    else
      var expected :- FastMac(m, p, TokenBody(t.devId, t.tStart, t.tExpire, t.policy), truncated);
      ConstantTimeEqualIsEquality(expected, t.mac);
      Ok(ConstantTimeEqual(expected, t.mac))
  }

  /**
   `verify_token_fast` (corrected MAC rule): false outside `[t_start, t_expire]`,
   otherwise true exactly when the recomputed MAC matches. The token store,
   and with it revocation, is never consulted.
   */
  function VerifyToken(m: FastManager, p: Primitives, t: TokenFast, now: int): (r: Result<bool>)
    requires Sound(p) && ValidToken(t)
    ensures now > t.tExpire || now < t.tStart ==> r == Ok(false)
    ensures t.tStart <= now <= t.tExpire && MacUsable(m) ==>
      r == Ok(FastMac(m, p, TokenBody(t.devId, t.tStart, t.tExpire, t.policy), true) == Ok(t.mac))
  {
    VerifyWith(m, p, t, now, true)
  }

  /** `revoke_token`: true, with the entry deleted, exactly when a token was stored. */
  function RevokeToken(m: FastManager, devId: Bytes): (r: (FastManager, bool))
    ensures r.1 <==> devId in m.tokens
    ensures r.0 == m.(tokens := m.tokens - {devId})
  {
    if devId in m.tokens then (m.(tokens := m.tokens - {devId}), true) else (m, false)
  }

  /** A freshly issued token verifies at every instant of its window, under the issuing manager or its successor. */
  lemma IssuedTokenVerifies(m: FastManager, p: Primitives, devId: Bytes, policy: Bytes, now: int, later: int)
    requires Sound(p)
    requires IssueToken(m, p, devId, policy, now).1.Ok?
    requires var t := IssueToken(m, p, devId, policy, now).1.value; t.tStart <= later <= t.tExpire
    ensures VerifyToken(m, p, IssueToken(m, p, devId, policy, now).1.value, later) == Ok(true)
    ensures VerifyToken(IssueToken(m, p, devId, policy, now).0, p, IssueToken(m, p, devId, policy, now).1.value, later) == Ok(true)
  {
  }

  /** Revocation does not affect verification: a revoked token keeps verifying until it expires. */
  lemma RevokedTokenStillVerifies(m: FastManager, p: Primitives, t: TokenFast, now: int)
    requires Sound(p) && ValidToken(t)
    ensures VerifyToken(RevokeToken(m, t.devId).0, p, t, now) == VerifyToken(m, p, t, now)
  {
  }

  /** As written, a manager configured for HMAC-SHA256 can never issue a token. */
  lemma HmacIssueAlwaysFails(m: FastManager, p: Primitives, devId: Bytes, policy: Bytes, now: int)
    requires Sound(p) && m.config.macAlgorithm == "hmac-sha256"
    ensures IssueTokenAsWritten(m, p, devId, policy, now).1.Err?
  {
  }

  /** With the MAC truncated, an HMAC-SHA256 manager issues tokens that verify. */
  lemma HmacIssueSucceedsTruncated(m: FastManager, p: Primitives, devId: Bytes, policy: Bytes, now: int)
    requires Sound(p) && m.config.macAlgorithm == "hmac-sha256"
    requires |devId| == 6 && IsU32(now) && IsU32(now + m.config.tokenFastTtl) && m.config.tokenFastTtl > 0
    ensures IssueToken(m, p, devId, policy, now).1.Ok?
    ensures VerifyToken(m, p, IssueToken(m, p, devId, policy, now).1.value, now) == Ok(true)
  {
  }

  /** For BLAKE3, whose MAC already has the requested 16 bytes, the truncation changes nothing. */
  lemma TruncationAgreesOnBlake3(m: FastManager, p: Primitives, devId: Bytes, policy: Bytes, now: int)
    requires Sound(p) && m.config.macAlgorithm == "blake3"
    ensures IssueToken(m, p, devId, policy, now) == IssueTokenAsWritten(m, p, devId, policy, now)
  {
    var tExpire := now + m.config.tokenFastTtl;
    if |devId| == 6 && IsU32(now) && IsU32(tExpire) {
      var body := TokenBody(devId, now, tExpire, policy);
      var full := ComputeMac(p, m.kMgmt, body, "blake3", Some(16));
      if full.Ok? {
        assert full.value[..16] == full.value;
      }
    }
  }

  /** A 16-byte management key passes the constructor, yet BLAKE3-MAC refuses it, so no token is ever issued. */
  lemma ShortKeyBlake3NeverIssues(m: FastManager, p: Primitives, devId: Bytes, policy: Bytes, now: int)
    requires Sound(p) && m.config.macAlgorithm == "blake3" && |m.kMgmt| == 16
    ensures NewFastManager(m.config, m.kMgmt).Ok?
    ensures IssueToken(m, p, devId, policy, now).1.Err?
  {
  }

  // ---------------------------------------------------------------------------
  // MATManager
  // ---------------------------------------------------------------------------

  /** The issuer and its store of issued MATs, each with its issue time. */
  datatype MatManager = MatManager(config: AuthConfig.Config, issuerId: Bytes, issuerKey: Bytes, store: map<Bytes, (Mat, int)>)

  function NewMatManager(config: AuthConfig.Config, issuerId: Bytes, issuerKey: Bytes): (r: Result<MatManager>)
    ensures r.Ok? <==> |issuerId| == 6 && |issuerKey| == 32
    ensures |issuerId| != 6 ==> r == Err("issuer_id must be 6 bytes")
    ensures r.Ok? ==> r.value == MatManager(config, issuerId, issuerKey, map[])
  {
    if |issuerId| != 6 then Err("issuer_id must be 6 bytes")
    else if |issuerKey| != 32 then Err("issuer_key must be 32 bytes")
    else Ok(MatManager(config, issuerId, issuerKey, map[]))
  }

  /** The signature over a MAT's fields; MAC failures raise. */
  function MatSignature(m: MatManager, p: Primitives, pseudo: Bytes, epoch: nat, ttl: nat, matId: Bytes): (r: Result<Bytes>)
    requires Sound(p) && epoch < U32_LIMIT && ttl < U32_LIMIT
    ensures m.config.macAlgorithm == "hmac-sha256" ==> r.Ok? && |r.value| == 32
    ensures m.config.macAlgorithm == "blake3" && |m.issuerKey| >= 32 ==> r.Ok? && |r.value| == 32
  {
    ComputeMac(p, m.issuerKey, MatBody(m.issuerId, pseudo, epoch, ttl, matId), m.config.macAlgorithm, Some(32))
  }

  /**
   `issue_mat`: a 12-byte pseudonym and a 32-bit epoch; the MAT carries the
   configured TTL, the random identifier and a 32-byte signature, and is
   stored under its identifier with `now` as its issue time.
   */
  function IssueMat(m: MatManager, p: Primitives, pseudo: Bytes, epoch: int, matId: Bytes, now: int)
    : (r: (MatManager, Result<Mat>))
    requires Sound(p)
    ensures |pseudo| != 12 ==> r == (m, Err("dev_pseudo must be 12 bytes"))
    ensures r.1.Err? ==> r.0 == m
    ensures r.1.Ok? ==> var mat := r.1.value;
      && ValidMat(mat)
      && mat == Mat(m.issuerId, pseudo, epoch, m.config.matTtl, matId, mat.signature)
      && m.config.matTtl < U32_LIMIT
      && MatSignature(m, p, pseudo, epoch, m.config.matTtl, matId) == Ok(mat.signature)
      && r.0 == m.(store := m.store[matId := (mat, now)])
  {
    if |pseudo| != 12 then (m, Err("dev_pseudo must be 12 bytes"))
    else if !IsU32(epoch) then (m, Err("epoch must be in [0, 2^32-1]"))
    else if !IsU32(m.config.matTtl) then (m, Err("struct.error: argument out of range"))
    else
      match MatSignature(m, p, pseudo, epoch, m.config.matTtl, matId)
      case Err(e) => (m, Err(e))
      case Ok(sig) =>
        match NewMat(Mat(m.issuerId, pseudo, epoch, m.config.matTtl, matId, sig))
        case Err(e) => (m, Err(e))
        case Ok(mat) => (m.(store := m.store[matId := (mat, now)]), Ok(mat))
  }

  predicate Expired(entry: (Mat, int), now: int)
  {
    now > entry.1 + entry.0.ttl
  }

  /**
   `verify_mat`: false on the first failing check, in this order: foreign
   issuer, unknown (or revoked) identifier, `now` past the stored issue time
   plus the presented TTL, signature mismatch.
   */
  function VerifyMat(m: MatManager, p: Primitives, mat: Mat, now: int): (r: Result<bool>)
    requires Sound(p) && ValidMat(mat)
    ensures mat.issuer != m.issuerId ==> r == Ok(false)
    ensures mat.issuer == m.issuerId && mat.matId !in m.store ==> r == Ok(false)
    ensures mat.issuer == m.issuerId && mat.matId in m.store && now > m.store[mat.matId].1 + mat.ttl ==> r == Ok(false)
    ensures r == Ok(true) <==>
      && mat.issuer == m.issuerId && mat.matId in m.store && now <= m.store[mat.matId].1 + mat.ttl
      && mat.ttl < U32_LIMIT && MatSignature(m, p, mat.devPseudo, mat.epoch, mat.ttl, mat.matId) == Ok(mat.signature)
  {
    if mat.issuer != m.issuerId then Ok(false)
    else if mat.matId !in m.store then Ok(false)
    else if now > m.store[mat.matId].1 + mat.ttl then Ok(false)
    else if !IsU32(mat.ttl) then Err("struct.error: argument out of range")
    else
      var expected :- MatSignature(m, p, mat.devPseudo, mat.epoch, mat.ttl, mat.matId);
      ConstantTimeEqualIsEquality(expected, mat.signature);
      Ok(ConstantTimeEqual(expected, mat.signature))
  }

  /** `revoke_mat`: true, with the entry deleted, exactly when the identifier was stored. */
  function RevokeMat(m: MatManager, matId: Bytes): (r: (MatManager, bool))
    ensures r.1 <==> matId in m.store
    ensures r.0 == m.(store := m.store - {matId})
  {
    if matId in m.store then (m.(store := m.store - {matId}), true) else (m, false)
  }

  /** A just-issued MAT verifies exactly until its issue time plus TTL. */
  lemma IssuedMatVerifies(m: MatManager, p: Primitives, pseudo: Bytes, epoch: int, matId: Bytes, now: int, later: int)
    requires Sound(p)
    requires IssueMat(m, p, pseudo, epoch, matId, now).1.Ok?
    ensures var (m', r) := IssueMat(m, p, pseudo, epoch, matId, now);
      VerifyMat(m', p, r.value, later) == Ok(later <= now + m.config.matTtl)
  {
  }

  /** After revocation the MAT no longer verifies. */
  lemma RevokedMatFails(m: MatManager, p: Primitives, mat: Mat, now: int)
    requires Sound(p) && ValidMat(mat)
    ensures VerifyMat(RevokeMat(m, mat.matId).0, p, mat, now) == Ok(false)
  {
  }

  /** The identifiers of the stored MATs that have expired at `now`. */
  function ExpiredIds(store: map<Bytes, (Mat, int)>, now: int): set<Bytes>
  {
    set id | id in store && Expired(store[id], now)
  }

  /** The store without its expired entries. */
  function Unexpired(store: map<Bytes, (Mat, int)>, now: int): map<Bytes, (Mat, int)>
  {
    map id | id in store && !Expired(store[id], now) :: store[id]
  }

  /** Deleting a set of present keys shrinks a map by exactly that many entries. */
  lemma RemoveKeysSize<K, V>(m: map<K, V>, s: set<K>)
    requires s <= m.Keys
    ensures |m - s| == |m| - |s|
  {
    assert (m - s).Keys == m.Keys - s;
    assert |(m - s).Keys| == |m - s|;
  }

  lemma UnexpiredIsRemoval(store: map<Bytes, (Mat, int)>, now: int)
    ensures store - ExpiredIds(store, now) == Unexpired(store, now)
    ensures ExpiredIds(store, now) <= store.Keys
  {
  }

  /** One step of the collecting pass: visiting `id` adds it exactly when it has expired. */
  lemma CollectStep(store: map<Bytes, (Mat, int)>, now: int, expired: set<Bytes>, remaining: set<Bytes>, id: Bytes)
    requires remaining <= store.Keys && id in remaining
    requires expired == ExpiredIds(store, now) - remaining
    ensures (if Expired(store[id], now) then expired + {id} else expired) == ExpiredIds(store, now) - (remaining - {id})
  {
    if Expired(store[id], now) {
      assert id in ExpiredIds(store, now);
    } else {
      assert id !in ExpiredIds(store, now);
    }
  }

  /**
   `cleanup_expired_mats`: one pass over the store collecting the expired
   identifiers, then their deletion; returns how many were deleted.
   */
  method CleanupExpiredMats(m: MatManager, now: int) returns (m': MatManager, count: nat)
    ensures m' == m.(store := Unexpired(m.store, now))
    ensures count == |ExpiredIds(m.store, now)|
    ensures count == |m.store| - |m'.store|
  {
    var remaining := m.store.Keys;
    var expired: set<Bytes> := {};
    while remaining != {}
      invariant remaining <= m.store.Keys
      invariant expired == ExpiredIds(m.store, now) - remaining
      decreases |remaining|
    {
      var id :| id in remaining;
      CollectStep(m.store, now, expired, remaining, id);
      if Expired(m.store[id], now) {
        expired := expired + {id};
      }
      remaining := remaining - {id};
    }
    assert expired == ExpiredIds(m.store, now) by { assert remaining == {}; }
    UnexpiredIsRemoval(m.store, now);
    RemoveKeysSize(m.store, expired);
    count := |expired|;
    m' := m.(store := m.store - expired);
  }
}

=== FILE: validator_node.dfy ===
/**
 A validator node (`sync/validator_node.py`): it follows the cluster head's
 beacons, installs the feature configuration they carry and, when beacons
 stop, advances its epoch on its own clock for a bounded number of epochs.
 The clock reading `now` is a parameter of every operation that reads it.
 */
module SyncValidatorNode {
  import opened Wrappers
  import opened Bytes
  import Hkdf
  import Cfg = SyncFeatureConfig
  import SyncBeacon
  import opened SyncEpochState

  /** At most this many epochs may be advanced without a beacon. */
  const MAX_LOCAL_PROGRESSION: nat := 5

  /** The epoch length a validator assumes before its first beacon. */
  const DEFAULT_EPOCH_DURATION: int := 30000

  datatype Validator = Validator(
    nodeId: Bytes,
    beaconTimeout: int,
    verificationKey: Option<Bytes>,
    state: EpochState,
    localCount: int,
    maxLocal: int)

  /** The constructor: a 6-byte id, epoch 0 from time 0, 30-second epochs, nothing tolerated. */
  function Create(nodeId: Bytes, beaconTimeout: int, verificationKey: Option<Bytes>): (r: Result<Validator>)
    ensures r.Ok? <==> |nodeId| == 6
    ensures r.Ok? ==> r.value.state.currentEpoch == 0 && r.value.state.config == None && !r.value.state.synchronized
    ensures r.Ok? ==> r.value.localCount == 0 && r.value.maxLocal == MAX_LOCAL_PROGRESSION
    ensures r.Ok? ==> forall e :: !IsEpochValid(r.value.state, e)
  {
    if |nodeId| != 6 then Err("node_id must be 6 bytes")
    else Ok(Validator(nodeId, beaconTimeout, verificationKey, Init(0, 0, DEFAULT_EPOCH_DURATION), 0, MAX_LOCAL_PROGRESSION))
  }

  /** Whether a key is set; Python treats `None` and `b''` alike as no key. */
  predicate HasKey(v: Validator)
  {
    v.verificationKey.Some? && |v.verificationKey.value| > 0
  }

  /**
   `_sync_feature_config`: installs the configuration only when its stored
   digest matches the recomputed one; `compute_digest` may raise.
   */
  function SyncFeatureConfig(p: Hkdf.Primitives, s: EpochState, c: Cfg.FeatureConfig): (r: Result<EpochState>)
    requires Hkdf.Sound(p)
    ensures r.Ok? <==> Cfg.ComputeDigest(p, c).Ok?
    ensures r.Ok? && c.digest == Cfg.ComputeDigest(p, c).value ==> r.value == s.(config := Some(c))
    ensures r.Ok? && c.digest != Cfg.ComputeDigest(p, c).value ==> r.value == s
  {
    var expected :- Cfg.ComputeDigest(p, c);
    if c.digest != expected then Ok(s) else Ok(s.(config := Some(c)))
  }

  /** Whether step 5 of `on_beacon_received` looks at the beacon's configuration at all. */
  predicate ConfigChanged(s: EpochState, c: Cfg.FeatureConfig)
  {
    s.config.None? || c.configId != s.config.value.configId
  }

  /**
   Steps 2 to 4 of `on_beacon_received` for a beacon that is not refused as
   too old: the arrival time is stamped, a newer epoch is followed (its
   configuration stored unchecked) and the tolerated window re-centred on the
   beacon's epoch. This is also the node the source leaves behind when step
   5's `compute_digest` raises, since those writes have already happened.
   */
  function Stamped(v: Validator, b: SyncBeacon.Beacon, now: int): (w: Validator)
    ensures w == v.(state := w.state)
    ensures w.state.lastBeaconTime == now && w.state.synchronized == v.state.synchronized
    ensures w.state.currentEpoch == Max(v.state.currentEpoch, b.epoch)
    ensures forall e :: IsEpochValid(w.state, e) <==> Abs(e - b.epoch) <= 1
    ensures b.epoch > v.state.currentEpoch ==> w.state.config == Some(b.featureConfig)
    ensures b.epoch <= v.state.currentEpoch ==> w.state.config == v.state.config
  {
    var s0 := v.state.(lastBeaconTime := now);
    var s1 := if b.epoch > s0.currentEpoch then UpdateEpoch(s0, b.epoch, b.timestamp, b.deltaT, Some(b.featureConfig)) else s0;
    v.(state := UpdateTolerated(s1, b.epoch))
  }

  /**
   `on_beacon_received`, after the signature check: records the arrival
   time, follows a newer epoch (installing its configuration unchecked),
   refuses a beacon more than one epoch old, re-centres the tolerated window
   on the beacon's epoch, installs a changed configuration whose digest
   matches, and marks the node synchronized.
   */
  function Accept(p: Hkdf.Primitives, v: Validator, b: SyncBeacon.Beacon, now: int): (r: Result<(Validator, bool)>)
    requires Hkdf.Sound(p)
    ensures r.Ok? ==> r.value.0.state.lastBeaconTime == now
    ensures r.Ok? ==> r.value.0.state.currentEpoch == Max(v.state.currentEpoch, b.epoch)
    ensures r.Ok? && !r.value.1 ==> r.value.0 == v.(state := v.state.(lastBeaconTime := now))
    ensures r.Ok? && r.value.1 ==> r.value.0.state.synchronized && r.value.0.localCount == 0
    ensures r.Ok? && r.value.1 ==> forall e :: IsEpochValid(r.value.0.state, e) <==> Abs(e - b.epoch) <= 1
    ensures b.epoch < v.state.currentEpoch - 1 ==> r.Ok? && !r.value.1
    ensures b.epoch >= v.state.currentEpoch - 1 ==> (r.Ok? ==> r.value.1)
  {
    var s0 := v.state.(lastBeaconTime := now);
    if b.epoch < s0.currentEpoch - 1 then Ok((v.(state := s0), false))
    else
      var s2 := Stamped(v, b, now).state;
      var s3 :- if ConfigChanged(s2, b.featureConfig) then SyncFeatureConfig(p, s2, b.featureConfig) else Ok(s2);
      Ok((v.(state := s3.(synchronized := true), localCount := 0), true))
  }

  /**
   Handling raises exactly when the beacon is not too old, its configuration
   differs from the one the stamped node holds, and `compute_digest` raises on
   it; a beacon from a newer epoch never raises, because the new epoch already
   holds its configuration. The node is then left as `Stamped` describes.
   */
  lemma AcceptRaisesAfterUpdates(p: Hkdf.Primitives, v: Validator, b: SyncBeacon.Beacon, now: int)
    requires Hkdf.Sound(p)
    ensures Accept(p, v, b, now).Err? <==>
      && b.epoch >= v.state.currentEpoch - 1
      && ConfigChanged(Stamped(v, b, now).state, b.featureConfig)
      && Cfg.ComputeDigest(p, b.featureConfig).Err?
    ensures Accept(p, v, b, now).Err? ==> b.epoch <= v.state.currentEpoch
  {
  }

  /**
   `on_beacon_received`: with a key set, a beacon whose signature does not
   verify is refused and nothing changes; `verify` raises when the beacon's
   fields cannot be serialised.
   */
  function OnBeaconReceived(p: Hkdf.Primitives, v: Validator, b: SyncBeacon.Beacon, now: int): (r: Result<(Validator, bool)>)
    requires Hkdf.Sound(p)
    ensures HasKey(v) && SyncBeacon.Verify(p, v.verificationKey.value, b) == Ok(false) ==> r == Ok((v, false))
    ensures HasKey(v) && SyncBeacon.Verify(p, v.verificationKey.value, b).Err? ==> r.Err?
    ensures !HasKey(v) || SyncBeacon.Verify(p, v.verificationKey.value, b) == Ok(true) ==> r == Accept(p, v, b, now)
  {
    if HasKey(v) then
      var ok :- SyncBeacon.Verify(p, v.verificationKey.value, b);
      if !ok then Ok((v, false)) else Accept(p, v, b, now)
    else Accept(p, v, b, now)
  }

  /**
   A beacon from a newer epoch installs its configuration even when the
   configuration's digest does not match: the new epoch stores it, after
   which its id equals the installed one and step 5 skips the check.
   */
  lemma NewerEpochConfigUnchecked(p: Hkdf.Primitives, v: Validator, b: SyncBeacon.Beacon, now: int)
    requires Hkdf.Sound(p) && b.epoch > v.state.currentEpoch
    ensures Accept(p, v, b, now).Ok?
    ensures Accept(p, v, b, now).value.0.state.config == Some(b.featureConfig)
  {
  }

  /** A beacon of the current or previous epoch installs a changed configuration only when its digest matches. */
  lemma SameEpochConfigChecked(p: Hkdf.Primitives, v: Validator, b: SyncBeacon.Beacon, now: int)
    requires Hkdf.Sound(p)
    requires v.state.currentEpoch - 1 <= b.epoch <= v.state.currentEpoch
    requires Accept(p, v, b, now).Ok?
    ensures Accept(p, v, b, now).value.0.state.config == Some(b.featureConfig) ==>
              v.state.config == Some(b.featureConfig) || b.featureConfig.digest == Cfg.ComputeDigest(p, b.featureConfig).value
  {
    var s2 := UpdateTolerated(v.state.(lastBeaconTime := now), b.epoch);
    if ConfigChanged(s2, b.featureConfig) {
      assert Cfg.ComputeDigest(p, b.featureConfig).Ok?;
    }
  }

  /** The epoch a validator follows never moves backwards on a beacon. */
  lemma EpochMonotone(p: Hkdf.Primitives, v: Validator, b: SyncBeacon.Beacon, now: int)
    requires Hkdf.Sound(p) && OnBeaconReceived(p, v, b, now).Ok?
    ensures OnBeaconReceived(p, v, b, now).value.0.state.currentEpoch >= v.state.currentEpoch
  {
  }

  // ---------------------------------------------------------------------------
  // Running without beacons
  // ---------------------------------------------------------------------------

  /**
   `_enter_local_progression` as written: when the epoch is over and the
   counter is below the cap, it advances by every whole epoch elapsed since
   the epoch start, however many that is. A zero duration divides by zero.
   */
  function EnterLocalProgressionAsWritten(v: Validator, now: int): (r: Result<Validator>)
    ensures r.Err? <==> ShouldAdvance(v.state, now) && v.localCount < v.maxLocal && v.state.epochDuration == 0
    ensures r.Ok? && v.state.epochDuration > 0 && ShouldAdvance(v.state, now) && v.localCount < v.maxLocal
            ==> !ShouldAdvance(r.value.state, now) && r.value.state.epochStart <= now
  {
    var s := v.state;
    if !ShouldAdvance(s, now) then Ok(v)
    else if v.localCount >= v.maxLocal then Ok(v)
    else if s.epochDuration == 0 then Err("integer division or modulo by zero")
    else
      var n := Max(FloorDiv(now - s.epochStart, s.epochDuration), 0);
      Ok(Advance(v, n))
  }

  /** Advancing `n` epochs on the local clock, then re-centring the tolerated window. */
  function Advance(v: Validator, n: nat): (r: Validator)
    ensures r.state.currentEpoch == v.state.currentEpoch + n && r.localCount == v.localCount + n
    ensures r.state.epochStart == v.state.epochStart + n * v.state.epochDuration
    ensures forall e :: IsEpochValid(r.state, e) <==> Abs(e - r.state.currentEpoch) <= 1
    ensures r.state.synchronized == v.state.synchronized && r.state.config == v.state.config
  {
    var s := v.state;
    var s1 := s.(currentEpoch := s.currentEpoch + n, epochStart := s.epochStart + n * s.epochDuration);
    v.(state := UpdateTolerated(s1, s1.currentEpoch), localCount := v.localCount + n)
  }

  /**
   The cap is checked only before advancing: four epochs used out of five
   and three epochs missed leave the counter at seven.
   */
  lemma AsWrittenOvershootsCap()
    ensures var v := Validator([0, 0, 0, 0, 0, 1], 15000, None, Init(0, 0, 10), 4, MAX_LOCAL_PROGRESSION);
            var r := EnterLocalProgressionAsWritten(v, 30);
            r.Ok? && r.value.localCount == 7 && r.value.localCount > r.value.maxLocal
  {
    var v := Validator([0, 0, 0, 0, 0, 1], 15000, None, Init(0, 0, 10), 4, MAX_LOCAL_PROGRESSION);
    assert FloorDiv(30 - 0, 10) == 3;
  }

  /**
   `_enter_local_progression` with the cap enforced: it advances by the
   elapsed epochs but no further than the cap allows.
   */
  function EnterLocalProgression(v: Validator, now: int): (r: Result<Validator>)
    ensures r.Err? <==> ShouldAdvance(v.state, now) && v.localCount < v.maxLocal && v.state.epochDuration == 0
    ensures r.Ok? && v.localCount <= v.maxLocal ==> r.value.localCount <= v.maxLocal
    ensures r.Ok? ==> r.value.localCount >= v.localCount && r.value.state.currentEpoch - v.state.currentEpoch == r.value.localCount - v.localCount
  {
    var s := v.state;
    if !ShouldAdvance(s, now) then Ok(v)
    else if v.localCount >= v.maxLocal then Ok(v)
    else if s.epochDuration == 0 then Err("integer division or modulo by zero")
    else
      var n := Min(Max(FloorDiv(now - s.epochStart, s.epochDuration), 0), v.maxLocal - v.localCount);
      Ok(Advance(v, n))
  }

  /** Below the cap, the corrected progression advances exactly as the written one does. */
  lemma CorrectedAgreesBelowCap(v: Validator, now: int)
    requires v.state.epochDuration > 0
    requires v.localCount + Max(FloorDiv(now - v.state.epochStart, v.state.epochDuration), 0) <= v.maxLocal
    ensures EnterLocalProgression(v, now) == EnterLocalProgressionAsWritten(v, now)
  {
  }

  /** `check_synchronization` with the capped progression: a timed-out node loses synchronization and advances locally. */
  function CheckSynchronization(v: Validator, now: int): (r: Result<(Validator, bool)>)
    ensures now - v.state.lastBeaconTime <= v.beaconTimeout ==> r == Ok((v, v.state.synchronized))
    ensures now - v.state.lastBeaconTime > v.beaconTimeout && r.Ok? ==> !r.value.1 && !r.value.0.state.synchronized
    ensures r.Ok? && v.localCount <= v.maxLocal ==> r.value.0.localCount <= v.maxLocal
  {
    if now - v.state.lastBeaconTime > v.beaconTimeout then
      var v1 := v.(state := v.state.(synchronized := false));
      var v2 :- EnterLocalProgression(v1, now);
      Ok((v2, false))
    else Ok((v, v.state.synchronized))
  }

  /** `check_synchronization` as written, with the uncapped progression. */
  function CheckSynchronizationAsWritten(v: Validator, now: int): (r: Result<(Validator, bool)>)
    ensures now - v.state.lastBeaconTime <= v.beaconTimeout ==> r == Ok((v, v.state.synchronized))
    ensures now - v.state.lastBeaconTime > v.beaconTimeout && r.Ok? ==> !r.value.1 && !r.value.0.state.synchronized
    ensures now - v.state.lastBeaconTime > v.beaconTimeout && r.Ok? ==> r.value.0.localCount >= v.localCount
  {
    if now - v.state.lastBeaconTime > v.beaconTimeout then
      var v1 := v.(state := v.state.(synchronized := false));
      var v2 :- EnterLocalProgressionAsWritten(v1, now);
      Ok((v2, false))
    else Ok((v, v.state.synchronized))
  }

  /**
   The same overshoot through the public check: a node whose beacons stopped
   at time 0 with a timeout of 15, checked at time 30, ends at seven of five.
   */
  lemma AsWrittenCheckOvershootsCap()
    ensures var v := Validator([0, 0, 0, 0, 0, 1], 15, None, Init(0, 0, 10), 4, MAX_LOCAL_PROGRESSION);
            var r := CheckSynchronizationAsWritten(v, 30);
            r.Ok? && r.value.0.localCount == 7 && r.value.0.localCount > v.maxLocal
  {
    var v := Validator([0, 0, 0, 0, 0, 1], 15, None, Init(0, 0, 10), 4, MAX_LOCAL_PROGRESSION);
    assert FloorDiv(30 - 0, 10) == 3;
  }

  /** Below the cap, the corrected check is the written one. */
  lemma CheckAgreesBelowCap(v: Validator, now: int)
    requires v.state.epochDuration > 0
    requires v.localCount + Max(FloorDiv(now - v.state.epochStart, v.state.epochDuration), 0) <= v.maxLocal
    ensures CheckSynchronization(v, now) == CheckSynchronizationAsWritten(v, now)
  {
    CorrectedAgreesBelowCap(v.(state := v.state.(synchronized := false)), now);
  }

  /** `force_resynchronization`: unsynchronized, the counter reset and every key dropped. */
  function ForceResynchronization(v: Validator): (r: Validator)
    ensures !r.state.synchronized && r.localCount == 0
    ensures forall d, e :: GetActiveKey(r.state, d, e) == None
    ensures r.state.currentEpoch == v.state.currentEpoch && r.state.config == v.state.config
  {
    v.(state := v.state.(synchronized := false, activeKeys := map[]), localCount := 0)
  }

  /**
   Whatever sequence of beacons and timeouts a validator sees, the local
   counter stays within the cap: every step keeps `localCount <= maxLocal`.
   */
  lemma CounterStaysCapped(p: Hkdf.Primitives, v: Validator, b: SyncBeacon.Beacon, now: int)
    requires Hkdf.Sound(p) && 0 <= v.localCount <= v.maxLocal
    ensures OnBeaconReceived(p, v, b, now).Ok? ==> 0 <= OnBeaconReceived(p, v, b, now).value.0.localCount <= v.maxLocal
    ensures CheckSynchronization(v, now).Ok? ==> 0 <= CheckSynchronization(v, now).value.0.localCount <= v.maxLocal
    ensures 0 <= ForceResynchronization(v).localCount <= v.maxLocal
  {
  }
}

=== FILE: wrappers.dfy ===
/**
 Result and Option types used to model Python's exceptions and `None` returns.
 */
module Wrappers {

  datatype Option<+T> = None | Some(value: T)

  /** The outcome of an operation that may raise; `Err` carries the reason. */
  datatype Result<+T> = Ok(value: T) | Err(error: string)
  {
    predicate IsFailure() { Err? }

    function PropagateFailure<U>(): Result<U>
      requires Err?
    {
      Err(error)
    }

    function Extract(): T
      requires Ok?
    {
      value
    }
  }

  /** The outcome of a validation that returns nothing or raises. */
  datatype Outcome = Pass | Fail(error: string)
}
